=== FILE: README.md ===
# gpu-toy core in Dafny

This project models the data and buffer plumbing of gpu-toy, a collection of
small WebGPU experiments. Five parts are modelled, and properties are proved
about each:

- **The CSV frame library** (`common/data/csv.js`). A *frame* is a record of
  named columns (plain arrays or `Float32Array`s) plus a hidden row count.
  The library reads one from CSV text (`processCsv`) and reshapes it:
  `wideToLong`, `filter`, `sortAndIdentifyGroups`, `filterGroups` with its
  optional uniform padding, `innerJoin`/`outerJoin` and their multi-frame
  folds, `findDuplicates`, `find`/`findKey`/`findIndex`, `renameColumn`
  and `dropColumn`. It is modelled in the modules `Text`,
  `Frames`, `Ingest`, `Lookups`, `Relational`, `Grouping`, `GroupFilter` and
  `Joins`.
- **The WGSL struct codec** (`common/webgpu/buffer.js`). It covers:
  - the size, alignment, element kind and shape of each WGSL type (`GpuTypes`);
  - the struct layout (`Layout`);
  - reading and writing a cell of a row or column table, and writing and
    reading one struct at a word offset of an `ArrayBuffer` (`Codec`);
  - packing a whole table as an array of structs with a common stride
    (`Contiguous`);
  - the typed `UniformAdapter` (`TypedUniforms`).
- **The older uniform packer** (`common/webgpu/uniforms.js`): uniforms
  declared by byte size, aligned to `min(size, 16)`, and written as single
  floats (`Uniforms`). Both adapters build their `state` record the same way
  (`Seeds`).
- **Struct arrays** (`common/webgpu/setup.js`): several typed arrays
  interleaved into one buffer of records, and copied back out
  (`StructArrays`).
- **The work-group experiment** (`examples/compute/understanding-workgroups/main.js`):
  - the `Config` getters;
  - the `@workgroup_size(...)` replacement text;
  - the reader that turns the output buffer back into rows (`Workgroups`).

### How values are modelled

- Every buffer is a sequence of 32-bit words (`Words.Word`, 0 to 2^32 - 1).
- `i32` and `u32` stores wrap modulo 2^32.
- The conversion of a number to and from an `f32` is a parameter of type
  `F32Format`; no floating-point arithmetic is modelled.
- CSV numbers are integers. NaN, `null` and `undefined` are one `Missing` cell.
- Thrown errors become `Err` values of `Outcomes.Result`:
  - the length check in `initStructArrayBuffer`;
  - the unimplemented `mat3x3`;
  - an invalid work-group size;
  - `outerJoins` given fewer than two frames;
  - the `RangeError` of an array of invalid length in `filterGroups`.
- Methods are proved against specification functions. The imperative loops of
  the source remain loops, with invariants:
  - the frame builders;
  - the buffer writers and readers;
  - the packing loops of both uniform adapters.
- The two `UniformAdapter`s are classes whose `update` changes their `state`
  field.

## Model

| member | source | states |
|---|---|---|
| GpuTypes.SizeOf | common/webgpu/buffer.js:13-48 | the byte size is 4 per component: scalars 4, vecN 4N, matCxR 4CR |
| GpuTypes.AlignmentOf | common/webgpu/buffer.js:126-159 | the alignment is a positive power of two that divides 16; for a scalar or vector it is at least the size and less than twice the size; matrices align to 16 |
| GpuTypes.ElemOf | common/webgpu/buffer.js:54-83 | the element type is the scalar named in the type (f32, i32 or u32); a scalar is its own element |
| GpuTypes.ShapeOf | common/webgpu/buffer.js:89-120 | the shape is an error exactly for mat3x3; otherwise scalar, vector or matrix as the type says |
| GpuTypes.ElementCount | common/webgpu/buffer.js:327 | the element count of a field (its size over its element's size) is its number of components |
| GpuTypes.AlignmentsNest | common/webgpu/buffer.js:370-379 | of two alignments, the smaller divides the larger, so the largest alignment is a multiple of every one |
| Layout.StartFacts | common/webgpu/buffer.js:231-234 | a field starts at the running offset rounded up to its alignment, is aligned, and the next offset is its start plus its size |
| Layout.EndMonotone | common/webgpu/buffer.js:228-270 | the running offset never decreases along the layout |
| Layout.StartsInOrder | common/webgpu/buffer.js:228-270 | a later field starts at or after the end of an earlier one, so fields never overlap |
| Layout.PaddingUncovered | common/webgpu/buffer.js:233 | a word of alignment padding lies inside no field |
| Layout.ShiftEnd | common/webgpu/buffer.js:387 | shifting the start by a multiple of every alignment shifts every field by the same amount |
| Layout.MaxAlignmentDivides | common/webgpu/buffer.js:375 | the largest alignment is the alignment of one of the fields (1 for an empty layout) and a multiple of every field's alignment |
| Layout.StrideFacts | common/webgpu/buffer.js:370-379 | the stride keeps every field aligned when a row is shifted by it, covers the whole struct and is a whole number of words |
| Layout.StrideAtLeastSizes | common/webgpu/buffer.js:370-379 | the field sizes added up without padding are no more than the end of the last field, which is no more than the stride |
| Codec.ReadCell | common/webgpu/buffer.js:171-182 | a defined result is the value stored under that record key or at that array index; a missing key or an index past the end reads as undefined |
| Codec.SetElement | common/webgpu/buffer.js:196-199 | the element at the index becomes the value and every other element is unchanged; past the end the array grows to index + 1, and the gap holds undefined |
| Codec.Assign | common/webgpu/buffer.js:193-204 | writing a cell keeps the table's kind and every cell that was addressable before |
| Codec.ReadAfterWrite | common/webgpu/buffer.js:171-204 | reading the cell just written gives the written value; every other cell reads as before |
| Codec.Table.WriteCell | common/webgpu/buffer.js:193-204 | the table object's data becomes the data with that one cell assigned |
| Codec.LoadStore | common/webgpu/buffer.js:255-264 | an element that fits its view (i32, u32 or exact f32) survives being stored and loaded through the same view |
| Codec.DecodeEncoded | common/webgpu/buffer.js:240-267 | decoding the words a value was encoded into gives the value back, for any value of the field's shape whose elements fit |
| Codec.UntilMat3 | common/webgpu/buffer.js:107-110 | the index of the first mat3x3 field, or the layout length; every field before it has a shape |
| Codec.ImageOutside | common/webgpu/buffer.js:228-270 | writing a struct leaves every word outside its fields unchanged, including padding and words before or after it |
| Codec.ImageFieldWords | common/webgpu/buffer.js:255-267 | after writing a struct, each field's words are the encoding of that field's value |
| Codec.SetValues | common/webgpu/buffer.js:257-264 | the inner store loop puts the field's words at its offset and changes nothing else in the buffer |
| Codec.WriteField | common/webgpu/buffer.js:230-270 | writing one field puts its encoded words at its start, changes no other word, and returns the next offset |
| Codec.WriteStructuredData | common/webgpu/buffer.js:217-273 | the buffer becomes the struct image of the row; the result is Ok with the end offset, or Err(NotImplemented) if a mat3x3 field is reached (fields before it are already written) |
| Codec.ReadValue | common/webgpu/buffer.js:305-351 | inside the buffer, a field reads as the decoded words; past the end a scalar reads as Undefined and a vector is cut short |
| Codec.FieldReadInside | common/webgpu/buffer.js:309-351 | a field that lies inside the buffer reads as the decoding of its words |
| Codec.ReadField | common/webgpu/buffer.js:299-355 | reading one field stores its value in the target cell and no other |
| Codec.ReadStructuredData | common/webgpu/buffer.js:286-358 | the target's cells for the struct's fields become the values read; the result is Ok with the end offset, or Err(NotImplemented) at a mat3x3 field |
| Codec.FillField | common/webgpu/buffer.js:353 | after reading a struct, the cell of field k holds that field's value read from the buffer |
| Codec.FillOther | common/webgpu/buffer.js:353 | reading a struct leaves every cell that names no field unchanged |
| Codec.WriteThenRead | common/webgpu/buffer.js:217-358 | writing a row and then reading the same struct back gives every field's value, when the values fit their types |
| Contiguous.ComputeStride | common/webgpu/buffer.js:370-379 | the stride loop gives the struct end rounded up to the largest alignment |
| Contiguous.RowBaseIs | common/webgpu/buffer.js:387 | row i starts at byte i times the stride |
| Contiguous.RowFits | common/webgpu/buffer.js:380-390 | every field of every row lies inside the rows·stride/4-word buffer |
| Contiguous.RowStepWritten | common/webgpu/buffer.js:382-390 | writing row i keeps all earlier rows' fields and adds row i's |
| Contiguous.RowStepZeroed | common/webgpu/buffer.js:382-390 | writing row i touches no word outside its fields, so padding and later rows stay zero |
| Contiguous.PackedField | common/webgpu/buffer.js:369-393 | in the packed buffer, field k of row i is encoded at row i's base plus the field's offset |
| Contiguous.PackedUnique | common/webgpu/buffer.js:369-393 | the packed buffer is determined by the layout and the data: two packings of the same rows are equal |
| Contiguous.CreateContiguousArray | common/webgpu/buffer.js:369-393 | an error exactly when the layout has a mat3x3 and there are rows; otherwise rows·stride/4 words with every row's fields encoded at row i·stride and every other word zero |
| Contiguous.WriteRows | common/webgpu/buffer.js:382-390 | the row loop writes every row's fields at its base and leaves the rest zero |
| Contiguous.WriteRow | common/webgpu/buffer.js:383-389 | writing one row extends the packed prefix by that row |
| Contiguous.CreateContiguousArrayFromRows | common/webgpu/buffer.js:403-409 | the same buffer as for the row table built from the rows |
| TypedUniforms.DeclaredFields | common/webgpu/buffer.js:430-434 | the layout lists every declaration's name and type in declaration order |
| TypedUniforms.BlockBytesFacts | common/webgpu/buffer.js:441-449 | the buffer size is a whole number of 16-byte blocks, holds the whole struct and adds less than 16 bytes |
| TypedUniforms.UniformAdapter.Create | common/webgpu/buffer.js:427-436 | the adapter's layout is the declarations in order, and its state maps each name to its last declared initial value |
| TypedUniforms.UniformAdapter.BufferSize | common/webgpu/buffer.js:441-449 | the getter's loop gives the struct end rounded up to 16 |
| TypedUniforms.UniformAdapter.Update | common/webgpu/buffer.js:455-457 | the state changes at that key only; the layout is unchanged |
| TypedUniforms.UniformAdapter.WriteToArrayBuffer | common/webgpu/buffer.js:472-480 | the buffer becomes the struct image of the state at offset 0, with the codec's result |
| TypedUniforms.UpdatedReadsBack | common/webgpu/buffer.js:455-480 | after the state is written, reading the struct back gives every field's state value |
| Seeds.SeededKeys | common/webgpu/uniforms.js:21-24 | the seeded state has a key exactly for the declared names |
| Seeds.SeededLast | common/webgpu/uniforms.js:21-24 | a name declared more than once holds its last declaration's initial value |
| Uniforms.Declared | common/webgpu/uniforms.js:21-24 | the adapter keeps every declaration's name and size in order |
| Uniforms.UniformAdapter.Create | common/webgpu/uniforms.js:18-26 | the adapter holds the declarations in order, the state is seeded with their initial values, and every uniform has a state value |
| Uniforms.OffsetAtLeastSum | common/webgpu/uniforms.js:32-37 | the running offset is at least the plain sum of the sizes, because padding only adds |
| Uniforms.OffsetMonotone | common/webgpu/uniforms.js:32-37 | the running offset never decreases |
| Uniforms.BufferBytesFacts | common/webgpu/uniforms.js:31-39 | the buffer size is a multiple of 16, holds every uniform, adds less than 16 bytes, and is at least the sum of the sizes |
| Uniforms.UniformAdapter.BufferSize | common/webgpu/uniforms.js:31-39 | the getter's loop gives the final offset rounded up to 16 |
| Uniforms.SlotInside | common/webgpu/uniforms.js:54-62 | a 4-byte uniform starts on a word boundary, and its word lies inside the buffer |
| Uniforms.SlotBefore | common/webgpu/uniforms.js:56-64 | an earlier 4-byte uniform's word comes before any later uniform's word, so stores never collide |
| Uniforms.StoreStep | common/webgpu/uniforms.js:62 | storing one uniform keeps the earlier stores and every other word zero |
| Uniforms.SkipStep | common/webgpu/uniforms.js:57-63 | a uniform of another size is skipped, and the packing so far stays valid |
| Uniforms.StoredSlot | common/webgpu/uniforms.js:53-65 | in a packed buffer, every 4-byte uniform's word holds its state value as a float |
| Uniforms.UniformAdapter.Update | common/webgpu/uniforms.js:45-47 | the state changes at that key only, and every uniform still has a value |
| Uniforms.UniformAdapter.UpdateBuffer | common/webgpu/uniforms.js:53-65 | a fresh buffer of size/4 words: each 4-byte uniform's state value is at word offset/4, and every other word is zero |
| StructArrays.LoadStore | common/webgpu/setup.js:27-31 | an element a typed array can hold survives being stored and loaded through its view |
| StructArrays.SlotFacts | common/webgpu/setup.js:26 | record i, field j is a word inside the buffer, and that word determines both i and j |
| StructArrays.InterleavedAt | common/webgpu/setup.js:26 | element i of array j is stored at word i·N + j through its array's view |
| StructArrays.InitStructArrayBuffer | common/webgpu/setup.js:7-41 | Err(LengthMismatch) exactly when some array's length differs from the first; otherwise the interleaved buffer of length·N words |
| StructArrays.Pack | common/webgpu/setup.js:19-33 | the record loop builds exactly the interleaved buffer |
| StructArrays.WriteRecord | common/webgpu/setup.js:24-32 | writing record i fills its N words and leaves later words zero |
| StructArrays.ExtractStructArrays | common/webgpu/setup.js:43-59 | element i of output j becomes word i·N + j loaded through that output's view, for i below the first output's length; other elements keep their values |
| StructArrays.ExtractRecord | common/webgpu/setup.js:50-57 | one pass fills element i of every output and nothing else |
| StructArrays.ExtractAfterInit | common/webgpu/setup.js:7-59 | extracting a packed buffer into arrays of the same kinds gives back every element |
| Workgroups.Component | examples/compute/understanding-workgroups/main.js:34-36 | a component is the given entry, or 1 when it is missing or past the end |
| Workgroups.DefaultedPadding | examples/compute/understanding-workgroups/main.js:33-45 | a trailing missing entry, or entries after the third, do not change the x/y/z triple |
| Workgroups.Workgroups | examples/compute/understanding-workgroups/main.js:33-38 | each of x, y and z is the work-group list's entry for it, or 1 when that entry is null or missing |
| Workgroups.Subgroups | examples/compute/understanding-workgroups/main.js:40-45 | each of x, y and z is the sub-group list's entry for it, or 1 when that entry is null or missing |
| Workgroups.Grid | examples/compute/understanding-workgroups/main.js:47-50 | the grid's volume is the work-group volume times the sub-group volume; with positive entries every side is positive |
| Workgroups.RowCount | examples/compute/understanding-workgroups/main.js:28-31 | rows() is the work-group volume times the sub-group volume, and positive when every given entry is |
| Workgroups.ReplaceWorkgroup | examples/compute/understanding-workgroups/main.js:20-24 | an error naming the length exactly when there are fewer than 1 or more than 3 entries |
| Workgroups.ReadRender | examples/compute/understanding-workgroups/main.js:24 | each rendered entry reads back as that entry |
| Workgroups.SplitJoin | examples/compute/understanding-workgroups/main.js:24 | splitting the ", "-joined entries at the separator gives the entries back |
| Workgroups.ReplacementReadsBack | examples/compute/understanding-workgroups/main.js:24 | parsing a valid replacement text gives back the original work-group list |
| Workgroups.ReadRecord | examples/compute/understanding-workgroups/main.js:55-64 | one row is the struct read at its offset, or Err(NotImplemented) when the layout has a mat3x3 |
| Workgroups.BufferRows | examples/compute/understanding-workgroups/main.js:53-66 | an error when there are rows and the layout has a mat3x3; otherwise exactly `rows` rows, row i being the struct read at offset i·stride |
| Workgroups.ContiguousRowsReadBack | examples/compute/understanding-workgroups/main.js:53-66 | reading the rows of a contiguous array gives back each row's field values |
| Text.Trim | common/data/csv.js:43 | the result is a slice of the input with only white space before and after it, and it neither starts nor ends with white space |
| Text.Split | common/data/csv.js:47 | there is at least one piece, and no piece contains the separator |
| Text.JoinSplit | common/data/csv.js:47 | joining the pieces of a split gives the text back |
| Text.SplitJoin | common/data/csv.js:47 | splitting a join of separator-free pieces gives the pieces back |
| Text.JoinInjective | common/data/csv.js:461 | joins of '\|'-free keys with '\|' are equal only when the keys are equal |
| Text.ParseIntToString | common/data/csv.js:130-131 | the decimal text of an integer (as `parseFloat` reads it) gives that integer back |
| Text.ParseSigned | common/data/csv.js:130-131 | before digits, a '+' sign reads the same as no sign and a '-' sign negates (as `parseFloat` reads them) |
| Text.ParseBadSigns | common/data/csv.js:130-131 | a sign alone, or two signs before the digits, is not a number (NaN) |
| Frames.GetSize | common/data/csv.js:13-15 | in a valid frame, every column has exactly the hidden row count of cells |
| Frames.IndexOf | common/data/csv.js:243 | the position of the first column with that name, or none when it is absent |
| Frames.CellAtColumn | common/data/csv.js:243 | a lookup by name reads the cell of the named column |
| Frames.Put | common/data/csv.js:243 | assigning a key makes lookups of that name give the new column and leaves other lookups unchanged; a present name keeps its place, a new one is appended |
| Frames.ExceptLookup | common/data/csv.js:244 | deleting names leaves lookups of every other name unchanged |
| Frames.RenameColumn | common/data/csv.js:241-246 | the old name is gone, the new name holds the old column's cells and kind, every other name looks up as before, and the size is kept; the new name takes its old place if it existed and goes last otherwise, and the other names keep their order |
| Frames.DropColumn | common/data/csv.js:252-256 | the named column is gone, the other names keep their order and look up as before, and the size is kept |
| Frames.Record | common/data/csv.js:684-690 | the record has a key exactly for each column name, and with distinct names it holds each column's cell at row i |
| Frames.ReindexCellAt | common/data/csv.js:286-288 | a reindexed column's cell k is the original cell at indices[k] |
| Frames.ReindexColsValid | common/data/csv.js:282-291 | reindexing keeps the names and gives every column the index list's length |
| Frames.Gather | common/data/csv.js:286-288 | the copy loop builds the reindexed column |
| Frames.GatherColumns | common/data/csv.js:282-291 | the loop over columns builds the reindexed frame |
| Lookups.FirstMatchFrom | common/data/csv.js:724-735 | the first index at or after the start whose row matches every predicate, or none; no earlier index matches |
| Lookups.RowMatches | common/data/csv.js:725-732 | true exactly when every (column, predicate) pair holds on row i |
| Lookups.FindIndex | common/data/csv.js:719-738 | the first row matching every predicate; none (the source's null) exactly when no row matches |
| Lookups.Find | common/data/csv.js:697-700 | none exactly when no row matches; otherwise the record of the first matching row |
| Lookups.FindKey | common/data/csv.js:708-711 | the value in the key column of the first matching row, or none |
| Lookups.FirstSeenKeys | common/data/csv.js:655-665 | the key list holds exactly the keys seen, each once |
| Lookups.GroupKeys | common/data/csv.js:655-665 | the grouping loop gives the keys in first-seen order, each with the ascending indices of the rows that carry it |
| Lookups.GroupStep | common/data/csv.js:658-664 | one row extends its key's index list or starts a new key |
| Lookups.KeepDuplicates | common/data/csv.js:668-674 | the duplicate groups and their flattened indices |
| Lookups.DupGroupsMember | common/data/csv.js:668-674 | an index is in the flattened result exactly when its key is listed and carried by more than one row |
| Lookups.Keys | common/data/csv.js:655 | row i's key lists its cells in the key columns, in the order the columns are given |
| Lookups.FindDuplicates | common/data/csv.js:649-677 | the flattened indices of all rows whose key occurs more than once |
| Lookups.DuplicateIndicesExact | common/data/csv.js:649-677 | an index is in the result exactly when another row has the same key |
| Ingest.ParseCsvLine | common/data/csv.js:26-45 | the fields are the trimmed comma-separated pieces outside quotes, with the quotes removed |
| Ingest.QuoteStep | common/data/csv.js:34-35 | a quote toggles the in-quotes state and adds nothing to the field |
| Ingest.CharStep | common/data/csv.js:39-41 | any other character, or a comma inside quotes, extends the current field |
| Ingest.RawFieldsComma | common/data/csv.js:36-38 | a comma outside quotes closes the field |
| Ingest.RawFieldsJoinPlain | common/data/csv.js:26-45 | comma-joined fields without quotes or commas parse back to themselves |
| Ingest.RawFieldsJoinQuoted | common/data/csv.js:26-45 | comma-joined fields, each wrapped in quotes, parse back to themselves even when they contain commas |
| Ingest.ParseJoined | common/data/csv.js:26-45 | a line of comma-joined, quoted fields parses back to the trimmed fields; without quotes this also holds when no field contains a comma |
| Ingest.FirstIndex | common/data/csv.js:56 | the index of the first header equal to the name, or none |
| Ingest.PutEntry | common/data/csv.js:63 | a key is replaced in place, or appended in insertion order |
| Ingest.SchemaKeys | common/data/csv.js:53-65 | the schema has a key exactly for the kept, non-dropped headers found in the CSV, named by their rename or name |
| Ingest.SchemaLast | common/data/csv.js:53-65 | each schema entry is the index and type of the last kept definition with that key |
| Ingest.SelectColumns | common/data/csv.js:53-65 | the loop over definitions builds that schema |
| Ingest.PushRow | common/data/csv.js:69-78 | each column gets the row's field at its index, parsed as a number for number columns |
| Ingest.ReadRows | common/data/csv.js:68-79 | column e holds, for every data line, the field at its schema index (parsed for number columns) |
| Ingest.AssembleFrame | common/data/csv.js:81-90 | the frame is valid; its size is the number of data lines (0 when there are no columns); number columns become Float32 columns |
| Ingest.ProcessCsv | common/data/csv.js:24-91 | a valid frame whose columns are the schema's keys in order, each holding every data line's field at the schema index |
| Relational.Matching | common/data/csv.js:271-276 | the indices, in ascending order, of the rows where every predicate holds |
| Relational.Filter | common/data/csv.js:266-295 | the columns are reindexed by the matching rows, and the size is the match count |
| Relational.Pivots | common/data/csv.js:101 | exactly the column names that are not retained |
| Relational.F32Cell | common/data/csv.js:134 | storing a cell in a Float32Array gives a number or Missing (NaN) |
| Relational.KeyColumn | common/data/csv.js:140-144 | the key column is a Float32 column exactly when every key is a number; its cells are then the stored numbers, otherwise the keys themselves |
| Relational.EveryNumber | common/data/csv.js:141 | true exactly when every pivot name parses as a number |
| Relational.AllNumbersIff | common/data/csv.js:141-144 | every key cell is a number exactly when there are no output rows or every pivot name parses as a number |
| Relational.CopyRetained | common/data/csv.js:125-127 | each retained column gets the input row's cell at the output index; every other cell is unchanged |
| Relational.FillRow | common/data/csv.js:124-136 | one step fills one more output index, for row r and pivot p |
| Relational.FillLong | common/data/csv.js:121-138 | the loops fill every output index, in row-major order (row r, pivot p at index r·P + p) |
| Relational.LongFormAt | common/data/csv.js:121-138 | the long row for (r, p) holds the retained cells of r, pivot p's name and pivot p's value |
| Relational.WideToLong | common/data/csv.js:99-148 | the frame is in long form: size rows·pivots, with the retained columns, the key column and the value column |
| Grouping.CellLessOrder | common/data/csv.js:175-177 | `<` on cells of one kind is a strict total order |
| Grouping.BeforeOrder | common/data/csv.js:173-178 | the comparator's order is irreflexive, transitive and total on items of a fixed kind |
| Grouping.SortItems | common/data/csv.js:173-178 | the sorted items are a permutation of the input items |
| Grouping.SortItemsSorted | common/data/csv.js:173-178 | the sorted items are in comparator order, with ties in input order |
| Grouping.SortOrderPermutation | common/data/csv.js:213-224 | the sorted row order lists every row index exactly once |
| Grouping.CollectItems | common/data/csv.js:163-170 | the loop collects one item per row, holding its group key, sort key and index |
| Grouping.SortedIndices | common/data/csv.js:218-220 | the loop takes the index of each sorted item |
| Grouping.RunsTiling | common/data/csv.js:186-209 | the runs tile the rows: they start at 0, each ends where the next starts, and the last ends at the size |
| Grouping.VisitItem | common/data/csv.js:186-203 | one item keeps the invariant that the groups found so far are the runs of equal group keys in the prefix |
| Grouping.IdentifyGroups | common/data/csv.js:181-210 | the groups are the maximal runs of equal group keys in sorted order |
| Grouping.MetaMapKeys | common/data/csv.js:186-210 | the group map has a key exactly for each group value |
| Grouping.MetaMapAt | common/data/csv.js:186-210 | a group's entry holds the start, count, min and max of its run |
| Grouping.SortAndIdentifyGroups | common/data/csv.js:159-234 | the result is the frame reordered by the stable sort and labelled with its runs of equal group keys |
| Grouping.SortAndIdentifyRows | common/data/csv.js:213-224 | the frame keeps its column names, kinds and size, and its row i is input row order[i] |
| Grouping.SortAndIdentifyOrdered | common/data/csv.js:173-178 | the rows are sorted by group key, then by sort key, and rows that tie on both keep their input order |
| Grouping.SortAndIdentifyTiled | common/data/csv.js:181-210 | the groups tile the frame, and the group values strictly ascend |
| Grouping.SortAndIdentifyLabelled | common/data/csv.js:159-234 | each group's rows all carry its key, lie in its bounds and ascend by the sort key |
| GroupFilter.Kept | common/data/csv.js:309-315 | the kept group indices ascend, each is accepted by the predicate, and every accepted group is kept |
| GroupFilter.RetainGroups | common/data/csv.js:309-315 | the loop keeps exactly the accepted groups, in order |
| GroupFilter.KeptDistinct | common/data/csv.js:309-315 | the kept group values are distinct |
| GroupFilter.MetaTableKeys | common/data/csv.js:344-350 | the rebuilt group map has a key exactly for each kept group |
| GroupFilter.MetaTableAt | common/data/csv.js:344-350 | each kept group's entry has its new start and end |
| GroupFilter.AppendSpan | common/data/csv.js:337-342 | the row list gains the group's consecutive row indices |
| GroupFilter.CopyRowsAt | common/data/csv.js:333-342 | row t of a kept group in the copy is row offset + t of the source |
| GroupFilter.CopyGroups | common/data/csv.js:317-361 | the copy loop builds the compacted frame: the kept groups' rows back to back, with new offsets |
| GroupFilter.CompactValues | common/data/csv.js:350 | the compacted group values are the accepted ones, in their original order |
| GroupFilter.CompactKeys | common/data/csv.js:344-350 | the compacted group map holds exactly the accepted groups, with their count, min and max unchanged |
| GroupFilter.CompactTiled | common/data/csv.js:329-353 | the compacted frame is valid, keeps its column names, and its groups tile it |
| GroupFilter.CompactRows | common/data/csv.js:337-342 | each row of a kept group equals the same row of that group in the source |
| GroupFilter.CompactLabelled | common/data/csv.js:317-361 | compacting preserves the labelling: keys, bounds and sort order within each group |
| GroupFilter.Low | common/data/csv.js:368 | the least of the kept groups' minima |
| GroupFilter.High | common/data/csv.js:369 | the greatest of the kept groups' maxima |
| GroupFilter.GlobalBounds | common/data/csv.js:364-370 | the loop gives the global low and high sort values |
| GroupFilter.Existing | common/data/csv.js:393-398 | maps each numeric sort value in the group's rows to the last row holding it, and nothing else |
| GroupFilter.ExistingValues | common/data/csv.js:393-398 | the loop gives that map |
| GroupFilter.AnyPlain | common/data/csv.js:379-382 | true exactly when some column is a plain (non-Float32) array |
| GroupFilter.AppendSteps | common/data/csv.js:401-424 | the sources gain one entry per step from the global minimum |
| GroupFilter.FillColumn | common/data/csv.js:404-421 | each padded cell is the cell its source names: a copied row, the group value, the step value or Missing |
| GroupFilter.FillGrid | common/data/csv.js:376-383 | the loop over columns builds every padded column |
| GroupFilter.PadGroup | common/data/csv.js:389-433 | one more kept group is padded to every step |
| GroupFilter.PadAll | common/data/csv.js:389-433 | every kept group is padded to every step, and the new group map has each kept group's position in the grid |
| GroupFilter.PadGroups | common/data/csv.js:362-442 | the loop builds the uniform grid of the kept groups |
| GroupFilter.GridPadded | common/data/csv.js:401-424 | each padded cell is its existing row's cell at that step if there is one, else the group value, the step value or Missing |
| GroupFilter.GridSummary | common/data/csv.js:426-432 | the grid is valid, keeps its column names, has width × groups rows, and gives every group the same width |
| GroupFilter.FilterGroups | common/data/csv.js:305-443 | without uniform size, the compacted frame of the accepted groups; with it, the padded grid or its error |
| GroupFilter.NoneKeptIff | common/data/csv.js:309-315 | no group is kept exactly when the predicate accepts none |
| GroupFilter.UniformFails | common/data/csv.js:373-381 | Err(InvalidArrayLength), the array constructor's RangeError, exactly when no group is kept and some column is a plain array (a NaN length), or when the maximum is more than one below the minimum (a negative length) |
| GroupFilter.UniformValues | common/data/csv.js:437-441 | the padded result's group values are the accepted ones, and it has no sortBy or groupBy |
| GroupFilter.UniformEmpty | common/data/csv.js:362-442 | with no kept group, the padded result is an empty frame with the same column names and no groups |
| GroupFilter.UniformGrid | common/data/csv.js:372-433 | every kept group spans the same width (max − min + 1), and the frame has width × groups rows |
| Joins.RightColumns | common/data/csv.js:453 | exactly the right frame's columns that are not join keys |
| Joins.PutAllFacts | common/data/csv.js:492 | assigning many columns keeps the old column order as a prefix, and a later column wins on a name clash |
| Joins.MatchListAt | common/data/csv.js:459-466 | the match list for left row i holds exactly the right rows with the same key, ascending; it is empty exactly when the row is unmatched |
| Joins.InnerPairsExact | common/data/csv.js:469-478 | a (left, right) pair is in the inner match list exactly when the rows' keys are equal |
| Joins.InnerPairsSorted | common/data/csv.js:469-478 | the pairs are ordered by left row, then right row |
| Joins.InnerPairsUniqueRight | common/data/csv.js:469-478 | with unique right keys, each left row matches at most once |
| Joins.MatchRows | common/data/csv.js:459-478 | the loops build the inner match list |
| Joins.PushMatches | common/data/csv.js:474-476 | one left row appends its matches in right-row order |
| Joins.AssignColumns | common/data/csv.js:484-505 | the loop assigns every extra column in turn |
| Joins.InnerJoin | common/data/csv.js:451-509 | the inner join frame over the matching (left, right) pairs |
| Joins.InnerJoinRow | common/data/csv.js:484-505 | joined row t holds the left row's cells and the right row's non-key cells |
| Joins.InnerJoinKeys | common/data/csv.js:496-505 | the key columns of a joined row hold the right row's key cells |
| Joins.OuterPairsExact | common/data/csv.js:535-558 | the outer list has every matching pair, each unmatched left row alone, and each unmatched right row alone |
| Joins.LeftPassInner | common/data/csv.js:539-551 | the left pass's matched pairs are the inner pairs |
| Joins.MarkedExact | common/data/csv.js:545 | a right row is marked exactly when some left row matches it |
| Joins.VisitLeft | common/data/csv.js:540-550 | one left row appends its matches, or itself alone |
| Joins.PushOuterMatches | common/data/csv.js:543-546 | one left row's matches are appended and their right rows marked |
| Joins.LeftMatches | common/data/csv.js:539-551 | the left pass builds the list and the marks |
| Joins.RightMatches | common/data/csv.js:554-558 | every unmarked right row is appended alone, in order |
| Joins.OuterMatchRows | common/data/csv.js:524-558 | the loops build the outer match list |
| Joins.PickColumn | common/data/csv.js:568-575 | one cell per match: the source row's cell, or Missing when that side is absent |
| Joins.PickColumns | common/data/csv.js:563-595 | the loop builds all the joined columns |
| Joins.OuterJoin | common/data/csv.js:517-599 | the outer join frame over the outer match list |
| Joins.OuterJoinRow | common/data/csv.js:563-595 | a joined row holds the present side's cells, and Missing for the absent side; key columns come from the left side |
| Joins.FoldKeys | common/data/csv.js:619-623 | a join step whose result keeps the old columns as a prefix keeps every key column |
| Joins.InnerJoins | common/data/csv.js:606-626 | no frames give an empty frame with size 0; one frame is returned with its size; more frames give the left-to-right fold of inner joins |
| Joins.OuterJoins | common/data/csv.js:633-640 | Err(TooFewFrames) exactly when there are fewer than two frames; otherwise the left-to-right fold of outer joins |

## Left out

- The GPU device, adapter, buffers and queue writes, `OutputBufferAdapter`, `createStep`, shader modules, the DOM, `fetch`, the knob messages and the async `main`/`compute`/`render` functions are I/O and are not modelled.
- Floating point is not modelled. Numbers are integers, and the conversion to and from `f32` is the parameter `F32Format`. `parseFloat` and `Number` are modelled for integer text only, with an optional '-' or '+' sign: other text, including text such as `12abc` that `parseFloat` reads as 12, is NaN.
- Typed (`Float32Array`) columns store each cell through the `f32` conversion (Relational.F32Cell). A number is rounded. Text that is blank becomes 0, integer text (optionally signed) becomes its number, and any other text becomes Missing (NaN).
- Missing stands for NaN, `null` and `undefined` alike. A `Float32Array` stores `null` as 0 but NaN and `undefined` as NaN. So a `null` from the unmatched side of an outer join, copied into the value column of `wideToLong`, is 0 in the source but Missing here.
- JavaScript's enumeration order for integer-like object keys (ascending, before other keys) is not modelled. Keys keep insertion order.
- Workgroups.ReplaceWorkgroup: the regex substitution into the shader source is not modelled; only the length guard and the replacement text are. Entries are integers or missing.
- Workgroups.BufferRows: the generator's laziness is not modelled; all rows are returned at once. It requires the matrix fields of each record to lie inside the buffer (DOMMatrix throws on a short array).
- Codec.ReadCell and Codec.Table.WriteCell require an addressable cell (an existing row, or a column long enough). The source throws a TypeError on a missing row.
- Codec.WriteStructuredData requires each value to have its field's shape (a number for a scalar, exactly as many components as the vector has lanes, 16 entries for a `mat4x4`). The source `set`s whatever components it is given, so it writes fewer words for a shorter value, and more words or a RangeError for a longer one.
- Codec.WriteStructuredData also requires the struct to end inside the buffer. Past the end, the source's `TypedArray.set` throws a RangeError.
- Codec.ReadStructuredData requires the struct's matrix fields to lie inside the buffer; past the end the source throws in the DOMMatrix constructor.
- Codec.DecodeEncoded: a `mat4x4<i32>` or `mat4x4<u32>` is written through its element view but read through the `f32` view, so it does not round trip. The round-trip lemmas exclude it.
- StructArrays.InitStructArrayBuffer requires a non-empty list, because the source reads `arrays[0]`. Every typed array other than `Uint32Array` is treated as a `Float32Array`.
- StructArrays.ExtractStructArrays requires distinct output arrays (aliasing is not modelled). It also requires the buffer to hold length·N words (the source reads undefined past the end).
- Uniforms.UniformAdapter.UpdateBuffer requires every uniform to have a state value; the source would store NaN.
- Uniforms.UniformAdapter.BufferSize requires positive sizes; a zero size makes the source's offset NaN.
- Uniforms.UniformAdapter.Create requires positive sizes, because the adapter's invariant does. The source's `create` accepts a zero size, which only later makes the offsets NaN.
- Frames.RenameColumn requires the old name to be present.
- Relational.Filter requires the filtered column to be present. The source throws a TypeError reading its length otherwise.
- Lookups.FindIndex, Lookups.Find and Lookups.FindKey require every predicate's column to be present (Covers). The source throws a TypeError only when it reaches such a predicate on some row, and returns null for an empty frame.
- Lookups.FindKey also requires the key column to be present. The source reads it only when a row matches, and returns null without reading it otherwise.
- Ingest.ProcessCsv requires at least one line after the dropped rows; the source throws on `lines[0]` otherwise.
- Relational.WideToLong requires every retained name to be a column. The source throws only when there are both input rows and pivot columns. Otherwise it returns empty retained columns.
- Relational.WideToLong requires at least one column and distinct retained names. It also requires the key and value names to differ from each other and from the retained names; the source would overwrite columns otherwise.
- Lookups.FindDuplicates requires at least one key column, because the source reads `columns[0]`. It also requires every key column to be present (HasAll). The source throws a TypeError on a missing first key column. A missing later key column throws only when there are rows; on an empty frame the source returns empty results.
- Joins.InnerJoin and Joins.OuterJoin require at least one key and the key columns on both sides, because the source reads `onKeys[0]` and the key columns.
- Joins.InnerJoins handles zero frames as the source does. For one frame it requires a valid frame with at least one column, because the source reads its first column. For two or more it requires FoldReady (at least one key, every frame valid and holding every key column).
- Joins.OuterJoins returns Err(TooFewFrames) for fewer than two frames, like the source's throw. For two or more it requires FoldReady.
- Keys that the source joins with '|' are compared as cell sequences. The two agree for cells without '|' (Text.JoinInjective). The model differs in three ways:
  - a number and a string with the same text collide in the source and are kept apart here;
  - the source joins `null` as the empty text and NaN as "NaN", so a missing key there matches a "" or "NaN" string key, which it does not here;
  - in the source a `null` key and a NaN key do not match each other, while here all Missing keys are equal.
- Grouping.SortAndIdentifyGroups requires group and sort columns that are all numbers or all strings (no NaN or null, whose comparisons are not an order). It also requires at least one column.
- GroupFilter.FilterGroups requires the group map to address the frame's rows. In uniform mode it also requires the sort column to be present with integer bounds. Like the code, the uniform result has no sortBy or groupBy.
- GroupFilter.PadGroups, GroupFilter.UniformEmpty and GroupFilter.FilterGroups give size 0 to a uniform result with no kept group and no plain column. There the source's bounds stay infinite, so its hidden row count is 0 × −Infinity, which is NaN. Its columns are empty, and a loop such as `findIndex`'s `i < numRows` visits no row of it, as with 0.
- Text.Trim removes only ASCII white space (space, tab, line feed, carriage return, vertical tab, form feed). JavaScript's `trim` also removes the other Unicode white space and line terminators, such as U+00A0, U+FEFF, U+2028 and U+2029.
- Grouping.StrLess orders strings by code point. JavaScript's `<` orders them by UTF-16 code unit. The two orders differ when a character above U+FFFF is compared with one from U+E000 to U+FFFF.

=== FILE: codec.dfy ===
/**
  Structured data in a word buffer: the row/column cell adapter
  (`readCell`/`writeCell`), the typed views a field's elements are stored
  through, and `writeStructuredData`/`readStructuredData`, which move one
  record between a table and a buffer field by field.
 */
module Codec {
  import opened Outcomes
  import opened Words
  import opened GpuTypes
  import opened Layout

  // ---- table cells -------------------------------------------------------

  /** A JavaScript value held in a table cell. */
  datatype Value =
    | Undefined
    | Number(x: int)
    | Numbers(xs: seq<int>)      // an array of numbers (a vector)
    | Matrix(entries: seq<int>)  // a DOMMatrix, by its `toFloat32Array()` entries

  /** `{ kind: 'rows', rows }` (a list of records) or `{ kind: 'cols', cols }` (a record of arrays). */
  datatype TableData = Rows(rows: seq<map<string, Value>>) | Cols(cols: map<string, seq<Value>>)

  /** The record (for rows) or the array (for cols) that a cell access goes through exists. */
  predicate Addressable(d: TableData, row: nat, col: string) {
    match d
    case Rows(rows) => row < |rows|
    case Cols(cols) => col in cols
  }

  /** `readCell`: `rows[row][col]` or `cols[col][row]`; an absent key or index reads as undefined. */
  function ReadCell(d: TableData, row: nat, col: string): (r: Value)
    requires Addressable(d, row, col)
    ensures r != Undefined ==>
      match d
      case Rows(rows) => col in rows[row] && rows[row][col] == r
      case Cols(cols) => row < |cols[col]| && cols[col][row] == r
    ensures (d.Rows? && col !in d.rows[row]) || (d.Cols? && row >= |d.cols[col]|) ==> r == Undefined
  {
    match d
    case Rows(rows) => if col in rows[row] then rows[row][col] else Undefined
    case Cols(cols) => if row < |cols[col]| then cols[col][row] else Undefined
  }

  /** Array element assignment `a[i] = v`: past the end the array grows and the gap holds undefined. */
  function SetElement(a: seq<Value>, i: nat, v: Value): (r: seq<Value>)
    ensures |r| == if i < |a| then |a| else i + 1
    ensures r[i] == v
    ensures forall j :: 0 <= j < |r| && j != i ==> r[j] == if j < |a| then a[j] else Undefined
  {
    if i < |a| then a[i := v] else a + seq(i - |a|, _ => Undefined) + [v]
  }

  /** Writes keep the table's kind and never take away a record or a column. */
  predicate Extends(d: TableData, r: TableData) {
    && r.Rows? == d.Rows?
    && (d.Rows? ==> |r.rows| == |d.rows|)
    && (d.Cols? ==> d.cols.Keys <= r.cols.Keys)
  }

  /** The table after `rows[row][col] = value` or `cols[col][row] = value`. */
  function Assign(d: TableData, row: nat, col: string, v: Value): (r: TableData)
    requires Addressable(d, row, col)
    ensures Extends(d, r)
  {
    match d
    case Rows(rows) => Rows(rows[row := rows[row][col := v]])
    case Cols(cols) => Cols(cols[col := SetElement(cols[col], row, v)])
  }

  lemma ExtendsAddressable(d: TableData, r: TableData, row: nat, col: string)
    requires Extends(d, r) && Addressable(d, row, col)
    ensures Addressable(r, row, col)
  {
  }

  /** A cell reads back what was last written to it, and a write changes no other cell. */
  lemma ReadAfterWrite(d: TableData, row: nat, col: string, v: Value, row': nat, col': string)
    requires Addressable(d, row, col) && Addressable(d, row', col')
    ensures Addressable(Assign(d, row, col, v), row', col')
    ensures ReadCell(Assign(d, row, col, v), row', col') ==
            if row' == row && col' == col then v else ReadCell(d, row', col')
  {
  }

  /** The table a `writeCell` call updates in place. */
  class Table {
    var data: TableData

    constructor (d: TableData)
      ensures data == d
    {
      data := d;
    }

    /** `writeCell`: assigns one cell in place. */
    method WriteCell(row: nat, col: string, v: Value)
      requires Addressable(data, row, col)
      modifies this
      ensures data == Assign(old(data), row, col, v)
    {
      data := Assign(data, row, col, v);
    }
  }

  // ---- the typed views ---------------------------------------------------

  /** Assigning a number through the view of element kind e. */
  function StoreAs(fmt: F32Format, e: Elem, x: int): Word {
    match e
    case I32 => EncodeI32(x)
    case U32 => EncodeU32(x)
    case F32 => fmt.encode(x)
  }

  /** Reading a number through the view of element kind e. */
  function LoadAs(fmt: F32Format, e: Elem, w: Word): int {
    match e
    case I32 => DecodeI32(w)
    case U32 => DecodeU32(w)
    case F32 => fmt.decode(w)
  }

  /** The numbers the view of element kind e holds exactly. */
  predicate Exact(fmt: F32Format, e: Elem, x: int) {
    match e
    case I32 => InI32(x)
    case U32 => InU32(x)
    case F32 => F32Exact(fmt, x)
  }

  /** A number the view holds exactly is read back unchanged. */
  lemma LoadStore(fmt: F32Format, e: Elem, x: int)
    requires Exact(fmt, e, x)
    ensures LoadAs(fmt, e, StoreAs(fmt, e, x)) == x
  {
    match e
    case I32 => I32RoundTrip(x);
    case U32 => U32RoundTrip(x);
    case F32 =>
  }

  function StoreAll(fmt: F32Format, e: Elem, xs: seq<int>): (r: seq<Word>)
    ensures |r| == |xs|
  {
    seq(|xs|, c requires 0 <= c < |xs| => StoreAs(fmt, e, xs[c]))
  }

  function LoadAll(fmt: F32Format, e: Elem, ws: seq<Word>): (r: seq<int>)
    ensures |r| == |ws|
  {
    seq(|ws|, c requires 0 <= c < |ws| => LoadAs(fmt, e, ws[c]))
  }

  // ---- field values ------------------------------------------------------

  /** The numbers a value contributes: `[value]`, the array itself, or the matrix entries. */
  function Entries(v: Value): seq<int> {
    match v
    case Undefined => []
    case Number(x) => [x]
    case Numbers(xs) => xs
    case Matrix(m) => m
  }

  /**
    A value of the JavaScript type the field's GPU type calls for: a number,
    an array of exactly as many numbers as the vector has lanes, or a 4x4
    matrix. A mat3x3 field is never stored, so any value will do.
   */
  predicate Fits(t: GpuType, v: Value) {
    match t
    case Scalar(_) => v.Number?
    case Vec(w, _) => v.Numbers? && |v.xs| == Lanes(w)
    case Mat3(_) => true
    case Mat4(_) => v.Matrix? && |v.entries| == 16
  }

  lemma FitsEntries(t: GpuType, v: Value)
    requires Fits(t, v) && !t.Mat3?
    ensures |Entries(v)| == Components(t)
  {
  }

  /** The words a field's value is stored as. */
  function Encoded(fmt: F32Format, t: GpuType, v: Value): seq<Word> {
    StoreAll(fmt, ElemOf(t), Entries(v))
  }

  /**
    The value read back from a field's words: a number, an array, or a
    matrix, which is always read through the f32 view.
   */
  function Decoded(fmt: F32Format, t: GpuType, ws: seq<Word>): Value
    requires !t.Mat3? && |ws| == Components(t)
  {
    match t
    case Scalar(e) => Number(LoadAs(fmt, e, ws[0]))
    case Vec(_, e) => Numbers(LoadAll(fmt, e, ws))
    case Mat4(_) => Matrix(LoadAll(fmt, F32, ws))
  }

  /**
    The values a field reads back exactly: every entry fits its element
    kind, and a matrix only when its elements are f32, since matrices are
    written through their element kind's view but read through the f32 view.
   */
  predicate Representable(fmt: F32Format, t: GpuType, v: Value) {
    && (t.Mat4? ==> t.elem == F32)
    && forall c :: 0 <= c < |Entries(v)| ==> Exact(fmt, ElemOf(t), Entries(v)[c])
  }

  /** Reading a field's words gives back the value that was stored in them. */
  lemma DecodeEncoded(fmt: F32Format, t: GpuType, v: Value)
    requires !t.Mat3? && Fits(t, v) && Representable(fmt, t, v)
    ensures |Encoded(fmt, t, v)| == Components(t)
    ensures Decoded(fmt, t, Encoded(fmt, t, v)) == v
  {
    var ws := Encoded(fmt, t, v);
    var e := if t.Mat4? then F32 else ElemOf(t);
    forall c | 0 <= c < |ws|
      ensures LoadAs(fmt, e, ws[c]) == Entries(v)[c]
    {
      LoadStore(fmt, ElemOf(t), Entries(v)[c]);
    }
    match t
    case Scalar(_) =>
    case Vec(_, _) =>
      assert LoadAll(fmt, e, ws) == v.xs;
    case Mat4(_) =>
      assert LoadAll(fmt, e, ws) == v.entries;
  }

  // ---- a record's layout in a buffer -------------------------------------

  /**
    How many leading fields are handled before the first mat3x3, whose
    shape lookup throws "not implemented".
   */
  function UntilMat3(layout: seq<Field>): (m: nat)
    ensures m <= |layout|
    ensures forall k :: 0 <= k < m ==> !layout[k].ty.Mat3?
    ensures m < |layout| ==> layout[m].ty.Mat3?
  {
    if |layout| == 0 || layout[0].ty.Mat3? then 0 else 1 + UntilMat3(layout[1..])
  }

  /** Row `row` of the table holds a value of the right type for field k. */
  predicate FieldFits(layout: seq<Field>, d: TableData, row: nat, k: nat)
    requires k < |layout|
  {
    Addressable(d, row, layout[k].name) && Fits(layout[k].ty, ReadCell(d, row, layout[k].name))
  }

  /** Row `row` of the table holds values of the right types for the first n fields. */
  predicate Conforms(layout: seq<Field>, d: TableData, row: nat, n: nat)
    requires n <= |layout|
  {
    forall k :: 0 <= k < n ==> FieldFits(layout, d, row, k)
  }

  /** The value of field k in row `row`. */
  function FieldValue(layout: seq<Field>, d: TableData, row: nat, k: nat): Value
    requires k < |layout| && Addressable(d, row, layout[k].name)
  {
    ReadCell(d, row, layout[k].name)
  }

  /** Field k's words occupy [Start/4, End(k+1)/4). */
  lemma FieldWordRange(layout: seq<Field>, base: nat, k: nat)
    requires k < |layout|
    ensures Start(layout, base, k) / 4 + Components(layout[k].ty) == End(layout, base, k + 1) / 4
  {
    StartFacts(layout, base, k);
    var s := Start(layout, base, k) / 4;
    assert End(layout, base, k + 1) == (s + Components(layout[k].ty)) * 4;
    DivOfMultiple(s + Components(layout[k].ty), 0, 4);
  }

  /** `set(values, at)` on a view: the words from `at` on are replaced. */
  function Splice(w: seq<Word>, at: nat, vals: seq<Word>): (r: seq<Word>)
    requires at + |vals| <= |w|
    ensures |r| == |w|
  {
    seq(|w|, i requires 0 <= i < |w| => if at <= i < at + |vals| then vals[i - at] else w[i])
  }

  lemma SpliceInside(w: seq<Word>, at: nat, vals: seq<Word>, c: nat)
    requires at + |vals| <= |w| && c < |vals|
    ensures Splice(w, at, vals)[at + c] == vals[c]
  {
  }

  lemma SpliceOutside(w: seq<Word>, at: nat, vals: seq<Word>, i: nat)
    requires at + |vals| <= |w| && i < |w|
    requires i < at || at + |vals| <= i
    ensures Splice(w, at, vals)[i] == w[i]
  {
  }

  /** One `set` call: a word index and the words stored from there on. */
  datatype Patch = Patch(at: nat, vals: seq<Word>)

  predicate Touches(p: Patch, i: nat) {
    p.at <= i < p.at + |p.vals|
  }

  /** Every patch lies inside a buffer of `len` words. */
  predicate Inside(ps: seq<Patch>, len: nat) {
    forall k :: 0 <= k < |ps| ==> ps[k].at + |ps[k].vals| <= len
  }

  /** Each patch ends before any later one starts. */
  predicate Ordered(ps: seq<Patch>) {
    forall j, k :: 0 <= j < k < |ps| ==> ps[j].at + |ps[j].vals| <= ps[k].at
  }

  /** The buffer after the first n patches have been stored, in order. */
  function Apply(w: seq<Word>, ps: seq<Patch>, n: nat): (r: seq<Word>)
    requires n <= |ps| && Inside(ps, |w|)
    ensures |r| == |w|
  {
    if n == 0 then w
    else
      assert ps[n - 1].at + |ps[n - 1].vals| <= |w|;
      Splice(Apply(w, ps, n - 1), ps[n - 1].at, ps[n - 1].vals)
  }

  /** A word no patch touches keeps its value. */
  lemma {:induction false} ApplyOutside(w: seq<Word>, ps: seq<Patch>, n: nat, i: nat)
    requires n <= |ps| && Inside(ps, |w|) && i < |w|
    requires forall k :: 0 <= k < n ==> !Touches(ps[k], i)
    ensures Apply(w, ps, n)[i] == w[i]
  {
    if n > 0 {
      var j := n - 1;
      assert !Touches(ps[j], i);
      assert ps[j].at + |ps[j].vals| <= |w|;
      ApplyOutside(w, ps, j, i);
      SpliceOutside(Apply(w, ps, j), ps[j].at, ps[j].vals, i);
    }
  }

  /** With ordered patches, every patched word holds what its patch stored. */
  lemma {:induction false} ApplyInside(w: seq<Word>, ps: seq<Patch>, n: nat, k: nat, c: nat)
    requires n <= |ps| && Inside(ps, |w|) && Ordered(ps)
    requires k < n && c < |ps[k].vals|
    ensures ps[k].at + c < |w|
    ensures Apply(w, ps, n)[ps[k].at + c] == ps[k].vals[c]
  {
    var j := n - 1;
    assert ps[j].at + |ps[j].vals| <= |w|;
    assert ps[k].at + |ps[k].vals| <= |w|;
    if k == j {
      SpliceInside(Apply(w, ps, j), ps[j].at, ps[j].vals, c);
    } else {
      assert ps[k].at + |ps[k].vals| <= ps[j].at;
      ApplyInside(w, ps, j, k, c);
      SpliceOutside(Apply(w, ps, j), ps[j].at, ps[j].vals, ps[k].at + c);
    }
  }

  /** With ordered patches, each patch's words read back as stored. */
  lemma ApplyPatch(w: seq<Word>, ps: seq<Patch>, n: nat, k: nat)
    requires n <= |ps| && Inside(ps, |w|) && Ordered(ps) && k < n
    ensures ps[k].at + |ps[k].vals| <= |w|
    ensures Apply(w, ps, n)[ps[k].at .. ps[k].at + |ps[k].vals|] == ps[k].vals
  {
    assert ps[k].at + |ps[k].vals| <= |w|;
    forall c | 0 <= c < |ps[k].vals|
      ensures Apply(w, ps, n)[ps[k].at + c] == ps[k].vals[c]
    {
      ApplyInside(w, ps, n, k, c);
    }
  }

  /** A smaller buffer's patches fit in a larger one. */
  lemma InsideWider(ps: seq<Patch>, a: nat, b: nat)
    requires Inside(ps, a) && a <= b
    ensures Inside(ps, b)
  {
  }

  /** The words field k of row `row` is stored as. */
  function FieldImage(fmt: F32Format, layout: seq<Field>, d: TableData, row: nat, k: nat): (r: seq<Word>)
    requires k < |layout| && !layout[k].ty.Mat3? && FieldFits(layout, d, row, k)
    ensures |r| == Components(layout[k].ty)
  {
    FitsEntries(layout[k].ty, FieldValue(layout, d, row, k));
    Encoded(fmt, layout[k].ty, FieldValue(layout, d, row, k))
  }

  /** The `set` calls a record write makes: field k's words at field k's word index. */
  function FieldPatches(fmt: F32Format, layout: seq<Field>, d: TableData, base: nat, row: nat, n: nat): (ps: seq<Patch>)
    requires n <= UntilMat3(layout) && Conforms(layout, d, row, n)
    ensures |ps| == n
  {
    seq(n, k requires 0 <= k < n =>
      assert FieldFits(layout, d, row, k);
      Patch(Start(layout, base, k) / 4, FieldImage(fmt, layout, d, row, k)))
  }

  /** Field patches are ordered and end at the record's last field. */
  lemma FieldPatchesPlaced(fmt: F32Format, layout: seq<Field>, d: TableData, base: nat, row: nat, n: nat)
    requires n <= UntilMat3(layout) && Conforms(layout, d, row, n)
    ensures Ordered(FieldPatches(fmt, layout, d, base, row, n))
    ensures Inside(FieldPatches(fmt, layout, d, base, row, n), End(layout, base, n) / 4)
  {
    FieldPatchesOrdered(fmt, layout, d, base, row, n);
    FieldPatchesInside(fmt, layout, d, base, row, n);
  }

  lemma FieldPatchesOrdered(fmt: F32Format, layout: seq<Field>, d: TableData, base: nat, row: nat, n: nat)
    requires n <= UntilMat3(layout) && Conforms(layout, d, row, n)
    ensures Ordered(FieldPatches(fmt, layout, d, base, row, n))
  {
    var ps := FieldPatches(fmt, layout, d, base, row, n);
    forall j, k | 0 <= j < k < n
      ensures ps[j].at + |ps[j].vals| <= ps[k].at
    {
      StartsInOrder(layout, base, j, k);
      FieldWordRange(layout, base, j);
    }
  }

  lemma FieldPatchesInside(fmt: F32Format, layout: seq<Field>, d: TableData, base: nat, row: nat, n: nat)
    requires n <= UntilMat3(layout) && Conforms(layout, d, row, n)
    ensures Inside(FieldPatches(fmt, layout, d, base, row, n), End(layout, base, n) / 4)
  {
    var ps := FieldPatches(fmt, layout, d, base, row, n);
    forall k | 0 <= k < n
      ensures ps[k].at + |ps[k].vals| <= End(layout, base, n) / 4
    {
      FieldWordRange(layout, base, k);
      EndMonotone(layout, base, k + 1, n);
    }
  }

  /**
    The buffer after the first n fields of row `row` have been written at
    byte `base` (the spec of `writeStructuredData`).
   */
  function Image(fmt: F32Format, w: seq<Word>, layout: seq<Field>, d: TableData,
                 base: nat, row: nat, n: nat): (r: seq<Word>)
    requires n <= UntilMat3(layout)
    requires Conforms(layout, d, row, n)
    requires End(layout, base, n) <= 4 * |w|
    ensures |r| == |w|
  {
    FieldPatchesPlaced(fmt, layout, d, base, row, n);
    Apply(w, FieldPatches(fmt, layout, d, base, row, n), n)
  }

  /** Writing a record leaves every word outside its fields as it was: padding included. */
  lemma ImageOutside(fmt: F32Format, w: seq<Word>, layout: seq<Field>, d: TableData,
                     base: nat, row: nat, n: nat, i: nat)
    requires n <= UntilMat3(layout)
    requires Conforms(layout, d, row, n)
    requires End(layout, base, n) <= 4 * |w|
    requires i < |w| && !Covered(layout, base, n, i)
    ensures Image(fmt, w, layout, d, base, row, n)[i] == w[i]
  {
    var ps := FieldPatches(fmt, layout, d, base, row, n);
    FieldPatchesPlaced(fmt, layout, d, base, row, n);
    forall k | 0 <= k < n
      ensures !Touches(ps[k], i)
    {
      FieldWordRange(layout, base, k);
      if Touches(ps[k], i) {
        CoveredField(layout, base, n, k, i);
      }
    }
    ApplyOutside(w, ps, n, i);
  }

  /** The words of field k in a buffer. */
  function FieldWords(w: seq<Word>, layout: seq<Field>, base: nat, k: nat): (r: seq<Word>)
    requires k < |layout| && End(layout, base, k + 1) <= 4 * |w|
    ensures |r| == Components(layout[k].ty)
  {
    FieldWordRange(layout, base, k);
    w[Start(layout, base, k) / 4 .. Start(layout, base, k) / 4 + Components(layout[k].ty)]
  }

  /** After a write, each field's words are exactly its encoded value. */
  lemma ImageFieldWords(fmt: F32Format, w: seq<Word>, layout: seq<Field>, d: TableData,
                        base: nat, row: nat, n: nat, k: nat)
    requires n <= UntilMat3(layout)
    requires Conforms(layout, d, row, n)
    requires End(layout, base, n) <= 4 * |w|
    requires k < n && End(layout, base, k + 1) <= 4 * |w|
    ensures FieldWords(Image(fmt, w, layout, d, base, row, n), layout, base, k) == FieldImage(fmt, layout, d, row, k)
  {
    assert FieldFits(layout, d, row, k);
    FieldWordRange(layout, base, k);
    var ps := FieldPatches(fmt, layout, d, base, row, n);
    FieldPatchesPlaced(fmt, layout, d, base, row, n);
    InsideWider(ps, End(layout, base, n) / 4, |w|);
    ApplyPatch(w, ps, n, k);
  }

  // ---- writeStructuredData -----------------------------------------------

  /** Pointwise description of a splice. */
  lemma SpliceOf(w: seq<Word>, at: nat, vals: seq<Word>, r: seq<Word>)
    requires at + |vals| <= |w| && |r| == |w|
    requires forall i :: 0 <= i < |w| ==> r[i] == if at <= i < at + |vals| then vals[i - at] else w[i]
    ensures r == Splice(w, at, vals)
  {
  }

  /** `view.set(values, at)` through the view of element kind e. */
  method SetValues(fmt: F32Format, buffer: array<Word>, at: nat, e: Elem, xs: seq<int>)
    requires at + |xs| <= buffer.Length
    modifies buffer
    ensures buffer[..] == Splice(old(buffer[..]), at, StoreAll(fmt, e, xs))
  {
    for c := 0 to |xs|
      invariant forall i :: 0 <= i < buffer.Length ==>
        buffer[i] == if at <= i < at + c then StoreAs(fmt, e, xs[i - at]) else old(buffer[i])
    {
      buffer[at + c] := StoreAs(fmt, e, xs[c]);
    }
    SpliceOf(old(buffer[..]), at, StoreAll(fmt, e, xs), buffer[..]);
  }

  /**
    `writeStructuredData`: stores row `readFrom` of the table as a record at
    byte `writeTo` and answers the offset just past its last field (no
    trailing padding). At the first mat3x3 field it fails with "not
    implemented", after the fields before it have been stored.
   */
  method WriteStructuredData(fmt: F32Format, buffer: array<Word>, layout: seq<Field>, data: TableData,
                             writeTo: nat, readFrom: nat) returns (r: Result<nat>)
    requires Conforms(layout, data, readFrom, UntilMat3(layout))
    requires End(layout, writeTo, UntilMat3(layout)) <= 4 * buffer.Length
    modifies buffer
    ensures buffer[..] == Image(fmt, old(buffer[..]), layout, data, writeTo, readFrom, UntilMat3(layout))
    ensures UntilMat3(layout) == |layout| ==> r == Ok(End(layout, writeTo, |layout|))
    ensures UntilMat3(layout) < |layout| ==> r == Err(NotImplemented)
  {
    var m := UntilMat3(layout);
    ghost var w0 := buffer[..];
    ghost var ps := FieldPatches(fmt, layout, data, writeTo, readFrom, m);
    FieldPatchesPlaced(fmt, layout, data, writeTo, readFrom, m);
    InsideWider(ps, End(layout, writeTo, m) / 4, buffer.Length);
    var offset := writeTo;
    for i := 0 to |layout|
      invariant i <= m
      invariant offset == End(layout, writeTo, i)
      invariant buffer[..] == Apply(w0, ps, i)
    {
      // The source reads the cell before it looks up the shape; the read has
      // no effect, and an unreadable cell throws as well.
      var shape := ShapeOf(layout[i].ty);
      if shape.Err? {
        return Err(shape.error);
      }
      assert FieldFits(layout, data, readFrom, i);
      assert ps[i].at + |ps[i].vals| <= buffer.Length;
      offset := WriteField(fmt, buffer, layout, data, writeTo, readFrom, i, offset, shape.value);
    }
    return Ok(offset);
  }

  /** One pass of the field loop: align the offset, store field i there, and step past it. */
  method WriteField(fmt: F32Format, buffer: array<Word>, layout: seq<Field>, data: TableData,
                    writeTo: nat, readFrom: nat, i: nat, offset: nat, shape: Shape) returns (next: nat)
    requires i < |layout| && ShapeOf(layout[i].ty) == Ok(shape)
    requires FieldFits(layout, data, readFrom, i)
    requires offset == End(layout, writeTo, i)
    requires Start(layout, writeTo, i) / 4 + Components(layout[i].ty) <= buffer.Length
    modifies buffer
    ensures next == End(layout, writeTo, i + 1)
    ensures buffer[..] == Splice(old(buffer[..]), Start(layout, writeTo, i) / 4, FieldImage(fmt, layout, data, readFrom, i))
  {
    var t := layout[i].ty;
    var fieldSize := SizeOf(t);
    var alignment := AlignmentOf(t);
    var aligned := RoundUp(offset, alignment);
    var idx := aligned / 4;
    var value := ReadCell(data, readFrom, layout[i].name);
    var valueArray := match shape
      case ScalarShape => [value.x]
      case VectorShape => value.xs
      case MatrixShape => value.entries;
    assert valueArray == Entries(value);
    SetValues(fmt, buffer, idx, ElemOf(t), valueArray);
    next := aligned + fieldSize;
  }

  // ---- readStructuredData ------------------------------------------------

  /**
    A typed array's `slice(lo, lo + len)`: the words from `lo` on, cut
    short at the end of the buffer.
   */
  function Window(w: seq<Word>, lo: nat, len: nat): (r: seq<Word>)
    ensures |r| == if lo + len <= |w| then len else if lo < |w| then |w| - lo else 0
    ensures forall c :: 0 <= c < |r| ==> lo + c < |w| && r[c] == w[lo + c]
  {
    if lo >= |w| then [] else if lo + len <= |w| then w[lo .. lo + len] else w[lo..]
  }

  /**
    The value of one field read from a buffer: a number, or an array or a
    matrix made from a slice of `sizeOf(type) / sizeOf(elemOf(type))` words.
    Inside the buffer this is the decoded value of the field's words. Past
    the end a scalar reads as `undefined` and a vector as the shorter array
    of the words that exist; a matrix must lie inside, since the `DOMMatrix`
    constructor rejects short arrays.
   */
  function ReadValue(fmt: F32Format, buffer: seq<Word>, idx: nat, t: GpuType, shape: Shape): (v: Value)
    requires ShapeOf(t) == Ok(shape)
    requires shape == MatrixShape ==> idx + Components(t) <= |buffer|
    ensures idx + Components(t) <= |buffer| ==> v == Decoded(fmt, t, buffer[idx .. idx + Components(t)])
    ensures idx + Components(t) > |buffer| && t.Scalar? ==> v == Undefined
    ensures idx + Components(t) > |buffer| && t.Vec? ==>
              v.Numbers? && |v.xs| < Components(t) &&
              forall c :: 0 <= c < |v.xs| ==> idx + c < |buffer| && v.xs[c] == LoadAs(fmt, ElemOf(t), buffer[idx + c])
  {
    ElementCount(t);
    var e := ElemOf(t);
    var length := SizeOf(t) / SizeOf(Scalar(e));
    match shape
    case ScalarShape => if idx < |buffer| then Number(LoadAs(fmt, e, buffer[idx])) else Undefined
    case VectorShape => Numbers(LoadAll(fmt, e, Window(buffer, idx, length)))
    case MatrixShape => Matrix(LoadAll(fmt, F32, Window(buffer, idx, length)))
  }

  /** Every mat4x4 field before the first mat3x3 lies inside a buffer of `len` words. */
  predicate MatricesInside(layout: seq<Field>, base: nat, len: nat) {
    forall k :: 0 <= k < UntilMat3(layout) && layout[k].ty.Mat4? ==> End(layout, base, k + 1) <= 4 * len
  }

  /** A record that lies inside the buffer has its matrices inside. */
  lemma MatricesInsideRecord(layout: seq<Field>, base: nat, len: nat)
    requires End(layout, base, UntilMat3(layout)) <= 4 * len
    ensures MatricesInside(layout, base, len)
  {
    forall k | 0 <= k < UntilMat3(layout)
      ensures layout[k].ty.Mat4? ==> End(layout, base, k + 1) <= 4 * len
    {
      EndMonotone(layout, base, k + 1, UntilMat3(layout));
    }
  }

  /** The value read for field k of the record at byte `base`. */
  function FieldRead(fmt: F32Format, w: seq<Word>, layout: seq<Field>, base: nat, k: nat): Value
    requires k < UntilMat3(layout)
    requires layout[k].ty.Mat4? ==> End(layout, base, k + 1) <= 4 * |w|
  {
    FieldWordRange(layout, base, k);
    ReadValue(fmt, w, Start(layout, base, k) / 4, layout[k].ty, ShapeOf(layout[k].ty).value)
  }

  /** A field inside the buffer reads as the decoded value of its words. */
  lemma FieldReadInside(fmt: F32Format, w: seq<Word>, layout: seq<Field>, base: nat, k: nat)
    requires k < UntilMat3(layout)
    requires End(layout, base, k + 1) <= 4 * |w|
    ensures FieldRead(fmt, w, layout, base, k) == Decoded(fmt, layout[k].ty, FieldWords(w, layout, base, k))
  {
    FieldWordRange(layout, base, k);
  }

  /** The values read for the fields before the first mat3x3, in layout order. */
  function FieldReads(fmt: F32Format, w: seq<Word>, layout: seq<Field>, base: nat): (vs: seq<Value>)
    requires MatricesInside(layout, base, |w|)
    ensures |vs| == UntilMat3(layout)
  {
    seq(UntilMat3(layout), k requires 0 <= k < UntilMat3(layout) => FieldRead(fmt, w, layout, base, k))
  }

  /** The cells of the first `count` fields in row `dest` can be written. */
  predicate Targets(d: TableData, dest: nat, layout: seq<Field>, count: nat)
    requires count <= |layout|
  {
    forall k :: 0 <= k < count ==> Addressable(d, dest, layout[k].name)
  }

  /**
    The table after the values `vs[..n]` have been written, in order, into
    the cells of row `dest` named by the first n fields (the spec of
    `readStructuredData`, with `vs` the values read from the buffer).
   */
  function Fill(d: TableData, dest: nat, layout: seq<Field>, vs: seq<Value>, n: nat): (r: TableData)
    requires n <= |vs| <= |layout| && Targets(d, dest, layout, |vs|)
    ensures Extends(d, r)
  {
    if n == 0 then d
    else
      var k := n - 1;
      var prev := Fill(d, dest, layout, vs, k);
      assert Addressable(d, dest, layout[k].name);
      ExtendsAddressable(d, prev, dest, layout[k].name);
      Assign(prev, dest, layout[k].name, vs[k])
  }

  /** Names written by the first n fields. */
  predicate NamedIn(layout: seq<Field>, n: nat, col: string)
    requires n <= |layout|
  {
    exists k :: 0 <= k < n && layout[k].name == col
  }

  /** Field names are distinct. */
  predicate DistinctNames(layout: seq<Field>) {
    forall j, k :: 0 <= j < k < |layout| ==> layout[j].name != layout[k].name
  }

  /** Filling writes the field cells of row `dest` and leaves every other cell as it was. */
  lemma {:induction false} FillOther(d: TableData, dest: nat, layout: seq<Field>, vs: seq<Value>, n: nat,
                                     row: nat, col: string)
    requires n <= |vs| <= |layout| && Targets(d, dest, layout, |vs|)
    requires Addressable(d, row, col)
    requires row != dest || !NamedIn(layout, n, col)
    ensures Addressable(Fill(d, dest, layout, vs, n), row, col)
    ensures ReadCell(Fill(d, dest, layout, vs, n), row, col) == ReadCell(d, row, col)
  {
    if n > 0 {
      var k := n - 1;
      assert row != dest || layout[k].name != col;
      FillOther(d, dest, layout, vs, k, row, col);
      ReadAfterWrite(Fill(d, dest, layout, vs, k), dest, layout[k].name, vs[k], row, col);
    }
  }

  /** With distinct field names, field k's cell holds the k-th value. */
  lemma {:induction false} FillField(d: TableData, dest: nat, layout: seq<Field>, vs: seq<Value>, n: nat, k: nat)
    requires n <= |vs| <= |layout| && Targets(d, dest, layout, |vs|)
    requires DistinctNames(layout)
    requires k < n
    ensures Addressable(Fill(d, dest, layout, vs, n), dest, layout[k].name)
    ensures ReadCell(Fill(d, dest, layout, vs, n), dest, layout[k].name) == vs[k]
  {
    var j := n - 1;
    var prev := Fill(d, dest, layout, vs, j);
    if k < j {
      FillField(d, dest, layout, vs, j, k);
    } else {
      assert Addressable(d, dest, layout[k].name);
    }
    ReadAfterWrite(prev, dest, layout[j].name, vs[j], dest, layout[k].name);
  }

  /**
    `readStructuredData`: reads the record at byte `readFrom` and writes
    each field's value into row `writeTo` of the table, answering the offset
    just past the last field. At the first mat3x3 field it fails with "not
    implemented", after the fields before it have been written to the table.
   */
  method ReadStructuredData(fmt: F32Format, buffer: array<Word>, layout: seq<Field>, table: Table,
                            readFrom: nat, writeTo: nat) returns (r: Result<nat>)
    requires MatricesInside(layout, readFrom, buffer.Length)
    requires Targets(table.data, writeTo, layout, UntilMat3(layout))
    modifies table
    ensures table.data == Fill(old(table.data), writeTo, layout, FieldReads(fmt, buffer[..], layout, readFrom), UntilMat3(layout))
    ensures UntilMat3(layout) == |layout| ==> r == Ok(End(layout, readFrom, |layout|))
    ensures UntilMat3(layout) < |layout| ==> r == Err(NotImplemented)
  {
    var m := UntilMat3(layout);
    ghost var d0 := table.data;
    ghost var vs := FieldReads(fmt, buffer[..], layout, readFrom);
    var offset := readFrom;
    for i := 0 to |layout|
      invariant i <= m
      invariant offset == End(layout, readFrom, i)
      invariant vs == FieldReads(fmt, buffer[..], layout, readFrom)
      invariant table.data == Fill(d0, writeTo, layout, vs, i)
    {
      var shape := ShapeOf(layout[i].ty);
      if shape.Err? {
        assert i == m;
        return Err(shape.error);
      }
      assert !layout[i].ty.Mat3?;
      assert Addressable(d0, writeTo, layout[i].name);
      ExtendsAddressable(d0, table.data, writeTo, layout[i].name);
      offset := ReadField(fmt, buffer, layout, table, readFrom, writeTo, i, offset, shape.value);
      assert vs[i] == FieldRead(fmt, buffer[..], layout, readFrom, i);
    }
    return Ok(offset);
  }

  /** One pass of the field loop: align the offset, read field i there into the table, and step past it. */
  method ReadField(fmt: F32Format, buffer: array<Word>, layout: seq<Field>, table: Table,
                   readFrom: nat, writeTo: nat, i: nat, offset: nat, shape: Shape) returns (next: nat)
    requires i < UntilMat3(layout) && ShapeOf(layout[i].ty) == Ok(shape)
    requires offset == End(layout, readFrom, i)
    requires layout[i].ty.Mat4? ==> End(layout, readFrom, i + 1) <= 4 * buffer.Length
    requires Addressable(table.data, writeTo, layout[i].name)
    modifies table
    ensures next == End(layout, readFrom, i + 1)
    ensures table.data == Assign(old(table.data), writeTo, layout[i].name, FieldRead(fmt, buffer[..], layout, readFrom, i))
  {
    var t := layout[i].ty;
    var fieldSize := SizeOf(t);
    var alignment := AlignmentOf(t);
    var aligned := RoundUp(offset, alignment);
    var idx := aligned / 4;
    FieldWordRange(layout, readFrom, i);
    var value := ReadValue(fmt, buffer[..], idx, t, shape);
    table.WriteCell(writeTo, layout[i].name, value);
    next := aligned + fieldSize;
  }

  // ---- round trip --------------------------------------------------------

  /** Every field of row `row` holds a value its type reads back exactly. */
  predicate RoundTrips(fmt: F32Format, layout: seq<Field>, d: TableData, row: nat)
  {
    && UntilMat3(layout) == |layout|
    && Conforms(layout, d, row, |layout|)
    && forall k :: 0 <= k < |layout| ==>
         FieldFits(layout, d, row, k) && Representable(fmt, layout[k].ty, FieldValue(layout, d, row, k))
  }

  /**
    Writing row `row` of one table at byte `base` and reading the record at
    `base` back into row `dest` of another table gives every field its
    original value, when the field names are distinct and every value is one
    its type holds exactly (i32 and u32 values in range, f32 values the
    format represents).
   */
  lemma WriteThenRead(fmt: F32Format, w: seq<Word>, layout: seq<Field>, d: TableData, base: nat, row: nat,
                      target: TableData, dest: nat, k: nat)
    requires RoundTrips(fmt, layout, d, row)
    requires DistinctNames(layout)
    requires End(layout, base, |layout|) <= 4 * |w|
    requires Targets(target, dest, layout, |layout|)
    requires k < |layout|
    ensures FieldFits(layout, d, row, k)
    ensures MatricesInside(layout, base, |w|)
    ensures ReadCell(Fill(target, dest, layout, FieldReads(fmt, Image(fmt, w, layout, d, base, row, |layout|), layout, base), |layout|),
                     dest, layout[k].name) == FieldValue(layout, d, row, k)
  {
    var n := |layout|;
    MatricesInsideRecord(layout, base, |w|);
    var img := Image(fmt, w, layout, d, base, row, n);
    var vs := FieldReads(fmt, img, layout, base);
    assert FieldFits(layout, d, row, k);
    EndMonotone(layout, base, k + 1, n);
    ImageFieldWords(fmt, w, layout, d, base, row, n, k);
    assert FieldImage(fmt, layout, d, row, k) == Encoded(fmt, layout[k].ty, FieldValue(layout, d, row, k));
    FillField(target, dest, layout, vs, n, k);
    FieldReadInside(fmt, img, layout, base, k);
    DecodeEncoded(fmt, layout[k].ty, FieldValue(layout, d, row, k));
  }
}

=== FILE: contiguous.dfy ===
/**
  `createContiguousArray`: many rows of a table packed into one buffer as
  an array of structs. Every record takes the same number of bytes, the
  stride, so row i sits at byte `i * stride`.
 */
module Contiguous {
  import opened Outcomes
  import opened Words
  import opened GpuTypes
  import opened Layout
  import opened Codec

  /**
    The stride loop of `createContiguousArray`: walk the layout as the
    writer does while tracking the largest alignment, then round the end
    of the last field up to that alignment.
   */
  method ComputeStride(layout: seq<Field>) returns (stride: nat)
    ensures stride == Stride(layout)
  {
    var maxAlignment := 1;
    stride := 0;
    for i := 0 to |layout|
      invariant stride == End(layout, 0, i)
      invariant maxAlignment == MaxAlignment(layout, i)
    {
      var fieldSize := SizeOf(layout[i].ty);
      var alignment := AlignmentOf(layout[i].ty);
      maxAlignment := if maxAlignment < alignment then alignment else maxAlignment;
      stride := RoundUp(stride, alignment) + fieldSize;
    }
    stride := RoundUp(stride, maxAlignment);
  }

  /** The byte offset of row i: i strides, added up one row at a time. */
  function RowBase(layout: seq<Field>, i: nat): nat {
    if i == 0 then 0 else RowBase(layout, i - 1) + Stride(layout)
  }

  /** Row i starts at byte `i * stride`, the write offset the source passes. */
  lemma {:induction false} RowBaseIs(layout: seq<Field>, i: nat)
    ensures RowBase(layout, i) == i * Stride(layout)
  {
    if i > 0 {
      RowBaseIs(layout, i - 1);
      assert i * Stride(layout) == (i - 1) * Stride(layout) + Stride(layout);
    }
  }

  /** Rows start in order, a stride apart. */
  lemma {:induction false} RowBaseMonotone(layout: seq<Field>, i: nat, j: nat)
    requires i <= j
    ensures RowBase(layout, i) <= RowBase(layout, j)
    decreases j
  {
    if i < j {
      RowBaseMonotone(layout, i, j - 1);
    }
  }

  /**
    Every row offset is a multiple of every field's alignment and of the
    word size, so each row repeats the layout of row 0 shifted by its offset.
   */
  lemma RowBaseAligns(layout: seq<Field>, i: nat)
    ensures AlignsAll(layout, RowBase(layout, i))
    ensures RowBase(layout, i) % 4 == 0
  {
    RowBaseIs(layout, i);
    StrideMultipleAligns(layout, i);
    StrideFacts(layout);
    MultipleScaled(i, Stride(layout), 4);
  }

  /** Field k of row i lies at the row's byte offset plus the field's offset inside one struct. */
  lemma RowFieldOffset(layout: seq<Field>, i: nat, k: nat)
    requires k < |layout|
    ensures Start(layout, RowBase(layout, i), k) == RowBase(layout, i) + Start(layout, 0, k)
  {
    RowBaseAligns(layout, i);
    ShiftStart(layout, RowBase(layout, i), k);
  }

  /** Row i ends no later than where row i + 1 begins. */
  lemma RowEnd(layout: seq<Field>, i: nat)
    ensures End(layout, RowBase(layout, i), |layout|) <= RowBase(layout, i + 1)
  {
    RowBaseAligns(layout, i);
    ShiftEnd(layout, RowBase(layout, i), |layout|);
    StrideFacts(layout);
  }

  /** The buffer of `rows * stride` bytes, in words: the offset one past the last row. */
  function BufferWords(layout: seq<Field>, rows: nat): nat {
    RowBase(layout, rows) / 4
  }

  /** A buffer of `rows * stride` bytes holds row i whenever i < rows, and row i + 1 starts inside it or at its end. */
  lemma RowFits(layout: seq<Field>, rows: nat, i: nat)
    requires i < rows
    ensures End(layout, RowBase(layout, i), |layout|) <= RowBase(layout, i + 1) <= 4 * BufferWords(layout, rows)
  {
    RowEnd(layout, i);
    RowBaseMonotone(layout, i + 1, rows);
    RowBaseIs(layout, rows);
    RowBaseAligns(layout, rows);
  }

  /** A fresh `ArrayBuffer`: every word zero. */
  function Blank(len: nat): (w: seq<Word>)
    ensures |w| == len && forall i :: 0 <= i < len ==> w[i] == 0
  {
    seq(len, _ => 0)
  }

  /** Rows with a mat3x3 field cannot be packed: the first write throws. */
  predicate Packable(layout: seq<Field>, rows: nat) {
    rows == 0 || UntilMat3(layout) == |layout|
  }

  /** Each of the first `rows` rows holds values of the right types for the fields before any mat3x3. */
  predicate RowsConform(layout: seq<Field>, d: TableData, rows: nat) {
    forall i :: 0 <= i < rows ==> Conforms(layout, d, i, UntilMat3(layout))
  }

  /** Writing a record leaves the words before its first byte as they were. */
  lemma ImageBefore(fmt: F32Format, w: seq<Word>, layout: seq<Field>, d: TableData, base: nat, row: nat, idx: nat)
    requires UntilMat3(layout) == |layout| && Conforms(layout, d, row, |layout|)
    requires End(layout, base, |layout|) <= 4 * |w|
    requires idx < |w| && idx < base / 4
    ensures Image(fmt, w, layout, d, base, row, |layout|)[idx] == w[idx]
  {
    if Covered(layout, base, |layout|, idx) {
      CoveredBounds(layout, base, |layout|, idx);
    }
    ImageOutside(fmt, w, layout, d, base, row, |layout|, idx);
  }

  /** Field k of row i ends inside the buffer and before row j starts, for i < j. */
  lemma EarlierFieldBefore(layout: seq<Field>, rows: nat, i: nat, j: nat, k: nat)
    requires i < j < rows && k < |layout|
    ensures End(layout, RowBase(layout, i), k + 1) <= RowBase(layout, j) <= 4 * BufferWords(layout, rows)
    ensures End(layout, RowBase(layout, i), k + 1) / 4 <= RowBase(layout, j) / 4
  {
    RowFits(layout, rows, i);
    RowFits(layout, rows, j);
    RowBaseMonotone(layout, i + 1, j);
    RowBaseMonotone(layout, j, j + 1);
    EndMonotone(layout, RowBase(layout, i), k + 1, |layout|);
  }

  /** Two sequences that agree at every index of a range agree on that slice. */
  lemma SameSlice(a: seq<Word>, b: seq<Word>, lo: nat, hi: nat)
    requires lo <= hi <= |a| && hi <= |b|
    requires forall idx :: lo <= idx < hi ==> a[idx] == b[idx]
    ensures a[lo .. hi] == b[lo .. hi]
  {
  }

  /** Writing row j leaves the words of field k of an earlier row i as they were. */
  lemma LaterRowKeeps(fmt: F32Format, prev: seq<Word>, cur: seq<Word>, layout: seq<Field>, d: TableData,
                      rows: nat, i: nat, j: nat, k: nat)
    requires i < j < rows && k < |layout|
    requires UntilMat3(layout) == |layout| && Conforms(layout, d, j, |layout|)
    requires |prev| == BufferWords(layout, rows) && End(layout, RowBase(layout, j), |layout|) <= 4 * |prev|
    requires cur == Image(fmt, prev, layout, d, RowBase(layout, j), j, |layout|)
    ensures End(layout, RowBase(layout, i), k + 1) <= 4 * |prev| &&
            FieldWords(cur, layout, RowBase(layout, i), k) == FieldWords(prev, layout, RowBase(layout, i), k)
  {
    var bi := RowBase(layout, i);
    var bj := RowBase(layout, j);
    EarlierFieldBefore(layout, rows, i, j, k);
    FieldWordRange(layout, bi, k);
    var lo := Start(layout, bi, k) / 4;
    var hi := End(layout, bi, k + 1) / 4;
    forall idx | lo <= idx < hi
      ensures cur[idx] == prev[idx]
    {
      ImageBefore(fmt, prev, layout, d, bj, j, idx);
    }
    SameSlice(cur, prev, lo, hi);
  }

  /** Field k of row i fits its type and ends inside the buffer. */
  lemma FieldReady(layout: seq<Field>, d: TableData, rows: nat, i: nat, k: nat)
    requires i < rows && Packable(layout, rows) && RowsConform(layout, d, rows)
    requires k < |layout|
    ensures !layout[k].ty.Mat3? && FieldFits(layout, d, i, k)
    ensures End(layout, RowBase(layout, i), k + 1) <= 4 * BufferWords(layout, rows)
  {
    assert Conforms(layout, d, i, |layout|);
    RowFits(layout, rows, i);
    EndMonotone(layout, RowBase(layout, i), k + 1, |layout|);
  }

  /** Word idx belongs to a field of one of the first n rows. */
  predicate RowsCover(layout: seq<Field>, n: nat, idx: nat) {
    n > 0 && (RowsCover(layout, n - 1, idx) || Covered(layout, RowBase(layout, n - 1), |layout|, idx))
  }

  /** A word covered by the first n rows is covered by one particular row. */
  lemma {:induction false} RowsCoverSome(layout: seq<Field>, n: nat, idx: nat)
    requires RowsCover(layout, n, idx)
    ensures exists i :: 0 <= i < n && Covered(layout, RowBase(layout, i), |layout|, idx)
  {
    if RowsCover(layout, n - 1, idx) {
      RowsCoverSome(layout, n - 1, idx);
    } else {
      assert Covered(layout, RowBase(layout, n - 1), |layout|, idx);
    }
  }

  /** Every field of the first n rows that fits its type and the buffer holds the words its value is stored as. */
  predicate Written(fmt: F32Format, w: seq<Word>, layout: seq<Field>, d: TableData, n: nat) {
    forall i, k ::
      0 <= i < n && 0 <= k < |layout| && !layout[k].ty.Mat3? && FieldFits(layout, d, i, k) &&
      End(layout, RowBase(layout, i), k + 1) <= 4 * |w| ==>
        FieldWords(w, layout, RowBase(layout, i), k) == FieldImage(fmt, layout, d, i, k)
  }

  /** Every word outside the fields of the first n rows is still zero. */
  predicate Zeroed(w: seq<Word>, layout: seq<Field>, n: nat) {
    forall idx :: 0 <= idx < |w| && !RowsCover(layout, n, idx) ==> w[idx] == 0
  }

  /**
    The buffer `createContiguousArray` holds once the first n of `rows`
    rows are written: `rows * stride` bytes, the fields of those rows at
    their offsets, zero everywhere else.
   */
  predicate Packs(fmt: F32Format, w: seq<Word>, layout: seq<Field>, d: TableData, rows: nat, n: nat) {
    |w| == BufferWords(layout, rows) && Written(fmt, w, layout, d, n) && Zeroed(w, layout, n)
  }

  /** Writing row j keeps the fields of the rows before it and stores its own. */
  lemma RowStepWritten(fmt: F32Format, prev: seq<Word>, cur: seq<Word>, layout: seq<Field>, d: TableData,
                       rows: nat, j: nat)
    requires j < rows && Packable(layout, j + 1) && RowsConform(layout, d, rows)
    requires |prev| == BufferWords(layout, rows) && End(layout, RowBase(layout, j), |layout|) <= 4 * |prev|
    requires Written(fmt, prev, layout, d, j)
    requires cur == Image(fmt, prev, layout, d, RowBase(layout, j), j, |layout|)
    ensures Written(fmt, cur, layout, d, j + 1)
  {
    forall i, k |
      0 <= i < j + 1 && 0 <= k < |layout| && !layout[k].ty.Mat3? && FieldFits(layout, d, i, k) &&
      End(layout, RowBase(layout, i), k + 1) <= 4 * |cur|
      ensures FieldWords(cur, layout, RowBase(layout, i), k) == FieldImage(fmt, layout, d, i, k)
    {
      if i < j {
        LaterRowKeeps(fmt, prev, cur, layout, d, rows, i, j, k);
      } else {
        ImageFieldWords(fmt, prev, layout, d, RowBase(layout, j), j, |layout|, k);
      }
    }
  }

  /** Writing row j leaves every word outside the first j + 1 rows as it was. */
  lemma RowStepZeroed(fmt: F32Format, prev: seq<Word>, cur: seq<Word>, layout: seq<Field>, d: TableData,
                      rows: nat, j: nat)
    requires j < rows && Packable(layout, j + 1) && RowsConform(layout, d, rows)
    requires End(layout, RowBase(layout, j), |layout|) <= 4 * |prev|
    requires Zeroed(prev, layout, j)
    requires cur == Image(fmt, prev, layout, d, RowBase(layout, j), j, |layout|)
    ensures Zeroed(cur, layout, j + 1)
  {
    forall idx | 0 <= idx < |cur| && !RowsCover(layout, j + 1, idx)
      ensures cur[idx] == 0
    {
      ImageOutside(fmt, prev, layout, d, RowBase(layout, j), j, |layout|, idx);
    }
  }

  /** Field k of row i, word for word, in the packed buffer. */
  lemma PackedField(fmt: F32Format, w: seq<Word>, layout: seq<Field>, d: TableData, rows: nat, i: nat, k: nat)
    requires Packable(layout, rows) && RowsConform(layout, d, rows) && Packs(fmt, w, layout, d, rows, rows)
    requires i < rows && k < |layout|
    ensures !layout[k].ty.Mat3? && FieldFits(layout, d, i, k) && End(layout, RowBase(layout, i), k + 1) <= 4 * |w| &&
            FieldWords(w, layout, RowBase(layout, i), k) == FieldImage(fmt, layout, d, i, k)
  {
    FieldReady(layout, d, rows, i, k);
  }

  /** Two buffers whose words for field k agree agree on each word of the field. */
  lemma SameFieldWord(w1: seq<Word>, w2: seq<Word>, layout: seq<Field>, base: nat, k: nat, idx: nat)
    requires k < |layout| && End(layout, base, k + 1) <= 4 * |w1| && End(layout, base, k + 1) <= 4 * |w2|
    requires FieldWords(w1, layout, base, k) == FieldWords(w2, layout, base, k)
    requires Start(layout, base, k) / 4 <= idx < End(layout, base, k + 1) / 4
    ensures idx < |w1| && idx < |w2| && w1[idx] == w2[idx]
  {
    FieldWordRange(layout, base, k);
    var lo := Start(layout, base, k) / 4;
    assert w1[idx] == FieldWords(w1, layout, base, k)[idx - lo];
    assert w2[idx] == FieldWords(w2, layout, base, k)[idx - lo];
  }

  /** The description leaves no word open: two buffers that both hold the packed rows are equal. */
  lemma PackedUnique(fmt: F32Format, w1: seq<Word>, w2: seq<Word>, layout: seq<Field>, d: TableData, rows: nat)
    requires Packable(layout, rows) && RowsConform(layout, d, rows)
    requires Packs(fmt, w1, layout, d, rows, rows) && Packs(fmt, w2, layout, d, rows, rows)
    ensures w1 == w2
  {
    forall idx | 0 <= idx < |w1|
      ensures w1[idx] == w2[idx]
    {
      if RowsCover(layout, rows, idx) {
        RowsCoverSome(layout, rows, idx);
        var i :| 0 <= i < rows && Covered(layout, RowBase(layout, i), |layout|, idx);
        CoveredSome(layout, RowBase(layout, i), |layout|, idx);
        var k :| 0 <= k < |layout| &&
          Start(layout, RowBase(layout, i), k) / 4 <= idx < End(layout, RowBase(layout, i), k + 1) / 4;
        PackedField(fmt, w1, layout, d, rows, i, k);
        PackedField(fmt, w2, layout, d, rows, i, k);
        SameFieldWord(w1, w2, layout, RowBase(layout, i), k, idx);
      }
    }
  }

  /**
    `createContiguousArray`: a buffer of `rows * stride` bytes with row i
    written at byte `i * stride`. With at least one row and a mat3x3 field
    it fails with "not implemented", the error of the first row's write.
   */
  method CreateContiguousArray(fmt: F32Format, rows: nat, data: TableData, layout: seq<Field>)
    returns (r: Result<array<Word>>)
    requires RowsConform(layout, data, rows)
    ensures r.Err? <==> !Packable(layout, rows)
    ensures r.Err? ==> r.error == NotImplemented
    ensures r.Ok? ==> fresh(r.value) && r.value.Length == rows * Stride(layout) / 4 &&
                      Packs(fmt, r.value[..], layout, data, rows, rows)
  {
    var stride := ComputeStride(layout);
    RowBaseIs(layout, rows);
    var buffer := new Word[rows * stride / 4](_ => 0);
    var failure := WriteRows(fmt, buffer, rows, data, layout, stride);
    if failure.Some? {
      return Err(failure.value);
    }
    return Ok(buffer);
  }

  /** The row loop of `createContiguousArray`: write rows 0, 1, ... at multiples of the stride. */
  method WriteRows(fmt: F32Format, buffer: array<Word>, rows: nat, data: TableData, layout: seq<Field>, stride: nat)
    returns (failure: Option<Error>)
    requires RowsConform(layout, data, rows) && stride == Stride(layout)
    requires buffer[..] == Blank(BufferWords(layout, rows))
    modifies buffer
    ensures failure.Some? <==> !Packable(layout, rows)
    ensures failure.Some? ==> failure.value == NotImplemented
    ensures failure.None? ==> Packs(fmt, buffer[..], layout, data, rows, rows)
  {
    assert Packs(fmt, buffer[..], layout, data, rows, 0);
    for i := 0 to rows
      invariant Packable(layout, i)
      invariant Packs(fmt, buffer[..], layout, data, rows, i)
    {
      MulLeq(0, i, stride);
      var r := WriteRow(fmt, buffer, rows, data, layout, i, i * stride);
      if r.Err? {
        return Some(r.error);
      }
    }
    return None;
  }

  /** One pass of the row loop: write row i at byte `i * stride`. */
  method WriteRow(fmt: F32Format, buffer: array<Word>, rows: nat, data: TableData, layout: seq<Field>,
                  i: nat, writeTo: nat) returns (r: Result<nat>)
    requires i < rows && Packable(layout, i) && RowsConform(layout, data, rows)
    requires writeTo == i * Stride(layout)
    requires Packs(fmt, buffer[..], layout, data, rows, i)
    modifies buffer
    ensures r.Err? <==> !Packable(layout, i + 1)
    ensures r.Err? ==> r.error == NotImplemented
    ensures r.Ok? ==> Packs(fmt, buffer[..], layout, data, rows, i + 1)
  {
    RowBaseIs(layout, i);
    RowFits(layout, rows, i);
    EndMonotone(layout, writeTo, UntilMat3(layout), |layout|);
    assert Conforms(layout, data, i, UntilMat3(layout));
    ghost var prev := buffer[..];
    r := WriteStructuredData(fmt, buffer, layout, data, writeTo, i);
    if r.Ok? {
      RowStepWritten(fmt, prev, buffer[..], layout, data, rows, i);
      RowStepZeroed(fmt, prev, buffer[..], layout, data, rows, i);
    }
  }

  /** `createContiguousArrayFromRows`: the same, over a table given as its rows. */
  method CreateContiguousArrayFromRows(fmt: F32Format, rows: seq<map<string, Value>>, layout: seq<Field>)
    returns (r: Result<array<Word>>)
    requires RowsConform(layout, Rows(rows), |rows|)
    ensures r.Err? <==> !Packable(layout, |rows|)
    ensures r.Err? ==> r.error == NotImplemented
    ensures r.Ok? ==> fresh(r.value) && r.value.Length == |rows| * Stride(layout) / 4 &&
                      Packs(fmt, r.value[..], layout, Rows(rows), |rows|, |rows|)
  {
    r := CreateContiguousArray(fmt, |rows|, Rows(rows), layout);
  }
}

=== FILE: filtergroups.dfy ===
/**
  `filterGroups` of common/data/csv.js: keep the groups of a grouped frame
  whose metadata satisfies a predicate. Without `uniformSize` the kept
  groups' rows are copied as they are; with it every kept group is laid out
  over one common run of integer sort steps, from the least `min` to the
  greatest `max` of the kept groups, and a step a group lacks becomes a
  padding row.

  The source copies cell by cell into preallocated column arrays. The model
  first lists, row by row, where each output row comes from (a source row,
  or a padding row) and then fills every column from that list; the cells
  written are the same.
 */
module GroupFilter {
  import opened Outcomes
  import opened Words
  import opened Frames
  import opened Relational
  import opened Grouping

  // ---- the groups the predicate keeps -------------------------------------

  /** What the copying code relies on: every group value has metadata whose rows lie in the frame. */
  ghost predicate Addressed(g: GroupedFrame) {
    Valid(g.frame)
    && forall k :: 0 <= k < |g.groupValues| ==>
      g.groupValues[k] in g.groups && End(g.groups[g.groupValues[k]]) <= g.frame.size
  }

  predicate Distinct(values: seq<Cell>) {
    forall i, j :: 0 <= i < j < |values| ==> values[i] != values[j]
  }

  /** `groups.get(groupValues[i])`. */
  function MetaOf(g: GroupedFrame, i: nat): GroupMeta
    requires Addressed(g) && i < |g.groupValues|
  {
    g.groups[g.groupValues[i]]
  }

  /** No group is empty. */
  ghost predicate Occupied(g: GroupedFrame)
    requires Addressed(g)
  {
    forall i :: 0 <= i < |g.groupValues| ==> g.groups[g.groupValues[i]].count > 0
  }

  /** The parts of `Tiled` the copying code relies on. */
  lemma TiledAddressed(g: GroupedFrame)
    requires Valid(g.frame) && Tiled(g)
    ensures Addressed(g) && Distinct(g.groupValues) && Occupied(g)
  {
    forall k | 0 <= k < |g.groupValues|
      ensures g.groupValues[k] in g.groups && End(g.groups[g.groupValues[k]]) <= g.frame.size
    {
      assert g.groupValues[k] in g.groupValues;
    }
  }

  predicate Below(kept: seq<nat>, n: nat) {
    forall k :: 0 <= k < |kept| ==> kept[k] < n
  }

  predicate Increasing(kept: seq<nat>) {
    forall k, l :: 0 <= k < l < |kept| ==> kept[k] < kept[l]
  }

  /**
    `retainedGroups`, as positions in `groupValues`: exactly the groups among
    the first n whose metadata satisfies p, in their original order.
   */
  function Kept(g: GroupedFrame, p: GroupMeta -> bool, n: nat): (r: seq<nat>)
    requires Addressed(g) && n <= |g.groupValues|
    ensures Below(r, n) && Increasing(r)
    ensures forall k :: 0 <= k < |r| ==> p(MetaOf(g, r[k]))
    ensures forall i :: 0 <= i < n && p(MetaOf(g, i)) ==> i in r
  {
    if n == 0 then []
    else if p(MetaOf(g, n - 1)) then Kept(g, p, n - 1) + [n - 1]
    else Kept(g, p, n - 1)
  }

  /** The loop that collects `retainedGroups`. */
  method RetainGroups(g: GroupedFrame, p: GroupMeta -> bool) returns (kept: seq<nat>)
    requires Addressed(g)
    ensures kept == Kept(g, p, |g.groupValues|)
  {
    kept := [];
    for i := 0 to |g.groupValues|
      invariant kept == Kept(g, p, i)
    {
      var metadata := g.groups[g.groupValues[i]];
      if p(metadata) {
        kept := kept + [i];
      }
    }
  }

  /** The group values of the kept positions: `newGroupValues`. */
  function KeptValues(g: GroupedFrame, kept: seq<nat>): (r: seq<Cell>)
    requires Below(kept, |g.groupValues|)
    ensures |r| == |kept|
  {
    seq(|kept|, k requires 0 <= k < |kept| => g.groupValues[kept[k]])
  }

  /** Values at increasing positions of a list without repeats are themselves distinct. */
  lemma KeptDistinct(g: GroupedFrame, kept: seq<nat>)
    requires Distinct(g.groupValues) && Below(kept, |g.groupValues|) && Increasing(kept)
    ensures Distinct(KeptValues(g, kept))
  {
  }

  /** The `Map` built by `set(values[k], metas[k])` for k below n, in order. */
  function MetaTable(values: seq<Cell>, metas: seq<GroupMeta>, n: nat): map<Cell, GroupMeta>
    requires n <= |values| == |metas|
  {
    if n == 0 then map[]
    else MetaTable(values, metas, n - 1)[values[n - 1] := metas[n - 1]]
  }

  /** The table's keys are the values it was given. */
  lemma {:induction false} MetaTableKeys(values: seq<Cell>, metas: seq<GroupMeta>, n: nat)
    requires n <= |values| == |metas|
    ensures forall v :: v in MetaTable(values, metas, n) <==> v in values[..n]
  {
    if n > 0 {
      MetaTableKeys(values, metas, n - 1);
      assert values[..n] == values[..n - 1] + [values[n - 1]];
    }
  }

  /** With distinct keys, each key finds its own metadata. */
  lemma {:induction false} MetaTableAt(values: seq<Cell>, metas: seq<GroupMeta>, n: nat, k: nat)
    requires n <= |values| == |metas| && k < n && Distinct(values)
    ensures values[k] in MetaTable(values, metas, n) && MetaTable(values, metas, n)[values[k]] == metas[k]
  {
    if k < n - 1 {
      MetaTableAt(values, metas, n - 1, k);
    }
  }

  // ---- without uniformSize: copy the kept groups ---------------------------

  /** `sum + g.metadata.count` over the first n kept groups. */
  function Total(g: GroupedFrame, kept: seq<nat>, n: nat): nat
    requires Addressed(g) && Below(kept, |g.groupValues|) && n <= |kept|
  {
    if n == 0 then 0 else Total(g, kept, n - 1) + MetaOf(g, kept[n - 1]).count
  }

  function Span(offset: nat, count: nat): (r: seq<nat>)
    ensures |r| == count && forall t :: 0 <= t < count ==> r[t] == offset + t
  {
    seq(count, t requires 0 <= t < count => offset + t)
  }

  /**
    The source row of each output row: the row ranges of the first n kept
    groups, one after another. There are `Total` of them, all in the frame.
   */
  function CopyRows(g: GroupedFrame, kept: seq<nat>, n: nat): (r: seq<nat>)
    requires Addressed(g) && Below(kept, |g.groupValues|) && n <= |kept|
    ensures |r| == Total(g, kept, n)
    ensures forall i :: 0 <= i < |r| ==> r[i] < g.frame.size
  {
    if n == 0 then []
    else
      var m := MetaOf(g, kept[n - 1]);
      CopyRows(g, kept, n - 1) + Span(m.offset, m.count)
  }

  /** The new metadata: the old count, min and max at the running total of the counts before. */
  function CompactMetas(g: GroupedFrame, kept: seq<nat>): (r: seq<GroupMeta>)
    requires Addressed(g) && Below(kept, |g.groupValues|)
    ensures |r| == |kept|
  {
    seq(|kept|, k requires 0 <= k < |kept| =>
      var m := MetaOf(g, kept[k]);
      GroupMeta(Total(g, kept, k), m.count, m.min, m.max))
  }

  /** The rows of the kept groups, copied in order. */
  function CompactFrame(g: GroupedFrame, kept: seq<nat>): Frame
    requires Addressed(g) && Below(kept, |g.groupValues|)
  {
    var rows := CopyRows(g, kept, |kept|);
    Frame(ReindexCols(g.frame.cols, rows, g.frame.size), |rows|)
  }

  /** The grouped frame that copies the kept groups, in order. */
  function CompactOf(g: GroupedFrame, kept: seq<nat>): GroupedFrame
    requires Addressed(g) && Below(kept, |g.groupValues|)
  {
    GroupedFrame(CompactFrame(g, kept),
                 MetaTable(KeptValues(g, kept), CompactMetas(g, kept), |kept|), KeptValues(g, kept),
                 g.sortBy, g.groupBy)
  }

  /** `for (i < metadata.count) … outIdx++`: the row numbers one group contributes. */
  method AppendSpan(rows: seq<nat>, offset: nat, count: nat) returns (r: seq<nat>)
    ensures r == rows + Span(offset, count)
  {
    r := rows;
    for i := 0 to count
      invariant r == rows + Span(offset, i)
    {
      r := r + [offset + i];
    }
  }

  /** The non-uniform branch: copy each kept group's rows and record its new offset. */
  method CopyGroups(g: GroupedFrame, kept: seq<nat>) returns (c: GroupedFrame)
    requires Addressed(g) && Below(kept, |g.groupValues|)
    ensures c == CompactOf(g, kept)
  {
    var rows: seq<nat> := [];
    var newGroups: map<Cell, GroupMeta> := map[];
    var newGroupValues: seq<Cell> := [];
    ghost var values := KeptValues(g, kept);
    for j := 0 to |kept|
      invariant rows == CopyRows(g, kept, j)
      invariant newGroupValues == values[..j]
      invariant newGroups == MetaTable(values, CompactMetas(g, kept), j)
    {
      var groupValue := g.groupValues[kept[j]];
      var metadata := g.groups[groupValue];
      var newOffset := |rows|;
      rows := AppendSpan(rows, metadata.offset, metadata.count);
      newGroups := newGroups[groupValue := GroupMeta(newOffset, metadata.count, metadata.min, metadata.max)];
      newGroupValues := newGroupValues + [groupValue];
      assert values[..j + 1] == values[..j] + [values[j]];
    }
    assert values[..|kept|] == values;
    var cols := GatherColumns(g.frame.cols, rows, g.frame.size);
    c := GroupedFrame(Frame(cols, |rows|), newGroups, newGroupValues, g.sortBy, g.groupBy);
  }

  // ---- what the copy keeps ------------------------------------------------

  /** The running total never decreases. */
  lemma {:induction false} TotalMono(g: GroupedFrame, kept: seq<nat>, k: nat, n: nat)
    requires Addressed(g) && Below(kept, |g.groupValues|) && k <= n <= |kept|
    ensures Total(g, kept, k) <= Total(g, kept, n)
    decreases n - k
  {
    if k < n {
      TotalMono(g, kept, k + 1, n);
    }
  }

  /** Output row `Total(k) + t` is row t of the k-th kept group. */
  lemma {:induction false} CopyRowsAt(g: GroupedFrame, kept: seq<nat>, n: nat, k: nat, t: nat)
    requires Addressed(g) && Below(kept, |g.groupValues|) && k < n <= |kept| && t < MetaOf(g, kept[k]).count
    ensures Total(g, kept, k) + t < |CopyRows(g, kept, n)|
    ensures CopyRows(g, kept, n)[Total(g, kept, k) + t] == MetaOf(g, kept[k]).offset + t
  {
    if k < n - 1 {
      CopyRowsAt(g, kept, n - 1, k, t);
    }
  }

  /** What the copy needs of the grouping it copies. */
  ghost predicate Copyable(g: GroupedFrame, kept: seq<nat>) {
    Addressed(g) && Distinct(g.groupValues) && Occupied(g) && Below(kept, |g.groupValues|) && Increasing(kept)
  }

  /** The copy has one row per copied row and one group per kept group. */
  ghost predicate CopySized(c: GroupedFrame, g: GroupedFrame, kept: seq<nat>)
    requires Addressed(g) && Below(kept, |g.groupValues|)
  {
    c.frame.size == Total(g, kept, |kept|) && |c.groupValues| == |kept|
  }

  /** ... and the columns of g. */
  ghost predicate CopyShape(c: GroupedFrame, g: GroupedFrame, kept: seq<nat>)
    requires Addressed(g) && Below(kept, |g.groupValues|)
  {
    Valid(c.frame) && Names(c.frame.cols) == Names(g.frame.cols) && CopySized(c, g, kept)
  }

  /** The copy's map holds exactly its listed values. */
  ghost predicate CopyKeys(c: GroupedFrame) {
    forall v :: v in c.groups <==> v in c.groupValues
  }

  /**
    The k-th copied group is the k-th kept group, moved to the running total
    of the counts before it.
   */
  ghost predicate CopyMetas(c: GroupedFrame, g: GroupedFrame, kept: seq<nat>)
    requires Addressed(g) && Below(kept, |g.groupValues|) && |c.groupValues| == |kept|
  {
    forall k {:trigger c.groupValues[k]} :: 0 <= k < |kept| ==>
      c.groupValues[k] == g.groupValues[kept[k]] && c.groupValues[k] in c.groups
      && c.groups[c.groupValues[k]] == GroupMeta(Total(g, kept, k), MetaOf(g, kept[k]).count, MetaOf(g, kept[k]).min, MetaOf(g, kept[k]).max)
  }

  /** Each row of the copy is the source row `CopyRows` names. */
  ghost predicate CopyCells(c: GroupedFrame, g: GroupedFrame, kept: seq<nat>)
    requires Addressed(g) && Below(kept, |g.groupValues|) && CopyShape(c, g, kept)
  {
    var rows := CopyRows(g, kept, |kept|);
    forall name, i {:trigger CellAt(c.frame, name, i)} :: name in Names(g.frame.cols) && 0 <= i < |rows| ==>
      CellAt(c.frame, name, i) == CellAt(g.frame, name, rows[i])
  }

  /** What c is when it copies the kept groups of g. */
  ghost predicate CopyFacts(c: GroupedFrame, g: GroupedFrame, kept: seq<nat>)
    requires Copyable(g, kept)
  {
    CopyShape(c, g, kept) && CopyKeys(c) && CopyMetas(c, g, kept) && CopyCells(c, g, kept)
  }

  /** `CompactOf` is such a copy. */
  lemma CompactFacts(g: GroupedFrame, kept: seq<nat>)
    requires Copyable(g, kept)
    ensures CopyFacts(CompactOf(g, kept), g, kept)
  {
    var c := CompactOf(g, kept);
    var rows := CopyRows(g, kept, |kept|);
    var values := KeptValues(g, kept);
    ReindexColsValid(g.frame.cols, rows, g.frame.size);
    MetaTableKeys(values, CompactMetas(g, kept), |kept|);
    assert values[..|kept|] == values;
    KeptDistinct(g, kept);
    forall k | 0 <= k < |kept|
      ensures c.groupValues[k] in c.groups && c.groups[c.groupValues[k]] == CompactMetas(g, kept)[k]
    {
      MetaTableAt(values, CompactMetas(g, kept), |kept|, k);
    }
    forall name, i | name in Names(g.frame.cols) && 0 <= i < |rows|
      ensures CellAt(c.frame, name, i) == CellAt(g.frame, name, rows[i])
    {
      ReindexCellAt(g.frame, rows, name, i);
    }
  }

  /** Where the k-th copied group sits: right after the groups copied before it. */
  lemma CopyGroupAt(c: GroupedFrame, g: GroupedFrame, kept: seq<nat>, k: nat)
    requires Addressed(g) && Occupied(g) && Below(kept, |g.groupValues|) && CopySized(c, g, kept) && CopyMetas(c, g, kept) && k < |kept|
    ensures c.groupValues[k] in c.groups
    ensures c.groups[c.groupValues[k]].offset == Total(g, kept, k)
    ensures End(c.groups[c.groupValues[k]]) == Total(g, kept, k + 1) <= c.frame.size
    ensures c.groups[c.groupValues[k]].count > 0
  {
    TotalMono(g, kept, k + 1, |kept|);
    assert c.groups[c.groupValues[k]].offset == Total(g, kept, k);
    assert Total(g, kept, k + 1) == Total(g, kept, k) + MetaOf(g, kept[k]).count;
    assert g.groups[g.groupValues[kept[k]]].count > 0;
  }

  /** The copy's groups lie in its frame and none is empty. */
  lemma CopyAddressed(c: GroupedFrame, g: GroupedFrame, kept: seq<nat>)
    requires Addressed(g) && Occupied(g) && Below(kept, |g.groupValues|) && CopyShape(c, g, kept) && CopyMetas(c, g, kept)
    ensures Addressed(c) && Occupied(c)
  {
    forall k | 0 <= k < |c.groupValues|
      ensures c.groupValues[k] in c.groups && End(c.groups[c.groupValues[k]]) <= c.frame.size
      ensures c.groups[c.groupValues[k]].count > 0
    {
      CopyGroupAt(c, g, kept, k);
    }
  }

  /** The copy is again a well-formed grouping: its groups tile its rows in the new order. */
  lemma CopyTiled(c: GroupedFrame, g: GroupedFrame, kept: seq<nat>)
    requires Copyable(g, kept) && CopyShape(c, g, kept) && CopyKeys(c) && CopyMetas(c, g, kept)
    ensures Tiled(c)
  {
    CopyDistinct(c, g, kept);
    CopyLayout(c, g, kept);
    CopyAdjacent(c, g, kept);
  }

  /** The copied group values keep their order, so they stay distinct. */
  lemma CopyDistinct(c: GroupedFrame, g: GroupedFrame, kept: seq<nat>)
    requires Copyable(g, kept) && CopyShape(c, g, kept) && CopyMetas(c, g, kept)
    ensures forall i, j :: 0 <= i < j < |c.groupValues| ==> c.groupValues[i] != c.groupValues[j]
  {
    KeptDistinct(g, kept);
    assert forall k :: 0 <= k < |kept| ==> c.groupValues[k] == KeptValues(g, kept)[k];
  }

  /** The copied groups start at row 0, end at the last row, and none is empty. */
  lemma CopyLayout(c: GroupedFrame, g: GroupedFrame, kept: seq<nat>)
    requires Addressed(g) && Occupied(g) && Below(kept, |g.groupValues|) && CopySized(c, g, kept) && CopyMetas(c, g, kept)
    ensures c.groupValues == [] ==> c.frame.size == 0
    ensures c.groupValues != [] ==>
      c.groups[c.groupValues[0]].offset == 0 && End(c.groups[c.groupValues[|c.groupValues| - 1]]) == c.frame.size
    ensures forall k :: 0 <= k < |c.groupValues| ==>
      c.groups[c.groupValues[k]].count > 0 && End(c.groups[c.groupValues[k]]) <= c.frame.size
  {
    forall k | 0 <= k < |c.groupValues|
      ensures c.groups[c.groupValues[k]].count > 0 && End(c.groups[c.groupValues[k]]) <= c.frame.size
    {
      CopyGroupAt(c, g, kept, k);
    }
    if kept != [] {
      CopyGroupAt(c, g, kept, 0);
      CopyGroupAt(c, g, kept, |kept| - 1);
    }
  }

  /** Each copied group starts where the one before it ends. */
  lemma CopyAdjacent(c: GroupedFrame, g: GroupedFrame, kept: seq<nat>)
    requires Addressed(g) && Occupied(g) && Below(kept, |g.groupValues|) && CopySized(c, g, kept) && CopyMetas(c, g, kept)
    ensures forall k, l :: 0 <= k < |c.groupValues| && l == k + 1 && l < |c.groupValues| ==>
      c.groups[c.groupValues[l]].offset == End(c.groups[c.groupValues[k]])
  {
    forall k, l | 0 <= k < |c.groupValues| && l == k + 1 && l < |c.groupValues|
      ensures c.groups[c.groupValues[l]].offset == End(c.groups[c.groupValues[k]])
    {
      CopyGroupAt(c, g, kept, k);
      CopyGroupAt(c, g, kept, l);
    }
  }

  /** Row i of the k-th copied group is row `offset + (i - Total(k))` of the k-th kept group. */
  lemma CopyRowIn(c: GroupedFrame, g: GroupedFrame, kept: seq<nat>, name: string, k: nat, i: nat)
    requires Addressed(g) && Below(kept, |g.groupValues|) && CopyShape(c, g, kept) && CopyCells(c, g, kept)
    requires k < |kept| && name in Names(g.frame.cols)
    requires Total(g, kept, k) <= i < Total(g, kept, k) + MetaOf(g, kept[k]).count
    ensures var m := MetaOf(g, kept[k]);
      name in Names(c.frame.cols) && i < c.frame.size
      && m.offset <= m.offset + (i - Total(g, kept, k)) < End(m)
      && CellAt(c.frame, name, i) == CellAt(g.frame, name, m.offset + (i - Total(g, kept, k)))
  {
    var m := MetaOf(g, kept[k]);
    var rows := CopyRows(g, kept, |kept|);
    CopyRowsAt(g, kept, |kept|, k, i - Total(g, kept, k));
    assert rows[i] == m.offset + (i - Total(g, kept, k));
    assert CellAt(c.frame, name, i) == CellAt(g.frame, name, rows[i]);
  }

  /** `GroupRows` without its preconditions: every row of group k carries `groupValues[k]`. */
  ghost predicate RowsCarry(g: GroupedFrame, groupBy: string)
    requires Addressed(g) && groupBy in Names(g.frame.cols)
  {
    forall k, i :: 0 <= k < |g.groupValues| && g.groups[g.groupValues[k]].offset <= i < End(g.groups[g.groupValues[k]]) ==>
      CellAt(g.frame, groupBy, i) == g.groupValues[k]
  }

  /** `GroupBounds` without its preconditions. */
  ghost predicate RowsBounded(g: GroupedFrame, sortBy: string)
    requires Addressed(g) && Occupied(g) && sortBy in Names(g.frame.cols)
  {
    forall k :: 0 <= k < |g.groupValues| ==>
      g.groups[g.groupValues[k]].min == CellAt(g.frame, sortBy, g.groups[g.groupValues[k]].offset)
      && g.groups[g.groupValues[k]].max == CellAt(g.frame, sortBy, End(g.groups[g.groupValues[k]]) - 1)
  }

  /** `GroupAscending` without its preconditions. */
  ghost predicate RowsAscending(g: GroupedFrame, sortBy: string)
    requires Addressed(g) && sortBy in Names(g.frame.cols)
  {
    forall k, i, j :: 0 <= k < |g.groupValues| && g.groups[g.groupValues[k]].offset <= i < j < End(g.groups[g.groupValues[k]]) ==>
      !CellLess(CellAt(g.frame, sortBy, j), CellAt(g.frame, sortBy, i))
  }

  ghost predicate RowsLabelled(g: GroupedFrame, groupBy: string, sortBy: string)
    requires Addressed(g) && Occupied(g) && groupBy in Names(g.frame.cols) && sortBy in Names(g.frame.cols)
  {
    RowsCarry(g, groupBy) && RowsBounded(g, sortBy) && RowsAscending(g, sortBy)
  }

  /** `Labelled` read back as facts about the rows, without its preconditions. */
  lemma LabelledRows(g: GroupedFrame, groupBy: string, sortBy: string)
    requires Labelled(g, groupBy, sortBy)
    ensures Addressed(g) && Distinct(g.groupValues) && Occupied(g)
    ensures groupBy in Names(g.frame.cols) && sortBy in Names(g.frame.cols) && RowsLabelled(g, groupBy, sortBy)
  {
    TiledAddressed(g);
    LabelledCarry(g, groupBy, sortBy);
    LabelledBounded(g, groupBy, sortBy);
    LabelledAscending(g, groupBy, sortBy);
  }

  lemma LabelledCarry(g: GroupedFrame, groupBy: string, sortBy: string)
    requires Columns(g, groupBy, sortBy) && Addressed(g) && GroupRows(g, groupBy, sortBy)
    ensures RowsCarry(g, groupBy)
  {
  }

  lemma LabelledBounded(g: GroupedFrame, groupBy: string, sortBy: string)
    requires Columns(g, groupBy, sortBy) && Addressed(g) && Occupied(g) && GroupBounds(g, groupBy, sortBy)
    ensures RowsBounded(g, sortBy)
  {
  }

  lemma LabelledAscending(g: GroupedFrame, groupBy: string, sortBy: string)
    requires Columns(g, groupBy, sortBy) && Addressed(g) && GroupAscending(g, groupBy, sortBy)
    ensures RowsAscending(g, sortBy)
  {
  }

  /** The row facts and a tiling give back `Labelled`. */
  lemma RowsLabelledBack(g: GroupedFrame, groupBy: string, sortBy: string)
    requires Addressed(g) && Occupied(g) && Tiled(g) && groupBy in Names(g.frame.cols) && sortBy in Names(g.frame.cols)
    requires RowsLabelled(g, groupBy, sortBy)
    ensures Labelled(g, groupBy, sortBy)
  {
    assert Columns(g, groupBy, sortBy);
    CarryLabelled(g, groupBy, sortBy);
    BoundedLabelled(g, groupBy, sortBy);
    AscendingLabelled(g, groupBy, sortBy);
  }

  lemma CarryLabelled(g: GroupedFrame, groupBy: string, sortBy: string)
    requires Columns(g, groupBy, sortBy) && Addressed(g) && RowsCarry(g, groupBy)
    ensures GroupRows(g, groupBy, sortBy)
  {
  }

  lemma BoundedLabelled(g: GroupedFrame, groupBy: string, sortBy: string)
    requires Columns(g, groupBy, sortBy) && Addressed(g) && Occupied(g) && RowsBounded(g, sortBy)
    ensures GroupBounds(g, groupBy, sortBy)
  {
  }

  lemma AscendingLabelled(g: GroupedFrame, groupBy: string, sortBy: string)
    requires Columns(g, groupBy, sortBy) && Addressed(g) && RowsAscending(g, sortBy)
    ensures GroupAscending(g, groupBy, sortBy)
  {
  }

  /** Every copied row carries its group's value. */
  lemma CopyCarry(c: GroupedFrame, g: GroupedFrame, kept: seq<nat>, groupBy: string)
    requires Addressed(g) && Occupied(g) && Below(kept, |g.groupValues|) && CopyShape(c, g, kept) && CopyMetas(c, g, kept) && CopyCells(c, g, kept)
    requires Addressed(c)
    requires groupBy in Names(g.frame.cols) && RowsCarry(g, groupBy)
    ensures groupBy in Names(c.frame.cols) && RowsCarry(c, groupBy)
  {
    forall k, i | 0 <= k < |c.groupValues| && c.groups[c.groupValues[k]].offset <= i < End(c.groups[c.groupValues[k]])
      ensures CellAt(c.frame, groupBy, i) == c.groupValues[k]
    {
      CopyGroupAt(c, g, kept, k);
      CopyRowIn(c, g, kept, groupBy, k, i);
      var m := MetaOf(g, kept[k]);
      assert CellAt(g.frame, groupBy, m.offset + (i - Total(g, kept, k))) == g.groupValues[kept[k]];
    }
  }

  /** The k-th copied group's first and last rows still hold its `min` and `max`. */
  lemma CopyBoundedAt(c: GroupedFrame, g: GroupedFrame, kept: seq<nat>, sortBy: string, k: nat)
    requires Addressed(g) && Occupied(g) && Below(kept, |g.groupValues|) && CopyShape(c, g, kept)
    requires CopyMetas(c, g, kept) && CopyCells(c, g, kept) && k < |kept|
    requires sortBy in Names(g.frame.cols) && RowsBounded(g, sortBy)
    ensures c.groupValues[k] in c.groups && 0 < c.groups[c.groupValues[k]].count
    ensures End(c.groups[c.groupValues[k]]) <= c.frame.size && sortBy in Names(c.frame.cols)
    ensures c.groups[c.groupValues[k]].min == CellAt(c.frame, sortBy, c.groups[c.groupValues[k]].offset)
    ensures c.groups[c.groupValues[k]].max == CellAt(c.frame, sortBy, End(c.groups[c.groupValues[k]]) - 1)
  {
    var m := MetaOf(g, kept[k]);
    var o := Total(g, kept, k);
    CopyGroupAt(c, g, kept, k);
    assert c.groups[c.groupValues[k]] == GroupMeta(o, m.count, m.min, m.max);
    CopyRowIn(c, g, kept, sortBy, k, o);
    CopyRowIn(c, g, kept, sortBy, k, o + m.count - 1);
    assert m.min == CellAt(g.frame, sortBy, m.offset);
    assert m.max == CellAt(g.frame, sortBy, End(m) - 1);
  }

  /** Each copied group's first and last rows still hold its `min` and `max`. */
  lemma CopyBounded(c: GroupedFrame, g: GroupedFrame, kept: seq<nat>, sortBy: string)
    requires Addressed(g) && Occupied(g) && Below(kept, |g.groupValues|) && CopyShape(c, g, kept)
    requires CopyMetas(c, g, kept) && CopyCells(c, g, kept)
    requires Addressed(c) && Occupied(c)
    requires sortBy in Names(g.frame.cols) && RowsBounded(g, sortBy)
    ensures sortBy in Names(c.frame.cols) && RowsBounded(c, sortBy)
  {
    forall k | 0 <= k < |c.groupValues|
      ensures c.groups[c.groupValues[k]].min == CellAt(c.frame, sortBy, c.groups[c.groupValues[k]].offset)
      ensures c.groups[c.groupValues[k]].max == CellAt(c.frame, sortBy, End(c.groups[c.groupValues[k]]) - 1)
    {
      CopyBoundedAt(c, g, kept, sortBy, k);
    }
  }

  /** Within each copied group the sort values still never decrease. */
  lemma CopyAscending(c: GroupedFrame, g: GroupedFrame, kept: seq<nat>, sortBy: string)
    requires Addressed(g) && Occupied(g) && Below(kept, |g.groupValues|) && CopyShape(c, g, kept) && CopyMetas(c, g, kept) && CopyCells(c, g, kept)
    requires Addressed(c)
    requires sortBy in Names(g.frame.cols) && RowsAscending(g, sortBy)
    ensures sortBy in Names(c.frame.cols) && RowsAscending(c, sortBy)
  {
    forall k, i, j | 0 <= k < |c.groupValues| && c.groups[c.groupValues[k]].offset <= i < j < End(c.groups[c.groupValues[k]])
      ensures !CellLess(CellAt(c.frame, sortBy, j), CellAt(c.frame, sortBy, i))
    {
      CopyGroupAt(c, g, kept, k);
      CopyRowIn(c, g, kept, sortBy, k, i);
      CopyRowIn(c, g, kept, sortBy, k, j);
      var m := MetaOf(g, kept[k]);
      var o := Total(g, kept, k);
      assert m.offset + (i - o) < m.offset + (j - o);
    }
  }

  /**
    The copy keeps the labelling: every copied row still carries its group's
    value, and each group's `min`, `max` and ascending sort order survive
    because its rows are copied in order.
   */
  lemma CompactOfLabelled(g: GroupedFrame, kept: seq<nat>, groupBy: string, sortBy: string)
    requires Labelled(g, groupBy, sortBy) && Addressed(g) && Below(kept, |g.groupValues|) && Increasing(kept)
    ensures Labelled(CompactOf(g, kept), groupBy, sortBy)
  {
    LabelledRows(g, groupBy, sortBy);
    var c := CompactOf(g, kept);
    CompactFacts(g, kept);
    CopyTiled(c, g, kept);
    CopyAddressed(c, g, kept);
    CopyCarry(c, g, kept, groupBy);
    CopyBounded(c, g, kept, sortBy);
    CopyAscending(c, g, kept, sortBy);
    RowsLabelledBack(c, groupBy, sortBy);
  }

  // ---- the copy, from the predicate ----------------------------------------

  /** The non-uniform result: the groups whose metadata satisfies p, copied in order. */
  function Compact(g: GroupedFrame, p: GroupMeta -> bool): GroupedFrame
    requires Addressed(g)
  {
    CompactOf(g, Kept(g, p, |g.groupValues|))
  }

  /** Reference filter: the group values among the first n whose metadata satisfies p. */
  function Select(g: GroupedFrame, p: GroupMeta -> bool, n: nat): seq<Cell>
    requires Addressed(g) && n <= |g.groupValues|
  {
    if n == 0 then []
    else if p(g.groups[g.groupValues[n - 1]]) then Select(g, p, n - 1) + [g.groupValues[n - 1]]
    else Select(g, p, n - 1)
  }

  lemma {:induction false} KeptSelect(g: GroupedFrame, p: GroupMeta -> bool, n: nat)
    requires Addressed(g) && n <= |g.groupValues|
    ensures KeptValues(g, Kept(g, p, n)) == Select(g, p, n)
  {
    if n > 0 {
      KeptSelect(g, p, n - 1);
      var prev := Kept(g, p, n - 1);
      if p(MetaOf(g, n - 1)) {
        assert KeptValues(g, prev + [n - 1]) == KeptValues(g, prev) + [g.groupValues[n - 1]];
      }
    }
  }

  /** The copied group values are the original ones that pass p, in their original order. */
  lemma CompactValues(g: GroupedFrame, p: GroupMeta -> bool, r: GroupedFrame)
    requires Addressed(g) && r == Compact(g, p)
    ensures r.groupValues == Select(g, p, |g.groupValues|)
  {
    KeptSelect(g, p, |g.groupValues|);
  }

  /** A position of a value in a list that holds it. */
  lemma PositionOf(values: seq<Cell>, v: Cell) returns (k: nat)
    requires v in values
    ensures k < |values| && values[k] == v
  {
    k :| 0 <= k < |values| && values[k] == v;
  }

  /**
    Exactly the groups whose metadata satisfies p survive, each with its
    count, min and max unchanged.
   */
  lemma CompactKeys(g: GroupedFrame, p: GroupMeta -> bool, r: GroupedFrame)
    requires Valid(g.frame) && Tiled(g) && r == Compact(g, p)
    ensures forall v :: v in r.groups <==> v in g.groups && p(g.groups[v])
    ensures forall v :: v in r.groups ==>
      r.groups[v].count == g.groups[v].count && r.groups[v].min == g.groups[v].min && r.groups[v].max == g.groups[v].max
  {
    TiledAddressed(g);
    var kept := Kept(g, p, |g.groupValues|);
    CompactFacts(g, kept);
    forall v | v in r.groups
      ensures v in g.groups && p(g.groups[v])
      ensures r.groups[v].count == g.groups[v].count && r.groups[v].min == g.groups[v].min && r.groups[v].max == g.groups[v].max
    {
      var k := PositionOf(r.groupValues, v);
      assert r.groupValues[k] == g.groupValues[kept[k]];
    }
    forall v | v in g.groups && p(g.groups[v])
      ensures v in r.groups
    {
      assert v in g.groupValues;
      var i := PositionOf(g.groupValues, v);
      assert p(MetaOf(g, i));
      var k :| 0 <= k < |kept| && kept[k] == i;
      assert r.groupValues[k] == v;
    }
  }

  /** The copy is a well-formed grouping over the same columns. */
  lemma CompactTiled(g: GroupedFrame, p: GroupMeta -> bool, r: GroupedFrame)
    requires Valid(g.frame) && Tiled(g) && r == Compact(g, p)
    ensures Valid(r.frame) && Names(r.frame.cols) == Names(g.frame.cols) && Tiled(r)
  {
    TiledAddressed(g);
    var kept := Kept(g, p, |g.groupValues|);
    CompactFacts(g, kept);
    CopyTiled(r, g, kept);
  }

  /** Row t of a surviving group holds, in every column, row t of that group in the original. */
  lemma CompactRows(g: GroupedFrame, p: GroupMeta -> bool, r: GroupedFrame, v: Cell, name: string, t: nat)
    requires Valid(g.frame) && Tiled(g) && r == Compact(g, p)
    requires v in r.groups && name in Names(g.frame.cols) && t < r.groups[v].count
    ensures v in g.groups && Valid(r.frame) && name in Names(r.frame.cols)
    ensures r.groups[v].offset + t < r.frame.size && g.groups[v].offset + t < g.frame.size
    ensures CellAt(r.frame, name, r.groups[v].offset + t) == CellAt(g.frame, name, g.groups[v].offset + t)
  {
    TiledAddressed(g);
    var kept := Kept(g, p, |g.groupValues|);
    CompactFacts(g, kept);
    CopyRowOf(r, g, kept, v, name, t);
  }

  /** Row t of a copied group, found by its value. */
  lemma CopyRowOf(c: GroupedFrame, g: GroupedFrame, kept: seq<nat>, v: Cell, name: string, t: nat)
    requires Addressed(g) && Occupied(g) && Below(kept, |g.groupValues|) && CopyShape(c, g, kept)
    requires CopyKeys(c) && CopyMetas(c, g, kept) && CopyCells(c, g, kept)
    requires v in c.groups && name in Names(g.frame.cols) && t < c.groups[v].count
    ensures v in g.groups && name in Names(c.frame.cols)
    ensures c.groups[v].offset + t < c.frame.size && g.groups[v].offset + t < g.frame.size
    ensures CellAt(c.frame, name, c.groups[v].offset + t) == CellAt(g.frame, name, g.groups[v].offset + t)
  {
    var k := PositionOf(c.groupValues, v);
    var m := MetaOf(g, kept[k]);
    assert g.groupValues[kept[k]] == v;
    assert m == g.groups[v];
    CopyGroupAt(c, g, kept, k);
    assert c.groups[v].offset == Total(g, kept, k) && c.groups[v].count == m.count;
    CopyRowIn(c, g, kept, name, k, Total(g, kept, k) + t);
  }

  /** Filtering groups keeps the labelling of a sorted, grouped frame. */
  lemma CompactLabelled(g: GroupedFrame, p: GroupMeta -> bool, r: GroupedFrame, groupBy: string, sortBy: string)
    requires Labelled(g, groupBy, sortBy) && Valid(g.frame) && r == Compact(g, p)
    ensures Labelled(r, groupBy, sortBy)
  {
    TiledAddressed(g);
    CompactOfLabelled(g, Kept(g, p, |g.groupValues|), groupBy, sortBy);
  }

  // ---- with uniformSize: one run of sort steps per group --------------------

  /** Every kept group's `min` and `max` is an integer. */
  predicate IntBounds(g: GroupedFrame, kept: seq<nat>)
    requires Addressed(g) && Below(kept, |g.groupValues|)
  {
    forall k :: 0 <= k < |kept| ==> MetaOf(g, kept[k]).min.Num? && MetaOf(g, kept[k]).max.Num?
  }

  function Min(a: int, b: int): int { if a <= b then a else b }
  function Max(a: int, b: int): int { if a <= b then b else a }

  /** `globalMin` after the first n kept groups: the least of their `min`s. */
  function Low(g: GroupedFrame, kept: seq<nat>, n: nat): (r: int)
    requires Addressed(g) && Below(kept, |g.groupValues|) && IntBounds(g, kept) && 1 <= n <= |kept|
    ensures forall k :: 0 <= k < n ==> r <= MetaOf(g, kept[k]).min.n
    ensures exists k :: 0 <= k < n && r == MetaOf(g, kept[k]).min.n
  {
    if n == 1 then MetaOf(g, kept[0]).min.n
    else Min(Low(g, kept, n - 1), MetaOf(g, kept[n - 1]).min.n)
  }

  /** `globalMax` after the first n kept groups: the greatest of their `max`es. */
  function High(g: GroupedFrame, kept: seq<nat>, n: nat): (r: int)
    requires Addressed(g) && Below(kept, |g.groupValues|) && IntBounds(g, kept) && 1 <= n <= |kept|
    ensures forall k :: 0 <= k < n ==> MetaOf(g, kept[k]).max.n <= r
    ensures exists k :: 0 <= k < n && r == MetaOf(g, kept[k]).max.n
  {
    if n == 1 then MetaOf(g, kept[0]).max.n
    else Max(High(g, kept, n - 1), MetaOf(g, kept[n - 1]).max.n)
  }

  /**
    The loop over the kept groups that folds `Math.min` and `Math.max` from
    `Infinity` and `-Infinity`; `Math.min(Infinity, x)` is x, so the fold
    starts from the first group.
   */
  method GlobalBounds(g: GroupedFrame, kept: seq<nat>) returns (globalMin: int, globalMax: int)
    requires Addressed(g) && Below(kept, |g.groupValues|) && IntBounds(g, kept) && kept != []
    ensures globalMin == Low(g, kept, |kept|) && globalMax == High(g, kept, |kept|)
  {
    var first := g.groups[g.groupValues[kept[0]]];
    globalMin, globalMax := first.min.n, first.max.n;
    for j := 1 to |kept|
      invariant globalMin == Low(g, kept, j) && globalMax == High(g, kept, j)
    {
      var metadata := g.groups[g.groupValues[kept[j]]];
      globalMin := Min(globalMin, metadata.min.n);
      globalMax := Max(globalMax, metadata.max.n);
    }
  }

  /**
    `existingValues` after the first n rows of a group starting at `offset`:
    each integer sort value among them, mapped to the last row that holds it.
    Only numbers are ever looked up, so other sort values are left out.
   */
  function Existing(f: Frame, sortBy: string, offset: nat, n: nat): (r: map<int, nat>)
    requires Valid(f) && sortBy in Names(f.cols) && offset + n <= f.size
    ensures forall x :: x in r ==> offset <= r[x] < offset + n && CellAt(f, sortBy, r[x]) == Num(x)
    ensures forall i :: offset <= i < offset + n && CellAt(f, sortBy, i).Num? ==> CellAt(f, sortBy, i).n in r
    ensures forall x :: x in r ==> forall j :: r[x] < j < offset + n ==> CellAt(f, sortBy, j) != Num(x)
  {
    if n == 0 then map[]
    else
      match CellAt(f, sortBy, offset + n - 1)
      case Num(x) => Existing(f, sortBy, offset, n - 1)[x := offset + n - 1]
      case _ => Existing(f, sortBy, offset, n - 1)
  }

  /** The loop that fills `existingValues` for one group. */
  method ExistingValues(f: Frame, sortBy: string, offset: nat, count: nat) returns (existing: map<int, nat>)
    requires Valid(f) && sortBy in Names(f.cols) && offset + count <= f.size
    ensures existing == Existing(f, sortBy, offset, count)
  {
    var column := ColumnOf(f, sortBy).cells;
    existing := map[];
    for i := 0 to count
      invariant existing == Existing(f, sortBy, offset, i)
    {
      var srcIdx := offset + i;
      CellAtColumn(f, sortBy, srcIdx);
      var sortValue := column[srcIdx];
      if sortValue.Num? {
        existing := existing[sortValue.n := srcIdx];
      }
    }
  }

  /** Where an output row comes from: a source row, or padding for one group at one sort step. */
  datatype Source = Copy(row: nat) | Pad(group: Cell, step: int)

  /**
    The sources of one group's e rows: sort step `lo + t` copies the row
    `existingValues` holds for it, or is padding.
   */
  function StepSources(existing: map<int, nat>, v: Cell, lo: int, e: nat): (r: seq<Source>)
    ensures |r| == e
  {
    seq(e, t requires 0 <= t < e => if lo + t in existing then Copy(existing[lo + t]) else Pad(v, lo + t))
  }

  /** `existingValues` of the k-th kept group. */
  function KeptExisting(g: GroupedFrame, sortBy: string, kept: seq<nat>, k: nat): map<int, nat>
    requires Addressed(g) && sortBy in Names(g.frame.cols) && Below(kept, |g.groupValues|) && k < |kept|
  {
    Existing(g.frame, sortBy, MetaOf(g, kept[k]).offset, MetaOf(g, kept[k]).count)
  }

  /** The sources of the first n kept groups' rows, e rows per group. */
  function GridSources(g: GroupedFrame, sortBy: string, kept: seq<nat>, lo: int, e: nat, n: nat): (r: seq<Source>)
    requires Addressed(g) && sortBy in Names(g.frame.cols) && Below(kept, |g.groupValues|) && n <= |kept|
    ensures |r| == n * e
    ensures forall i :: 0 <= i < |r| && r[i].Copy? ==> r[i].row < g.frame.size
  {
    if n == 0 then []
    else GridSources(g, sortBy, kept, lo, e, n - 1) + StepSources(KeptExisting(g, sortBy, kept, n - 1), g.groupValues[kept[n - 1]], lo, e)
  }

  /** A cell as a column of the given kind stores it: a `Float32Array` converts and narrows. */
  function Store(fmt: F32Format, kind: Kind, c: Cell): Cell {
    if kind == Typed then F32Cell(fmt, c) else c
  }

  /**
    The cell a column gets from a source: the copied row's cell, or for
    padding the sort step in the sort column, the group value in the group
    column, and NaN or null elsewhere.
   */
  function SourceCell(fmt: F32Format, col: Column, src: Source, sortBy: string, groupBy: Option<string>): Cell
    requires src.Copy? ==> src.row < |col.cells|
  {
    match src
    case Copy(row) => col.cells[row]
    case Pad(v, step) => PadCell(fmt, col, v, step, sortBy, groupBy)
  }

  /** A padding row's cell: the sort step, the group value, or NaN or null. */
  function PadCell(fmt: F32Format, col: Column, v: Cell, step: int, sortBy: string, groupBy: Option<string>): Cell {
    if col.name == sortBy then Store(fmt, col.kind, Num(step))
    else if groupBy == Some(col.name) then Store(fmt, col.kind, v)
    else Missing
  }

  /** Every column filled from the sources, keeping names, kinds and order. */
  function FillColumns(fmt: F32Format, cols: seq<Column>, n: nat, sources: seq<Source>, sortBy: string, groupBy: Option<string>): (r: seq<Column>)
    requires AllSized(cols, n) && forall i :: 0 <= i < |sources| && sources[i].Copy? ==> sources[i].row < n
    ensures |r| == |cols|
  {
    seq(|cols|, k requires 0 <= k < |cols| =>
      Column(cols[k].name, cols[k].kind,
        seq(|sources|, i requires 0 <= i < |sources| => SourceCell(fmt, cols[k], sources[i], sortBy, groupBy))))
  }

  /** The new metadata: group k at row k * e, e rows, the global bounds. */
  function GridMetas(n: nat, e: nat, lo: int, hi: int): (r: seq<GroupMeta>)
    ensures |r| == n
  {
    seq(n, k requires 0 <= k < n => GroupMeta(k * e, e, Num(lo), Num(hi)))
  }

  predicate HasPlain(cols: seq<Column>) {
    exists k :: 0 <= k < |cols| && cols[k].kind == Plain
  }

  /**
    The uniform branch over the kept positions. With nothing kept the bounds
    stay infinite and the row count is NaN, which `new Array` rejects and
    `new Float32Array` takes as 0. The frame's hidden row count is then NaN
    too; the model gives it as 0, the count of rows a loop bounded by it
    visits. With bounds more than one step apart the wrong way round the
    row count is negative, which both reject.
   */
  function PadOf(fmt: F32Format, g: GroupedFrame, kept: seq<nat>): (r: Result<GroupedFrame>)
    requires Addressed(g) && Below(kept, |g.groupValues|)
    requires kept != [] ==> g.sortBy.Some? && g.sortBy.value in Names(g.frame.cols) && IntBounds(g, kept)
  {
    if kept == [] then
      if HasPlain(g.frame.cols) then Err(InvalidArrayLength)
      else Ok(GroupedFrame(Frame(FillColumns(fmt, g.frame.cols, g.frame.size, [], "", g.groupBy), 0), map[], [], None, None))
    else
      Spread(fmt, g, kept, g.sortBy.value, Low(g, kept, |kept|), High(g, kept, |kept|))
  }

  /** The kept groups over the steps lo .. hi, unless that run has a negative length. */
  function Spread(fmt: F32Format, g: GroupedFrame, kept: seq<nat>, sortBy: string, lo: int, hi: int): Result<GroupedFrame>
    requires Addressed(g) && sortBy in Names(g.frame.cols) && Below(kept, |g.groupValues|)
  {
    if hi - lo + 1 < 0 then Err(InvalidArrayLength)
    else Ok(GridOf(fmt, g, kept, sortBy, lo, hi, hi - lo + 1))
  }

  /** The kept groups laid out over the sort steps lo .. lo + e - 1. */
  function GridOf(fmt: F32Format, g: GroupedFrame, kept: seq<nat>, sortBy: string, lo: int, hi: int, e: nat): GroupedFrame
    requires Addressed(g) && sortBy in Names(g.frame.cols) && Below(kept, |g.groupValues|)
  {
    var sources := GridSources(g, sortBy, kept, lo, e, |kept|);
    var values := KeptValues(g, kept);
    GroupedFrame(Frame(FillColumns(fmt, g.frame.cols, g.frame.size, sources, sortBy, g.groupBy), |sources|),
                 MetaTable(values, GridMetas(|kept|, e, lo, hi), |kept|), values, None, None)
  }

  /** `new Array(NaN)` throws for a plain column; `new Float32Array(NaN)` is empty. */
  method AnyPlain(cols: seq<Column>) returns (found: bool)
    ensures found == HasPlain(cols)
  {
    found := false;
    for k := 0 to |cols|
      invariant found == exists j :: 0 <= j < k && cols[j].kind == Plain
    {
      if cols[k].kind == Plain {
        found := true;
      }
    }
  }

  /** `for (sortValue = globalMin; sortValue <= globalMax; sortValue++)` for one group. */
  method AppendSteps(sources: seq<Source>, existing: map<int, nat>, v: Cell, lo: int, e: nat) returns (r: seq<Source>)
    ensures r == sources + StepSources(existing, v, lo, e)
  {
    r := sources;
    for t := 0 to e
      invariant r == sources + StepSources(existing, v, lo, t)
    {
      var sortValue := lo + t;
      if sortValue in existing {
        r := r + [Copy(existing[sortValue])];
      } else {
        r := r + [Pad(v, sortValue)];
      }
    }
  }

  /** The cells one column gets, row by row. */
  method FillColumn(fmt: F32Format, col: Column, sources: seq<Source>, sortBy: string, groupBy: Option<string>)
    returns (cells: seq<Cell>)
    requires forall i :: 0 <= i < |sources| && sources[i].Copy? ==> sources[i].row < |col.cells|
    ensures |cells| == |sources|
    ensures forall i :: 0 <= i < |sources| ==> cells[i] == SourceCell(fmt, col, sources[i], sortBy, groupBy)
  {
    var a := new Cell[|sources|];
    for i := 0 to |sources|
      invariant forall j :: 0 <= j < i ==> a[j] == SourceCell(fmt, col, sources[j], sortBy, groupBy)
    {
      match sources[i]
      case Copy(row) =>
        a[i] := col.cells[row];
      case Pad(v, step) =>
        if col.name == sortBy {
          a[i] := Store(fmt, col.kind, Num(step));
        } else if groupBy == Some(col.name) {
          a[i] := Store(fmt, col.kind, v);
        } else {
          a[i] := Missing;
        }
        assert a[i] == PadCell(fmt, col, v, step, sortBy, groupBy);
    }
    cells := a[..];
  }

  /** Every output column, filled through `FillColumn`. */
  method FillGrid(fmt: F32Format, cols: seq<Column>, ghost n: nat, sources: seq<Source>, sortBy: string, groupBy: Option<string>)
    returns (r: seq<Column>)
    requires AllSized(cols, n) && forall i :: 0 <= i < |sources| && sources[i].Copy? ==> sources[i].row < n
    ensures r == FillColumns(fmt, cols, n, sources, sortBy, groupBy)
  {
    r := [];
    for k := 0 to |cols|
      invariant r == FillColumns(fmt, cols[..k], n, sources, sortBy, groupBy)
    {
      var cells := FillColumn(fmt, cols[k], sources, sortBy, groupBy);
      assert cells == seq(|sources|, i requires 0 <= i < |sources| => SourceCell(fmt, cols[k], sources[i], sortBy, groupBy));
      r := r + [Column(cols[k].name, cols[k].kind, cells)];
      assert cols[..k + 1] == cols[..k] + [cols[k]];
    }
    assert cols[..|cols|] == cols;
  }

  /** One pass of the uniform branch's outer loop: the sources of the j-th kept group's rows. */
  method PadGroup(g: GroupedFrame, sortBy: string, kept: seq<nat>, lo: int, e: nat, j: nat, sources: seq<Source>)
    returns (r: seq<Source>)
    requires Addressed(g) && sortBy in Names(g.frame.cols) && Below(kept, |g.groupValues|) && j < |kept|
    requires sources == GridSources(g, sortBy, kept, lo, e, j)
    ensures r == GridSources(g, sortBy, kept, lo, e, j + 1)
  {
    var groupValue := g.groupValues[kept[j]];
    var metadata := g.groups[groupValue];
    var existing := ExistingValues(g.frame, sortBy, metadata.offset, metadata.count);
    r := AppendSteps(sources, existing, groupValue, lo, e);
  }

  /** The uniform branch's outer loop over the kept groups. */
  method PadAll(g: GroupedFrame, sortBy: string, kept: seq<nat>, lo: int, hi: int, e: nat)
    returns (sources: seq<Source>, newGroups: map<Cell, GroupMeta>, newGroupValues: seq<Cell>)
    requires Addressed(g) && sortBy in Names(g.frame.cols) && Below(kept, |g.groupValues|)
    ensures sources == GridSources(g, sortBy, kept, lo, e, |kept|)
    ensures newGroupValues == KeptValues(g, kept)
    ensures newGroups == MetaTable(KeptValues(g, kept), GridMetas(|kept|, e, lo, hi), |kept|)
  {
    sources := [];
    newGroups := map[];
    newGroupValues := [];
    ghost var values := KeptValues(g, kept);
    ghost var metas := GridMetas(|kept|, e, lo, hi);
    for j := 0 to |kept|
      invariant sources == GridSources(g, sortBy, kept, lo, e, j)
      invariant newGroupValues == values[..j]
      invariant newGroups == MetaTable(values, metas, j)
    {
      var groupValue := g.groupValues[kept[j]];
      var newOffset := |sources|;
      assert newOffset == j * e;
      sources := PadGroup(g, sortBy, kept, lo, e, j, sources);
      newGroups := newGroups[groupValue := GroupMeta(newOffset, e, Num(lo), Num(hi))];
      newGroupValues := newGroupValues + [groupValue];
      assert values[..j + 1] == values[..j] + [values[j]];
    }
    assert values[..|kept|] == values;
  }

  /** The uniform branch: lay every kept group out over the common run of sort steps. */
  method PadGroups(fmt: F32Format, g: GroupedFrame, kept: seq<nat>) returns (r: Result<GroupedFrame>)
    requires Addressed(g) && Below(kept, |g.groupValues|)
    requires kept != [] ==> g.sortBy.Some? && g.sortBy.value in Names(g.frame.cols) && IntBounds(g, kept)
    ensures r == PadOf(fmt, g, kept)
  {
    if kept == [] {
      var fails := AnyPlain(g.frame.cols);
      if fails {
        return Err(InvalidArrayLength);
      }
      var cols := FillGrid(fmt, g.frame.cols, g.frame.size, [], "", g.groupBy);
      return Ok(GroupedFrame(Frame(cols, 0), map[], [], None, None));
    }
    var sortBy := g.sortBy.value;
    var globalMin, globalMax := GlobalBounds(g, kept);
    if globalMax - globalMin + 1 < 0 {
      return Err(InvalidArrayLength);
    }
    var expectedSize: nat := globalMax - globalMin + 1;
    var sources, newGroups, newGroupValues := PadAll(g, sortBy, kept, globalMin, globalMax, expectedSize);
    var cols := FillGrid(fmt, g.frame.cols, g.frame.size, sources, sortBy, g.groupBy);
    r := Ok(GroupedFrame(Frame(cols, |sources|), newGroups, newGroupValues, None, None));
    assert r.value == GridOf(fmt, g, kept, sortBy, globalMin, globalMax, expectedSize);
  }

  // ---- what the padded layout holds -----------------------------------------

  lemma FillColumnsValid(fmt: F32Format, cols: seq<Column>, n: nat, sources: seq<Source>, sortBy: string, groupBy: Option<string>)
    requires AllSized(cols, n) && forall i :: 0 <= i < |sources| && sources[i].Copy? ==> sources[i].row < n
    ensures AllSized(FillColumns(fmt, cols, n, sources, sortBy, groupBy), |sources|)
    ensures Names(FillColumns(fmt, cols, n, sources, sortBy, groupBy)) == Names(cols)
    ensures DistinctNames(cols) ==> DistinctNames(FillColumns(fmt, cols, n, sources, sortBy, groupBy))
  {
  }

  /** Row i of the filled frame is what source i gives each column. */
  lemma FillCellAt(fmt: F32Format, f: Frame, sources: seq<Source>, sortBy: string, groupBy: Option<string>, name: string, i: nat)
    requires Valid(f) && name in Names(f.cols) && i < |sources|
    requires forall j :: 0 <= j < |sources| && sources[j].Copy? ==> sources[j].row < f.size
    ensures Valid(Frame(FillColumns(fmt, f.cols, f.size, sources, sortBy, groupBy), |sources|))
    ensures name in Names(FillColumns(fmt, f.cols, f.size, sources, sortBy, groupBy))
    ensures sources[i].Copy? ==> sources[i].row < |ColumnOf(f, name).cells|
    ensures CellAt(Frame(FillColumns(fmt, f.cols, f.size, sources, sortBy, groupBy), |sources|), name, i)
         == SourceCell(fmt, ColumnOf(f, name), sources[i], sortBy, groupBy)
  {
    var cols := FillColumns(fmt, f.cols, f.size, sources, sortBy, groupBy);
    FillColumnsValid(fmt, f.cols, f.size, sources, sortBy, groupBy);
    IndexOfNames(cols, f.cols, name);
    CellAtColumn(Frame(cols, |sources|), name, i);
  }

  lemma MulBelow(k: nat, t: nat, n: nat, e: nat)
    requires k < n && t < e
    ensures k * e + t < n * e && (k + 1) * e <= n * e
  {
    MulLeq(k + 1, n, e);
  }

  /** Output row `k * e + t` comes from step t of the k-th kept group. */
  lemma {:induction false} GridSourcesAt(g: GroupedFrame, sortBy: string, kept: seq<nat>, lo: int, e: nat, n: nat, k: nat, t: nat)
    requires Addressed(g) && sortBy in Names(g.frame.cols) && Below(kept, |g.groupValues|) && k < n <= |kept| && t < e
    ensures k * e + t < |GridSources(g, sortBy, kept, lo, e, n)|
    ensures GridSources(g, sortBy, kept, lo, e, n)[k * e + t]
         == StepSources(KeptExisting(g, sortBy, kept, k), g.groupValues[kept[k]], lo, e)[t]
  {
    MulBelow(k, t, n, e);
    if k < n - 1 {
      MulBelow(k, t, n - 1, e);
      GridSourcesAt(g, sortBy, kept, lo, e, n - 1, k, t);
    } else {
      assert |GridSources(g, sortBy, kept, lo, e, n - 1)| == k * e;
    }
  }

  /** The padded frame has the columns of g and e rows per kept group. */
  ghost predicate GridShape(c: GroupedFrame, g: GroupedFrame, kept: seq<nat>, e: nat) {
    Valid(c.frame) && Names(c.frame.cols) == Names(g.frame.cols)
    && c.frame.size == |kept| * e && |c.groupValues| == |kept|
  }

  /** The k-th padded group is the k-th kept group, at row k * e, with e rows and the global bounds. */
  ghost predicate GridMetasAt(c: GroupedFrame, g: GroupedFrame, kept: seq<nat>, lo: int, hi: int, e: nat)
    requires Below(kept, |g.groupValues|) && |c.groupValues| == |kept|
  {
    forall k {:trigger c.groupValues[k]} :: 0 <= k < |kept| ==>
      c.groupValues[k] == g.groupValues[kept[k]] && c.groupValues[k] in c.groups
      && c.groups[c.groupValues[k]] == GroupMeta(k * e, e, Num(lo), Num(hi))
  }

  /** Each padded row is what its source gives. */
  ghost predicate GridCells(fmt: F32Format, c: GroupedFrame, g: GroupedFrame, kept: seq<nat>, sortBy: string, lo: int, e: nat)
    requires Addressed(g) && sortBy in Names(g.frame.cols) && Below(kept, |g.groupValues|) && GridShape(c, g, kept, e)
  {
    var sources := GridSources(g, sortBy, kept, lo, e, |kept|);
    forall name, i {:trigger CellAt(c.frame, name, i)} :: name in Names(g.frame.cols) && 0 <= i < |sources| ==>
      (sources[i].Copy? ==> sources[i].row < |ColumnOf(g.frame, name).cells|)
      && CellAt(c.frame, name, i) == SourceCell(fmt, ColumnOf(g.frame, name), sources[i], sortBy, g.groupBy)
  }

  /** `GridOf` lays the kept groups out as described. */
  lemma GridFacts(fmt: F32Format, g: GroupedFrame, kept: seq<nat>, sortBy: string, lo: int, hi: int, e: nat, c: GroupedFrame)
    requires Copyable(g, kept) && sortBy in Names(g.frame.cols) && c == GridOf(fmt, g, kept, sortBy, lo, hi, e)
    ensures GridShape(c, g, kept, e) && CopyKeys(c) && GridMetasAt(c, g, kept, lo, hi, e)
    ensures GridCells(fmt, c, g, kept, sortBy, lo, e)
  {
    GridShapeFacts(fmt, g, kept, sortBy, lo, hi, e, c);
    GridMetaFacts(fmt, g, kept, sortBy, lo, hi, e, c);
    GridCellFacts(fmt, g, kept, sortBy, lo, hi, e, c);
  }

  lemma GridShapeFacts(fmt: F32Format, g: GroupedFrame, kept: seq<nat>, sortBy: string, lo: int, hi: int, e: nat, c: GroupedFrame)
    requires Addressed(g) && Below(kept, |g.groupValues|) && sortBy in Names(g.frame.cols)
    requires c == GridOf(fmt, g, kept, sortBy, lo, hi, e)
    ensures GridShape(c, g, kept, e)
  {
    var sources := GridSources(g, sortBy, kept, lo, e, |kept|);
    FillColumnsValid(fmt, g.frame.cols, g.frame.size, sources, sortBy, g.groupBy);
  }

  lemma GridMetaFacts(fmt: F32Format, g: GroupedFrame, kept: seq<nat>, sortBy: string, lo: int, hi: int, e: nat, c: GroupedFrame)
    requires Addressed(g) && Distinct(g.groupValues) && Below(kept, |g.groupValues|) && Increasing(kept)
    requires sortBy in Names(g.frame.cols)
    requires c == GridOf(fmt, g, kept, sortBy, lo, hi, e)
    ensures |c.groupValues| == |kept| && CopyKeys(c) && GridMetasAt(c, g, kept, lo, hi, e)
  {
    var values := KeptValues(g, kept);
    var metas := GridMetas(|kept|, e, lo, hi);
    assert c.groups == MetaTable(values, metas, |kept|) && c.groupValues == values;
    MetaTableKeys(values, metas, |kept|);
    assert values[..|kept|] == values;
    KeptDistinct(g, kept);
    forall k | 0 <= k < |kept|
      ensures c.groupValues[k] in c.groups && c.groups[c.groupValues[k]] == metas[k]
    {
      MetaTableAt(values, metas, |kept|, k);
    }
  }

  lemma GridCellFacts(fmt: F32Format, g: GroupedFrame, kept: seq<nat>, sortBy: string, lo: int, hi: int, e: nat, c: GroupedFrame)
    requires Addressed(g) && Below(kept, |g.groupValues|) && sortBy in Names(g.frame.cols)
    requires c == GridOf(fmt, g, kept, sortBy, lo, hi, e) && GridShape(c, g, kept, e)
    ensures GridCells(fmt, c, g, kept, sortBy, lo, e)
  {
    var sources := GridSources(g, sortBy, kept, lo, e, |kept|);
    assert c.frame == Frame(FillColumns(fmt, g.frame.cols, g.frame.size, sources, sortBy, g.groupBy), |sources|);
    forall name, i | name in Names(g.frame.cols) && 0 <= i < |sources|
      ensures (sources[i].Copy? ==> sources[i].row < |ColumnOf(g.frame, name).cells|)
      ensures CellAt(c.frame, name, i) == SourceCell(fmt, ColumnOf(g.frame, name), sources[i], sortBy, g.groupBy)
    {
      FillCellAt(fmt, g.frame, sources, sortBy, g.groupBy, name, i);
    }
  }

  /** Row `k * e + t` of the padded frame: the row `existingValues` holds for step `lo + t`, or padding. */
  lemma GridRowAt(fmt: F32Format, c: GroupedFrame, g: GroupedFrame, kept: seq<nat>, sortBy: string, lo: int, e: nat,
                  k: nat, t: nat, name: string)
    requires Addressed(g) && sortBy in Names(g.frame.cols) && Below(kept, |g.groupValues|) && GridShape(c, g, kept, e)
    requires GridCells(fmt, c, g, kept, sortBy, lo, e) && k < |kept| && t < e && name in Names(g.frame.cols)
    ensures k * e + t < c.frame.size && name in Names(c.frame.cols)
    ensures var ex := KeptExisting(g, sortBy, kept, k);
      CellAt(c.frame, name, k * e + t)
      == if lo + t in ex then CellAt(g.frame, name, ex[lo + t])
         else PadCell(fmt, ColumnOf(g.frame, name), g.groupValues[kept[k]], lo + t, sortBy, g.groupBy)
  {
    var ex := KeptExisting(g, sortBy, kept, k);
    GridSourcesAt(g, sortBy, kept, lo, e, |kept|, k, t);
    var src := GridSources(g, sortBy, kept, lo, e, |kept|)[k * e + t];
    assert CellAt(c.frame, name, k * e + t) == SourceCell(fmt, ColumnOf(g.frame, name), src, sortBy, g.groupBy);
    if lo + t in ex {
      assert src == Copy(ex[lo + t]);
      CellAtColumn(g.frame, name, ex[lo + t]);
    }
  }

  /** The padded frame keeps the columns and lays group k over rows `k * e` to `k * e + e - 1`. */
  lemma GridSummary(fmt: F32Format, g: GroupedFrame, kept: seq<nat>, sortBy: string, lo: int, hi: int, e: nat, c: GroupedFrame)
    requires Addressed(g) && Distinct(g.groupValues) && Below(kept, |g.groupValues|) && Increasing(kept)
    requires sortBy in Names(g.frame.cols) && c == GridOf(fmt, g, kept, sortBy, lo, hi, e)
    ensures Valid(c.frame) && Names(c.frame.cols) == Names(g.frame.cols)
    ensures c.frame.size == |c.groupValues| * e
    ensures forall v :: v in c.groups <==> v in c.groupValues
    ensures EvenGroups(c, e, lo, hi)
  {
    GridShapeFacts(fmt, g, kept, sortBy, lo, hi, e, c);
    GridMetaFacts(fmt, g, kept, sortBy, lo, hi, e, c);
  }

  /**
    Row t of the k-th padded group: at sort step `lo + t` it is, in every
    column, the last row of the original group with that sort value; where
    the group has no such row it is padding.
   */
  lemma GridPadded(fmt: F32Format, c: GroupedFrame, g: GroupedFrame, kept: seq<nat>, sortBy: string, lo: int, hi: int, e: nat,
                   k: nat, t: nat, name: string)
    requires Addressed(g) && Distinct(g.groupValues) && Below(kept, |g.groupValues|) && Increasing(kept)
    requires g.sortBy == Some(sortBy) && sortBy in Names(g.frame.cols) && c == GridOf(fmt, g, kept, sortBy, lo, hi, e)
    requires k < |kept| && t < e && name in Names(g.frame.cols)
    ensures k < |c.groupValues| && c.groupValues[k] in g.groups && End(g.groups[c.groupValues[k]]) <= g.frame.size
    ensures Valid(c.frame) && name in Names(c.frame.cols) && 0 <= k * e + t < c.frame.size
    ensures PaddedCell(fmt, c.frame, g, c.groupValues[k], lo + t, k * e + t, name)
  {
    GridShapeFacts(fmt, g, kept, sortBy, lo, hi, e, c);
    GridMetaFacts(fmt, g, kept, sortBy, lo, hi, e, c);
    GridCellFacts(fmt, g, kept, sortBy, lo, hi, e, c);
    assert c.groupValues[k] == g.groupValues[kept[k]];
    GridRowAt(fmt, c, g, kept, sortBy, lo, e, k, t, name);
  }

  // ---- filterGroups -----------------------------------------------------------

  /** What the uniform branch reads: a sort column and integer bounds whenever a group is kept. */
  ghost predicate UniformReady(g: GroupedFrame, p: GroupMeta -> bool)
    requires Addressed(g)
  {
    var kept := Kept(g, p, |g.groupValues|);
    kept != [] ==> g.sortBy.Some? && g.sortBy.value in Names(g.frame.cols) && IntBounds(g, kept)
  }

  /** The uniform result: the groups whose metadata satisfies p, padded to the common sort steps. */
  function Uniform(fmt: F32Format, g: GroupedFrame, p: GroupMeta -> bool): Result<GroupedFrame>
    requires Addressed(g) && UniformReady(g, p)
  {
    PadOf(fmt, g, Kept(g, p, |g.groupValues|))
  }

  /** `filterGroups(grouping, { uniformSize }, p)`. */
  method FilterGroups(fmt: F32Format, g: GroupedFrame, uniformSize: bool, p: GroupMeta -> bool) returns (r: Result<GroupedFrame>)
    requires Addressed(g)
    requires uniformSize ==> UniformReady(g, p)
    ensures !uniformSize ==> r == Ok(Compact(g, p))
    ensures uniformSize ==> r == Uniform(fmt, g, p)
  {
    var kept := RetainGroups(g, p);
    if !uniformSize {
      var c := CopyGroups(g, kept);
      return Ok(c);
    }
    r := PadGroups(fmt, g, kept);
  }

  // ---- the uniform result ----------------------------------------------------

  /** No group's metadata satisfies p. */
  predicate NoneKept(g: GroupedFrame, p: GroupMeta -> bool)
    requires Addressed(g)
  {
    forall i :: 0 <= i < |g.groupValues| ==> !p(MetaOf(g, i))
  }

  lemma NoneKeptIff(g: GroupedFrame, p: GroupMeta -> bool)
    requires Addressed(g)
    ensures NoneKept(g, p) <==> Kept(g, p, |g.groupValues|) == []
  {
    var kept := Kept(g, p, |g.groupValues|);
    if kept != [] {
      assert p(MetaOf(g, kept[0]));
    }
  }

  /** `globalMin`: the least `min` among the kept groups. */
  function GlobalMin(g: GroupedFrame, p: GroupMeta -> bool): int
    requires Addressed(g) && UniformReady(g, p) && !NoneKept(g, p)
  {
    NoneKeptIff(g, p);
    var kept := Kept(g, p, |g.groupValues|);
    Low(g, kept, |kept|)
  }

  /** `globalMax`: the greatest `max` among the kept groups. */
  function GlobalMax(g: GroupedFrame, p: GroupMeta -> bool): int
    requires Addressed(g) && UniformReady(g, p) && !NoneKept(g, p)
  {
    NoneKeptIff(g, p);
    var kept := Kept(g, p, |g.groupValues|);
    High(g, kept, |kept|)
  }

  /**
    The uniform branch fails, with the `RangeError` of allocating a column,
    exactly when nothing is kept and some column is a plain array, or when
    the kept groups' greatest `max` lies more than one step below their
    least `min`.
   */
  lemma UniformFails(fmt: F32Format, g: GroupedFrame, p: GroupMeta -> bool, r: Result<GroupedFrame>)
    requires Addressed(g) && UniformReady(g, p) && r == Uniform(fmt, g, p)
    ensures r.Err? <==>
      (NoneKept(g, p) && HasPlain(g.frame.cols)) || (!NoneKept(g, p) && GlobalMax(g, p) + 1 < GlobalMin(g, p))
    ensures r.Err? ==> r.error == InvalidArrayLength
  {
    NoneKeptIff(g, p);
  }

  /** Group k of c covers the e rows from `k * e` on, with bounds lo and hi. */
  ghost predicate EvenGroups(c: GroupedFrame, e: nat, lo: int, hi: int) {
    forall k {:trigger c.groupValues[k]} :: 0 <= k < |c.groupValues| ==>
      c.groupValues[k] in c.groups && c.groups[c.groupValues[k]] == GroupMeta(k * e, e, Num(lo), Num(hi))
  }

  /**
    Row i of c, in column name, stands for sort step `step` of g's group v:
    it is the last row of that group whose sort value is `step`, or padding
    where the group has none.
   */
  ghost predicate PaddedCell(fmt: F32Format, c: Frame, g: GroupedFrame, v: Cell, step: int, i: nat, name: string)
    requires Valid(c) && Valid(g.frame) && name in Names(c.cols) && name in Names(g.frame.cols) && i < c.size
    requires g.sortBy.Some? && g.sortBy.value in Names(g.frame.cols)
    requires v in g.groups && End(g.groups[v]) <= g.frame.size
  {
    var m := g.groups[v];
    var ex := Existing(g.frame, g.sortBy.value, m.offset, m.count);
    CellAt(c, name, i)
    == if step in ex then CellAt(g.frame, name, ex[step])
       else PadCell(fmt, ColumnOf(g.frame, name), v, step, g.sortBy.value, g.groupBy)
  }

  /** A uniform result carries the group values that pass p, in their original order, and no sort or group column. */
  lemma UniformValues(fmt: F32Format, g: GroupedFrame, p: GroupMeta -> bool, r: Result<GroupedFrame>)
    requires Addressed(g) && UniformReady(g, p) && r == Uniform(fmt, g, p) && r.Ok?
    ensures r.value.groupValues == Select(g, p, |g.groupValues|)
    ensures r.value.sortBy.None? && r.value.groupBy.None?
  {
    KeptSelect(g, p, |g.groupValues|);
  }

  /**
    With nothing kept, a uniform result keeps the columns and has no rows
    and no groups. Its hidden row count is NaN in the source and 0 here.
   */
  lemma UniformEmpty(fmt: F32Format, g: GroupedFrame, p: GroupMeta -> bool, r: Result<GroupedFrame>)
    requires Addressed(g) && UniformReady(g, p) && NoneKept(g, p) && r == Uniform(fmt, g, p) && r.Ok?
    ensures Valid(r.value.frame) && Names(r.value.frame.cols) == Names(g.frame.cols)
    ensures r.value.frame.size == 0 && r.value.groupValues == [] && r.value.groups == map[]
  {
    NoneKeptIff(g, p);
    FillColumnsValid(fmt, g.frame.cols, g.frame.size, [], "", g.groupBy);
  }

  /**
    With some group kept, a uniform result keeps the columns, and the k-th
    kept group covers the `globalMax - globalMin + 1` rows from
    `k * (globalMax - globalMin + 1)` on, one per sort step, with the global
    bounds as its `min` and `max`.
   */
  lemma UniformGrid(fmt: F32Format, g: GroupedFrame, p: GroupMeta -> bool, r: Result<GroupedFrame>, lo: int, hi: int)
    requires Addressed(g) && Distinct(g.groupValues) && UniformReady(g, p) && !NoneKept(g, p)
    requires lo == GlobalMin(g, p) && hi == GlobalMax(g, p)
    requires r == Uniform(fmt, g, p) && r.Ok?
    ensures lo <= hi + 1
    ensures Valid(r.value.frame) && Names(r.value.frame.cols) == Names(g.frame.cols)
    ensures r.value.frame.size == |r.value.groupValues| * (hi - lo + 1)
    ensures forall v :: v in r.value.groups <==> v in r.value.groupValues
    ensures EvenGroups(r.value, hi - lo + 1, lo, hi)
  {
    var kept := Kept(g, p, |g.groupValues|);
    UniformIsGrid(fmt, g, p, r, lo, hi, kept);
    GridSummary(fmt, g, kept, g.sortBy.value, lo, hi, hi - lo + 1, r.value);
  }

  /** With some group kept, `Uniform` is `GridOf` over the kept groups and the global bounds. */
  lemma UniformIsGrid(fmt: F32Format, g: GroupedFrame, p: GroupMeta -> bool, r: Result<GroupedFrame>, lo: int, hi: int, kept: seq<nat>)
    requires Addressed(g) && UniformReady(g, p) && !NoneKept(g, p)
    requires lo == GlobalMin(g, p) && hi == GlobalMax(g, p)
    requires r == Uniform(fmt, g, p) && r.Ok? && kept == Kept(g, p, |g.groupValues|)
    ensures lo <= hi + 1 && kept != [] && g.sortBy.Some? && g.sortBy.value in Names(g.frame.cols)
    ensures Below(kept, |g.groupValues|) && Increasing(kept) && |kept| == |r.value.groupValues|
    ensures r.value == GridOf(fmt, g, kept, g.sortBy.value, lo, hi, hi - lo + 1)
  {
    NoneKeptIff(g, p);
    assert lo == Low(g, kept, |kept|) && hi == High(g, kept, |kept|);
    PadIsGrid(fmt, g, kept, r, lo, hi);
  }

  lemma PadIsGrid(fmt: F32Format, g: GroupedFrame, kept: seq<nat>, r: Result<GroupedFrame>, lo: int, hi: int)
    requires Addressed(g) && Below(kept, |g.groupValues|) && kept != []
    requires g.sortBy.Some? && g.sortBy.value in Names(g.frame.cols) && IntBounds(g, kept)
    requires lo == Low(g, kept, |kept|) && hi == High(g, kept, |kept|)
    requires r == PadOf(fmt, g, kept) && r.Ok?
    ensures lo <= hi + 1 && r.value == GridOf(fmt, g, kept, g.sortBy.value, lo, hi, hi - lo + 1)
  {
    SpreadIsGrid(fmt, g, kept, g.sortBy.value, lo, hi, r);
  }

  lemma SpreadIsGrid(fmt: F32Format, g: GroupedFrame, kept: seq<nat>, sortBy: string, lo: int, hi: int, r: Result<GroupedFrame>)
    requires Addressed(g) && sortBy in Names(g.frame.cols) && Below(kept, |g.groupValues|)
    requires r == Spread(fmt, g, kept, sortBy, lo, hi) && r.Ok?
    ensures lo <= hi + 1 && r.value == GridOf(fmt, g, kept, sortBy, lo, hi, hi - lo + 1)
  {
  }
}

=== FILE: frames.dfy ===
/**
  The columnar table ("Frame") of common/data/csv.js: named columns in
  enumeration order plus the row count the code keeps under a hidden symbol.
  A plain `Array` column may hold any cell; a `Float32Array` column holds
  numbers and NaN. Missing stands for NaN, null and undefined alike.
 */
module Frames {
  import opened Outcomes

  datatype Cell = Str(s: string) | Num(n: int) | Missing

  /** Plain: a JS `Array`; Typed: a `Float32Array`. */
  datatype Kind = Plain | Typed

  datatype Column = Column(name: string, kind: Kind, cells: seq<Cell>)

  datatype Frame = Frame(cols: seq<Column>, size: nat)

  function Names(cols: seq<Column>): (r: seq<string>)
    ensures |r| == |cols| && forall k :: 0 <= k < |cols| ==> r[k] == cols[k].name
  {
    seq(|cols|, k requires 0 <= k < |cols| => cols[k].name)
  }

  predicate DistinctNames(cols: seq<Column>) {
    forall i, j :: 0 <= i < j < |cols| ==> cols[i].name != cols[j].name
  }

  predicate AllSized(cols: seq<Column>, n: nat) {
    forall k :: 0 <= k < |cols| ==> |cols[k].cells| == n
  }

  /** The frame invariant: unique names, every column as long as the row count. */
  predicate Valid(f: Frame) {
    DistinctNames(f.cols) && AllSized(f.cols, f.size)
  }

  /** Position of the first column with the given name. */
  function IndexOf(cols: seq<Column>, name: string): (r: Option<nat>)
    ensures r.Some? ==> r.value < |cols| && cols[r.value].name == name
    ensures r.Some? ==> forall k :: 0 <= k < r.value ==> cols[k].name != name
    ensures r.None? <==> name !in Names(cols)
  {
    if cols == [] then None
    else if cols[0].name == name then Some(0)
    else
      match IndexOf(cols[1..], name)
      case Some(i) => Some(i + 1)
      case None =>
        assert forall k :: 1 <= k < |cols| ==> cols[k].name == Names(cols[1..])[k - 1];
        None
  }

  /** `frame[name]`: the column of that name, if any. */
  function Lookup(cols: seq<Column>, name: string): Option<Column> {
    match IndexOf(cols, name)
    case Some(i) => Some(cols[i])
    case None => None
  }

  function ColumnOf(f: Frame, name: string): (c: Column)
    requires name in Names(f.cols)
    ensures c in f.cols && c.name == name && Lookup(f.cols, name) == Some(c)
  {
    f.cols[IndexOf(f.cols, name).value]
  }

  /** `frame[name][i]`. */
  function CellAt(f: Frame, name: string, i: nat): Cell
    requires Valid(f) && name in Names(f.cols) && i < f.size
  {
    CellIn(f.cols, name, i)
  }

  /** Cell i of the first column named `name` (Missing where there is none). */
  function CellIn(cols: seq<Column>, name: string, i: nat): Cell {
    if cols == [] then Missing
    else if cols[0].name == name then (if i < |cols[0].cells| then cols[0].cells[i] else Missing)
    else CellIn(cols[1..], name, i)
  }

  lemma {:induction false} CellInIndex(cols: seq<Column>, name: string, i: nat)
    requires IndexOf(cols, name).Some? && i < |cols[IndexOf(cols, name).value].cells|
    ensures CellIn(cols, name, i) == cols[IndexOf(cols, name).value].cells[i]
  {
    if cols[0].name != name {
      CellInIndex(cols[1..], name, i);
    }
  }

  /** `frame[name][i]` is cell i of the column `frame[name]`. */
  lemma CellAtColumn(f: Frame, name: string, i: nat)
    requires Valid(f) && name in Names(f.cols) && i < f.size
    ensures CellAt(f, name, i) == ColumnOf(f, name).cells[i]
  {
    CellInIndex(f.cols, name, i);
  }

  lemma LookupDistinct(cols: seq<Column>, k: nat)
    requires DistinctNames(cols) && k < |cols|
    ensures Lookup(cols, cols[k].name) == Some(cols[k])
  {
  }

  /**
    `obj[c.name] = column`: an existing property keeps its place and gets the
    new value; a new one is appended.
   */
  function Put(cols: seq<Column>, c: Column): (r: seq<Column>)
    ensures forall n :: Lookup(r, n) == if n == c.name then Some(c) else Lookup(cols, n)
    ensures DistinctNames(cols) ==> DistinctNames(r)
    ensures forall k :: 0 <= k < |r| ==> r[k] == c || r[k] in cols
    ensures c.name in Names(cols) ==> Names(r) == Names(cols)
    ensures c.name !in Names(cols) ==> Names(r) == Names(cols) + [c.name]
  {
    match IndexOf(cols, c.name)
    case Some(i) =>
      PutReplaces(cols, i, c);
      cols[i := c]
    case None =>
      PutAppends(cols, c);
      cols + [c]
  }

  lemma PutReplaces(cols: seq<Column>, i: nat, c: Column)
    requires IndexOf(cols, c.name) == Some(i)
    ensures forall n :: Lookup(cols[i := c], n) == if n == c.name then Some(c) else Lookup(cols, n)
    ensures DistinctNames(cols) ==> DistinctNames(cols[i := c])
    ensures Names(cols[i := c]) == Names(cols)
  {
    var r := cols[i := c];
    assert Names(r) == Names(cols);
    forall n ensures Lookup(r, n) == if n == c.name then Some(c) else Lookup(cols, n) {
      IndexOfNames(r, cols, n);
      if IndexOf(cols, n).Some? && n != c.name {
        assert IndexOf(cols, n).value != i;
      }
    }
  }

  lemma PutAppends(cols: seq<Column>, c: Column)
    requires c.name !in Names(cols)
    ensures forall n :: Lookup(cols + [c], n) == if n == c.name then Some(c) else Lookup(cols, n)
    ensures DistinctNames(cols) ==> DistinctNames(cols + [c])
    ensures Names(cols + [c]) == Names(cols) + [c.name]
  {
    var r := cols + [c];
    forall n ensures IndexOf(r, n) == if n == c.name then Some(|cols|) else IndexOf(cols, n) {
      IndexOfAppend(cols, c, n);
    }
    assert Names(r) == Names(cols) + [c.name];
  }

  lemma {:induction false} IndexOfAppend(cols: seq<Column>, c: Column, n: string)
    requires n == c.name ==> n !in Names(cols)
    ensures n != c.name ==> IndexOf(cols + [c], n) == IndexOf(cols, n)
    ensures n == c.name ==> IndexOf(cols + [c], n) == Some(|cols|)
  {
    if cols != [] {
      assert (cols + [c])[1..] == cols[1..] + [c];
      assert Names(cols) == [cols[0].name] + Names(cols[1..]);
      if cols[0].name != n {
        IndexOfAppend(cols[1..], c, n);
      }
    }
  }

  /**
    The columns whose names are not in `drop`, in their original order;
    `delete obj[name]` is `Except(cols, {name})`.
   */
  function Except(cols: seq<Column>, drop: set<string>): (r: seq<Column>)
    ensures forall k :: 0 <= k < |r| ==> r[k] in cols && r[k].name !in drop
    ensures DistinctNames(cols) ==> DistinctNames(r)
  {
    if cols == [] then []
    else
      var rest := Except(cols[1..], drop);
      if cols[0].name in drop then rest
      else
        assert DistinctNames(cols) ==> forall k :: 0 <= k < |rest| ==> rest[k].name != cols[0].name by {
          if DistinctNames(cols) {
            forall k | 0 <= k < |rest| ensures rest[k].name != cols[0].name {
              var j :| 0 <= j < |cols[1..]| && cols[1..][j] == rest[k];
              assert cols[j + 1] == rest[k];
            }
          }
        }
        [cols[0]] + rest
  }

  lemma LookupCons(c: Column, rest: seq<Column>, n: string)
    requires c.name != n
    ensures Lookup([c] + rest, n) == Lookup(rest, n)
  {
    assert ([c] + rest)[1..] == rest;
  }

  /** Names outside `drop` are found exactly as before. */
  lemma {:induction false} ExceptLookup(cols: seq<Column>, drop: set<string>, n: string)
    requires n !in drop
    ensures Lookup(Except(cols, drop), n) == Lookup(cols, n)
  {
    if cols != [] {
      var rest := Except(cols[1..], drop);
      if cols[0].name != n {
        ExceptLookup(cols[1..], drop, n);
        assert [cols[0]] + cols[1..] == cols;
        LookupCons(cols[0], cols[1..], n);
        if cols[0].name !in drop {
          LookupCons(cols[0], rest, n);
        }
      }
    }
  }

  lemma ExceptDrops(cols: seq<Column>, drop: set<string>, n: string)
    requires n in drop
    ensures n !in Names(Except(cols, drop))
  {
  }

  lemma {:induction false} ExceptPut(cols: seq<Column>, c: Column, drop: set<string>)
    requires c.name in drop
    ensures Except(Put(cols, c), drop) == Except(cols, drop)
  {
    match IndexOf(cols, c.name)
    case Some(i) => ExceptUpdate(cols, i, c, drop);
    case None => ExceptAppend(cols, c, drop);
  }

  lemma {:induction false} ExceptUpdate(cols: seq<Column>, i: nat, c: Column, drop: set<string>)
    requires i < |cols| && cols[i].name in drop && c.name in drop
    ensures Except(cols[i := c], drop) == Except(cols, drop)
  {
    if i > 0 {
      ExceptUpdate(cols[1..], i - 1, c, drop);
      assert cols[i := c][1..] == cols[1..][i - 1 := c];
    }
  }

  lemma {:induction false} ExceptAppend(cols: seq<Column>, c: Column, drop: set<string>)
    requires c.name in drop
    ensures Except(cols + [c], drop) == Except(cols, drop)
  {
    if cols != [] {
      assert (cols + [c])[1..] == cols[1..] + [c];
      ExceptAppend(cols[1..], c, drop);
    }
  }

  lemma {:induction false} ExceptTwice(cols: seq<Column>, a: string, drop: set<string>)
    requires a in drop
    ensures Except(Except(cols, {a}), drop) == Except(cols, drop)
  {
    if cols != [] {
      ExceptTwice(cols[1..], a, drop);
      var head := if cols[0].name in {a} then [] else [cols[0]];
      var e := head + Except(cols[1..], {a});
      if cols[0].name !in {a} {
        assert e[1..] == Except(cols[1..], {a});
      } else {
        assert e == Except(cols[1..], {a});
      }
    }
  }

  lemma AllSizedSubset(cols: seq<Column>, r: seq<Column>, c: Column, n: nat)
    requires AllSized(cols, n) && |c.cells| == n
    requires forall k :: 0 <= k < |r| ==> r[k] == c || r[k] in cols
    ensures AllSized(r, n)
  {
    forall k | 0 <= k < |r| ensures |r[k].cells| == n {
      if r[k] != c {
        var j :| 0 <= j < |cols| && cols[j] == r[k];
      }
    }
  }

  /** `getSize(frame)`: the hidden row count, which a valid frame shares with every column. */
  function GetSize(f: Frame): (n: nat)
    ensures Valid(f) ==> forall k :: 0 <= k < |f.cols| ==> |f.cols[k].cells| == n
  {
    f.size
  }

  /** The names not in `drop`, in their order. */
  function Without(names: seq<string>, drop: set<string>): (r: seq<string>)
    ensures forall n :: n in r <==> n in names && n !in drop
  {
    if names == [] then []
    else (if names[0] in drop then [] else [names[0]]) + Without(names[1..], drop)
  }

  lemma {:induction false} WithoutAppend(names: seq<string>, drop: set<string>, n: string)
    ensures n !in drop ==> Without(names + [n], drop) == Without(names, drop) + [n]
  {
    if names != [] && n !in drop {
      assert (names + [n])[1..] == names[1..] + [n];
      WithoutAppend(names[1..], drop, n);
    }
  }

  /** Dropping columns drops their names and keeps the order of the rest. */
  lemma {:induction false} NamesExcept(cols: seq<Column>, drop: set<string>)
    ensures Names(Except(cols, drop)) == Without(Names(cols), drop)
  {
    if cols != [] {
      assert Names(cols)[1..] == Names(cols[1..]);
      NamesExcept(cols[1..], drop);
    }
  }

  /**
    `renameColumn(frame, a, b)`: a copy in which column a's data is stored
    under b (in b's old place if b existed, else at the end) and a is
    deleted. When a == b the delete wins and the column is gone.
   */
  function RenameColumn(f: Frame, a: string, b: string): (r: Frame)
    requires a in Names(f.cols)
    ensures r.size == f.size
    ensures a != b && b in Names(f.cols) ==> Names(r.cols) == Without(Names(f.cols), {a})
    ensures a != b && b !in Names(f.cols) ==> Names(r.cols) == Without(Names(f.cols), {a}) + [b]
    ensures a !in Names(r.cols)
    ensures a != b ==> Lookup(r.cols, b) == Some(Column(b, ColumnOf(f, a).kind, ColumnOf(f, a).cells))
    ensures forall n :: n != a && n != b ==> Lookup(r.cols, n) == Lookup(f.cols, n)
    ensures Except(r.cols, {a, b}) == Except(f.cols, {a, b})
    ensures Valid(f) ==> Valid(r)
  {
    var src := ColumnOf(f, a);
    var moved := Column(b, src.kind, src.cells);
    var put := Put(f.cols, moved);
    var r := Frame(Except(put, {a}), f.size);
    ExceptDrops(put, {a}, a);
    forall n | n != a ensures Lookup(r.cols, n) == Lookup(put, n) {
      ExceptLookup(put, {a}, n);
    }
    ExceptTwice(put, a, {a, b});
    ExceptPut(f.cols, moved, {a, b});
    NamesExcept(put, {a});
    WithoutAppend(Names(f.cols), {a}, b);
    assert Valid(f) ==> Valid(r) by {
      if Valid(f) {
        AllSizedSubset(f.cols, put, moved, f.size);
        AllSizedSubset(put, r.cols, moved, f.size);
      }
    }
    r
  }

  /** `dropColumn(frame, a)`: a copy without column a; every other column and the order are kept. */
  function DropColumn(f: Frame, a: string): (r: Frame)
    ensures r.size == f.size
    ensures a !in Names(r.cols)
    ensures Names(r.cols) == Without(Names(f.cols), {a})
    ensures forall n :: n != a ==> Lookup(r.cols, n) == Lookup(f.cols, n)
    ensures Except(r.cols, {a}) == Except(f.cols, {a})
    ensures Valid(f) ==> Valid(r)
  {
    var r := Frame(Except(f.cols, {a}), f.size);
    NamesExcept(f.cols, {a});
    forall n | n != a ensures Lookup(r.cols, n) == Lookup(f.cols, n) {
      ExceptLookup(f.cols, {a}, n);
    }
    ExceptTwice(f.cols, a, {a});
    assert Valid(f) ==> Valid(r) by {
      if Valid(f) {
        AllSizedSubset(f.cols, r.cols, Column(a, Plain, seq(f.size, _ => Missing)), f.size);
      }
    }
    r
  }

  /** `record(frame, i)`: row i as a name-to-cell record, written column by column. */
  function Record(cols: seq<Column>, i: nat): (r: map<string, Cell>)
    requires forall k :: 0 <= k < |cols| ==> i < |cols[k].cells|
    ensures forall n :: n in r <==> n in Names(cols)
    ensures DistinctNames(cols) ==> forall k :: 0 <= k < |cols| ==> r[cols[k].name] == cols[k].cells[i]
  {
    if cols == [] then map[]
    else
      var init := cols[..|cols| - 1];
      var last := cols[|cols| - 1];
      var prev := Record(init, i);
      RecordStep(cols, i, prev);
      prev[last.name := last.cells[i]]
  }

  /** Writing the last column after the others keeps the record's promise. */
  lemma RecordStep(cols: seq<Column>, i: nat, prev: map<string, Cell>)
    requires cols != [] && forall k :: 0 <= k < |cols| ==> i < |cols[k].cells|
    requires forall n :: n in prev <==> n in Names(cols[..|cols| - 1])
    requires DistinctNames(cols[..|cols| - 1]) ==>
      forall k :: 0 <= k < |cols| - 1 ==> prev[cols[k].name] == cols[k].cells[i]
    ensures var r := prev[cols[|cols| - 1].name := cols[|cols| - 1].cells[i]];
      (forall n :: n in r <==> n in Names(cols))
      && (DistinctNames(cols) ==> forall k :: 0 <= k < |cols| ==> r[cols[k].name] == cols[k].cells[i])
  {
    var init, last := cols[..|cols| - 1], cols[|cols| - 1];
    assert Names(cols) == Names(init) + [last.name];
    if DistinctNames(cols) {
      assert DistinctNames(init);
      forall k | 0 <= k < |init| ensures cols[k].name != last.name && cols[k] == init[k] {
      }
    }
  }

  /** `new Array(n)` of the given rows of `src`: the column-copy loop every operator uses. */
  function Reindex(src: seq<Cell>, rows: seq<nat>): seq<Cell>
    requires forall i :: 0 <= i < |rows| ==> rows[i] < |src|
  {
    seq(|rows|, i requires 0 <= i < |rows| => src[rows[i]])
  }

  function ReindexCols(cols: seq<Column>, rows: seq<nat>, n: nat): seq<Column>
    requires AllSized(cols, n) && forall i :: 0 <= i < |rows| ==> rows[i] < n
  {
    seq(|cols|, k requires 0 <= k < |cols| => Column(cols[k].name, cols[k].kind, Reindex(cols[k].cells, rows)))
  }

  lemma ReindexColsValid(cols: seq<Column>, rows: seq<nat>, n: nat)
    requires AllSized(cols, n) && forall i :: 0 <= i < |rows| ==> rows[i] < n
    ensures AllSized(ReindexCols(cols, rows, n), |rows|)
    ensures Names(ReindexCols(cols, rows, n)) == Names(cols)
    ensures DistinctNames(cols) ==> DistinctNames(ReindexCols(cols, rows, n))
  {
  }

  /** The position of a name depends on the names alone. */
  lemma {:induction false} IndexOfNames(a: seq<Column>, b: seq<Column>, name: string)
    requires Names(a) == Names(b)
    ensures IndexOf(a, name) == IndexOf(b, name)
  {
    var x, y := IndexOf(a, name), IndexOf(b, name);
    if x.Some? && y.Some? {
      assert |a| == |b|;
      assert forall k :: 0 <= k < |a| ==> a[k].name == Names(a)[k] == b[k].name;
    }
  }

  /** Row i of a reindexed frame is row `rows[i]` of the original, column by column. */
  lemma ReindexCellAt(f: Frame, rows: seq<nat>, name: string, i: nat)
    requires Valid(f) && name in Names(f.cols) && i < |rows|
    requires forall j :: 0 <= j < |rows| ==> rows[j] < f.size
    ensures Valid(Frame(ReindexCols(f.cols, rows, f.size), |rows|))
    ensures name in Names(ReindexCols(f.cols, rows, f.size))
    ensures CellAt(Frame(ReindexCols(f.cols, rows, f.size), |rows|), name, i) == CellAt(f, name, rows[i])
  {
    var cols := ReindexCols(f.cols, rows, f.size);
    ReindexColsValid(f.cols, rows, f.size);
    IndexOfNames(cols, f.cols, name);
    CellAtColumn(Frame(cols, |rows|), name, i);
    CellAtColumn(f, name, rows[i]);
  }

  /** `for (i < rows.length) out[i] = src[rows[i]]` over a fresh array. */
  method Gather(src: seq<Cell>, rows: seq<nat>) returns (r: seq<Cell>)
    requires forall i :: 0 <= i < |rows| ==> rows[i] < |src|
    ensures |r| == |rows|
    ensures forall i :: 0 <= i < |rows| ==> r[i] == src[rows[i]]
  {
    var a := new Cell[|rows|];
    for i := 0 to |rows|
      invariant forall k :: 0 <= k < i ==> a[k] == src[rows[k]]
    {
      a[i] := src[rows[i]];
    }
    r := a[..];
  }

  /** Copies every column through `Gather`, keeping names, kinds and order. */
  method GatherColumns(cols: seq<Column>, rows: seq<nat>, ghost n: nat) returns (r: seq<Column>)
    requires AllSized(cols, n) && forall i :: 0 <= i < |rows| ==> rows[i] < n
    ensures r == ReindexCols(cols, rows, n)
  {
    r := [];
    for k := 0 to |cols|
      invariant r == ReindexCols(cols[..k], rows, n)
    {
      var cells := Gather(cols[k].cells, rows);
      assert cells == Reindex(cols[k].cells, rows);
      r := r + [Column(cols[k].name, cols[k].kind, cells)];
      assert cols[..k + 1] == cols[..k] + [cols[k]];
    }
    assert cols[..|cols|] == cols;
  }
}

=== FILE: gputypes.dfy ===
/**
  The closed set of WGSL types a struct field can have (`GpuType`) and the
  four switches over it: byte size, byte alignment, element kind and the
  JavaScript shape a value of the type takes.
 */
module GpuTypes {
  import opened Outcomes

  /** The element kind of a type, which selects the typed view it is stored through. */
  datatype Elem = I32 | U32 | F32

  datatype Width = W2 | W3 | W4

  /** `f32`, `vec3<u32>`, `mat4x4<f32>`, ... */
  datatype GpuType =
    | Scalar(elem: Elem)
    | Vec(width: Width, elem: Elem)
    | Mat3(elem: Elem)    // mat3x3<elem>
    | Mat4(elem: Elem)    // mat4x4<elem>

  /** What `shapeOf` answers: a number, an array of numbers, or a `DOMMatrix`. */
  datatype Shape = ScalarShape | VectorShape | MatrixShape

  function Lanes(w: Width): nat {
    match w
    case W2 => 2
    case W3 => 3
    case W4 => 4
  }

  /** How many 32-bit elements a value of the type holds. */
  function Components(t: GpuType): nat {
    match t
    case Scalar(_) => 1
    case Vec(w, _) => Lanes(w)
    case Mat3(_) => 9
    case Mat4(_) => 16
  }

  predicate PowerOfTwo(n: nat) {
    n == 1 || (n > 1 && n % 2 == 0 && PowerOfTwo(n / 2))
  }

  /** `sizeOf`: the byte size, four bytes per element (a mat3x3 is not padded). */
  function SizeOf(t: GpuType): (r: nat)
    ensures r == 4 * Components(t)
  {
    match t
    case Scalar(_) => 4
    case Vec(W2, _) => 4 * 2
    case Vec(W3, _) => 4 * 3
    case Vec(W4, _) => 4 * 4
    case Mat3(_) => 4 * 3 * 3
    case Mat4(_) => 4 * 4 * 4
  }

  /**
    `alignmentOf`: a power of two that divides 16 and is a multiple of 4;
    for a scalar or a vector it is the least power of two holding the value,
    and both matrix sizes align to 16.
   */
  function AlignmentOf(t: GpuType): (r: nat)
    ensures r > 0 && r % 4 == 0 && 16 % r == 0 && PowerOfTwo(r)
    ensures (t.Scalar? || t.Vec?) ==> SizeOf(t) <= r < 2 * SizeOf(t)
    ensures (t.Mat3? || t.Mat4?) ==> r == 16 && r < SizeOf(t)
  {
    assert PowerOfTwo(4) && PowerOfTwo(8) && PowerOfTwo(16) by {
      assert PowerOfTwo(1) && PowerOfTwo(2);
    }
    match t
    case Scalar(_) => 4
    case Vec(W2, _) => 8
    case Vec(W3, _) => 16
    case Vec(W4, _) => 16
    case Mat3(_) => 16
    case Mat4(_) => 16
  }

  /** `elemOf`: the element kind named in the type. */
  function ElemOf(t: GpuType): (r: Elem)
    ensures t.Scalar? ==> t == Scalar(r)
    ensures t.Vec? ==> t == Vec(t.width, r)
    ensures t.Mat3? ==> t == Mat3(r)
    ensures t.Mat4? ==> t == Mat4(r)
  {
    match t
    case Scalar(e) => e
    case Vec(_, e) => e
    case Mat3(e) => e
    case Mat4(e) => e
  }

  /** `shapeOf`: fails with "not implemented" exactly for the mat3x3 types. */
  function ShapeOf(t: GpuType): (r: Result<Shape>)
    ensures r.Err? <==> t.Mat3?
    ensures r.Err? ==> r.error == NotImplemented
    ensures r == Ok(ScalarShape) <==> t.Scalar?
    ensures r == Ok(VectorShape) <==> t.Vec?
    ensures r == Ok(MatrixShape) <==> t.Mat4?
  {
    match t
    case Scalar(_) => Ok(ScalarShape)
    case Vec(_, _) => Ok(VectorShape)
    case Mat3(_) => Err(NotImplemented)
    case Mat4(_) => Ok(MatrixShape)
  }

  /**
    The element count `sizeOf(type) / sizeOf(elemOf(type))` that the reader
    slices out of the buffer is the type's component count.
   */
  lemma ElementCount(t: GpuType)
    ensures SizeOf(t) / SizeOf(Scalar(ElemOf(t))) == Components(t)
    ensures SizeOf(t) % AlignmentOf(Scalar(ElemOf(t))) == 0
  {
  }

  /** Alignments nest: the smaller of two alignments divides the larger. */
  lemma AlignmentsNest(s: GpuType, t: GpuType)
    ensures AlignmentOf(s) <= AlignmentOf(t) ==> AlignmentOf(t) % AlignmentOf(s) == 0
  {
  }
}

=== FILE: grouping.dfy ===
/**
  `sortAndIdentifyGroups` of common/data/csv.js: a stable sort of the rows
  by (group, sort) value, then one pass that records each group's range of
  rows and its first and last sort values.
 */
module Grouping {
  import opened Outcomes
  import opened Frames

  // ---- the order of `<` on cells -------------------------------------

  /** JavaScript `<` on strings: lexicographic, a proper prefix first. */
  predicate StrLess(a: string, b: string)
    decreases |a|
  {
    if a == [] then b != []
    else b != [] && (a[0] < b[0] || (a[0] == b[0] && StrLess(a[1..], b[1..])))
  }

  lemma {:induction false} StrLessIrreflexive(a: string)
    ensures !StrLess(a, a)
  {
    if a != [] {
      StrLessIrreflexive(a[1..]);
    }
  }

  lemma {:induction false} StrLessTransitive(a: string, b: string, c: string)
    requires StrLess(a, b) && StrLess(b, c)
    ensures StrLess(a, c)
  {
    if a != [] && a[0] == b[0] && b[0] == c[0] {
      StrLessTransitive(a[1..], b[1..], c[1..]);
    }
  }

  lemma {:induction false} StrLessTotal(a: string, b: string)
    requires a != b
    ensures StrLess(a, b) || StrLess(b, a)
  {
    if a != [] && b != [] && a[0] == b[0] {
      assert a == [a[0]] + a[1..] && b == [b[0]] + b[1..];
      StrLessTotal(a[1..], b[1..]);
    }
  }

  /** `<` between two values of one column: numbers by value, strings lexicographically. */
  predicate CellLess(a: Cell, b: Cell) {
    match (a, b)
    case (Num(x), Num(y)) => x < y
    case (Str(x), Str(y)) => StrLess(x, y)
    case _ => false
  }

  /** The column holds only numbers (`isNum`) or only strings; NaN and null are not ordered. */
  predicate OfKind(c: Cell, isNum: bool) {
    if isNum then c.Num? else c.Str?
  }

  lemma CellLessOrder(a: Cell, b: Cell, c: Cell, isNum: bool)
    requires OfKind(a, isNum) && OfKind(b, isNum) && OfKind(c, isNum)
    ensures !CellLess(a, a)
    ensures a != b ==> CellLess(a, b) || CellLess(b, a)
    ensures CellLess(a, b) && CellLess(b, c) ==> CellLess(a, c)
    ensures CellLess(a, b) ==> !CellLess(b, a)
  {
    if !isNum {
      StrLessIrreflexive(a.s);
      if a != b { StrLessTotal(a.s, b.s); }
      if CellLess(a, b) && CellLess(b, c) { StrLessTransitive(a.s, b.s, c.s); }
      if CellLess(a, b) && CellLess(b, a) { StrLessTransitive(a.s, b.s, a.s); }
    }
  }

  // ---- the stable sort ------------------------------------------------

  /** An entry of `indices`: `{ index, groupValue, sortValue }`. */
  datatype Item = Item(index: nat, group: Cell, sort: Cell)

  /** The comparator handed to `indices.sort`. */
  function Compare(a: Item, b: Item): (r: int)
    ensures -1 <= r <= 1
  {
    if a.group != b.group then (if CellLess(a.group, b.group) then -1 else 1)
    else if CellLess(a.sort, b.sort) then -1
    else if CellLess(b.sort, a.sort) then 1
    else 0
  }

  /** `Array.prototype.sort` is stable: items the comparator ties keep their input order. */
  predicate Before(a: Item, b: Item) {
    Compare(a, b) < 0 || (Compare(a, b) == 0 && a.index < b.index)
  }

  predicate Typed2(it: Item, gNum: bool, sNum: bool) {
    OfKind(it.group, gNum) && OfKind(it.sort, sNum)
  }

  lemma BeforeOrder(a: Item, b: Item, c: Item, gNum: bool, sNum: bool)
    requires Typed2(a, gNum, sNum) && Typed2(b, gNum, sNum) && Typed2(c, gNum, sNum)
    ensures !Before(a, a)
    ensures a.index != b.index ==> Before(a, b) || Before(b, a)
    ensures Before(a, b) && Before(b, c) ==> Before(a, c)
    ensures Before(a, b) ==> !Before(b, a)
  {
    CellLessOrder(a.group, b.group, c.group, gNum);
    CellLessOrder(b.group, c.group, a.group, gNum);
    CellLessOrder(c.group, a.group, b.group, gNum);
    CellLessOrder(a.sort, b.sort, c.sort, sNum);
    CellLessOrder(b.sort, c.sort, a.sort, sNum);
    CellLessOrder(c.sort, a.sort, b.sort, sNum);
    CellLessOrder(b.group, a.group, c.group, gNum);
    CellLessOrder(a.sort, c.sort, b.sort, sNum);
    CellLessOrder(b.sort, a.sort, c.sort, sNum);
  }

  predicate Sorted(s: seq<Item>) {
    forall i, j :: 0 <= i < j < |s| ==> Before(s[i], s[j])
  }

  predicate AllTyped(s: seq<Item>, gNum: bool, sNum: bool) {
    forall i :: 0 <= i < |s| ==> Typed2(s[i], gNum, sNum)
  }

  function Insert(x: Item, s: seq<Item>): (r: seq<Item>)
    ensures multiset(r) == multiset(s) + multiset{x}
    ensures |r| == |s| + 1
  {
    if s == [] then [x]
    else if Before(x, s[0]) then [x] + s
    else
      assert s == [s[0]] + s[1..];
      [s[0]] + Insert(x, s[1..])
  }

  lemma {:induction false} InsertSorted(x: Item, s: seq<Item>, gNum: bool, sNum: bool)
    requires Sorted(s) && AllTyped(s, gNum, sNum) && Typed2(x, gNum, sNum)
    requires forall i :: 0 <= i < |s| ==> s[i].index != x.index
    ensures Sorted(Insert(x, s))
  {
    if s != [] {
      if Before(x, s[0]) {
        forall j | 0 <= j < |s| ensures Before(x, s[j]) {
          BeforeOrder(x, s[0], s[j], gNum, sNum);
        }
        ConsSorted(x, s);
      } else {
        BeforeOrder(x, s[0], x, gNum, sNum);
        var rest := s[1..];
        InsertSorted(x, rest, gNum, sNum);
        InsertBelow(s[0], x, rest);
        ConsSorted(s[0], Insert(x, rest));
      }
    }
  }

  lemma ConsSorted(a: Item, t: seq<Item>)
    requires Sorted(t) && forall j :: 0 <= j < |t| ==> Before(a, t[j])
    ensures Sorted([a] + t)
  {
    var r := [a] + t;
    forall i, j | 0 <= i < j < |r| ensures Before(r[i], r[j]) {
      if i == 0 {
        assert r[j] == t[j - 1];
      } else {
        assert r[i] == t[i - 1] && r[j] == t[j - 1];
      }
    }
  }

  /** An item before `x` and before every item of `rest` is before every item of `Insert(x, rest)`. */
  lemma InsertBelow(a: Item, x: Item, rest: seq<Item>)
    requires Before(a, x) && forall k :: 0 <= k < |rest| ==> Before(a, rest[k])
    ensures forall j :: 0 <= j < |Insert(x, rest)| ==> Before(a, Insert(x, rest)[j])
  {
    var ins := Insert(x, rest);
    forall j | 0 <= j < |ins| ensures Before(a, ins[j]) {
      assert ins[j] in multiset(ins);
      if ins[j] != x {
        assert ins[j] in multiset(rest);
        var k :| 0 <= k < |rest| && rest[k] == ins[j];
      }
    }
  }

  /** What the built-in sort returns: the items in `Before` order. */
  function SortItems(items: seq<Item>): (r: seq<Item>)
    ensures multiset(r) == multiset(items)
    ensures |r| == |items|
  {
    if items == [] then []
    else
      assert items == items[..|items| - 1] + [items[|items| - 1]];
      Insert(items[|items| - 1], SortItems(items[..|items| - 1]))
  }

  /** The row items in input order: item i is row i. */
  predicate Numbered(items: seq<Item>) {
    forall i :: 0 <= i < |items| ==> items[i].index == i
  }

  lemma {:induction false} SortItemsSorted(items: seq<Item>, gNum: bool, sNum: bool)
    requires Numbered(items) && AllTyped(items, gNum, sNum)
    ensures Sorted(SortItems(items))
  {
    if items != [] {
      var init := items[..|items| - 1];
      var x := items[|items| - 1];
      SortItemsSorted(init, gNum, sNum);
      var s := SortItems(init);
      forall i | 0 <= i < |s| ensures s[i].index != x.index && Typed2(s[i], gNum, sNum) {
        assert s[i] in multiset(init);
        var k :| 0 <= k < |init| && init[k] == s[i];
      }
      InsertSorted(x, s, gNum, sNum);
    }
  }

  // ---- runs of equal group values ---------------------------------------

  /** `{ offset, count, min, max }`: the group's rows are `offset .. offset + count - 1`. */
  datatype GroupMeta = GroupMeta(offset: nat, count: nat, min: Cell, max: Cell)

  /** A maximal stretch of equal group values in the sorted rows. */
  datatype Run = Run(group: Cell, offset: nat, count: nat)

  /** The runs of `gs`, first to last, as the metadata pass discovers them. */
  function Runs(gs: seq<Cell>): seq<Run>
  {
    if gs == [] then []
    else
      var prev := Runs(gs[..|gs| - 1]);
      var g := gs[|gs| - 1];
      if prev == [] || prev[|prev| - 1].group != g then prev + [Run(g, |gs| - 1, 1)]
      else prev[..|prev| - 1] + [prev[|prev| - 1].(count := prev[|prev| - 1].count + 1)]
  }

  /** The runs cover `gs` in order, without gaps, and neighbours differ. */
  predicate RunsTile(gs: seq<Cell>, runs: seq<Run>) {
    (gs == [] <==> runs == [])
    && (runs != [] ==> runs[0].offset == 0 && runs[|runs| - 1].offset + runs[|runs| - 1].count == |gs|)
    && (forall k :: 0 <= k < |runs| ==> runs[k].count > 0 && runs[k].offset + runs[k].count <= |gs|)
    && (forall k, l :: 0 <= k < |runs| && l == k + 1 && l < |runs| ==>
          runs[l].offset == runs[k].offset + runs[k].count && runs[l].group != runs[k].group)
    && (forall k, i :: 0 <= k < |runs| && runs[k].offset <= i < runs[k].offset + runs[k].count ==>
          gs[i] == runs[k].group)
  }

  lemma {:induction false} RunsTiling(gs: seq<Cell>)
    ensures RunsTile(gs, Runs(gs))
  {
    if gs != [] {
      var init := gs[..|gs| - 1];
      var g := gs[|gs| - 1];
      assert gs == init + [g];
      RunsTiling(init);
      var prev := Runs(init);
      if prev == [] || prev[|prev| - 1].group != g {
        TileOpen(init, prev, g);
      } else {
        TileExtend(init, prev, g);
      }
    }
  }

  lemma TileOpen(init: seq<Cell>, prev: seq<Run>, g: Cell)
    requires RunsTile(init, prev)
    requires prev == [] || prev[|prev| - 1].group != g
    ensures RunsTile(init + [g], prev + [Run(g, |init|, 1)])
  {
    var gs, runs := init + [g], prev + [Run(g, |init|, 1)];
    assert forall k :: 0 <= k < |prev| ==> runs[k] == prev[k];
    forall k, l | 0 <= k < |runs| && l == k + 1 && l < |runs|
      ensures runs[l].offset == runs[k].offset + runs[k].count && runs[l].group != runs[k].group
    {
      if l < |prev| {
        assert runs[k] == prev[k] && runs[l] == prev[l];
      }
    }
    forall k, i | 0 <= k < |runs| && runs[k].offset <= i < runs[k].offset + runs[k].count
      ensures gs[i] == runs[k].group
    {
      if k < |prev| {
        assert gs[i] == init[i];
      }
    }
  }

  lemma TileExtend(init: seq<Cell>, prev: seq<Run>, g: Cell)
    requires RunsTile(init, prev)
    requires prev != [] && prev[|prev| - 1].group == g
    ensures RunsTile(init + [g], prev[..|prev| - 1] + [prev[|prev| - 1].(count := prev[|prev| - 1].count + 1)])
  {
    var last := prev[|prev| - 1];
    var gs, runs := init + [g], prev[..|prev| - 1] + [last.(count := last.count + 1)];
    assert forall i :: 0 <= i < |init| ==> gs[i] == init[i];
    assert forall k :: 0 <= k < |prev| - 1 ==> runs[k] == prev[k];
    forall k, i | 0 <= k < |runs| && runs[k].offset <= i < runs[k].offset + runs[k].count
      ensures gs[i] == runs[k].group
    {
      if i < |init| {
        assert init[i] == prev[k].group;
      }
    }
  }

  function Closed(ss: seq<Cell>, r: Run): GroupMeta
    requires r.count > 0 && r.offset + r.count <= |ss|
  {
    GroupMeta(r.offset, r.count, ss[r.offset], ss[r.offset + r.count - 1])
  }

  /** A just-opened group: `count: 0` and its first sort value as both bounds. */
  function Opened(ss: seq<Cell>, r: Run): GroupMeta
    requires r.offset < |ss|
  {
    GroupMeta(r.offset, 0, ss[r.offset], ss[r.offset])
  }

  predicate RunsWithin(runs: seq<Run>, n: nat) {
    forall k :: 0 <= k < |runs| ==> runs[k].count > 0 && runs[k].offset + runs[k].count <= n
  }

  /** The `groupOffsets` map once every run is closed: later runs overwrite earlier ones. */
  function MetaMap(runs: seq<Run>, ss: seq<Cell>): map<Cell, GroupMeta>
    requires RunsWithin(runs, |ss|)
  {
    if runs == [] then map[]
    else MetaMap(runs[..|runs| - 1], ss)[runs[|runs| - 1].group := Closed(ss, runs[|runs| - 1])]
  }

  function RunGroups(runs: seq<Run>): (r: seq<Cell>)
    ensures |r| == |runs| && forall k :: 0 <= k < |runs| ==> r[k] == runs[k].group
  {
    seq(|runs|, k requires 0 <= k < |runs| => runs[k].group)
  }

  lemma RunGroupsSnoc(runs: seq<Run>, r: Run)
    ensures RunGroups(runs + [r]) == RunGroups(runs) + [r.group]
  {
    assert forall k :: 0 <= k < |runs| ==> (runs + [r])[k] == runs[k];
  }

  function GroupCol(items: seq<Item>): (r: seq<Cell>)
    ensures |r| == |items| && forall i :: 0 <= i < |items| ==> r[i] == items[i].group
  {
    seq(|items|, i requires 0 <= i < |items| => items[i].group)
  }

  function SortCol(items: seq<Item>): (r: seq<Cell>)
    ensures |r| == |items| && forall i :: 0 <= i < |items| ==> r[i] == items[i].sort
  {
    seq(|items|, i requires 0 <= i < |items| => items[i].sort)
  }

  /** How the runs grow by one value. */
  lemma RunsSnoc(gs: seq<Cell>, idx: nat)
    requires idx < |gs|
    ensures var rs := Runs(gs[..idx]);
      Runs(gs[..idx + 1]) ==
        if rs == [] || rs[|rs| - 1].group != gs[idx] then rs + [Run(gs[idx], idx, 1)]
        else rs[..|rs| - 1] + [rs[|rs| - 1].(count := rs[|rs| - 1].count + 1)]
  {
    assert gs[..idx + 1][..idx] == gs[..idx];
  }

  lemma WithinWider(runs: seq<Run>, n: nat, m: nat)
    requires RunsWithin(runs, n) && n <= m
    ensures RunsWithin(runs, m)
  {
  }

  /** What the metadata pass relies on: the runs stay inside the rows and the last one ends at `n`. */
  predicate RunsEnd(runs: seq<Run>, n: nat) {
    RunsWithin(runs, n) && (n == 0 <==> runs == []) && (runs != [] ==> runs[|runs| - 1].offset + runs[|runs| - 1].count == n)
  }

  lemma RunsEnds(gs: seq<Cell>)
    ensures RunsEnd(Runs(gs), |gs|)
  {
    RunsTiling(gs);
  }

  /** The metadata pass after `idx` items: every run so far is closed except the last. */
  ghost predicate Identified(sorted: seq<Item>, idx: nat, groups: map<Cell, GroupMeta>,
                             groupValues: seq<Cell>, current: Option<Cell>, offset: nat)
    requires idx <= |sorted|
  {
    var rs := Runs(GroupCol(sorted)[..idx]);
    RunsEnd(rs, idx)
    && groupValues == RunGroups(rs)
    && (idx == 0 ==> current == None && groups == map[])
    && (idx > 0 ==>
          current == Some(rs[|rs| - 1].group) && offset == rs[|rs| - 1].offset
          && groups == MetaMap(rs[..|rs| - 1], SortCol(sorted))[rs[|rs| - 1].group := Opened(SortCol(sorted), rs[|rs| - 1])])
  }

  /** Closing the open group at a change of value: the map then holds every run closed. */
  lemma CloseLast(sorted: seq<Item>, idx: nat, groups: map<Cell, GroupMeta>, groupValues: seq<Cell>,
                  current: Option<Cell>, offset: nat)
    requires 0 < idx <= |sorted|
    requires Identified(sorted, idx, groups, groupValues, current, offset)
    ensures current.Some? && current.value in groups
    ensures groups[current.value := groups[current.value].(count := idx - offset, max := sorted[idx - 1].sort)]
            == MetaMap(Runs(GroupCol(sorted)[..idx]), SortCol(sorted))
  {
    var rs, ss := Runs(GroupCol(sorted)[..idx]), SortCol(sorted);
    var init, last := rs[..|rs| - 1], rs[|rs| - 1];
    assert last.offset + last.count == idx && offset == last.offset;
    assert Opened(ss, last).(count := idx - offset, max := sorted[idx - 1].sort) == Closed(ss, last);
    assert rs == init + [last];
    CloseMeta(init, last, ss, groups);
  }

  /** Closing the open last run turns the map into that of all runs. */
  lemma CloseMeta(init: seq<Run>, last: Run, ss: seq<Cell>, groups: map<Cell, GroupMeta>)
    requires last.count > 0 && last.offset + last.count <= |ss| && RunsWithin(init + [last], |ss|)
    requires RunsWithin(init, |ss|) && groups == MetaMap(init, ss)[last.group := Opened(ss, last)]
    ensures groups[last.group := Closed(ss, last)] == MetaMap(init + [last], ss)
  {
    SnocParts(init, last);
  }

  /** Opening a group at `idx` once every earlier run is closed. */
  lemma OpenNext(sorted: seq<Item>, idx: nat, closed: map<Cell, GroupMeta>, groupValues: seq<Cell>)
    requires idx < |sorted|
    requires var rs := Runs(GroupCol(sorted)[..idx]);
      RunsEnd(rs, idx) && groupValues == RunGroups(rs) && closed == MetaMap(rs, SortCol(sorted))
      && (rs == [] || rs[|rs| - 1].group != sorted[idx].group)
    ensures Identified(sorted, idx + 1, closed[sorted[idx].group := GroupMeta(idx, 0, sorted[idx].sort, sorted[idx].sort)],
                       groupValues + [sorted[idx].group], Some(sorted[idx].group), idx)
  {
    var gs := GroupCol(sorted);
    assert gs[idx] == sorted[idx].group;
    OpenRuns(gs, idx);
    OpenedIdentified(sorted, idx, Runs(gs[..idx]), closed, groupValues);
  }

  /** `Identified` after opening a run at `idx`, for a known run list before it. */
  lemma OpenedIdentified(sorted: seq<Item>, idx: nat, rs: seq<Run>, closed: map<Cell, GroupMeta>, groupValues: seq<Cell>)
    requires idx < |sorted|
    requires Runs(GroupCol(sorted)[..idx + 1]) == rs + [Run(sorted[idx].group, idx, 1)]
    requires RunsEnd(rs + [Run(sorted[idx].group, idx, 1)], idx + 1)
    requires RunsEnd(rs, idx) && groupValues == RunGroups(rs) && closed == MetaMap(rs, SortCol(sorted))
    ensures Identified(sorted, idx + 1, closed[sorted[idx].group := GroupMeta(idx, 0, sorted[idx].sort, sorted[idx].sort)],
                       groupValues + [sorted[idx].group], Some(sorted[idx].group), idx)
  {
    var rs' := rs + [Run(sorted[idx].group, idx, 1)];
    WithinWider(rs, idx, |sorted|);
    assert rs'[..|rs'| - 1] == rs;
    assert rs'[|rs'| - 1] == Run(sorted[idx].group, idx, 1);
    RunGroupsSnoc(rs, Run(sorted[idx].group, idx, 1));
  }

  /** A value different from the last run's group opens a new run of one row. */
  lemma OpenRuns(gs: seq<Cell>, idx: nat)
    requires idx < |gs|
    requires var rs := Runs(gs[..idx]); rs == [] || rs[|rs| - 1].group != gs[idx]
    ensures var rs, rs' := Runs(gs[..idx]), Runs(gs[..idx + 1]);
      rs' == rs + [Run(gs[idx], idx, 1)] && rs'[..|rs'| - 1] == rs
      && RunGroups(rs') == RunGroups(rs) + [gs[idx]] && RunsEnd(rs', idx + 1)
  {
    var rs := Runs(gs[..idx]);
    var rs' := rs + [Run(gs[idx], idx, 1)];
    RunsSnoc(gs, idx);
    RunsEnds(gs[..idx + 1]);
    assert rs'[..|rs'| - 1] == rs;
    assert RunGroups(rs') == RunGroups(rs) + [gs[idx]];
  }

  /** The same group value at `idx`: the last run grows by one row. */
  lemma VisitExtends(sorted: seq<Item>, idx: nat, groups: map<Cell, GroupMeta>, groupValues: seq<Cell>,
                     current: Option<Cell>, offset: nat)
    requires idx < |sorted| && Some(sorted[idx].group) == current
    requires Identified(sorted, idx, groups, groupValues, current, offset)
    ensures Identified(sorted, idx + 1, groups, groupValues, current, offset)
  {
    var gs := GroupCol(sorted);
    ExtendRuns(gs, idx);
    IdentifiedOf(sorted, idx + 1, Runs(gs[..idx + 1]), groups, groupValues, current, offset);
  }

  /** A value equal to the last run's group lengthens that run and adds none. */
  lemma ExtendRuns(gs: seq<Cell>, idx: nat)
    requires idx < |gs|
    requires var rs := Runs(gs[..idx]); rs != [] && rs[|rs| - 1].group == gs[idx]
    ensures var rs, rs' := Runs(gs[..idx]), Runs(gs[..idx + 1]);
      var last := rs[|rs| - 1];
      rs' == rs[..|rs| - 1] + [last.(count := last.count + 1)]
      && rs'[..|rs'| - 1] == rs[..|rs| - 1]
      && rs'[|rs'| - 1].group == last.group && rs'[|rs'| - 1].offset == last.offset
      && RunGroups(rs') == RunGroups(rs) && RunsEnd(rs', idx + 1)
  {
    var rs := Runs(gs[..idx]);
    var init, last := rs[..|rs| - 1], rs[|rs| - 1];
    var last' := last.(count := last.count + 1);
    RunsSnoc(gs, idx);
    RunsEnds(gs[..idx + 1]);
    SnocParts(init, last');
    assert rs == init + [last];
    RunGroupsSnoc(init, last);
    RunGroupsSnoc(init, last');
  }

  lemma SnocParts(init: seq<Run>, r: Run)
    ensures |init + [r]| == |init| + 1 && (init + [r])[..|init|] == init && (init + [r])[|init|] == r
  {
  }

  /** `Identified` from its parts, for a known run list after `idx > 0` items. */
  lemma IdentifiedOf(sorted: seq<Item>, idx: nat, rs: seq<Run>, groups: map<Cell, GroupMeta>,
                     groupValues: seq<Cell>, current: Option<Cell>, offset: nat)
    requires 0 < idx <= |sorted| && Runs(GroupCol(sorted)[..idx]) == rs
    requires RunsEnd(rs, idx) && groupValues == RunGroups(rs)
    requires current == Some(rs[|rs| - 1].group) && offset == rs[|rs| - 1].offset
    requires groups == MetaMap(rs[..|rs| - 1], SortCol(sorted))[rs[|rs| - 1].group := Opened(SortCol(sorted), rs[|rs| - 1])]
    ensures Identified(sorted, idx, groups, groupValues, current, offset)
  {
  }

  /** One `forEach` callback: open a group where the group value changes, closing the previous one. */
  method VisitItem(sorted: seq<Item>, idx: nat, groups: map<Cell, GroupMeta>, groupValues: seq<Cell>,
                   current: Option<Cell>, offset: nat)
    returns (groups': map<Cell, GroupMeta>, groupValues': seq<Cell>, current': Option<Cell>, offset': nat)
    requires idx < |sorted|
    requires Identified(sorted, idx, groups, groupValues, current, offset)
    ensures Identified(sorted, idx + 1, groups', groupValues', current', offset')
  {
    var item := sorted[idx];
    groups', groupValues', current', offset' := groups, groupValues, current, offset;
    if Some(item.group) != current {
      if current.Some? {
        CloseLast(sorted, idx, groups, groupValues, current, offset);
        var m := groups'[current.value];
        groups' := groups'[current.value := m.(count := idx - offset, max := sorted[idx - 1].sort)];
      }
      OpenNext(sorted, idx, groups', groupValues);
      current' := Some(item.group);
      offset' := idx;
      groups' := groups'[item.group := GroupMeta(idx, 0, item.sort, item.sort)];
      groupValues' := groupValues' + [item.group];
    } else {
      VisitExtends(sorted, idx, groups, groupValues, current, offset);
    }
  }

  /**
    The `indices.forEach` pass and the closing of the last group: a group
    opens where the group value changes and is closed (count and max) when
    the next one opens or the rows end.
   */
  method IdentifyGroups(sorted: seq<Item>) returns (groups: map<Cell, GroupMeta>, groupValues: seq<Cell>)
    ensures RunsWithin(Runs(GroupCol(sorted)), |sorted|)
    ensures groupValues == RunGroups(Runs(GroupCol(sorted)))
    ensures groups == MetaMap(Runs(GroupCol(sorted)), SortCol(sorted))
  {
    groups, groupValues := map[], [];
    var current: Option<Cell> := None;
    var offset: nat := 0;
    for idx := 0 to |sorted|
      invariant Identified(sorted, idx, groups, groupValues, current, offset)
    {
      groups, groupValues, current, offset := VisitItem(sorted, idx, groups, groupValues, current, offset);
    }
    assert GroupCol(sorted)[..|sorted|] == GroupCol(sorted);
    if current.Some? {
      CloseLast(sorted, |sorted|, groups, groupValues, current, offset);
      var m := groups[current.value];
      groups := groups[current.value := m.(count := |sorted| - offset, max := sorted[|sorted| - 1].sort)];
    }
  }

  // ---- the grouped frame ---------------------------------------------------

  /** `{ frame, groups, groupValues, sortBy, groupBy }`. */
  datatype GroupedFrame = GroupedFrame(frame: Frame, groups: map<Cell, GroupMeta>, groupValues: seq<Cell>,
                                       sortBy: Option<string>, groupBy: Option<string>)

  function End(m: GroupMeta): nat {
    m.offset + m.count
  }

  /**
    `groupValues` lists each key of `groups` once, each group is non-empty,
    and the groups' row ranges tile the frame in `groupValues` order.
   */
  ghost predicate Tiled(g: GroupedFrame) {
    var gv := g.groupValues;
    (forall v :: v in g.groups <==> v in gv)
    && (forall i, j :: 0 <= i < j < |gv| ==> gv[i] != gv[j])
    && (gv == [] ==> g.frame.size == 0)
    && (gv != [] ==> g.groups[gv[0]].offset == 0 && End(g.groups[gv[|gv| - 1]]) == g.frame.size)
    && (forall k :: 0 <= k < |gv| ==> g.groups[gv[k]].count > 0 && End(g.groups[gv[k]]) <= g.frame.size)
    && (forall k, l :: 0 <= k < |gv| && l == k + 1 && l < |gv| ==> g.groups[gv[l]].offset == End(g.groups[gv[k]]))
  }

  ghost predicate Columns(g: GroupedFrame, groupBy: string, sortBy: string) {
    Valid(g.frame) && groupBy in Names(g.frame.cols) && sortBy in Names(g.frame.cols) && Tiled(g)
  }

  /** Every row of group k carries group value `groupValues[k]`. */
  ghost predicate GroupRows(g: GroupedFrame, groupBy: string, sortBy: string)
    requires Columns(g, groupBy, sortBy)
  {
    forall k, i :: 0 <= k < |g.groupValues| && g.groups[g.groupValues[k]].offset <= i < End(g.groups[g.groupValues[k]]) ==>
      CellAt(g.frame, groupBy, i) == g.groupValues[k]
  }

  /** A group's `min` and `max` are the sort values of its first and last rows. */
  ghost predicate GroupBounds(g: GroupedFrame, groupBy: string, sortBy: string)
    requires Columns(g, groupBy, sortBy)
  {
    forall k :: 0 <= k < |g.groupValues| ==>
      g.groups[g.groupValues[k]].min == CellAt(g.frame, sortBy, g.groups[g.groupValues[k]].offset)
      && g.groups[g.groupValues[k]].max == CellAt(g.frame, sortBy, End(g.groups[g.groupValues[k]]) - 1)
  }

  /** Within a group the sort values never decrease. */
  ghost predicate GroupAscending(g: GroupedFrame, groupBy: string, sortBy: string)
    requires Columns(g, groupBy, sortBy)
  {
    forall k, i, j :: 0 <= k < |g.groupValues| && g.groups[g.groupValues[k]].offset <= i < j < End(g.groups[g.groupValues[k]]) ==>
      !CellLess(CellAt(g.frame, sortBy, j), CellAt(g.frame, sortBy, i))
  }

  ghost predicate SortedWithin(g: GroupedFrame, groupBy: string, sortBy: string)
    requires Columns(g, groupBy, sortBy)
  {
    GroupBounds(g, groupBy, sortBy) && GroupAscending(g, groupBy, sortBy)
  }

  /** What a grouped frame promises its readers about the group and sort columns. */
  ghost predicate Labelled(g: GroupedFrame, groupBy: string, sortBy: string) {
    Columns(g, groupBy, sortBy) && GroupRows(g, groupBy, sortBy) && SortedWithin(g, groupBy, sortBy)
  }

  // ---- sortAndIdentifyGroups ---------------------------------------------

  /** `indices` before the sort: row i with its group and sort values. */
  function Items(f: Frame, groupBy: string, sortBy: string): (r: seq<Item>)
    requires Valid(f) && groupBy in Names(f.cols) && sortBy in Names(f.cols)
    ensures |r| == f.size && Numbered(r)
  {
    seq(f.size, i requires 0 <= i < f.size => Item(i, CellAt(f, groupBy, i), CellAt(f, sortBy, i)))
  }

  /** Each sorted item is one of the input items, found at its own index. */
  lemma SortedFrom(items: seq<Item>)
    requires Numbered(items)
    ensures forall i :: 0 <= i < |items| ==>
      SortItems(items)[i].index < |items| && items[SortItems(items)[i].index] == SortItems(items)[i]
  {
    var s := SortItems(items);
    forall i | 0 <= i < |items| ensures s[i].index < |items| && items[s[i].index] == s[i] {
      assert s[i] in multiset(items);
    }
  }

  /** `indices[i].index` after the sort: the source row of output row i. */
  function SortOrder(f: Frame, groupBy: string, sortBy: string): (r: seq<nat>)
    requires Valid(f) && groupBy in Names(f.cols) && sortBy in Names(f.cols)
    ensures |r| == f.size && forall i :: 0 <= i < |r| ==> r[i] < f.size
  {
    var items := Items(f, groupBy, sortBy);
    SortedFrom(items);
    seq(f.size, i requires 0 <= i < f.size => SortItems(items)[i].index)
  }

  /** Only numbers or only strings: the values `<` orders consistently. */
  predicate Orderable(f: Frame, name: string)
    requires Valid(f) && name in Names(f.cols)
  {
    (forall i :: 0 <= i < f.size ==> CellAt(f, name, i).Num?) || (forall i :: 0 <= i < f.size ==> CellAt(f, name, i).Str?)
  }

  /** The grouped frame `sortAndIdentifyGroups(groupBy, sortBy, f)` returns. */
  function SortAndIdentify(groupBy: string, sortBy: string, f: Frame): GroupedFrame
    requires Valid(f) && groupBy in Names(f.cols) && sortBy in Names(f.cols)
  {
    var sorted := SortItems(Items(f, groupBy, sortBy));
    var runs := Runs(GroupCol(sorted));
    RunsEnds(GroupCol(sorted));
    GroupedFrame(Frame(ReindexCols(f.cols, SortOrder(f, groupBy, sortBy), f.size), f.size),
                 MetaMap(runs, SortCol(sorted)), RunGroups(runs), Some(sortBy), Some(groupBy))
  }

  /**
    Sorts the rows by group value and then by sort value, keeping the input
    order of ties, records each group's range, and reorders every column.
   */
  method SortAndIdentifyGroups(groupBy: string, sortBy: string, f: Frame) returns (g: GroupedFrame)
    requires Valid(f) && |f.cols| >= 1 && groupBy in Names(f.cols) && sortBy in Names(f.cols)
    requires Orderable(f, groupBy) && Orderable(f, sortBy)
    ensures g == SortAndIdentify(groupBy, sortBy, f)
  {
    var numRows := |f.cols[0].cells|;
    var indices := CollectItems(f, groupBy, sortBy, numRows);
    var sorted := SortItems(indices);
    var groups, groupValues := IdentifyGroups(sorted);
    var order := SortedIndices(sorted);
    assert order == SortOrder(f, groupBy, sortBy);
    var cols := GatherColumns(f.cols, order, f.size);
    g := GroupedFrame(Frame(cols, numRows), groups, groupValues, Some(sortBy), Some(groupBy));
  }

  /** The loop that fills `indices` before the sort. */
  method CollectItems(f: Frame, groupBy: string, sortBy: string, numRows: nat) returns (indices: seq<Item>)
    requires Valid(f) && groupBy in Names(f.cols) && sortBy in Names(f.cols) && numRows == f.size
    ensures indices == Items(f, groupBy, sortBy)
  {
    indices := [];
    for i := 0 to numRows
      invariant indices == Items(f, groupBy, sortBy)[..i]
    {
      indices := indices + [Item(i, CellAt(f, groupBy, i), CellAt(f, sortBy, i))];
    }
  }

  /** `indices[i].index` for every i, as the column copies read it. */
  method SortedIndices(sorted: seq<Item>) returns (order: seq<nat>)
    ensures |order| == |sorted| && forall i :: 0 <= i < |sorted| ==> order[i] == sorted[i].index
  {
    order := [];
    for i := 0 to |sorted|
      invariant |order| == i && forall j :: 0 <= j < i ==> order[j] == sorted[j].index
    {
      order := order + [sorted[i].index];
    }
  }

  // ---- what sortAndIdentifyGroups promises ---------------------------------

  /** The kinds the two columns hold, given that each is orderable. */
  lemma ItemsTyped(f: Frame, groupBy: string, sortBy: string) returns (gNum: bool, sNum: bool)
    requires Valid(f) && groupBy in Names(f.cols) && sortBy in Names(f.cols)
    requires Orderable(f, groupBy) && Orderable(f, sortBy)
    ensures AllTyped(Items(f, groupBy, sortBy), gNum, sNum)
  {
    gNum := forall i :: 0 <= i < f.size ==> CellAt(f, groupBy, i).Num?;
    sNum := forall i :: 0 <= i < f.size ==> CellAt(f, sortBy, i).Num?;
  }

  /** The sort reorders the rows: every row appears exactly once. */
  lemma SortOrderPermutation(f: Frame, groupBy: string, sortBy: string)
    requires Valid(f) && groupBy in Names(f.cols) && sortBy in Names(f.cols)
    requires Orderable(f, groupBy) && Orderable(f, sortBy)
    ensures forall r :: 0 <= r < f.size ==> r in SortOrder(f, groupBy, sortBy)
    ensures forall i, j :: 0 <= i < j < f.size ==> SortOrder(f, groupBy, sortBy)[i] != SortOrder(f, groupBy, sortBy)[j]
  {
    var items := Items(f, groupBy, sortBy);
    var sorted := SortItems(items);
    var order := SortOrder(f, groupBy, sortBy);
    SortedFrom(items);
    forall r | 0 <= r < f.size ensures r in order {
      assert items[r] in multiset(sorted);
      var i :| 0 <= i < |sorted| && sorted[i] == items[r];
      assert order[i] == r;
    }
    var gNum, sNum := ItemsTyped(f, groupBy, sortBy);
    SortItemsSorted(items, gNum, sNum);
    forall i, j | 0 <= i < j < f.size ensures order[i] != order[j] {
      assert sorted[i] in multiset(items) && sorted[j] in multiset(items);
      BeforeOrder(sorted[i], sorted[j], sorted[i], gNum, sNum);
    }
  }

  /** Output row i is input row `SortOrder[i]`, in every column; names, kinds and size are kept. */
  lemma SortAndIdentifyRows(f: Frame, groupBy: string, sortBy: string, name: string, i: nat)
    requires Valid(f) && groupBy in Names(f.cols) && sortBy in Names(f.cols)
    requires name in Names(f.cols) && i < f.size
    ensures var g := SortAndIdentify(groupBy, sortBy, f);
      Valid(g.frame) && g.frame.size == f.size && Names(g.frame.cols) == Names(f.cols)
      && (forall k :: 0 <= k < |f.cols| ==> g.frame.cols[k].kind == f.cols[k].kind)
      && CellAt(g.frame, name, i) == CellAt(f, name, SortOrder(f, groupBy, sortBy)[i])
  {
    var rows := SortOrder(f, groupBy, sortBy);
    assert SortAndIdentify(groupBy, sortBy, f).frame == Frame(ReindexCols(f.cols, rows, f.size), |rows|);
    ReindexCellAt(f, rows, name, i);
  }

  /** The sorted item at position i, read back from the reordered frame. */
  lemma SortedAt(f: Frame, groupBy: string, sortBy: string, i: nat)
    requires Valid(f) && groupBy in Names(f.cols) && sortBy in Names(f.cols) && i < f.size
    ensures var g := SortAndIdentify(groupBy, sortBy, f);
      Valid(g.frame) && groupBy in Names(g.frame.cols) && sortBy in Names(g.frame.cols)
      && SortItems(Items(f, groupBy, sortBy))[i] ==
         Item(SortOrder(f, groupBy, sortBy)[i], CellAt(g.frame, groupBy, i), CellAt(g.frame, sortBy, i))
  {
    SortedFrom(Items(f, groupBy, sortBy));
    SortAndIdentifyRows(f, groupBy, sortBy, groupBy, i);
    SortAndIdentifyRows(f, groupBy, sortBy, sortBy, i);
  }

  /**
    The reordered rows run in ascending group order; within a group, in
    ascending sort order; and rows that tie on both keep their input order.
   */
  lemma SortAndIdentifyOrdered(f: Frame, groupBy: string, sortBy: string, i: nat, j: nat)
    requires Valid(f) && groupBy in Names(f.cols) && sortBy in Names(f.cols)
    requires Orderable(f, groupBy) && Orderable(f, sortBy)
    requires i < j < f.size
    ensures var g := SortAndIdentify(groupBy, sortBy, f);
      var order := SortOrder(f, groupBy, sortBy);
      Valid(g.frame) && groupBy in Names(g.frame.cols) && sortBy in Names(g.frame.cols)
      && (CellAt(g.frame, groupBy, i) == CellAt(g.frame, groupBy, j) || CellLess(CellAt(g.frame, groupBy, i), CellAt(g.frame, groupBy, j)))
      && (CellAt(g.frame, groupBy, i) == CellAt(g.frame, groupBy, j) ==> !CellLess(CellAt(g.frame, sortBy, j), CellAt(g.frame, sortBy, i)))
      && (CellAt(g.frame, groupBy, i) == CellAt(g.frame, groupBy, j) && CellAt(g.frame, sortBy, i) == CellAt(g.frame, sortBy, j)
          ==> order[i] < order[j])
  {
    var items := Items(f, groupBy, sortBy);
    var sorted := SortItems(items);
    var gNum, sNum := ItemsTyped(f, groupBy, sortBy);
    SortItemsSorted(items, gNum, sNum);
    SortedAt(f, groupBy, sortBy, i);
    SortedAt(f, groupBy, sortBy, j);
    SortedFrom(items);
    assert sorted[i] in multiset(items) && sorted[j] in multiset(items);
    assert Before(sorted[i], sorted[j]);
    CellLessOrder(sorted[i].sort, sorted[j].sort, sorted[i].sort, sNum);
  }

  lemma {:induction false} MetaMapKeys(runs: seq<Run>, ss: seq<Cell>)
    requires RunsWithin(runs, |ss|)
    ensures forall v :: v in MetaMap(runs, ss) <==> v in RunGroups(runs)
  {
    if runs != [] {
      var init := runs[..|runs| - 1];
      MetaMapKeys(init, ss);
      assert RunGroups(runs) == RunGroups(init) + [runs[|runs| - 1].group];
    }
  }

  /** A run no later run shares its value with keeps its closed metadata in the map. */
  lemma {:induction false} MetaMapAt(runs: seq<Run>, ss: seq<Cell>, k: nat)
    requires RunsWithin(runs, |ss|) && k < |runs|
    requires forall l :: k < l < |runs| ==> runs[l].group != runs[k].group
    ensures runs[k].group in MetaMap(runs, ss) && MetaMap(runs, ss)[runs[k].group] == Closed(ss, runs[k])
  {
    if k < |runs| - 1 {
      var init := runs[..|runs| - 1];
      assert init[k] == runs[k];
      MetaMapAt(init, ss, k);
    }
  }

  /** The group values never decrease along the sorted rows. */
  predicate GroupOrdered(gs: seq<Cell>) {
    forall i, j :: 0 <= i < j < |gs| ==> gs[i] == gs[j] || CellLess(gs[i], gs[j])
  }

  /** Later runs start no earlier. */
  lemma {:induction false} RunsAscend(gs: seq<Cell>, runs: seq<Run>, k: nat, l: nat)
    requires RunsTile(gs, runs) && k <= l < |runs|
    ensures runs[k].offset <= runs[l].offset
    decreases l - k
  {
    if k < l {
      RunsAscend(gs, runs, k + 1, l);
      assert runs[k + 1].offset == runs[k].offset + runs[k].count;
    }
  }

  lemma RunsIncreasing(gs: seq<Cell>, gNum: bool)
    requires GroupOrdered(gs) && forall i :: 0 <= i < |gs| ==> OfKind(gs[i], gNum)
    ensures forall k, l :: 0 <= k < l < |Runs(gs)| ==> CellLess(Runs(gs)[k].group, Runs(gs)[l].group)
  {
    var runs := Runs(gs);
    RunsTiling(gs);
    forall k, l | 0 <= k < l < |runs| ensures CellLess(runs[k].group, runs[l].group) {
      var a, b, c := runs[k].offset, runs[k + 1].offset, runs[l].offset;
      assert a < b <= c by {
        RunsAscend(gs, runs, k + 1, l);
      }
      assert gs[a] == runs[k].group && gs[b] == runs[k + 1].group && gs[c] == runs[l].group;
      CellLessOrder(gs[a], gs[b], gs[c], gNum);
    }
  }

  /** Runs over ordered values of one kind tile them, in strictly ascending order. */
  lemma RunFacts(gs: seq<Cell>, gNum: bool)
    requires GroupOrdered(gs) && forall i :: 0 <= i < |gs| ==> OfKind(gs[i], gNum)
    ensures RunsTile(gs, Runs(gs))
    ensures forall k :: 0 <= k < |Runs(gs)| ==> OfKind(Runs(gs)[k].group, gNum)
    ensures forall k, l :: 0 <= k < l < |Runs(gs)| ==> CellLess(Runs(gs)[k].group, Runs(gs)[l].group)
  {
    var runs := Runs(gs);
    RunsTiling(gs);
    RunsIncreasing(gs, gNum);
    forall k | 0 <= k < |runs| ensures OfKind(runs[k].group, gNum) {
      assert gs[runs[k].offset] == runs[k].group;
    }
  }

  /** After the sort the group values never decrease and all have one kind. */
  lemma SortedGroups(f: Frame, groupBy: string, sortBy: string) returns (gNum: bool, sNum: bool)
    requires Valid(f) && groupBy in Names(f.cols) && sortBy in Names(f.cols)
    requires Orderable(f, groupBy) && Orderable(f, sortBy)
    ensures var gs := GroupCol(SortItems(Items(f, groupBy, sortBy)));
      GroupOrdered(gs) && (forall i :: 0 <= i < |gs| ==> OfKind(gs[i], gNum))
  {
    var items := Items(f, groupBy, sortBy);
    var sorted := SortItems(items);
    gNum, sNum := ItemsTyped(f, groupBy, sortBy);
    SortItemsSorted(items, gNum, sNum);
    SortKeepsKinds(items, gNum, sNum);
    SortedGroupOrder(sorted);
  }

  /** Sorting keeps every item, so it keeps their kinds. */
  lemma SortKeepsKinds(items: seq<Item>, gNum: bool, sNum: bool)
    requires AllTyped(items, gNum, sNum)
    ensures AllTyped(SortItems(items), gNum, sNum)
    ensures forall i :: 0 <= i < |items| ==> OfKind(GroupCol(SortItems(items))[i], gNum)
  {
    var sorted := SortItems(items);
    forall i | 0 <= i < |sorted| ensures Typed2(sorted[i], gNum, sNum) {
      assert sorted[i] in multiset(items);
    }
  }

  /** Items in `Before` order have nondecreasing group values. */
  lemma SortedGroupOrder(sorted: seq<Item>)
    requires Sorted(sorted)
    ensures GroupOrdered(GroupCol(sorted))
  {
    var gs := GroupCol(sorted);
    forall i, j | 0 <= i < j < |gs| ensures gs[i] == gs[j] || CellLess(gs[i], gs[j]) {
      assert Before(sorted[i], sorted[j]);
    }
  }

  /** The sorted group and sort values are the reordered frame's cells; the group values never decrease. */
  lemma SortedColumns(f: Frame, groupBy: string, sortBy: string) returns (gNum: bool, sNum: bool)
    requires Valid(f) && groupBy in Names(f.cols) && sortBy in Names(f.cols)
    requires Orderable(f, groupBy) && Orderable(f, sortBy)
    ensures var g := SortAndIdentify(groupBy, sortBy, f);
      var sorted := SortItems(Items(f, groupBy, sortBy));
      Valid(g.frame) && groupBy in Names(g.frame.cols) && sortBy in Names(g.frame.cols)
      && |sorted| == g.frame.size == f.size
      && (forall i :: 0 <= i < f.size ==>
            CellAt(g.frame, groupBy, i) == GroupCol(sorted)[i] && CellAt(g.frame, sortBy, i) == SortCol(sorted)[i]
            && OfKind(GroupCol(sorted)[i], gNum))
      && GroupOrdered(GroupCol(sorted))
  {
    var sorted := SortItems(Items(f, groupBy, sortBy));
    gNum, sNum := SortedGroups(f, groupBy, sortBy);
    ReindexColsValid(f.cols, SortOrder(f, groupBy, sortBy), f.size);
    forall i | 0 <= i < f.size
      ensures CellAt(SortAndIdentify(groupBy, sortBy, f).frame, groupBy, i) == GroupCol(sorted)[i]
      ensures CellAt(SortAndIdentify(groupBy, sortBy, f).frame, sortBy, i) == SortCol(sorted)[i]
    {
      SortedAt(f, groupBy, sortBy, i);
    }
  }

  /** The closed metadata of each run, when the runs' values strictly increase. */
  lemma RunMetas(runs: seq<Run>, ss: seq<Cell>, gNum: bool)
    requires RunsWithin(runs, |ss|)
    requires forall k :: 0 <= k < |runs| ==> OfKind(runs[k].group, gNum)
    requires forall k, l :: 0 <= k < l < |runs| ==> CellLess(runs[k].group, runs[l].group)
    ensures forall k :: 0 <= k < |runs| ==> runs[k].group in MetaMap(runs, ss) && MetaMap(runs, ss)[runs[k].group] == Closed(ss, runs[k])
    ensures forall k, l :: 0 <= k < l < |runs| ==> runs[k].group != runs[l].group
  {
    forall k, l | 0 <= k < l < |runs| ensures runs[k].group != runs[l].group {
      CellLessOrder(runs[k].group, runs[l].group, runs[k].group, gNum);
    }
    forall k | 0 <= k < |runs| ensures runs[k].group in MetaMap(runs, ss) && MetaMap(runs, ss)[runs[k].group] == Closed(ss, runs[k]) {
      MetaMapAt(runs, ss, k);
    }
  }

  /** A grouped frame built from tiling runs with distinct values is tiled. */
  lemma TiledFromRuns(g: GroupedFrame, gs: seq<Cell>, ss: seq<Cell>, runs: seq<Run>)
    requires RunsTile(gs, runs) && |gs| == |ss| == g.frame.size
    requires |g.groupValues| == |runs| && forall k :: 0 <= k < |runs| ==> g.groupValues[k] == runs[k].group
    requires forall v :: v in g.groups <==> v in g.groupValues
    requires forall k :: 0 <= k < |runs| ==> runs[k].group in g.groups && g.groups[runs[k].group] == Closed(ss, runs[k])
    requires forall k, l :: 0 <= k < l < |runs| ==> runs[k].group != runs[l].group
    ensures Tiled(g)
  {
    var gv := g.groupValues;
    forall k | 0 <= k < |gv| ensures g.groups[gv[k]] == Closed(ss, runs[k]) {
    }
    forall k, l | 0 <= k < |gv| && l == k + 1 && l < |gv| ensures g.groups[gv[l]].offset == End(g.groups[gv[k]]) {
      assert g.groups[gv[l]] == Closed(ss, runs[l]);
    }
  }

  /**
    The groups of `sortAndIdentifyGroups` tile the reordered rows, in
    strictly ascending group order, each group's metadata spanning exactly
    the rows of one group value.
   */
  lemma SortAndIdentifyTiled(f: Frame, groupBy: string, sortBy: string)
    requires Valid(f) && groupBy in Names(f.cols) && sortBy in Names(f.cols)
    requires Orderable(f, groupBy) && Orderable(f, sortBy)
    ensures Tiled(SortAndIdentify(groupBy, sortBy, f))
    ensures var gv := SortAndIdentify(groupBy, sortBy, f).groupValues;
      forall k, l :: 0 <= k < l < |gv| ==> CellLess(gv[k], gv[l])
  {
    var g := SortAndIdentify(groupBy, sortBy, f);
    var gNum, sNum := SortedGroups(f, groupBy, sortBy);
    RunsEnds(GroupCol(SortItems(Items(f, groupBy, sortBy))));
    GroupingTiled(SortItems(Items(f, groupBy, sortBy)), gNum, g);
  }

  /** The metadata of runs over ordered group values tiles the rows, in ascending group order. */
  lemma GroupingTiled(sorted: seq<Item>, gNum: bool, g: GroupedFrame)
    requires GroupOrdered(GroupCol(sorted)) && forall i :: 0 <= i < |sorted| ==> OfKind(GroupCol(sorted)[i], gNum)
    requires RunsWithin(Runs(GroupCol(sorted)), |sorted|)
    requires g.frame.size == |sorted|
    requires g.groupValues == RunGroups(Runs(GroupCol(sorted))) && g.groups == MetaMap(Runs(GroupCol(sorted)), SortCol(sorted))
    ensures Tiled(g) && forall k, l :: 0 <= k < l < |g.groupValues| ==> CellLess(g.groupValues[k], g.groupValues[l])
  {
    var gs, ss := GroupCol(sorted), SortCol(sorted);
    var runs := Runs(gs);
    RunFacts(gs, gNum);
    RunMetas(runs, ss, gNum);
    MetaMapKeys(runs, ss);
    TiledFromRuns(g, gs, ss, runs);
  }

  /** The grouped frame's group and sort columns hold the sorted items' values. */
  ghost predicate RowsAre(g: GroupedFrame, groupBy: string, sortBy: string, sorted: seq<Item>) {
    Columns(g, groupBy, sortBy) && g.frame.size == |sorted|
    && forall i :: 0 <= i < |sorted| ==>
      CellAt(g.frame, groupBy, i) == sorted[i].group && CellAt(g.frame, sortBy, i) == sorted[i].sort
  }

  /** The grouped frame's ranges are those of `runs`. */
  predicate RangesOf(g: GroupedFrame, runs: seq<Run>) {
    |g.groupValues| == |runs|
    && forall k :: 0 <= k < |runs| ==>
      g.groupValues[k] == runs[k].group && g.groupValues[k] in g.groups
      && g.groups[g.groupValues[k]].offset == runs[k].offset && g.groups[g.groupValues[k]].count == runs[k].count
  }

  /** The runs tile the sorted items and the metadata of each is its range with its first and last sort values. */
  predicate ClosedRuns(g: GroupedFrame, sorted: seq<Item>, runs: seq<Run>) {
    RunsTile(GroupCol(sorted), runs) && RangesOf(g, runs)
    && forall k :: 0 <= k < |runs| ==>
      g.groups[g.groupValues[k]].min == sorted[runs[k].offset].sort
      && g.groups[g.groupValues[k]].max == sorted[runs[k].offset + runs[k].count - 1].sort
  }

  /** The metadata of each run is its closed range: its rows, first and last sort values. */
  lemma GroupsClosed(sorted: seq<Item>, gNum: bool, g: GroupedFrame)
    requires GroupOrdered(GroupCol(sorted)) && forall i :: 0 <= i < |sorted| ==> OfKind(GroupCol(sorted)[i], gNum)
    requires RunsWithin(Runs(GroupCol(sorted)), |sorted|)
    requires g.groupValues == RunGroups(Runs(GroupCol(sorted))) && g.groups == MetaMap(Runs(GroupCol(sorted)), SortCol(sorted))
    ensures ClosedRuns(g, sorted, Runs(GroupCol(sorted)))
  {
    var gs, ss := GroupCol(sorted), SortCol(sorted);
    var runs := Runs(gs);
    RunFacts(gs, gNum);
    RunMetas(runs, ss, gNum);
    ClosedFromMetas(g, sorted, runs);
  }

  lemma ClosedFromMetas(g: GroupedFrame, sorted: seq<Item>, runs: seq<Run>)
    requires RunsTile(GroupCol(sorted), runs)
    requires |g.groupValues| == |runs| && forall k :: 0 <= k < |runs| ==> g.groupValues[k] == runs[k].group
    requires forall k :: 0 <= k < |runs| ==>
      runs[k].group in g.groups && g.groups[runs[k].group] == Closed(SortCol(sorted), runs[k])
    ensures ClosedRuns(g, sorted, runs)
  {
  }

  /** Every row in a run's range carries the run's group value. */
  lemma RowsOfRuns(g: GroupedFrame, groupBy: string, sortBy: string, sorted: seq<Item>, runs: seq<Run>)
    requires RowsAre(g, groupBy, sortBy, sorted)
    requires RunsTile(GroupCol(sorted), runs) && RangesOf(g, runs)
    ensures GroupRows(g, groupBy, sortBy)
  {
    var gs := GroupCol(sorted);
    forall k, i | 0 <= k < |g.groupValues| && g.groups[g.groupValues[k]].offset <= i < End(g.groups[g.groupValues[k]])
      ensures CellAt(g.frame, groupBy, i) == g.groupValues[k]
    {
      assert runs[k].offset <= i < runs[k].offset + runs[k].count;
      assert CellAt(g.frame, groupBy, i) == sorted[i].group == gs[i];
    }
  }

  /** Among items of one group, `Before` never puts a larger sort value first. */
  lemma BeforeSameGroup(a: Item, b: Item, sNum: bool)
    requires Before(a, b) && a.group == b.group && OfKind(a.sort, sNum) && OfKind(b.sort, sNum)
    ensures !CellLess(b.sort, a.sort)
  {
    CellLessOrder(a.sort, b.sort, a.sort, sNum);
  }

  /** Among items of one group the sort values never decrease. */
  predicate SortWithinGroups(sorted: seq<Item>) {
    forall i, j :: 0 <= i < j < |sorted| && sorted[i].group == sorted[j].group ==> !CellLess(sorted[j].sort, sorted[i].sort)
  }

  lemma SortedWithinGroups(sorted: seq<Item>, gNum: bool, sNum: bool)
    requires Sorted(sorted) && AllTyped(sorted, gNum, sNum)
    ensures SortWithinGroups(sorted)
  {
    forall i, j | 0 <= i < j < |sorted| && sorted[i].group == sorted[j].group
      ensures !CellLess(sorted[j].sort, sorted[i].sort)
    {
      BeforeSameGroup(sorted[i], sorted[j], sNum);
    }
  }

  /** The bounds recorded for each run are its first and last sort values. */
  lemma BoundsOfRuns(g: GroupedFrame, groupBy: string, sortBy: string, sorted: seq<Item>, runs: seq<Run>)
    requires RowsAre(g, groupBy, sortBy, sorted)
    requires RangesOf(g, runs)
    requires forall k :: 0 <= k < |runs| ==>
      g.groups[g.groupValues[k]].min == sorted[runs[k].offset].sort
      && g.groups[g.groupValues[k]].max == sorted[runs[k].offset + runs[k].count - 1].sort
    ensures GroupBounds(g, groupBy, sortBy)
  {
    forall k | 0 <= k < |g.groupValues|
      ensures g.groups[g.groupValues[k]].min == CellAt(g.frame, sortBy, g.groups[g.groupValues[k]].offset)
      ensures g.groups[g.groupValues[k]].max == CellAt(g.frame, sortBy, End(g.groups[g.groupValues[k]]) - 1)
    {
      var m := g.groups[g.groupValues[k]];
      var e := runs[k].offset + runs[k].count - 1;
      assert m.offset == runs[k].offset && End(m) - 1 == e;
      assert CellAt(g.frame, sortBy, e) == sorted[e].sort;
    }
  }

  /** Sorted items give ascending sort values within each run. */
  lemma AscendingOfRuns(g: GroupedFrame, groupBy: string, sortBy: string, sorted: seq<Item>, runs: seq<Run>)
    requires RowsAre(g, groupBy, sortBy, sorted)
    requires SortWithinGroups(sorted)
    requires RunsTile(GroupCol(sorted), runs) && RangesOf(g, runs)
    ensures GroupAscending(g, groupBy, sortBy)
  {
    var gs := GroupCol(sorted);
    forall k, i, j | 0 <= k < |g.groupValues| && g.groups[g.groupValues[k]].offset <= i < j < End(g.groups[g.groupValues[k]])
      ensures !CellLess(CellAt(g.frame, sortBy, j), CellAt(g.frame, sortBy, i))
    {
      assert runs[k].offset <= i < j < runs[k].offset + runs[k].count;
      assert gs[i] == runs[k].group == gs[j];
      assert CellAt(g.frame, sortBy, i) == sorted[i].sort && CellAt(g.frame, sortBy, j) == sorted[j].sort;
    }
  }

  /** A grouped frame whose ranges, bounds and rows come from runs over sorted items is labelled. */
  lemma LabelledFromRuns(g: GroupedFrame, groupBy: string, sortBy: string, sorted: seq<Item>, runs: seq<Run>)
    requires RowsAre(g, groupBy, sortBy, sorted)
    requires SortWithinGroups(sorted)
    requires ClosedRuns(g, sorted, runs)
    ensures Labelled(g, groupBy, sortBy)
  {
    RowsOfRuns(g, groupBy, sortBy, sorted, runs);
    BoundsOfRuns(g, groupBy, sortBy, sorted, runs);
    AscendingOfRuns(g, groupBy, sortBy, sorted, runs);
  }

  /** A grouped frame built from the runs over sorted items is labelled. */
  lemma LabelledFromSorted(g: GroupedFrame, groupBy: string, sortBy: string, sorted: seq<Item>, gNum: bool)
    requires Columns(g, groupBy, sortBy) && g.frame.size == |sorted|
    requires forall i :: 0 <= i < |sorted| ==>
      CellAt(g.frame, groupBy, i) == GroupCol(sorted)[i] && CellAt(g.frame, sortBy, i) == SortCol(sorted)[i]
      && OfKind(GroupCol(sorted)[i], gNum)
    requires SortWithinGroups(sorted) && GroupOrdered(GroupCol(sorted))
    requires RunsWithin(Runs(GroupCol(sorted)), |sorted|)
    requires g.groupValues == RunGroups(Runs(GroupCol(sorted))) && g.groups == MetaMap(Runs(GroupCol(sorted)), SortCol(sorted))
    ensures Labelled(g, groupBy, sortBy)
  {
    assert RowsAre(g, groupBy, sortBy, sorted);
    GroupsClosed(sorted, gNum, g);
    LabelledFromRuns(g, groupBy, sortBy, sorted, Runs(GroupCol(sorted)));
  }

  /** After the sort, items of one group come in ascending sort order. */
  lemma SortedWithinGroupsOf(f: Frame, groupBy: string, sortBy: string)
    requires Valid(f) && groupBy in Names(f.cols) && sortBy in Names(f.cols)
    requires Orderable(f, groupBy) && Orderable(f, sortBy)
    ensures SortWithinGroups(SortItems(Items(f, groupBy, sortBy)))
  {
    var items := Items(f, groupBy, sortBy);
    var sorted := SortItems(items);
    var gNum, sNum := ItemsTyped(f, groupBy, sortBy);
    SortItemsSorted(items, gNum, sNum);
    SortKeepsKinds(items, gNum, sNum);
    SortedWithinGroups(sorted, gNum, sNum);
  }

  /** Within each group the rows carry its value, sort ascending, and span `min` to `max`. */
  lemma SortAndIdentifyLabelled(f: Frame, groupBy: string, sortBy: string)
    requires Valid(f) && groupBy in Names(f.cols) && sortBy in Names(f.cols)
    requires Orderable(f, groupBy) && Orderable(f, sortBy)
    ensures Labelled(SortAndIdentify(groupBy, sortBy, f), groupBy, sortBy)
  {
    var g := SortAndIdentify(groupBy, sortBy, f);
    var sorted := SortItems(Items(f, groupBy, sortBy));
    var gNum, sNum := SortedColumns(f, groupBy, sortBy);
    SortedWithinGroupsOf(f, groupBy, sortBy);
    SortAndIdentifyTiled(f, groupBy, sortBy);
    RunsEnds(GroupCol(sorted));
    // Stating the pieces here first keeps the call below cheap.
    assert Columns(g, groupBy, sortBy) && g.frame.size == |sorted|;
    assert SortWithinGroups(sorted) && GroupOrdered(GroupCol(sorted));
    assert RunsWithin(Runs(GroupCol(sorted)), |sorted|);
    assert g.groupValues == RunGroups(Runs(GroupCol(sorted))) && g.groups == MetaMap(Runs(GroupCol(sorted)), SortCol(sorted));
    LabelledFromSorted(g, groupBy, sortBy, sorted, gNum);
  }
}

=== FILE: ingest.dfy ===
/**
  `processCsv` of common/data/csv.js: the quote-aware line splitter
  `parseCsvLine`, the schema-driven choice of columns and the reading of
  every data line into them.
 */
module Ingest {
  import opened Outcomes
  import opened Text
  import opened Words
  import opened Frames

  // ---- parseCsvLine -----------------------------------------------------

  /** The number of double-quote characters in s. */
  function QuoteCount(s: string): nat {
    if s == [] then 0 else QuoteCount(s[..|s| - 1]) + (if s[|s| - 1] == '"' then 1 else 0)
  }

  /** After reading s, the splitter is inside quotes: an odd number of quotes so far. */
  predicate InQuotes(s: string) { QuoteCount(s) % 2 == 1 }

  /**
    The untrimmed fields of a line: a comma outside quotes ends a field, a
    quote character is dropped, every other character extends the last field.
   */
  function RawFields(line: string): (r: seq<string>)
    ensures |r| >= 1
  {
    if line == [] then [[]]
    else
      var prefix := line[..|line| - 1];
      var c := line[|line| - 1];
      var fs := RawFields(prefix);
      if c == '"' then fs
      else if c == ',' && !InQuotes(prefix) then fs + [[]]
      else fs[..|fs| - 1] + [fs[|fs| - 1] + [c]]
  }

  function TrimAll(fs: seq<string>): (r: seq<string>)
    ensures |r| == |fs|
  {
    seq(|fs|, k requires 0 <= k < |fs| => Trim(fs[k]))
  }

  /** The fields `parseCsvLine` returns for a line. */
  function CsvFields(line: string): (r: seq<string>)
    ensures |r| >= 1
  {
    TrimAll(RawFields(line))
  }

  /**
    `parseCsvLine(line)`: toggles `inQuotes` at each '"', pushes the trimmed
    current field at each comma outside quotes, and pushes the last field.
   */
  method ParseCsvLine(line: string) returns (result: seq<string>)
    ensures result == CsvFields(line)
  {
    result := [];
    ghost var raw: seq<string> := [];
    var current: string := [];
    var inQuotes := false;
    for i := 0 to |line|
      invariant inQuotes == InQuotes(line[..i])
      invariant raw + [current] == RawFields(line[..i])
      invariant result == TrimAll(raw)
    {
      var c := line[i];
      assert line[..i + 1] == line[..i] + [c];
      if c == '"' {
        QuoteStep(line[..i]);
        inQuotes := !inQuotes;
      } else if c == ',' && !inQuotes {
        RawFieldsComma(line[..i]);
        TrimAllSnoc(raw, current);
        result := result + [Trim(current)];
        raw := raw + [current];
        current := [];
      } else {
        CharStep(line[..i], c, raw, current);
        current := current + [c];
      }
    }
    assert line[..|line|] == line;
    TrimAllSnoc(raw, current);
    result := result + [Trim(current)];
    raw := raw + [current];
  }

  /** A quote character toggles the quoting and adds nothing to the fields. */
  lemma QuoteStep(s: string)
    ensures QuoteCount(s + ['"']) == QuoteCount(s) + 1
    ensures InQuotes(s + ['"']) <==> !InQuotes(s)
    ensures RawFields(s + ['"']) == RawFields(s)
  {
    assert (s + ['"'])[..|s|] == s;
  }

  /** Any other character, unless it is a comma outside quotes, extends the last field. */
  lemma CharStep(s: string, c: char, raw: seq<string>, current: string)
    requires c != '"' && (c != ',' || InQuotes(s))
    requires raw + [current] == RawFields(s)
    ensures QuoteCount(s + [c]) == QuoteCount(s)
    ensures RawFields(s + [c]) == raw + [current + [c]]
  {
    assert (s + [c])[..|s|] == s;
    var fs := RawFields(s);
    assert fs[..|fs| - 1] == raw;
  }

  lemma TrimAllSnoc(fs: seq<string>, x: string)
    ensures TrimAll(fs + [x]) == TrimAll(fs) + [Trim(x)]
  {
    var a, b := TrimAll(fs + [x]), TrimAll(fs) + [Trim(x)];
    forall k | 0 <= k < |a|
      ensures a[k] == b[k]
    {
      if k < |fs| {
        assert (fs + [x])[k] == fs[k];
        assert b[k] == TrimAll(fs)[k];
      } else {
        assert (fs + [x])[k] == x;
      }
    }
    assert a == b;
  }

  /** A quote-free text continues the last field, when it is inside quotes or has no comma. */
  lemma {:induction false} RawFieldsPlain(p: string, q: string, raw: seq<string>, current: string)
    requires '"' !in q && (InQuotes(p) || ',' !in q)
    requires raw + [current] == RawFields(p)
    ensures QuoteCount(p + q) == QuoteCount(p) && (InQuotes(p + q) <==> InQuotes(p))
    ensures RawFields(p + q) == raw + [current + q]
  {
    if q == [] {
      assert p + q == p && current + q == current;
    } else {
      var q', c := q[..|q| - 1], q[|q| - 1];
      assert q == q' + [c];
      RawFieldsPlain(p, q', raw, current);
      CharStep(p + q', c, raw, current + q');
      assert p + q == (p + q') + [c];
      assert current + q == (current + q') + [c];
    }
  }

  /** A field wrapped in quotes is read without its quotes, commas included. */
  function Quote(x: string): string { ['"'] + x + ['"'] }

  lemma RawFieldsQuoted(p: string, x: string, raw: seq<string>, current: string)
    requires !InQuotes(p) && '"' !in x
    requires raw + [current] == RawFields(p)
    ensures !InQuotes(p + Quote(x))
    ensures RawFields(p + Quote(x)) == raw + [current + x]
  {
    QuotedField(p, x, raw, current);
    QuoteParts(p, x);
  }

  lemma QuotedField(p: string, x: string, raw: seq<string>, current: string)
    requires !InQuotes(p) && '"' !in x
    requires raw + [current] == RawFields(p)
    ensures !InQuotes(((p + ['"']) + x) + ['"'])
    ensures RawFields(((p + ['"']) + x) + ['"']) == raw + [current + x]
  {
    var open := p + ['"'];
    QuoteStep(p);
    RawFieldsPlain(open, x, raw, current);
    QuoteStep(open + x);
  }

  lemma QuoteParts(p: string, x: string)
    ensures p + Quote(x) == ((p + ['"']) + x) + ['"']
  {
  }

  lemma RawFieldsComma(p: string)
    requires !InQuotes(p)
    ensures !InQuotes(p + [','])
    ensures RawFields(p + [',']) == RawFields(p) + [[]]
  {
    assert (p + [','])[..|p|] == p;
  }

  predicate PlainField(x: string) { '"' !in x && ',' !in x }

  /** Fields free of commas and quotes, joined with commas, are read back unchanged. */
  lemma {:induction false} RawFieldsJoinPlain(parts: seq<string>)
    requires |parts| >= 1
    requires forall k :: 0 <= k < |parts| ==> PlainField(parts[k])
    ensures !InQuotes(Join(parts, ","))
    ensures RawFields(Join(parts, ",")) == parts
  {
    var x := parts[|parts| - 1];
    if |parts| == 1 {
      PlainAlone(x);
    } else {
      var init := parts[..|parts| - 1];
      assert init + [x] == parts;
      RawFieldsJoinPlain(init);
      JoinSnoc(init, x, ",");
      PlainAfterComma(Join(init, ","), x, init);
    }
  }

  lemma PlainAlone(x: string)
    requires PlainField(x)
    ensures !InQuotes(x) && RawFields(x) == [x]
  {
    RawFieldsPlain([], x, [], []);
    assert [] + x == x;
  }

  /** A comma and a plain field after a complete line add that field. */
  lemma PlainAfterComma(j: string, x: string, fields: seq<string>)
    requires !InQuotes(j) && RawFields(j) == fields && PlainField(x)
    ensures !InQuotes(j + "," + x)
    ensures RawFields(j + "," + x) == fields + [x]
  {
    RawFieldsComma(j);
    RawFieldsPlain(j + [','], x, fields, []);
    assert j + "," + x == (j + [',']) + x;
    assert [] + x == x;
  }

  function QuoteAll(parts: seq<string>): (r: seq<string>)
    ensures |r| == |parts|
  {
    seq(|parts|, k requires 0 <= k < |parts| => Quote(parts[k]))
  }

  /** Quote-free fields, each wrapped in quotes and joined with commas, are read back unchanged. */
  lemma {:induction false} RawFieldsJoinQuoted(parts: seq<string>)
    requires |parts| >= 1
    requires forall k :: 0 <= k < |parts| ==> '"' !in parts[k]
    ensures !InQuotes(Join(QuoteAll(parts), ","))
    ensures RawFields(Join(QuoteAll(parts), ",")) == parts
  {
    var x := parts[|parts| - 1];
    if |parts| == 1 {
      RawFieldsQuoted([], x, [], []);
      assert [] + Quote(x) == Quote(x);
      assert QuoteAll(parts) == [Quote(x)];
      assert [] + x == x;
    } else {
      var init := parts[..|parts| - 1];
      assert init + [x] == parts;
      RawFieldsJoinQuoted(init);
      QuoteAllSnoc(init, x);
      JoinSnoc(QuoteAll(init), Quote(x), ",");
      QuotedAfterComma(Join(QuoteAll(init), ","), x, init);
    }
  }

  lemma QuoteAllSnoc(parts: seq<string>, x: string)
    ensures QuoteAll(parts + [x]) == QuoteAll(parts) + [Quote(x)]
  {
  }

  /** A comma and a quoted field after a complete line add that field. */
  lemma QuotedAfterComma(j: string, x: string, fields: seq<string>)
    requires !InQuotes(j) && RawFields(j) == fields && '"' !in x
    ensures !InQuotes(j + "," + Quote(x))
    ensures RawFields(j + "," + Quote(x)) == fields + [x]
  {
    RawFieldsComma(j);
    RawFieldsQuoted(j + [','], x, fields, []);
    assert j + "," + Quote(x) == (j + [',']) + Quote(x);
    assert [] + x == x;
  }

  /** What `parseCsvLine` returns for a line written from fields, plain or quoted. */
  lemma ParseJoined(parts: seq<string>)
    requires |parts| >= 1
    requires forall k :: 0 <= k < |parts| ==> '"' !in parts[k]
    ensures CsvFields(Join(QuoteAll(parts), ",")) == TrimAll(parts)
    ensures (forall k :: 0 <= k < |parts| ==> ',' !in parts[k]) ==>
      CsvFields(Join(parts, ",")) == TrimAll(parts)
  {
    RawFieldsJoinQuoted(parts);
    if forall k :: 0 <= k < |parts| ==> ',' !in parts[k] {
      RawFieldsJoinPlain(parts);
    }
  }

  // ---- the schema -------------------------------------------------------

  datatype FieldType = StringField | NumberField

  /** One entry of the `headers` option; `rename` and `drop` may be absent. */
  datatype RowDefinition = RowDefinition(name: string, fieldType: FieldType, rename: Option<string>, drop: bool)

  /** `header.rename || header.name`: an absent or empty rename keeps the name. */
  function KeyOf(h: RowDefinition): string {
    if h.rename.Some? && h.rename.value != [] then h.rename.value else h.name
  }

  /** `xs.indexOf(x)`: the first position of x, or None for -1. */
  function FirstIndex(xs: seq<string>, x: string): (r: Option<nat>)
    ensures r.Some? ==> r.value < |xs| && xs[r.value] == x && forall k :: 0 <= k < r.value ==> xs[k] != x
    ensures r.None? ==> x !in xs
  {
    if |xs| == 0 then None
    else if xs[0] == x then Some(0)
    else match FirstIndex(xs[1..], x)
      case Some(k) => Some(k + 1)
      case None => None
  }

  /** An entry of `columnIndices`: output key, position in the header line, and type. */
  datatype Entry = Entry(key: string, index: nat, fieldType: FieldType)

  predicate DistinctKeys(es: seq<Entry>) {
    forall a, b :: 0 <= a < b < |es| ==> es[a].key != es[b].key
  }

  /** `columnIndices[key] = ...`: replaces an entry with that key in place, else appends. */
  function PutEntry(es: seq<Entry>, e: Entry): (r: seq<Entry>)
    requires DistinctKeys(es)
    ensures DistinctKeys(r)
    ensures forall k :: 0 <= k < |es| && es[k].key == e.key ==> r == es[k := e]
    ensures (forall k :: 0 <= k < |es| ==> es[k].key != e.key) ==> r == es + [e]
  {
    if exists k :: 0 <= k < |es| && es[k].key == e.key then
      var k :| 0 <= k < |es| && es[k].key == e.key;
      es[k := e]
    else es + [e]
  }

  /** The header was not dropped and its name occurs in the header line. */
  predicate Kept(h: RowDefinition, csvHeaders: seq<string>) {
    !h.drop && h.name in csvHeaders
  }

  function EntryOf(h: RowDefinition, csvHeaders: seq<string>): Entry
    requires Kept(h, csvHeaders)
  {
    Entry(KeyOf(h), FirstIndex(csvHeaders, h.name).value, h.fieldType)
  }

  /** `columnIndices` after the first n headers. */
  function Schema(headers: seq<RowDefinition>, csvHeaders: seq<string>, n: nat): (r: seq<Entry>)
    requires n <= |headers|
    ensures DistinctKeys(r)
  {
    if n == 0 then []
    else
      var es := Schema(headers, csvHeaders, n - 1);
      var h := headers[n - 1];
      if Kept(h, csvHeaders) then PutEntry(es, EntryOf(h, csvHeaders)) else es
  }

  predicate HasKey(es: seq<Entry>, key: string) {
    exists k :: 0 <= k < |es| && es[k].key == key
  }

  /** Some header among the first n is kept and has the given key. */
  predicate KeptKey(headers: seq<RowDefinition>, csvHeaders: seq<string>, n: nat, key: string)
    requires n <= |headers|
  {
    exists m :: 0 <= m < n && Kept(headers[m], csvHeaders) && KeyOf(headers[m]) == key
  }

  /** Header m is kept and no later header among the first n is kept with the same key. */
  predicate LastKept(headers: seq<RowDefinition>, csvHeaders: seq<string>, n: nat, m: nat)
    requires n <= |headers|
  {
    m < n && Kept(headers[m], csvHeaders) &&
    forall m' :: m < m' < n && Kept(headers[m'], csvHeaders) ==> KeyOf(headers[m']) != KeyOf(headers[m])
  }

  /** The chosen columns are exactly the keys of the kept headers. */
  lemma {:induction false} SchemaKeys(headers: seq<RowDefinition>, csvHeaders: seq<string>, n: nat)
    requires n <= |headers|
    ensures forall key :: HasKey(Schema(headers, csvHeaders, n), key) <==> KeptKey(headers, csvHeaders, n, key)
  {
    if n > 0 {
      SchemaKeys(headers, csvHeaders, n - 1);
      var es := Schema(headers, csvHeaders, n - 1);
      var h := headers[n - 1];
      var r := Schema(headers, csvHeaders, n);
      forall key
        ensures HasKey(r, key) <==> KeptKey(headers, csvHeaders, n, key)
      {
        KeyStep(headers, csvHeaders, n, key);
      }
    }
  }

  lemma KeyStep(headers: seq<RowDefinition>, csvHeaders: seq<string>, n: nat, key: string)
    requires 0 < n <= |headers|
    requires HasKey(Schema(headers, csvHeaders, n - 1), key) <==> KeptKey(headers, csvHeaders, n - 1, key)
    ensures HasKey(Schema(headers, csvHeaders, n), key) <==> KeptKey(headers, csvHeaders, n, key)
  {
    var es := Schema(headers, csvHeaders, n - 1);
    var h := headers[n - 1];
    if Kept(h, csvHeaders) {
      var e := EntryOf(h, csvHeaders);
      var r := PutEntry(es, e);
      if KeptKey(headers, csvHeaders, n, key) {
        if key != e.key {
          var m :| 0 <= m < n && Kept(headers[m], csvHeaders) && KeyOf(headers[m]) == key;
          assert KeptKey(headers, csvHeaders, n - 1, key);
          var k :| 0 <= k < |es| && es[k].key == key;
          assert r[k].key == key;
        } else if HasKey(es, e.key) {
          var k :| 0 <= k < |es| && es[k].key == e.key;
          assert r[k] == e;
        } else {
          assert r[|es|] == e;
        }
      }
      if HasKey(r, key) {
        var k :| 0 <= k < |r| && r[k].key == key;
        if key != e.key {
          assert k < |es| && r[k] == es[k];
          assert HasKey(es, key);
        } else {
          assert Kept(headers[n - 1], csvHeaders) && KeyOf(headers[n - 1]) == key;
        }
      }
    }
  }

  /** Each chosen column comes from the last kept header with its key. */
  lemma {:induction false} SchemaLast(headers: seq<RowDefinition>, csvHeaders: seq<string>, n: nat)
    requires n <= |headers|
    ensures forall k :: 0 <= k < |Schema(headers, csvHeaders, n)| ==>
      exists m: nat :: LastKept(headers, csvHeaders, n, m) && Schema(headers, csvHeaders, n)[k] == EntryOf(headers[m], csvHeaders)
  {
    if n > 0 {
      SchemaLast(headers, csvHeaders, n - 1);
      var es := Schema(headers, csvHeaders, n - 1);
      var h := headers[n - 1];
      var r := Schema(headers, csvHeaders, n);
      forall k | 0 <= k < |r|
        ensures exists m: nat :: LastKept(headers, csvHeaders, n, m) && r[k] == EntryOf(headers[m], csvHeaders)
      {
        if Kept(h, csvHeaders) && r[k] == EntryOf(h, csvHeaders) {
          assert LastKept(headers, csvHeaders, n, n - 1);
        } else {
          if Kept(h, csvHeaders) {
            var e := EntryOf(h, csvHeaders);
            if exists j :: 0 <= j < |es| && es[j].key == e.key {
              var j :| 0 <= j < |es| && es[j].key == e.key;
              assert r == es[j := e];
            } else {
              assert r == es + [e];
            }
          }
          assert k < |es| && r[k] == es[k];
          var m: nat :| LastKept(headers, csvHeaders, n - 1, m) && es[k] == EntryOf(headers[m], csvHeaders);
          if Kept(h, csvHeaders) {
            assert KeyOf(headers[m]) == es[k].key != KeyOf(h);
          }
          assert LastKept(headers, csvHeaders, n, m);
        }
      }
    } else {
      assert Schema(headers, csvHeaders, n) == [];
    }
  }

  // ---- reading the data lines -------------------------------------------

  function KindOf(t: FieldType): Kind {
    match t
    case NumberField => Typed
    case StringField => Plain
  }

  /**
    `values[index]` pushed into a column: a field past the end is undefined;
    a number column holds `parseFloat` of the field, narrowed to single
    precision by the final `Float32Array`, or NaN.
   */
  function CellOf(fmt: F32Format, t: FieldType, values: seq<string>, index: nat): Cell {
    if index >= |values| then Missing
    else match t
      case StringField => Str(values[index])
      case NumberField =>
        match ParseNumber(values[index])
        case Some(x) => Num(F32Round(fmt, x))
        case None => Missing
  }

  /** `text.trim().split('\n').slice(dropRows)`. */
  function Lines(text: string, dropRows: nat): seq<string> {
    var all := Split(Trim(text), '\n');
    if dropRows <= |all| then all[dropRows..] else []
  }

  /** The first n data lines (the ones after the header) read into one column. */
  function ColumnCells(fmt: F32Format, lines: seq<string>, e: Entry, n: nat): (r: seq<Cell>)
    requires n < |lines|
    ensures |r| == n
  {
    seq(n, i requires 0 <= i < n => CellOf(fmt, e.fieldType, CsvFields(lines[i + 1]), e.index))
  }

  /** The `columnIndices` loop over the headers. */
  method SelectColumns(headers: seq<RowDefinition>, csvHeaders: seq<string>) returns (entries: seq<Entry>)
    ensures entries == Schema(headers, csvHeaders, |headers|)
  {
    entries := [];
    for n := 0 to |headers|
      invariant entries == Schema(headers, csvHeaders, n)
    {
      var header := headers[n];
      if header.drop {
        continue;
      }
      var colIndex := FirstIndex(csvHeaders, header.name);
      if colIndex.None? {
        continue;
      }
      entries := PutEntry(entries, Entry(KeyOf(header), colIndex.value, header.fieldType));
    }
  }

  /** One data line: push its cell onto every chosen column. */
  method PushRow(fmt: F32Format, lines: seq<string>, entries: seq<Entry>, columns: seq<seq<Cell>>, i: nat)
      returns (columns': seq<seq<Cell>>)
    requires 1 <= i < |lines| && |columns| == |entries|
    requires forall e :: 0 <= e < |entries| ==> columns[e] == ColumnCells(fmt, lines, entries[e], i - 1)
    ensures |columns'| == |entries|
    ensures forall e :: 0 <= e < |entries| ==> columns'[e] == ColumnCells(fmt, lines, entries[e], i)
  {
    var values := ParseCsvLine(lines[i]);
    columns' := columns;
    for e := 0 to |entries|
      invariant |columns'| == |entries|
      invariant forall e' :: 0 <= e' < e ==> columns'[e'] == ColumnCells(fmt, lines, entries[e'], i)
      invariant forall e' :: e <= e' < |entries| ==> columns'[e'] == ColumnCells(fmt, lines, entries[e'], i - 1)
    {
      var cell := CellOf(fmt, entries[e].fieldType, values, entries[e].index);
      assert ColumnCells(fmt, lines, entries[e], i) == ColumnCells(fmt, lines, entries[e], i - 1) + [cell];
      columns' := columns'[e := columns'[e] + [cell]];
    }
  }

  /** The loop over the data lines. */
  method ReadRows(fmt: F32Format, lines: seq<string>, entries: seq<Entry>) returns (columns: seq<seq<Cell>>)
    requires |lines| >= 1
    ensures |columns| == |entries|
    ensures forall e :: 0 <= e < |entries| ==> columns[e] == ColumnCells(fmt, lines, entries[e], |lines| - 1)
  {
    columns := seq(|entries|, e => []);
    for i := 1 to |lines|
      invariant |columns| == |entries|
      invariant forall e :: 0 <= e < |entries| ==> columns[e] == ColumnCells(fmt, lines, entries[e], i - 1)
    {
      columns := PushRow(fmt, lines, entries, columns, i);
    }
  }

  /**
    `processCsv(text, { headers, dropRows })`. The line left after dropping
    `dropRows` is the header line; each kept header gives one column, keyed
    by `rename || name`, with one cell per later line; the size is the
    number of data lines, or 0 when no column was kept.
   */
  method ProcessCsv(fmt: F32Format, text: string, headers: seq<RowDefinition>, dropRows: nat) returns (r: Frame)
    requires |Lines(text, dropRows)| >= 1
    ensures var lines := Lines(text, dropRows);
      var es := Schema(headers, CsvFields(lines[0]), |headers|);
      && Valid(r)
      && r.size == (if |es| == 0 then 0 else |lines| - 1)
      && |r.cols| == |es|
      && forall e :: 0 <= e < |es| ==>
        r.cols[e] == Column(es[e].key, KindOf(es[e].fieldType), ColumnCells(fmt, lines, es[e], |lines| - 1))
  {
    var lines := Lines(text, dropRows);
    var csvHeaders := ParseCsvLine(lines[0]);
    var entries := SelectColumns(headers, csvHeaders);
    var columns := ReadRows(fmt, lines, entries);
    r := AssembleFrame(lines, entries, columns);
  }

  /** The last loop of `processCsv`: one column per entry; the size is the last column's length. */
  method AssembleFrame(ghost lines: seq<string>, entries: seq<Entry>, columns: seq<seq<Cell>>) returns (r: Frame)
    requires |lines| >= 1 && |columns| == |entries| && DistinctKeys(entries)
    requires forall e :: 0 <= e < |entries| ==> |columns[e]| == |lines| - 1
    ensures Valid(r)
    ensures r.size == (if |entries| == 0 then 0 else |lines| - 1)
    ensures |r.cols| == |entries|
    ensures forall e :: 0 <= e < |entries| ==>
      r.cols[e] == Column(entries[e].key, KindOf(entries[e].fieldType), columns[e])
  {
    var cols: seq<Column> := [];
    var size := 0;
    for e := 0 to |entries|
      invariant |cols| == e
      invariant forall e' :: 0 <= e' < e ==>
        cols[e'] == Column(entries[e'].key, KindOf(entries[e'].fieldType), columns[e'])
      invariant size == (if e == 0 then 0 else |lines| - 1)
    {
      size := |columns[e]|;
      cols := cols + [Column(entries[e].key, KindOf(entries[e].fieldType), columns[e])];
    }
    r := Frame(cols, size);
  }
}

=== FILE: joins.dfy ===
/**
  The joins of common/data/csv.js: `innerJoin`, `outerJoin` and their left
  folds `innerJoins` / `outerJoins`. Each join indexes the right frame's rows
  by composite key, walks the left rows in order to list the matched
  (left row, right row) pairs, then copies every left column and every
  non-key right column through those pairs.
 */
module Joins {
  import opened Outcomes
  import opened Frames
  import opened Lookups

  // ---- what both joins share ------------------------------------------

  /**
    What the code reads without checking: `left[leftColumns[0]]`,
    `right[onKeys[0]]` and every key column on both sides.
   */
  predicate JoinReady(left: Frame, right: Frame, onKeys: seq<string>) {
    Valid(left) && Valid(right) && |onKeys| > 0 && HasAll(left, onKeys) && HasAll(right, onKeys)
  }

  /** `Object.keys(right).filter(col => !onKeys.includes(col))`, as columns. */
  function RightColumns(right: Frame, onKeys: seq<string>): (r: seq<Column>)
    ensures forall k :: 0 <= k < |r| ==> r[k] in right.cols && r[k].name !in onKeys
    ensures DistinctNames(right.cols) ==> DistinctNames(r)
    ensures forall n :: n !in onKeys ==> Lookup(r, n) == Lookup(right.cols, n)
    ensures forall n :: n in Names(r) <==> n in Names(right.cols) && n !in onKeys
  {
    var drop := set k | k in onKeys;
    var r := Except(right.cols, drop);
    forall n | n !in onKeys ensures Lookup(r, n) == Lookup(right.cols, n) {
      ExceptLookup(right.cols, drop, n);
    }
    forall n ensures n in Names(r) <==> n in Names(right.cols) && n !in onKeys {
      if n in Names(r) {
        var k :| 0 <= k < |r| && r[k].name == n;
        assert r[k] in right.cols;
      }
      if n in Names(right.cols) && n !in onKeys {
        assert Lookup(right.cols, n).Some?;
        assert Lookup(r, n).Some?;
      }
    }
    r
  }

  /** `result[col] = newArray` for each column of `extra` in turn. */
  function PutAll(cols: seq<Column>, extra: seq<Column>): seq<Column> {
    if |extra| == 0 then cols else Put(PutAll(cols, extra[..|extra| - 1]), extra[|extra| - 1])
  }

  /**
    Assigning the right columns after the left ones: a right column wins
    over a left column of the same name, the left columns keep their places
    and new names are appended.
   */
  lemma {:induction false} PutAllFacts(cols: seq<Column>, extra: seq<Column>, m: nat)
    requires DistinctNames(cols) && DistinctNames(extra)
    requires AllSized(cols, m) && AllSized(extra, m)
    ensures DistinctNames(PutAll(cols, extra)) && AllSized(PutAll(cols, extra), m)
    ensures |cols| <= |PutAll(cols, extra)| && Names(PutAll(cols, extra))[..|cols|] == Names(cols)
    ensures forall n :: Lookup(PutAll(cols, extra), n) == if n in Names(extra) then Lookup(extra, n) else Lookup(cols, n)
  {
    if extra != [] {
      var init, c := extra[..|extra| - 1], extra[|extra| - 1];
      var prev := PutAll(cols, init);
      PutAllFacts(cols, init, m);
      assert extra == init + [c];
      PutAppends(init, c);
      AllSizedSubset(prev, Put(prev, c), c, m);
      assert Names(Put(prev, c))[..|cols|] == Names(prev)[..|cols|];
    }
  }

  /** The pairs (i, j) in left-major, then right-ascending, order. */
  predicate Lex(x: (nat, nat), y: (nat, nat)) {
    x.0 < y.0 || (x.0 == y.0 && x.1 < y.1)
  }

  predicate LexSorted(p: seq<(nat, nat)>) {
    forall a, b :: 0 <= a < b < |p| ==> Lex(p[a], p[b])
  }

  predicate LeftsBelow(p: seq<(nat, nat)>, n: nat) {
    forall t :: 0 <= t < |p| ==> p[t].0 < n
  }

  predicate Ascending(js: seq<nat>) {
    forall a, b :: 0 <= a < b < |js| ==> js[a] < js[b]
  }

  /** Left row i and right row j carry the same key. */
  predicate KeysMeet<K(==)>(lk: seq<K>, rk: seq<K>, i: nat, j: nat) {
    i < |lk| && j < |rk| && lk[i] == rk[j]
  }

  /** No right row carries left row i's key. */
  predicate LeftUnmatched<K(==)>(lk: seq<K>, rk: seq<K>, i: nat) {
    i < |lk| && lk[i] !in rk
  }

  /** No left row carries right row j's key. */
  predicate RightUnmatched<K(==)>(lk: seq<K>, rk: seq<K>, j: nat) {
    j < |rk| && rk[j] !in lk
  }

  // ---- innerJoin --------------------------------------------------------

  /** The pairs row i contributes: one per right row in `js`. */
  function RowPairs(i: nat, js: seq<nat>): (r: seq<(nat, nat)>)
    ensures |r| == |js| && forall t :: 0 <= t < |r| ==> r[t] == (i, js[t])
  {
    seq(|js|, t requires 0 <= t < |js| => (i, js[t]))
  }

  lemma RowPairsMember(i: nat, js: seq<nat>)
    ensures forall x: nat, y: nat :: (x, y) in RowPairs(i, js) <==> x == i && y in js
  {
    forall x: nat, y: nat ensures (x, y) in RowPairs(i, js) <==> x == i && y in js {
      if y in js && x == i {
        var t :| 0 <= t < |js| && js[t] == y;
        assert RowPairs(i, js)[t] == (x, y);
      }
    }
  }

  lemma RowPairsSnoc(i: nat, js: seq<nat>, t: nat)
    requires t < |js|
    ensures RowPairs(i, js[..t + 1]) == RowPairs(i, js[..t]) + [(i, js[t])]
  {
  }

  /** Appending a left row's pairs keeps the order. */
  lemma LexSortedAppend(p: seq<(nat, nat)>, i: nat, js: seq<nat>)
    requires LexSorted(p) && LeftsBelow(p, i) && Ascending(js)
    ensures LexSorted(p + RowPairs(i, js)) && LeftsBelow(p + RowPairs(i, js), i + 1)
  {
    var row := RowPairs(i, js);
    var q := p + row;
    forall a, b | 0 <= a < b < |q| ensures Lex(q[a], q[b]) {
      if b < |p| {
        assert q[a] == p[a] && q[b] == p[b];
      } else if a >= |p| {
        assert q[a] == row[a - |p|] && q[b] == row[b - |p|];
      } else {
        assert q[a] == p[a] && q[b] == row[b - |p|];
      }
    }
    forall t | 0 <= t < |q| ensures q[t].0 < i + 1 {
      if t < |p| {
        assert q[t] == p[t];
      } else {
        assert q[t] == row[t - |p|];
      }
    }
  }

  /** For each left row, the right rows carrying its key, ascending: `rightIndex.get(key) ?? []`. */
  function MatchLists<K(==)>(lk: seq<K>, rk: seq<K>): (r: seq<seq<nat>>)
    ensures |r| == |lk|
  {
    seq(|lk|, i requires 0 <= i < |lk| => IndicesOf(rk, lk[i], |rk|))
  }

  /** Left row i's list holds exactly the right rows with its key, ascending. */
  lemma MatchListAt<K>(lk: seq<K>, rk: seq<K>, i: nat)
    requires i < |lk|
    ensures forall j: nat :: j in MatchLists(lk, rk)[i] <==> KeysMeet(lk, rk, i, j)
    ensures |MatchLists(lk, rk)[i]| == 0 <==> LeftUnmatched(lk, rk, i)
    ensures Ascending(MatchLists(lk, rk)[i])
  {
    var js := MatchLists(lk, rk)[i];
    assert js == IndicesOf(rk, lk[i], |rk|);
    if |js| > 0 {
      assert js[0] in js;
    }
  }

  /** The pairs the first n left rows contribute, row by row. */
  function Pairs(rows: seq<seq<nat>>, n: nat): seq<(nat, nat)>
    requires n <= |rows|
  {
    if n == 0 then [] else Pairs(rows, n - 1) + RowPairs(n - 1, rows[n - 1])
  }

  /** `matchedRows` after the first n left rows. */
  function InnerPairs<K(==)>(lk: seq<K>, rk: seq<K>, n: nat): seq<(nat, nat)>
    requires n <= |lk|
  {
    Pairs(MatchLists(lk, rk), n)
  }

  lemma {:induction false} PairsMember(rows: seq<seq<nat>>, n: nat)
    requires n <= |rows|
    ensures forall i: nat, j: nat :: (i, j) in Pairs(rows, n) <==> i < n && Listed(rows, i, j)
  {
    if n > 0 {
      PairsMember(rows, n - 1);
      RowPairsMember(n - 1, rows[n - 1]);
    }
  }

  /** The matched pairs are exactly the (left, right) rows with equal keys. */
  lemma InnerPairsExact<K>(lk: seq<K>, rk: seq<K>, n: nat)
    requires n <= |lk|
    ensures forall i: nat, j: nat :: (i, j) in InnerPairs(lk, rk, n) <==> i < n && KeysMeet(lk, rk, i, j)
  {
    PairsMember(MatchLists(lk, rk), n);
    forall i: nat, j: nat ensures (i, j) in InnerPairs(lk, rk, n) <==> i < n && KeysMeet(lk, rk, i, j) {
      ListedIff(lk, rk, i, j);
    }
  }

  lemma {:induction false} PairsSorted(rows: seq<seq<nat>>, n: nat)
    requires n <= |rows| && forall i :: 0 <= i < |rows| ==> Ascending(rows[i])
    ensures LexSorted(Pairs(rows, n)) && LeftsBelow(Pairs(rows, n), n)
  {
    if n > 0 {
      PairsSorted(rows, n - 1);
      LexSortedAppend(Pairs(rows, n - 1), n - 1, rows[n - 1]);
    }
  }

  /** Every list of matches is ascending. */
  lemma ListsAscending<K>(lk: seq<K>, rk: seq<K>)
    ensures forall i :: 0 <= i < |lk| ==> Ascending(MatchLists(lk, rk)[i])
  {
    forall i | 0 <= i < |lk| ensures Ascending(MatchLists(lk, rk)[i]) {
      MatchListAt(lk, rk, i);
    }
  }

  /** The matched pairs come left-major, then by right row, each once. */
  lemma InnerPairsSorted<K>(lk: seq<K>, rk: seq<K>, n: nat)
    requires n <= |lk|
    ensures LexSorted(InnerPairs(lk, rk, n)) && LeftsBelow(InnerPairs(lk, rk, n), n)
  {
    ListsAscending(lk, rk);
    PairsSorted(MatchLists(lk, rk), n);
  }

  /** Every pair names a left row below n and a right row. */
  lemma InnerPairsBounds<K>(lk: seq<K>, rk: seq<K>, n: nat)
    requires n <= |lk|
    ensures forall t :: 0 <= t < |InnerPairs(lk, rk, n)| ==>
      InnerPairs(lk, rk, n)[t].0 < |lk| && InnerPairs(lk, rk, n)[t].1 < |rk|
  {
    InnerPairsExact(lk, rk, n);
    forall t | 0 <= t < |InnerPairs(lk, rk, n)|
      ensures InnerPairs(lk, rk, n)[t].0 < |lk| && InnerPairs(lk, rk, n)[t].1 < |rk|
    {
      var p := InnerPairs(lk, rk, n)[t];
      assert p in InnerPairs(lk, rk, n);
    }
  }

  /** Under unique keys a key names at most one of the first m rows. */
  lemma {:induction false} UniqueKeyRows<K>(rk: seq<K>, key: K, m: nat)
    requires m <= |rk| && forall a, b :: 0 <= a < b < |rk| ==> rk[a] != rk[b]
    ensures |IndicesOf(rk, key, m)| <= 1
  {
    if m > 0 {
      if rk[m - 1] == key {
        assert key !in rk[..m - 1];
        FirstSeenKeys(rk, m - 1);
        UnseenHasNoRows(rk, key, m - 1);
      } else {
        UniqueKeyRows(rk, key, m - 1);
      }
    }
  }

  lemma SizeStep(prev: seq<(nat, nat)>, i: nat, ix: seq<nat>)
    requires |prev| <= i && |ix| <= 1
    ensures |prev + RowPairs(i, ix)| <= i + 1
  {
  }

  lemma {:induction false} PairsAtMostOne(rows: seq<seq<nat>>, n: nat)
    requires n <= |rows| && forall i :: 0 <= i < |rows| ==> |rows[i]| <= 1
    ensures |Pairs(rows, n)| <= n
  {
    if n > 0 {
      PairsAtMostOne(rows, n - 1);
      SizeStep(Pairs(rows, n - 1), n - 1, rows[n - 1]);
    }
  }

  /** With unique right keys every left row is matched at most once. */
  lemma InnerPairsUniqueRight<K>(lk: seq<K>, rk: seq<K>, n: nat)
    requires n <= |lk|
    requires forall a, b :: 0 <= a < b < |rk| ==> rk[a] != rk[b]
    ensures |InnerPairs(lk, rk, n)| <= n
  {
    var rows := MatchLists(lk, rk);
    forall i | 0 <= i < |rows| ensures |rows[i]| <= 1 {
      assert rows[i] == IndicesOf(rk, lk[i], |rk|);
      UniqueKeyRows(rk, lk[i], |rk|);
    }
    PairsAtMostOne(rows, n);
  }

  function Lefts(p: seq<(nat, nat)>): (r: seq<nat>)
    ensures |r| == |p| && forall t :: 0 <= t < |p| ==> r[t] == p[t].0
  {
    seq(|p|, t requires 0 <= t < |p| => p[t].0)
  }

  function Rights(p: seq<(nat, nat)>): (r: seq<nat>)
    ensures |r| == |p| && forall t :: 0 <= t < |p| ==> r[t] == p[t].1
  {
    seq(|p|, t requires 0 <= t < |p| => p[t].1)
  }

  /** The matched pairs of `innerJoin(left, right, onKeys)`. */
  function JoinPairs(left: Frame, right: Frame, onKeys: seq<string>): (p: seq<(nat, nat)>)
    requires JoinReady(left, right, onKeys)
    ensures forall t :: 0 <= t < |p| ==> p[t].0 < left.size && p[t].1 < right.size
  {
    var lk, rk := Keys(left, onKeys), Keys(right, onKeys);
    InnerPairsBounds(lk, rk, |lk|);
    InnerPairs(lk, rk, |lk|)
  }

  /** The frame `innerJoin` returns. */
  ghost function InnerJoined(left: Frame, right: Frame, onKeys: seq<string>): (r: Frame)
    requires JoinReady(left, right, onKeys)
    ensures Valid(r) && r.size == |JoinPairs(left, right, onKeys)|
    ensures |left.cols| <= |r.cols| && Names(r.cols)[..|left.cols|] == Names(left.cols)
    ensures forall n :: n in Names(r.cols) <==> n in Names(left.cols) || n in Names(RightColumns(right, onKeys))
  {
    var p := JoinPairs(left, right, onKeys);
    var cols := ReindexCols(left.cols, Lefts(p), left.size);
    var extra := ReindexCols(RightColumns(right, onKeys), Rights(p), right.size);
    ReindexColsValid(left.cols, Lefts(p), left.size);
    ReindexColsValid(RightColumns(right, onKeys), Rights(p), right.size);
    PutAllFacts(cols, extra, |p|);
    LookupNames(PutAll(cols, extra), cols, extra);
    Frame(PutAll(cols, extra), |p|)
  }

  /** A name is found in the assigned columns exactly when it is a left or an assigned name. */
  lemma LookupNames(r: seq<Column>, cols: seq<Column>, extra: seq<Column>)
    requires forall n :: Lookup(r, n) == if n in Names(extra) then Lookup(extra, n) else Lookup(cols, n)
    ensures forall n :: n in Names(r) <==> n in Names(cols) || n in Names(extra)
  {
    forall n ensures n in Names(r) <==> n in Names(cols) || n in Names(extra) {
      assert Lookup(r, n).Some? <==> n in Names(r);
      assert Lookup(extra, n).Some? <==> n in Names(extra);
      assert Lookup(cols, n).Some? <==> n in Names(cols);
    }
  }

  /**
    `innerJoin(left, right, onKeys)`: one output row per matched pair, in
    pair order; the left columns (key columns included) take the left row's
    cells, the other right columns the right row's.
   */
  method InnerJoin(left: Frame, right: Frame, onKeys: seq<string>) returns (r: Frame)
    requires JoinReady(left, right, onKeys)
    ensures r == InnerJoined(left, right, onKeys)
  {
    var lk, rk := Keys(left, onKeys), Keys(right, onKeys);
    var matchedRows := MatchRows(lk, rk);
    assert matchedRows == JoinPairs(left, right, onKeys);
    var leftIdx, rightIdx := Lefts(matchedRows), Rights(matchedRows);
    var cols := GatherColumns(left.cols, leftIdx, left.size);
    var extra := GatherColumns(RightColumns(right, onKeys), rightIdx, right.size);
    var result := AssignColumns(cols, extra);
    r := Frame(result, |matchedRows|);
  }

  /** The index of the right rows, then the walk over the left rows. */
  method MatchRows<K(==)>(lk: seq<K>, rk: seq<K>) returns (matchedRows: seq<(nat, nat)>)
    ensures matchedRows == InnerPairs(lk, rk, |lk|)
  {
    var rightIndex, order := GroupKeys(rk);
    matchedRows := [];
    for i := 0 to |lk|
      invariant matchedRows == InnerPairs(lk, rk, i)
    {
      var key := lk[i];
      InnerPairsUnfold(lk, rk, i);
      if key in rightIndex {
        matchedRows := PushMatches(matchedRows, i, rightIndex[key]);
      } else {
        UnseenHasNoRows(rk, key, |rk|);
        assert RowPairs(i, []) == [];
      }
    }
  }

  lemma InnerPairsUnfold<K>(lk: seq<K>, rk: seq<K>, i: nat)
    requires i < |lk|
    ensures InnerPairs(lk, rk, i + 1) == InnerPairs(lk, rk, i) + RowPairs(i, IndicesOf(rk, lk[i], |rk|))
  {
    assert MatchLists(lk, rk)[i] == IndicesOf(rk, lk[i], |rk|);
  }

  /** `for (const rightIdx of rightMatches) matchedRows.push({leftIdx: i, rightIdx})`. */
  method PushMatches(matchedRows: seq<(nat, nat)>, i: nat, rightMatches: seq<nat>) returns (r: seq<(nat, nat)>)
    ensures r == matchedRows + RowPairs(i, rightMatches)
  {
    r := matchedRows;
    for t := 0 to |rightMatches|
      invariant r == matchedRows + RowPairs(i, rightMatches[..t])
    {
      RowPairsSnoc(i, rightMatches, t);
      r := r + [(i, rightMatches[t])];
    }
    assert rightMatches[..|rightMatches|] == rightMatches;
  }

  /** The loop `result[col] = newArray` over the assigned columns. */
  method AssignColumns(cols: seq<Column>, extra: seq<Column>) returns (result: seq<Column>)
    ensures result == PutAll(cols, extra)
  {
    result := cols;
    for k := 0 to |extra|
      invariant result == PutAll(cols, extra[..k])
    {
      assert extra[..k + 1][..k] == extra[..k];
      result := Put(result, extra[k]);
    }
    assert extra[..|extra|] == extra;
  }

  /**
    Row t of the inner join is pair t: a non-key right column shows the
    right row's cell, every other column the left row's.
   */
  lemma InnerJoinRow(left: Frame, right: Frame, onKeys: seq<string>, t: nat, name: string)
    requires JoinReady(left, right, onKeys)
    requires t < |JoinPairs(left, right, onKeys)|
    requires name in Names(left.cols) || (name in Names(right.cols) && name !in onKeys)
    ensures name in Names(InnerJoined(left, right, onKeys).cols)
    ensures CellAt(InnerJoined(left, right, onKeys), name, t) ==
      if name in Names(right.cols) && name !in onKeys
      then CellAt(right, name, JoinPairs(left, right, onKeys)[t].1)
      else CellAt(left, name, JoinPairs(left, right, onKeys)[t].0)
  {
    var p := JoinPairs(left, right, onKeys);
    var r := InnerJoined(left, right, onKeys);
    var cols := ReindexCols(left.cols, Lefts(p), left.size);
    var extra := ReindexCols(RightColumns(right, onKeys), Rights(p), right.size);
    ReindexColsValid(left.cols, Lefts(p), left.size);
    ReindexColsValid(RightColumns(right, onKeys), Rights(p), right.size);
    PutAllFacts(cols, extra, |p|);
    var rc := RightColumns(right, onKeys);
    if name in Names(right.cols) && name !in onKeys {
      ReindexedColumn(rc, Rights(p), right.size, |p|, name, t);
      RightCell(right, rc, name, p[t].1);
    } else {
      ReindexedColumn(left.cols, Lefts(p), left.size, |p|, name, t);
      ColumnCell(left, name, p[t].0);
    }
    CellAtColumn(r, name, t);
  }

  /** A column of a re-indexed frame, found by name, holds the re-indexed cells. */
  lemma ReindexedColumn(cols: seq<Column>, rows: seq<nat>, n: nat, m: nat, name: string, t: nat)
    requires AllSized(cols, n) && (forall i :: 0 <= i < |rows| ==> rows[i] < n)
    requires name in Names(cols) && t < |rows|
    ensures Lookup(ReindexCols(cols, rows, n), name).Some?
    ensures Lookup(ReindexCols(cols, rows, n), name).value.cells[t] == Lookup(cols, name).value.cells[rows[t]]
  {
    ReindexColsValid(cols, rows, n);
    IndexOfNames(ReindexCols(cols, rows, n), cols, name);
  }

  /** `frame[name][i]` through the column found by `Lookup`. */
  lemma ColumnCell(f: Frame, name: string, i: nat)
    requires Valid(f) && name in Names(f.cols) && i < f.size
    ensures Lookup(f.cols, name).Some? && Lookup(f.cols, name).value.cells[i] == CellAt(f, name, i)
  {
    CellAtColumn(f, name, i);
  }

  /** The right frame's own column and its copy among the assigned columns agree. */
  lemma RightCell(right: Frame, rc: seq<Column>, name: string, j: nat)
    requires Valid(right) && name in Names(right.cols) && j < right.size
    requires Lookup(rc, name) == Lookup(right.cols, name)
    ensures Lookup(rc, name).Some? && Lookup(rc, name).value.cells[j] == CellAt(right, name, j)
  {
    ColumnCell(right, name, j);
  }

  /**
    In every row of the inner join the key columns show the left row's key,
    which is also the matched right row's key.
   */
  lemma InnerJoinKeys(left: Frame, right: Frame, onKeys: seq<string>, t: nat, k: nat)
    requires JoinReady(left, right, onKeys)
    requires t < |JoinPairs(left, right, onKeys)| && k < |onKeys|
    ensures onKeys[k] in Names(InnerJoined(left, right, onKeys).cols)
    ensures CellAt(InnerJoined(left, right, onKeys), onKeys[k], t) == CellAt(right, onKeys[k], JoinPairs(left, right, onKeys)[t].1)
  {
    var p := JoinPairs(left, right, onKeys);
    var lk, rk := Keys(left, onKeys), Keys(right, onKeys);
    InnerJoinRow(left, right, onKeys, t, onKeys[k]);
    InnerPairsExact(lk, rk, |lk|);
    assert p[t] in InnerPairs(lk, rk, |lk|);
    assert lk[p[t].0][k] == rk[p[t].1][k];
  }

  // ---- outerJoin --------------------------------------------------------

  /** One entry of `matchedRows` in `outerJoin`; None is `null`. */
  datatype Match = Match(left: Option<nat>, right: Option<nat>)

  /** Row i's matches, one per right row in `js`. */
  function RowMatches(i: nat, js: seq<nat>): (r: seq<Match>)
    ensures |r| == |js|
  {
    seq(|js|, t requires 0 <= t < |js| => Match(Some(i), Some(js[t])))
  }

  /** What left row i contributes: its matches, or itself alone. */
  function RowEntries(i: nat, js: seq<nat>): seq<Match> {
    if |js| == 0 then [Match(Some(i), None)] else RowMatches(i, js)
  }

  lemma RowMatchesSnoc(i: nat, js: seq<nat>, t: nat)
    requires t < |js|
    ensures RowMatches(i, js[..t + 1]) == RowMatches(i, js[..t]) + [Match(Some(i), Some(js[t]))]
  {
  }

  /** Right row j is among left row i's matches. */
  predicate Listed(rows: seq<seq<nat>>, i: nat, j: nat) {
    i < |rows| && j in rows[i]
  }

  /** The entries the first n left rows contribute, row by row. */
  function Pass(rows: seq<seq<nat>>, n: nat): seq<Match>
    requires n <= |rows|
  {
    if n == 0 then [] else Pass(rows, n - 1) + RowEntries(n - 1, rows[n - 1])
  }

  /** `matchedRows` after the first n left rows. */
  function LeftPass<K(==)>(lk: seq<K>, rk: seq<K>, n: nat): seq<Match>
    requires n <= |lk|
  {
    Pass(MatchLists(lk, rk), n)
  }

  /** The right rows below n that no left row matches, as `{leftIdx: null, rightIdx}` entries. */
  function RightOnly<K(==)>(lk: seq<K>, rk: seq<K>, n: nat): seq<Match>
    requires n <= |rk|
  {
    if n == 0 then []
    else RightOnly(lk, rk, n - 1) + (if rk[n - 1] in lk then [] else [Match(None, Some(n - 1))])
  }

  function OuterPairs<K(==)>(lk: seq<K>, rk: seq<K>): seq<Match> {
    LeftPass(lk, rk, |lk|) + RightOnly(lk, rk, |rk|)
  }

  /** The left-major order of the outer join's rows; right-only rows last, ascending. */
  predicate Before(x: Match, y: Match) {
    if x.left.Some? && y.left.Some? then
      x.left.value < y.left.value
      || (x.left == y.left && x.right.Some? && y.right.Some? && x.right.value < y.right.value)
    else if x.left.Some? then true
    else if y.left.Some? then false
    else x.right.Some? && y.right.Some? && x.right.value < y.right.value
  }

  predicate Ordered(ms: seq<Match>) {
    forall a, b :: 0 <= a < b < |ms| ==> Before(ms[a], ms[b])
  }

  /** Every entry has a left row, below n. */
  predicate LeftsIn(ms: seq<Match>, n: nat) {
    forall t :: 0 <= t < |ms| ==> ms[t].left.Some? && ms[t].left.value < n
  }

  lemma RowEntriesMember(i: nat, js: seq<nat>)
    ensures forall x: nat, y: nat :: Match(Some(x), Some(y)) in RowEntries(i, js) <==> x == i && y in js
    ensures forall x: nat :: Match(Some(x), None) in RowEntries(i, js) <==> x == i && |js| == 0
  {
    var row := RowEntries(i, js);
    forall x: nat, y: nat ensures Match(Some(x), Some(y)) in row <==> x == i && y in js {
      if y in js && x == i {
        var t :| 0 <= t < |js| && js[t] == y;
        assert row[t] == Match(Some(x), Some(y));
      }
    }
  }

  /** A key has right rows exactly when some right row carries it. */
  lemma NoRowsIff<K>(rk: seq<K>, key: K)
    ensures |IndicesOf(rk, key, |rk|)| == 0 <==> key !in rk
  {
    if key in rk {
      var j :| 0 <= j < |rk| && rk[j] == key;
      assert j in IndicesOf(rk, key, |rk|);
    } else {
      FirstSeenKeys(rk, |rk|);
      assert rk[..|rk|] == rk;
      UnseenHasNoRows(rk, key, |rk|);
    }
  }

  lemma {:induction false} PassMatched(rows: seq<seq<nat>>, n: nat)
    requires n <= |rows|
    ensures forall i: nat, j: nat :: Match(Some(i), Some(j)) in Pass(rows, n) <==> i < n && Listed(rows, i, j)
  {
    if n > 0 {
      PassMatched(rows, n - 1);
      MatchedStep(rows, n, Pass(rows, n - 1));
    }
  }

  lemma MatchedStep(rows: seq<seq<nat>>, n: nat, prev: seq<Match>)
    requires 0 < n <= |rows|
    requires forall i: nat, j: nat :: Match(Some(i), Some(j)) in prev <==> i < n - 1 && Listed(rows, i, j)
    ensures forall i: nat, j: nat :: Match(Some(i), Some(j)) in prev + RowEntries(n - 1, rows[n - 1]) <==> i < n && Listed(rows, i, j)
  {
    RowEntriesMember(n - 1, rows[n - 1]);
  }

  /** The pass over the left rows lists exactly the pairs with equal keys. */
  lemma LeftPassMatched<K>(lk: seq<K>, rk: seq<K>, n: nat)
    requires n <= |lk|
    ensures forall i: nat, j: nat :: Match(Some(i), Some(j)) in LeftPass(lk, rk, n) <==> i < n && KeysMeet(lk, rk, i, j)
  {
    PassMatched(MatchLists(lk, rk), n);
    forall i: nat, j: nat ensures Match(Some(i), Some(j)) in LeftPass(lk, rk, n) <==> i < n && KeysMeet(lk, rk, i, j) {
      ListedIff(lk, rk, i, j);
    }
  }

  /** Right row j is listed for left row i exactly when their keys are equal. */
  lemma ListedIff<K>(lk: seq<K>, rk: seq<K>, i: nat, j: nat)
    ensures Listed(MatchLists(lk, rk), i, j) <==> KeysMeet(lk, rk, i, j)
  {
    if i < |lk| {
      assert MatchLists(lk, rk)[i] == IndicesOf(rk, lk[i], |rk|);
    }
  }

  lemma {:induction false} PassAlone(rows: seq<seq<nat>>, n: nat)
    requires n <= |rows|
    ensures forall i: nat :: Match(Some(i), None) in Pass(rows, n) <==> i < n && |rows[i]| == 0
  {
    if n > 0 {
      PassAlone(rows, n - 1);
      AloneStep(rows, n, Pass(rows, n - 1));
    }
  }

  lemma AloneStep(rows: seq<seq<nat>>, n: nat, prev: seq<Match>)
    requires 0 < n <= |rows|
    requires forall i: nat :: Match(Some(i), None) in prev <==> i < n - 1 && |rows[i]| == 0
    ensures forall i: nat :: Match(Some(i), None) in prev + RowEntries(n - 1, rows[n - 1]) <==> i < n && |rows[i]| == 0
  {
    RowEntriesMember(n - 1, rows[n - 1]);
  }

  /** The pass over the left rows lists exactly the left rows without a match, alone. */
  lemma LeftPassAlone<K>(lk: seq<K>, rk: seq<K>, n: nat)
    requires n <= |lk|
    ensures forall i: nat :: Match(Some(i), None) in LeftPass(lk, rk, n) <==> i < n && LeftUnmatched(lk, rk, i)
  {
    PassAlone(MatchLists(lk, rk), n);
    forall i: nat ensures Match(Some(i), None) in LeftPass(lk, rk, n) <==> i < n && LeftUnmatched(lk, rk, i) {
      if i < n {
        MatchListAt(lk, rk, i);
      }
    }
  }

  /** Appending a left row's entries keeps the order. */
  lemma OrderedAppend(ms: seq<Match>, i: nat, js: seq<nat>)
    requires Ordered(ms) && LeftsIn(ms, i) && Ascending(js)
    ensures Ordered(ms + RowEntries(i, js)) && LeftsIn(ms + RowEntries(i, js), i + 1)
  {
    var row := RowEntries(i, js);
    var q := ms + row;
    assert forall t :: 0 <= t < |row| ==> row[t].left == Some(i);
    forall a, b | 0 <= a < b < |q| ensures Before(q[a], q[b]) {
      if b < |ms| {
        assert q[a] == ms[a] && q[b] == ms[b];
      } else if a >= |ms| {
        assert q[a] == row[a - |ms|] && q[b] == row[b - |ms|];
      } else {
        assert q[a] == ms[a] && q[b] == row[b - |ms|];
      }
    }
    forall t | 0 <= t < |q| ensures q[t].left.Some? && q[t].left.value < i + 1 {
      if t < |ms| {
        assert q[t] == ms[t];
      } else {
        assert q[t] == row[t - |ms|];
      }
    }
  }

  lemma {:induction false} PassOrdered(rows: seq<seq<nat>>, n: nat)
    requires n <= |rows| && forall i :: 0 <= i < |rows| ==> Ascending(rows[i])
    ensures Ordered(Pass(rows, n)) && LeftsIn(Pass(rows, n), n)
  {
    if n > 0 {
      PassOrdered(rows, n - 1);
      OrderedAppend(Pass(rows, n - 1), n - 1, rows[n - 1]);
    }
  }

  /** The pass over the left rows is in left-major order. */
  lemma LeftPassOrdered<K>(lk: seq<K>, rk: seq<K>, n: nat)
    requires n <= |lk|
    ensures Ordered(LeftPass(lk, rk, n)) && LeftsIn(LeftPass(lk, rk, n), n)
  {
    ListsAscending(lk, rk);
    PassOrdered(MatchLists(lk, rk), n);
  }

  /** The right-only entries are exactly the right rows no left row matches, ascending. */
  lemma {:induction false} RightOnlyExact<K>(lk: seq<K>, rk: seq<K>, n: nat)
    requires n <= |rk|
    ensures forall t :: 0 <= t < |RightOnly(lk, rk, n)| ==>
      RightOnly(lk, rk, n)[t].left.None? && RightOnly(lk, rk, n)[t].right.Some? && RightOnly(lk, rk, n)[t].right.value < n
    ensures forall j: nat :: Match(None, Some(j)) in RightOnly(lk, rk, n) <==> j < n && RightUnmatched(lk, rk, j)
    ensures Ordered(RightOnly(lk, rk, n))
  {
    if n > 0 {
      RightOnlyExact(lk, rk, n - 1);
    }
  }

  /** Left-pass entries come before right-only ones. */
  lemma OrderedConcat(lp: seq<Match>, ro: seq<Match>, n: nat)
    requires Ordered(lp) && Ordered(ro) && LeftsIn(lp, n)
    requires forall t :: 0 <= t < |ro| ==> ro[t].left.None?
    ensures Ordered(lp + ro)
  {
    var all := lp + ro;
    forall a, b | 0 <= a < b < |all| ensures Before(all[a], all[b]) {
      if b < |lp| {
        assert all[a] == lp[a] && all[b] == lp[b];
      } else if a >= |lp| {
        assert all[a] == ro[a - |lp|] && all[b] == ro[b - |lp|];
      } else {
        assert all[a] == lp[a] && all[b] == ro[b - |lp|];
      }
    }
  }

  /**
    The outer join's rows: every pair with equal keys, every left row without
    a match once and every right row without a match once, nothing else,
    each once, in left-major order with the right-only rows last.
   */
  lemma OuterPairsExact<K>(lk: seq<K>, rk: seq<K>)
    ensures forall i: nat, j: nat :: Match(Some(i), Some(j)) in OuterPairs(lk, rk) <==> KeysMeet(lk, rk, i, j)
    ensures forall i: nat :: Match(Some(i), None) in OuterPairs(lk, rk) <==> LeftUnmatched(lk, rk, i)
    ensures forall j: nat :: Match(None, Some(j)) in OuterPairs(lk, rk) <==> RightUnmatched(lk, rk, j)
    ensures Match(None, None) !in OuterPairs(lk, rk)
    ensures Ordered(OuterPairs(lk, rk))
  {
    LeftPassMatched(lk, rk, |lk|);
    LeftPassAlone(lk, rk, |lk|);
    LeftPassOrdered(lk, rk, |lk|);
    RightOnlyExact(lk, rk, |rk|);
    OuterParts(lk, rk, LeftPass(lk, rk, |lk|), RightOnly(lk, rk, |rk|));
  }

  /** The two passes put together. */
  lemma OuterParts<K>(lk: seq<K>, rk: seq<K>, lp: seq<Match>, ro: seq<Match>)
    requires forall i: nat, j: nat :: Match(Some(i), Some(j)) in lp <==> KeysMeet(lk, rk, i, j)
    requires forall i: nat :: Match(Some(i), None) in lp <==> LeftUnmatched(lk, rk, i)
    requires Ordered(lp) && LeftsIn(lp, |lk|)
    requires forall t :: 0 <= t < |ro| ==> ro[t].left.None? && ro[t].right.Some? && ro[t].right.value < |rk|
    requires forall j: nat :: Match(None, Some(j)) in ro <==> RightUnmatched(lk, rk, j)
    requires Ordered(ro)
    ensures forall i: nat, j: nat :: Match(Some(i), Some(j)) in lp + ro <==> KeysMeet(lk, rk, i, j)
    ensures forall i: nat :: Match(Some(i), None) in lp + ro <==> LeftUnmatched(lk, rk, i)
    ensures forall j: nat :: Match(None, Some(j)) in lp + ro <==> RightUnmatched(lk, rk, j)
    ensures Match(None, None) !in lp + ro
    ensures Ordered(lp + ro)
  {
    OrderedConcat(lp, ro, |lk|);
    assert forall m :: m in lp + ro <==> m in lp || m in ro;
    forall t | 0 <= t < |lp| ensures lp[t] != Match(None, None) {
    }
    forall t | 0 <= t < |ro| ensures ro[t] != Match(None, None) {
    }
  }

  /** Every entry's rows exist. */
  lemma OuterPairsInRange<K>(lk: seq<K>, rk: seq<K>)
    ensures forall t :: 0 <= t < |OuterPairs(lk, rk)| ==>
      (OuterPairs(lk, rk)[t].left.Some? ==> OuterPairs(lk, rk)[t].left.value < |lk|)
      && (OuterPairs(lk, rk)[t].right.Some? ==> OuterPairs(lk, rk)[t].right.value < |rk|)
  {
    OuterPairsExact(lk, rk);
    InRange(lk, rk, OuterPairs(lk, rk));
  }

  lemma InRange<K>(lk: seq<K>, rk: seq<K>, ms: seq<Match>)
    requires forall i: nat, j: nat :: Match(Some(i), Some(j)) in ms <==> KeysMeet(lk, rk, i, j)
    requires forall i: nat :: Match(Some(i), None) in ms <==> LeftUnmatched(lk, rk, i)
    requires forall j: nat :: Match(None, Some(j)) in ms <==> RightUnmatched(lk, rk, j)
    ensures forall t :: 0 <= t < |ms| ==>
      (ms[t].left.Some? ==> ms[t].left.value < |lk|) && (ms[t].right.Some? ==> ms[t].right.value < |rk|)
  {
    forall t | 0 <= t < |ms|
      ensures (ms[t].left.Some? ==> ms[t].left.value < |lk|) && (ms[t].right.Some? ==> ms[t].right.value < |rk|)
    {
      var m := ms[t];
      assert m in ms;
      match m
      case Match(Some(i), Some(j)) =>
      case Match(Some(i), None) =>
      case Match(None, Some(j)) =>
      case Match(None, None) =>
    }
  }

  lemma {:induction false} PassInner(rows: seq<seq<nat>>, n: nat)
    requires n <= |rows|
    ensures Both(Pass(rows, n)) == Embed(Pairs(rows, n))
  {
    if n > 0 {
      PassInner(rows, n - 1);
      InnerStep(Pass(rows, n - 1), Pairs(rows, n - 1), n - 1, rows[n - 1], Pass(rows, n), Pairs(rows, n));
    }
  }

  lemma InnerStep(prev: seq<Match>, pairs: seq<(nat, nat)>, i: nat, js: seq<nat>, cur: seq<Match>, curPairs: seq<(nat, nat)>)
    requires Both(prev) == Embed(pairs)
    requires cur == prev + RowEntries(i, js) && curPairs == pairs + RowPairs(i, js)
    ensures Both(cur) == Embed(curPairs)
  {
    BothAppend(prev, RowEntries(i, js));
    EmbedAppend(pairs, RowPairs(i, js));
    BothRow(i, js);
  }

  /** The matches from the left pass are the inner join's pairs, in the same order. */
  lemma LeftPassInner<K>(lk: seq<K>, rk: seq<K>, n: nat)
    requires n <= |lk|
    ensures Both(LeftPass(lk, rk, n)) == Embed(InnerPairs(lk, rk, n))
  {
    PassInner(MatchLists(lk, rk), n);
  }

  /** The entries with both rows present, in order. */
  function Both(ms: seq<Match>): seq<Match> {
    if |ms| == 0 then []
    else Both(ms[..|ms| - 1]) + (var m := ms[|ms| - 1]; if m.left.Some? && m.right.Some? then [m] else [])
  }

  function Embed(p: seq<(nat, nat)>): (r: seq<Match>)
    ensures |r| == |p|
  {
    seq(|p|, t requires 0 <= t < |p| => Match(Some(p[t].0), Some(p[t].1)))
  }

  lemma {:induction false} BothAppend(a: seq<Match>, b: seq<Match>)
    ensures Both(a + b) == Both(a) + Both(b)
  {
    if b != [] {
      BothAppend(a, b[..|b| - 1]);
      assert (a + b)[..|a + b| - 1] == a + b[..|b| - 1];
    } else {
      assert a + b == a;
    }
  }

  lemma {:induction false} BothAll(ms: seq<Match>)
    requires forall t :: 0 <= t < |ms| ==> ms[t].left.Some? && ms[t].right.Some?
    ensures Both(ms) == ms
  {
    if ms != [] {
      BothAll(ms[..|ms| - 1]);
    }
  }

  lemma BothRow(i: nat, js: seq<nat>)
    ensures Both(RowEntries(i, js)) == Embed(RowPairs(i, js))
  {
    if |js| == 0 {
      assert Both([Match(Some(i), None)]) == Both([]) + [];
    } else {
      BothAll(RowMatches(i, js));
      assert Embed(RowPairs(i, js)) == RowMatches(i, js);
    }
  }

  lemma EmbedAppend(a: seq<(nat, nat)>, b: seq<(nat, nat)>)
    ensures Embed(a + b) == Embed(a) + Embed(b)
  {
  }

  /** The index, the pass over the left rows, then the never-matched right rows. */
  method OuterMatchRows<K(==)>(lk: seq<K>, rk: seq<K>) returns (matchedRows: seq<Match>)
    ensures matchedRows == OuterPairs(lk, rk)
  {
    var rightIndex, order := GroupKeys(rk);
    FirstSeenKeys(rk, |rk|);
    assert rk[..|rk|] == rk;
    var leftPass, matchedRightIndices := LeftMatches(lk, rk, rightIndex);
    var rightPass := RightMatches(lk, rk, matchedRightIndices);
    matchedRows := leftPass + rightPass;
  }

  /** The loop over the right rows of `outerJoin`: every unmarked right row, alone. */
  method RightMatches<K(==)>(lk: seq<K>, rk: seq<K>, matchedRightIndices: set<nat>) returns (rows: seq<Match>)
    requires forall j: nat :: j in matchedRightIndices <==> j < |rk| && rk[j] in lk
    ensures rows == RightOnly(lk, rk, |rk|)
  {
    rows := [];
    for j := 0 to |rk|
      invariant rows == RightOnly(lk, rk, j)
    {
      if j !in matchedRightIndices {
        rows := rows + [Match(None, Some(j))];
      }
    }
  }

  /** The loop over the left rows of `outerJoin`, marking every matched right row. */
  method LeftMatches<K(==)>(lk: seq<K>, rk: seq<K>, rightIndex: map<K, seq<nat>>)
      returns (matchedRows: seq<Match>, matchedRightIndices: set<nat>)
    requires forall k :: k in rightIndex <==> k in rk
    requires forall k :: k in rightIndex ==> rightIndex[k] == IndicesOf(rk, k, |rk|)
    ensures matchedRows == LeftPass(lk, rk, |lk|)
    ensures forall j: nat :: j in matchedRightIndices <==> j < |rk| && rk[j] in lk
  {
    ghost var rows := MatchLists(lk, rk);
    matchedRows := [];
    matchedRightIndices := {};
    for i := 0 to |lk|
      invariant matchedRows == Pass(rows, i)
      invariant forall j: nat :: j in matchedRightIndices <==> Marked(rows, i, j)
    {
      matchedRows, matchedRightIndices := VisitLeft(lk, rk, rightIndex, i, matchedRows, matchedRightIndices);
    }
    forall j: nat ensures Marked(rows, |lk|, j) <==> j < |rk| && rk[j] in lk {
      MarkedExact(lk, rk, |lk|, j);
    }
    assert lk[..|lk|] == lk;
  }

  /** The body of that loop for left row i. */
  method VisitLeft<K(==)>(lk: seq<K>, rk: seq<K>, rightIndex: map<K, seq<nat>>, i: nat, matchedRows: seq<Match>, matched: set<nat>)
      returns (r: seq<Match>, matched': set<nat>)
    requires i < |lk|
    requires forall k :: k in rightIndex <==> k in rk
    requires forall k :: k in rightIndex ==> rightIndex[k] == IndicesOf(rk, k, |rk|)
    ensures r == matchedRows + RowEntries(i, MatchLists(lk, rk)[i])
    ensures forall j: nat :: j in matched' <==> j in matched || j in MatchLists(lk, rk)[i]
  {
    var key := lk[i];
    assert MatchLists(lk, rk)[i] == IndicesOf(rk, key, |rk|);
    NoRowsIff(rk, key);
    if key in rightIndex {
      r, matched' := PushOuterMatches(matchedRows, matched, i, rightIndex[key]);
    } else {
      r, matched' := matchedRows + [Match(Some(i), None)], matched;
    }
  }

  /** Right row j is among the matches of one of the first i left rows. */
  predicate Marked(rows: seq<seq<nat>>, i: nat, j: nat)
    requires i <= |rows|
  {
    i > 0 && (Marked(rows, i - 1, j) || j in rows[i - 1])
  }

  /** The marked right rows are those sharing a key with one of the first n left rows. */
  lemma {:induction false} MarkedExact<K>(lk: seq<K>, rk: seq<K>, n: nat, j: nat)
    requires n <= |lk|
    ensures Marked(MatchLists(lk, rk), n, j) <==> j < |rk| && rk[j] in lk[..n]
  {
    if n > 0 {
      MarkedExact(lk, rk, n - 1, j);
      ListedIff(lk, rk, n - 1, j);
      assert lk[..n] == lk[..n - 1] + [lk[n - 1]];
    }
  }

  /** The inner loop of `outerJoin`: push each match and mark its right row. */
  method PushOuterMatches(matchedRows: seq<Match>, matched: set<nat>, i: nat, rightMatches: seq<nat>)
      returns (r: seq<Match>, matched': set<nat>)
    ensures r == matchedRows + RowMatches(i, rightMatches)
    ensures forall j: nat :: j in matched' <==> j in matched || j in rightMatches
  {
    r, matched' := matchedRows, matched;
    for t := 0 to |rightMatches|
      invariant r == matchedRows + RowMatches(i, rightMatches[..t])
      invariant forall j: nat :: j in matched' <==> j in matched || j in rightMatches[..t]
    {
      RowMatchesSnoc(i, rightMatches, t);
      assert rightMatches[..t + 1] == rightMatches[..t] + [rightMatches[t]];
      r := r + [Match(Some(i), Some(rightMatches[t]))];
      matched' := matched' + {rightMatches[t]};
    }
    assert rightMatches[..|rightMatches|] == rightMatches;
  }

  /** `newArray[i] = idx !== null ? src[idx] : (typed ? NaN : null)`. */
  function Pick(src: seq<Cell>, rows: seq<Option<nat>>): seq<Cell>
    requires forall i :: 0 <= i < |rows| && rows[i].Some? ==> rows[i].value < |src|
  {
    seq(|rows|, i requires 0 <= i < |rows| => if rows[i].Some? then src[rows[i].value] else Missing)
  }

  function PickCols(cols: seq<Column>, rows: seq<Option<nat>>, n: nat): (r: seq<Column>)
    requires AllSized(cols, n) && forall i :: 0 <= i < |rows| && rows[i].Some? ==> rows[i].value < n
    ensures AllSized(r, |rows|) && Names(r) == Names(cols) && (DistinctNames(cols) ==> DistinctNames(r))
  {
    seq(|cols|, k requires 0 <= k < |cols| => Column(cols[k].name, cols[k].kind, Pick(cols[k].cells, rows)))
  }

  /** The copy loop of `outerJoin` for one column. */
  method PickColumn(src: seq<Cell>, rows: seq<Option<nat>>) returns (r: seq<Cell>)
    requires forall i :: 0 <= i < |rows| && rows[i].Some? ==> rows[i].value < |src|
    ensures r == Pick(src, rows)
  {
    var a := new Cell[|rows|];
    for i := 0 to |rows|
      invariant forall k :: 0 <= k < i ==> a[k] == if rows[k].Some? then src[rows[k].value] else Missing
    {
      if rows[i].Some? {
        a[i] := src[rows[i].value];
      } else {
        a[i] := Missing;
      }
    }
    r := a[..];
  }

  method PickColumns(cols: seq<Column>, rows: seq<Option<nat>>, ghost n: nat) returns (r: seq<Column>)
    requires AllSized(cols, n) && forall i :: 0 <= i < |rows| && rows[i].Some? ==> rows[i].value < n
    ensures r == PickCols(cols, rows, n)
  {
    r := [];
    for k := 0 to |cols|
      invariant r == PickCols(cols[..k], rows, n)
    {
      var cells := PickColumn(cols[k].cells, rows);
      r := r + [Column(cols[k].name, cols[k].kind, cells)];
      assert cols[..k + 1] == cols[..k] + [cols[k]];
    }
    assert cols[..|cols|] == cols;
  }

  function LeftRows(ms: seq<Match>): (r: seq<Option<nat>>)
    ensures |r| == |ms| && forall t :: 0 <= t < |ms| ==> r[t] == ms[t].left
  {
    seq(|ms|, t requires 0 <= t < |ms| => ms[t].left)
  }

  function RightRows(ms: seq<Match>): (r: seq<Option<nat>>)
    ensures |r| == |ms| && forall t :: 0 <= t < |ms| ==> r[t] == ms[t].right
  {
    seq(|ms|, t requires 0 <= t < |ms| => ms[t].right)
  }

  /** The entries of `outerJoin`'s `matchedRows`. */
  function OuterMatches(left: Frame, right: Frame, onKeys: seq<string>): (ms: seq<Match>)
    requires JoinReady(left, right, onKeys)
    ensures forall t :: 0 <= t < |ms| ==>
      (ms[t].left.Some? ==> ms[t].left.value < left.size) && (ms[t].right.Some? ==> ms[t].right.value < right.size)
  {
    var lk, rk := Keys(left, onKeys), Keys(right, onKeys);
    OuterPairsInRange(lk, rk);
    OuterPairs(lk, rk)
  }

  /** The frame `outerJoin` returns. */
  ghost function OuterJoined(left: Frame, right: Frame, onKeys: seq<string>): (r: Frame)
    requires JoinReady(left, right, onKeys)
    ensures Valid(r) && r.size == |OuterMatches(left, right, onKeys)|
    ensures |left.cols| <= |r.cols| && Names(r.cols)[..|left.cols|] == Names(left.cols)
    ensures forall n :: n in Names(r.cols) <==> n in Names(left.cols) || n in Names(RightColumns(right, onKeys))
  {
    var ms := OuterMatches(left, right, onKeys);
    var cols := PickCols(left.cols, LeftRows(ms), left.size);
    var extra := PickCols(RightColumns(right, onKeys), RightRows(ms), right.size);
    PutAllFacts(cols, extra, |ms|);
    LookupNames(PutAll(cols, extra), cols, extra);
    Frame(PutAll(cols, extra), |ms|)
  }

  /**
    `outerJoin(left, right, onKeys)`: the inner join's rows with every
    unmatched left row kept in place and every never-matched right row
    appended; an absent side shows NaN/null (Missing).
   */
  method OuterJoin(left: Frame, right: Frame, onKeys: seq<string>) returns (r: Frame)
    requires JoinReady(left, right, onKeys)
    ensures r == OuterJoined(left, right, onKeys)
  {
    var lk, rk := Keys(left, onKeys), Keys(right, onKeys);
    var matchedRows := OuterMatchRows(lk, rk);
    assert matchedRows == OuterMatches(left, right, onKeys);
    var cols := PickColumns(left.cols, LeftRows(matchedRows), left.size);
    var extra := PickColumns(RightColumns(right, onKeys), RightRows(matchedRows), right.size);
    var result := AssignColumns(cols, extra);
    r := Frame(result, |matchedRows|);
  }

  /** The cell an outer-join column shows for an optional source row. */
  function Side(f: Frame, name: string, row: Option<nat>): Cell
    requires Valid(f) && name in Names(f.cols)
    requires row.Some? ==> row.value < f.size
  {
    if row.Some? then CellAt(f, name, row.value) else Missing
  }

  /**
    Row t of the outer join is entry t of the matches: a non-key right
    column shows the right row's cell, every other column the left row's,
    and an absent row shows Missing (so a right-only row has Missing in the
    key columns too).
   */
  lemma OuterJoinRow(left: Frame, right: Frame, onKeys: seq<string>, t: nat, name: string)
    requires JoinReady(left, right, onKeys)
    requires t < |OuterMatches(left, right, onKeys)|
    requires name in Names(left.cols) || (name in Names(right.cols) && name !in onKeys)
    ensures name in Names(OuterJoined(left, right, onKeys).cols)
    ensures CellAt(OuterJoined(left, right, onKeys), name, t) ==
      if name in Names(right.cols) && name !in onKeys
      then Side(right, name, OuterMatches(left, right, onKeys)[t].right)
      else Side(left, name, OuterMatches(left, right, onKeys)[t].left)
  {
    var ms := OuterMatches(left, right, onKeys);
    var r := OuterJoined(left, right, onKeys);
    var rc := RightColumns(right, onKeys);
    var cols := PickCols(left.cols, LeftRows(ms), left.size);
    var extra := PickCols(rc, RightRows(ms), right.size);
    PutAllFacts(cols, extra, |ms|);
    if name in Names(right.cols) && name !in onKeys {
      PickedColumn(rc, RightRows(ms), right.size, name, t);
      if ms[t].right.Some? {
        RightCell(right, rc, name, ms[t].right.value);
      }
    } else {
      PickedColumn(left.cols, LeftRows(ms), left.size, name, t);
      if ms[t].left.Some? {
        ColumnCell(left, name, ms[t].left.value);
      }
    }
    CellAtColumn(r, name, t);
  }

  /** A column of a picked frame, found by name, holds the picked cells. */
  lemma PickedColumn(cols: seq<Column>, rows: seq<Option<nat>>, n: nat, name: string, t: nat)
    requires AllSized(cols, n) && (forall i :: 0 <= i < |rows| && rows[i].Some? ==> rows[i].value < n)
    requires name in Names(cols) && t < |rows|
    ensures Lookup(PickCols(cols, rows, n), name).Some?
    ensures Lookup(PickCols(cols, rows, n), name).value.cells[t] ==
      if rows[t].Some? then Lookup(cols, name).value.cells[rows[t].value] else Missing
  {
    IndexOfNames(PickCols(cols, rows, n), cols, name);
  }

  // ---- the folds ----------------------------------------------------------

  /** Every frame a fold joins can serve as either side. */
  predicate FoldReady(frames: seq<Frame>, onKeys: seq<string>) {
    |onKeys| > 0 && forall k :: 0 <= k < |frames| ==> Valid(frames[k]) && HasAll(frames[k], onKeys)
  }

  /** `innerJoin` applied left to right to the first n frames. */
  ghost function InnerFold(frames: seq<Frame>, n: nat, onKeys: seq<string>): (r: Frame)
    requires FoldReady(frames, onKeys) && 1 <= n <= |frames|
    ensures Valid(r) && HasAll(r, onKeys)
    ensures |frames[0].cols| <= |r.cols| && Names(r.cols)[..|frames[0].cols|] == Names(frames[0].cols)
  {
    if n == 1 then frames[0]
    else
      var acc := InnerFold(frames, n - 1, onKeys);
      var r := InnerJoined(acc, frames[n - 1], onKeys);
      FoldKeys(acc, r, onKeys);
      r
  }

  /** `outerJoin` applied left to right to the first n frames. */
  ghost function OuterFold(frames: seq<Frame>, n: nat, onKeys: seq<string>): (r: Frame)
    requires FoldReady(frames, onKeys) && 1 <= n <= |frames|
    ensures Valid(r) && HasAll(r, onKeys)
    ensures |frames[0].cols| <= |r.cols| && Names(r.cols)[..|frames[0].cols|] == Names(frames[0].cols)
  {
    if n == 1 then frames[0]
    else
      var acc := OuterFold(frames, n - 1, onKeys);
      var r := OuterJoined(acc, frames[n - 1], onKeys);
      FoldKeys(acc, r, onKeys);
      r
  }

  /** A join keeps the left frame's columns in front, so the keys stay available. */
  lemma FoldKeys(acc: Frame, r: Frame, onKeys: seq<string>)
    requires HasAll(acc, onKeys)
    requires |acc.cols| <= |r.cols| && Names(r.cols)[..|acc.cols|] == Names(acc.cols)
    ensures HasAll(r, onKeys)
  {
    forall k | 0 <= k < |onKeys| ensures onKeys[k] in Names(r.cols) {
      var i :| 0 <= i < |acc.cols| && Names(acc.cols)[i] == onKeys[k];
      assert Names(r.cols)[i] == onKeys[k];
    }
  }

  /**
    What `innerJoins` returns: a `{size, df}` record for zero or one frame,
    the joined frame itself otherwise.
   */
  datatype Joined = Wrapped(size: nat, df: Frame) | Bare(frame: Frame)

  /**
    `innerJoins(frames, onKeys)`: no frame gives `{size: 0, df: {}}`, one
    frame gives it with its row count, more give the left fold of `innerJoin`.
   */
  method InnerJoins(frames: seq<Frame>, onKeys: seq<string>) returns (r: Joined)
    requires |frames| == 1 ==> Valid(frames[0]) && |frames[0].cols| > 0
    requires |frames| >= 2 ==> FoldReady(frames, onKeys)
    ensures |frames| == 0 ==> r == Wrapped(0, Frame([], 0))
    ensures |frames| == 1 ==> r == Wrapped(frames[0].size, frames[0])
    ensures |frames| >= 2 ==> r == Bare(InnerFold(frames, |frames|, onKeys))
  {
    if |frames| == 0 {
      return Wrapped(0, Frame([], 0));
    }
    if |frames| == 1 {
      return Wrapped(|frames[0].cols[0].cells|, frames[0]);
    }
    var result := InnerJoin(frames[0], frames[1], onKeys);
    for i := 2 to |frames|
      invariant result == InnerFold(frames, i, onKeys)
    {
      result := InnerJoin(result, frames[i], onKeys);
    }
    return Bare(result);
  }

  /** `outerJoins(frames, onKeys)`: throws on fewer than two frames, else the left fold of `outerJoin`. */
  method OuterJoins(frames: seq<Frame>, onKeys: seq<string>) returns (r: Result<Frame>)
    requires |frames| >= 2 ==> FoldReady(frames, onKeys)
    ensures |frames| < 2 <==> r == Err(TooFewFrames)
    ensures |frames| >= 2 ==> r == Ok(OuterFold(frames, |frames|, onKeys))
  {
    if |frames| < 2 {
      return Err(TooFewFrames);
    }
    var result := OuterJoin(frames[0], frames[1], onKeys);
    for i := 2 to |frames|
      invariant result == OuterFold(frames, i, onKeys)
    {
      result := OuterJoin(result, frames[i], onKeys);
    }
    return Ok(result);
  }
}

=== FILE: layout.dfy ===
/**
  Where the fields of a struct layout land in a buffer. Every reader and
  writer of structured data walks the layout with one running byte offset:
  round it up to the field's alignment, place the field there, and add the
  field's size.
 */
module Layout {
  import opened Words
  import opened GpuTypes

  /** One `{ name, type }` entry of a struct layout. */
  datatype Field = Field(name: string, ty: GpuType)

  /** The running offset after the first n fields of a struct placed at byte `base`. */
  function End(layout: seq<Field>, base: nat, n: nat): nat
    requires n <= |layout|
    decreases n, 0
  {
    if n == 0 then base else Start(layout, base, n - 1) + SizeOf(layout[n - 1].ty)
  }

  /** The byte offset of field k: the running offset rounded up to the field's alignment. */
  function Start(layout: seq<Field>, base: nat, k: nat): nat
    requires k < |layout|
    decreases k, 1
  {
    RoundUp(End(layout, base, k), AlignmentOf(layout[k].ty))
  }

  /** A field starts aligned, after the previous fields and before the next alignment step. */
  lemma StartFacts(layout: seq<Field>, base: nat, k: nat)
    requires k < |layout|
    ensures Start(layout, base, k) % AlignmentOf(layout[k].ty) == 0
    ensures Start(layout, base, k) % 4 == 0
    ensures End(layout, base, k) <= Start(layout, base, k) < End(layout, base, k) + AlignmentOf(layout[k].ty)
    ensures End(layout, base, k + 1) == Start(layout, base, k) + SizeOf(layout[k].ty)
  {
    var a := AlignmentOf(layout[k].ty);
    var s := Start(layout, base, k);
    RoundUpBounds(End(layout, base, k), a);
    ModTransitive(s, 4, a);
  }

  /** After at least one field the running offset is a whole number of words. */
  lemma EndAligned(layout: seq<Field>, base: nat, n: nat)
    requires 1 <= n <= |layout|
    ensures End(layout, base, n) % 4 == 0
  {
    StartFacts(layout, base, n - 1);
    var q := Start(layout, base, n - 1) / 4 + Components(layout[n - 1].ty);
    assert End(layout, base, n) == q * 4;
    MulMod(q, 4);
  }

  /** The running offset never moves backwards. */
  lemma {:induction false} EndMonotone(layout: seq<Field>, base: nat, j: nat, n: nat)
    requires j <= n <= |layout|
    ensures base <= End(layout, base, j) <= End(layout, base, n)
    decreases n
  {
    if n > 0 {
      if j < n {
        EndMonotone(layout, base, j, n - 1);
      } else {
        EndMonotone(layout, base, 0, n - 1);
      }
      StartFacts(layout, base, n - 1);
    }
  }

  /** Fields are placed in layout order, each after the end of the ones before it. */
  lemma StartsInOrder(layout: seq<Field>, base: nat, j: nat, k: nat)
    requires j < k < |layout|
    ensures End(layout, base, j + 1) <= Start(layout, base, k)
    ensures Start(layout, base, j) < Start(layout, base, k)
  {
    EndMonotone(layout, base, j + 1, k);
    StartFacts(layout, base, j);
    StartFacts(layout, base, k);
  }

  /** Word index i lies inside one of the first n fields. */
  predicate Covered(layout: seq<Field>, base: nat, n: nat, i: nat)
    requires n <= |layout|
  {
    n > 0 &&
    (Covered(layout, base, n - 1, i) ||
     Start(layout, base, n - 1) / 4 <= i < End(layout, base, n) / 4)
  }

  /** The words of the first n fields lie between the base and the running offset. */
  lemma {:induction false} CoveredBounds(layout: seq<Field>, base: nat, n: nat, i: nat)
    requires n <= |layout|
    requires Covered(layout, base, n, i)
    ensures base / 4 <= i < End(layout, base, n) / 4
  {
    StartFacts(layout, base, n - 1);
    EndMonotone(layout, base, 0, n - 1);
    if Covered(layout, base, n - 1, i) {
      CoveredBounds(layout, base, n - 1, i);
    }
  }

  /** A covered word lies inside one particular field. */
  lemma {:induction false} CoveredSome(layout: seq<Field>, base: nat, n: nat, i: nat)
    requires n <= |layout|
    requires Covered(layout, base, n, i)
    ensures exists k :: 0 <= k < n && Start(layout, base, k) / 4 <= i < End(layout, base, k + 1) / 4
  {
    var k := n - 1;
    if Start(layout, base, k) / 4 <= i < End(layout, base, k + 1) / 4 {
    } else {
      CoveredSome(layout, base, k, i);
    }
  }

  /** The words of each of the first n fields are covered. */
  lemma {:induction false} CoveredField(layout: seq<Field>, base: nat, n: nat, k: nat, i: nat)
    requires k < n <= |layout|
    requires Start(layout, base, k) / 4 <= i < End(layout, base, k + 1) / 4
    ensures Covered(layout, base, n, i)
  {
    if k < n - 1 {
      CoveredField(layout, base, n - 1, k, i);
    }
  }

  /** The alignment padding in front of field k belongs to no field. */
  lemma {:induction false} PaddingUncovered(layout: seq<Field>, base: nat, k: nat, n: nat, i: nat)
    requires k < n <= |layout|
    requires End(layout, base, k) / 4 <= i < Start(layout, base, k) / 4
    ensures !Covered(layout, base, n, i)
  {
    if n - 1 > k {
      PaddingUncovered(layout, base, k, n - 1, i);
      StartsInOrder(layout, base, k, n - 1);
    } else if k > 0 {
      EndMonotone(layout, base, k, k);
      if Covered(layout, base, k, i) {
        CoveredBounds(layout, base, k, i);
      }
    }
    StartFacts(layout, base, n - 1);
  }

  /** A shift that every field's alignment divides. */
  predicate AlignsAll(layout: seq<Field>, s: nat) {
    forall k :: 0 <= k < |layout| ==> s % AlignmentOf(layout[k].ty) == 0
  }

  /** Moving the whole struct by such a shift moves every field by the same amount. */
  lemma {:induction false} ShiftEnd(layout: seq<Field>, s: nat, n: nat)
    requires n <= |layout|
    requires AlignsAll(layout, s)
    ensures End(layout, s, n) == s + End(layout, 0, n)
  {
    if n > 0 {
      ShiftEnd(layout, s, n - 1);
      RoundUpShift(s, End(layout, 0, n - 1), AlignmentOf(layout[n - 1].ty));
    }
  }

  lemma ShiftStart(layout: seq<Field>, s: nat, k: nat)
    requires k < |layout|
    requires AlignsAll(layout, s)
    ensures Start(layout, s, k) == s + Start(layout, 0, k)
  {
    ShiftEnd(layout, s, k);
    RoundUpShift(s, End(layout, 0, k), AlignmentOf(layout[k].ty));
  }

  // ---- the row stride of createContiguousArray ---------------------------

  /** The largest alignment among the first n fields, starting from 1. */
  function MaxAlignment(layout: seq<Field>, n: nat): nat
    requires n <= |layout|
  {
    if n == 0 then 1
    else
      var m := MaxAlignment(layout, n - 1);
      var a := AlignmentOf(layout[n - 1].ty);
      if m < a then a else m
  }

  /**
    The distance between consecutive records: the end of the last field,
    rounded up to the largest alignment.
   */
  function Stride(layout: seq<Field>): nat {
    RoundUp(End(layout, 0, |layout|), MaxAlignment(layout, |layout|))
  }

  /** The largest alignment is 1 for no fields and otherwise one of the alignments, which all divide it. */
  lemma {:induction false} MaxAlignmentDivides(layout: seq<Field>, n: nat)
    requires n <= |layout|
    ensures n == 0 ==> MaxAlignment(layout, n) == 1
    ensures n > 0 ==> exists j :: 0 <= j < n && MaxAlignment(layout, n) == AlignmentOf(layout[j].ty)
    ensures forall k :: 0 <= k < n ==> MaxAlignment(layout, n) % AlignmentOf(layout[k].ty) == 0
  {
    if n > 0 {
      MaxAlignmentDivides(layout, n - 1);
      var m := MaxAlignment(layout, n - 1);
      var a := AlignmentOf(layout[n - 1].ty);
      forall k | 0 <= k < n
        ensures MaxAlignment(layout, n) % AlignmentOf(layout[k].ty) == 0
      {
        var b := AlignmentOf(layout[k].ty);
        if k == n - 1 {
          AlignmentsNest(layout[k].ty, layout[k].ty);
          if m >= a {
            var j :| 0 <= j < n - 1 && m == AlignmentOf(layout[j].ty);
            AlignmentsNest(layout[k].ty, layout[j].ty);
          }
        } else {
          var j :| 0 <= j < n - 1 && m == AlignmentOf(layout[j].ty);
          assert m % b == 0;
          if m < a {
            AlignmentsNest(layout[j].ty, layout[n - 1].ty);
            ModTransitive(a, b, m);
          }
        }
      }
      if m < a {
        assert MaxAlignment(layout, n) == AlignmentOf(layout[n - 1].ty);
      } else if n == 1 {
        assert false;
      } else {
        var j :| 0 <= j < n - 1 && m == AlignmentOf(layout[j].ty);
        assert MaxAlignment(layout, n) == AlignmentOf(layout[j].ty);
      }
    }
  }

  /** The sizes of the first n fields added up, with no padding. */
  function SumSizes(layout: seq<Field>, n: nat): nat
    requires n <= |layout|
  {
    if n == 0 then 0 else SumSizes(layout, n - 1) + SizeOf(layout[n - 1].ty)
  }

  /** Padding only ever adds: the first n fields end at least their summed sizes after the base. */
  lemma {:induction false} SizesWithinEnd(layout: seq<Field>, base: nat, n: nat)
    requires n <= |layout|
    ensures base + SumSizes(layout, n) <= End(layout, base, n)
  {
    if n > 0 {
      SizesWithinEnd(layout, base, n - 1);
      StartFacts(layout, base, n - 1);
    }
  }

  /** A row of the contiguous array is at least as long as its fields laid end to end. */
  lemma StrideAtLeastSizes(layout: seq<Field>)
    ensures SumSizes(layout, |layout|) <= End(layout, 0, |layout|) <= Stride(layout)
  {
    SizesWithinEnd(layout, 0, |layout|);
    StrideFacts(layout);
  }

  /**
    The stride is a multiple of every field's alignment and of the word
    size (or zero for an empty layout), and no smaller than the end of the
    last field.
   */
  lemma StrideFacts(layout: seq<Field>)
    ensures AlignsAll(layout, Stride(layout))
    ensures End(layout, 0, |layout|) <= Stride(layout)
    ensures Stride(layout) % 4 == 0
  {
    var n := |layout|;
    var m := MaxAlignment(layout, n);
    MaxAlignmentDivides(layout, n);
    var e := End(layout, 0, n);
    RoundUpBounds(e, m);
    forall k | 0 <= k < n
      ensures Stride(layout) % AlignmentOf(layout[k].ty) == 0
    {
      ModTransitive(Stride(layout), AlignmentOf(layout[k].ty), m);
    }
    if n == 0 {
      assert e == 0;
      RoundUpAligned(0, 1);
    } else {
      ModTransitive(Stride(layout), 4, AlignmentOf(layout[0].ty));
    }
  }

  /** Any multiple of the stride is a shift every field's alignment divides. */
  lemma StrideMultipleAligns(layout: seq<Field>, i: nat)
    ensures AlignsAll(layout, i * Stride(layout))
  {
    StrideFacts(layout);
    forall k | 0 <= k < |layout|
      ensures (i * Stride(layout)) % AlignmentOf(layout[k].ty) == 0
    {
      MultipleScaled(i, Stride(layout), AlignmentOf(layout[k].ty));
    }
  }
}

=== FILE: lookup.dfy ===
/**
  Row lookups and duplicate detection of common/data/csv.js: `findIndex`,
  `find`, `findKey` and `findDuplicates`, with the composite row keys the
  joins share.
 */
module Lookups {
  import opened Outcomes
  import opened Frames

  /** A `[colname, predicate]` pair of `findIndex`. */
  type Predicate = (string, Cell -> bool)

  predicate Covers(f: Frame, preds: seq<Predicate>) {
    forall k :: 0 <= k < |preds| ==> preds[k].0 in Names(f.cols)
  }

  /** Row i satisfies every predicate on its column. */
  predicate AllMatch(f: Frame, preds: seq<Predicate>, i: nat)
    requires Valid(f) && Covers(f, preds) && i < f.size
  {
    forall k :: 0 <= k < |preds| ==> preds[k].1(CellAt(f, preds[k].0, i))
  }

  /** The least row at or after `from` that satisfies every predicate. */
  function FirstMatchFrom(f: Frame, preds: seq<Predicate>, from: nat): (r: Option<nat>)
    requires Valid(f) && Covers(f, preds) && from <= f.size
    decreases f.size - from
    ensures r.Some? ==> from <= r.value < f.size && AllMatch(f, preds, r.value)
    ensures r.Some? ==> forall j :: from <= j < r.value ==> !AllMatch(f, preds, j)
    ensures r.None? ==> forall j :: from <= j < f.size ==> !AllMatch(f, preds, j)
  {
    if from == f.size then None
    else if AllMatch(f, preds, from) then Some(from)
    else FirstMatchFrom(f, preds, from + 1)
  }

  function FirstMatch(f: Frame, preds: seq<Predicate>): Option<nat>
    requires Valid(f) && Covers(f, preds)
  {
    FirstMatchFrom(f, preds, 0)
  }

  /** The inner loop of `findIndex`: does row i satisfy every predicate? */
  method RowMatches(f: Frame, preds: seq<Predicate>, i: nat) returns (allMatch: bool)
    requires Valid(f) && Covers(f, preds) && i < f.size
    ensures allMatch == AllMatch(f, preds, i)
  {
    allMatch := true;
    var k := 0;
    while allMatch && k < |preds|
      invariant 0 <= k <= |preds|
      invariant allMatch ==> forall m :: 0 <= m < k ==> preds[m].1(CellAt(f, preds[m].0, i))
      invariant !allMatch ==> !AllMatch(f, preds, i)
    {
      var colname := preds[k].0;
      var p := preds[k].1;
      if !p(CellAt(f, colname, i)) {
        allMatch := false;
      }
      k := k + 1;
    }
  }

  /**
    `findIndex(frame, predicates)`: scans rows below `getSize(frame)` and
    returns the first at which every predicate holds, or null (None).
   */
  method FindIndex(f: Frame, preds: seq<Predicate>) returns (r: Option<nat>)
    requires Valid(f) && Covers(f, preds)
    ensures r == FirstMatch(f, preds)
    ensures r.Some? ==> r.value < f.size && AllMatch(f, preds, r.value)
    ensures r.Some? ==> forall j :: 0 <= j < r.value ==> !AllMatch(f, preds, j)
    ensures r.None? ==> forall j :: 0 <= j < f.size ==> !AllMatch(f, preds, j)
  {
    var numRows := GetSize(f);
    var i := 0;
    while i < numRows
      invariant 0 <= i <= numRows == f.size
      invariant FirstMatchFrom(f, preds, i) == FirstMatch(f, preds)
    {
      var allMatch := RowMatches(f, preds, i);
      if allMatch {
        return Some(i);
      }
      i := i + 1;
    }
    return None;
  }

  /** `find(frame, predicates)`: the record of the first matching row, or null. */
  function Find(f: Frame, preds: seq<Predicate>): (r: Option<map<string, Cell>>)
    requires Valid(f) && Covers(f, preds)
    ensures r.None? <==> forall j :: 0 <= j < f.size ==> !AllMatch(f, preds, j)
    ensures r.Some? ==>
      exists i :: 0 <= i < f.size && AllMatch(f, preds, i) &&
        (forall j :: 0 <= j < i ==> !AllMatch(f, preds, j)) && r.value == Record(f.cols, i)
  {
    match FirstMatch(f, preds)
    case Some(i) => Some(Record(f.cols, i))
    case None => None
  }

  /** `findKey(frame, predicates, key)`: column `key` of the first matching row, or null. */
  function FindKey(f: Frame, preds: seq<Predicate>, key: string): (r: Option<Cell>)
    requires Valid(f) && Covers(f, preds) && key in Names(f.cols)
    ensures r.None? <==> forall j :: 0 <= j < f.size ==> !AllMatch(f, preds, j)
    ensures r.Some? ==>
      exists i :: 0 <= i < f.size && AllMatch(f, preds, i) &&
        (forall j :: 0 <= j < i ==> !AllMatch(f, preds, j)) && r.value == CellAt(f, key, i)
  {
    match FirstMatch(f, preds)
    case Some(i) => Some(CellAt(f, key, i))
    case None => None
  }

  // ---- composite keys ---------------------------------------------------

  /** The values of the key columns in one row (the code joins them with '|'). */
  type Key = seq<Cell>

  predicate HasAll(f: Frame, columns: seq<string>) {
    forall k :: 0 <= k < |columns| ==> columns[k] in Names(f.cols)
  }

  function KeyAt(f: Frame, columns: seq<string>, i: nat): Key
    requires Valid(f) && HasAll(f, columns) && i < f.size
  {
    seq(|columns|, k requires 0 <= k < |columns| => CellAt(f, columns[k], i))
  }

  /** Row i's key: its cells in the key columns, in the order the columns are listed. */
  function Keys(f: Frame, columns: seq<string>): (r: seq<Key>)
    requires Valid(f) && HasAll(f, columns)
    ensures |r| == f.size
    ensures forall i :: 0 <= i < f.size ==> |r[i]| == |columns|
    ensures forall i, k :: 0 <= i < f.size && 0 <= k < |columns| ==> r[i][k] == CellAt(f, columns[k], i)
  {
    seq(f.size, i requires 0 <= i < f.size => KeyAt(f, columns, i))
  }

  /** The rows among the first n whose key is `key`, ascending. */
  function IndicesOf<K(==)>(keys: seq<K>, key: K, n: nat): (r: seq<nat>)
    requires n <= |keys|
    ensures forall a :: 0 <= a < |r| ==> r[a] < n
    ensures forall j: nat :: j in r <==> j < n && keys[j] == key
    ensures forall a, b :: 0 <= a < b < |r| ==> r[a] < r[b]
  {
    if n == 0 then []
    else
      var prev := IndicesOf(keys, key, n - 1);
      prev + (if keys[n - 1] == key then [n - 1] else [])
  }

  /** The distinct keys among the first n rows, in order of first appearance. */
  function FirstSeen<K(==)>(keys: seq<K>, n: nat): seq<K>
    requires n <= |keys|
  {
    if n == 0 then []
    else
      var prev := FirstSeen(keys, n - 1);
      if keys[n - 1] in prev then prev else prev + [keys[n - 1]]
  }

  /** `FirstSeen` lists every key of the first n rows, each once. */
  lemma {:induction false} FirstSeenKeys<K>(keys: seq<K>, n: nat)
    requires n <= |keys|
    ensures forall k :: k in FirstSeen(keys, n) <==> k in keys[..n]
    ensures forall a, b :: 0 <= a < b < |FirstSeen(keys, n)| ==> FirstSeen(keys, n)[a] != FirstSeen(keys, n)[b]
  {
    if n > 0 {
      FirstSeenKeys(keys, n - 1);
      assert keys[..n] == keys[..n - 1] + [keys[n - 1]];
    }
  }

  lemma UnseenHasNoRows<K>(keys: seq<K>, key: K, n: nat)
    requires n <= |keys| && key !in FirstSeen(keys, n)
    ensures |IndicesOf(keys, key, n)| == 0
  {
    FirstSeenKeys(keys, n);
  }

  /** The entries of a `Map<key, rows>` kept when they have more than one row, in map order. */
  function DupGroups(keys: seq<Key>, order: seq<Key>): seq<(Key, seq<nat>)> {
    if |order| == 0 then []
    else
      var k := order[|order| - 1];
      var ix := IndicesOf(keys, k, |keys|);
      DupGroups(keys, order[..|order| - 1]) + (if |ix| > 1 then [(k, ix)] else [])
  }

  /** `duplicateIndices.push(...indices)` over the kept entries. */
  function Flatten(groups: seq<(Key, seq<nat>)>): seq<nat> {
    if |groups| == 0 then [] else Flatten(groups[..|groups| - 1]) + groups[|groups| - 1].1
  }

  /** The first loop of `findDuplicates`: each key's rows, keys in order of first appearance. */
  method GroupKeys<K(==)>(keys: seq<K>) returns (groups: map<K, seq<nat>>, order: seq<K>)
    ensures order == FirstSeen(keys, |keys|)
    ensures forall k :: k in groups <==> k in order
    ensures forall k :: k in groups ==> groups[k] == IndicesOf(keys, k, |keys|)
  {
    groups := map[];
    order := [];
    for i := 0 to |keys|
      invariant order == FirstSeen(keys, i)
      invariant forall k :: k in groups <==> k in order
      invariant forall k :: k in groups ==> groups[k] == IndicesOf(keys, k, i)
    {
      groups, order := GroupStep(keys, i, groups, order);
    }
  }

  /** One row of the first loop of `findDuplicates`: append row i to its key's entry. */
  method GroupStep<K(==)>(keys: seq<K>, i: nat, groups: map<K, seq<nat>>, order: seq<K>)
      returns (groups': map<K, seq<nat>>, order': seq<K>)
    requires i < |keys| && order == FirstSeen(keys, i)
    requires forall k :: k in groups <==> k in order
    requires forall k :: k in groups ==> groups[k] == IndicesOf(keys, k, i)
    ensures order' == FirstSeen(keys, i + 1)
    ensures forall k :: k in groups' <==> k in order'
    ensures forall k :: k in groups' ==> groups'[k] == IndicesOf(keys, k, i + 1)
  {
    var key := keys[i];
    if key in groups {
      groups' := groups[key := groups[key] + [i]];
      order' := order;
    } else {
      UnseenHasNoRows(keys, key, i);
      groups' := groups[key := [i]];
      order' := order + [key];
    }
  }

  /** The second loop of `findDuplicates`: keep the entries with more than one row. */
  method KeepDuplicates(keys: seq<Key>, groups: map<Key, seq<nat>>, order: seq<Key>)
      returns (duplicateIndices: seq<nat>, keyGroups: seq<(Key, seq<nat>)>)
    requires forall k :: k in order ==> k in groups && groups[k] == IndicesOf(keys, k, |keys|)
    ensures keyGroups == DupGroups(keys, order)
    ensures duplicateIndices == Flatten(keyGroups)
  {
    duplicateIndices := [];
    keyGroups := [];
    for t := 0 to |order|
      invariant keyGroups == DupGroups(keys, order[..t])
      invariant duplicateIndices == Flatten(keyGroups)
    {
      var indices := groups[order[t]];
      assert order[..t + 1][..t] == order[..t];
      if |indices| > 1 {
        keyGroups := keyGroups + [(order[t], indices)];
        duplicateIndices := duplicateIndices + indices;
      }
    }
    assert order[..|order|] == order;
  }

  /**
    `findDuplicates(frame, columns)`: groups the rows by key, in order of
    first appearance, and keeps the keys that occur on more than one row.
   */
  method FindDuplicates(f: Frame, columns: seq<string>)
      returns (duplicateIndices: seq<nat>, keyGroups: seq<(Key, seq<nat>)>)
    requires Valid(f) && |columns| > 0 && HasAll(f, columns)
    ensures keyGroups == DupGroups(Keys(f, columns), FirstSeen(Keys(f, columns), f.size))
    ensures duplicateIndices == Flatten(keyGroups)
  {
    var keys := Keys(f, columns);
    var groups, order := GroupKeys(keys);
    duplicateIndices, keyGroups := KeepDuplicates(keys, groups, order);
  }

  lemma {:induction false} DupGroupsMember(keys: seq<Key>, order: seq<Key>, i: nat)
    requires i < |keys|
    ensures i in Flatten(DupGroups(keys, order)) <==>
      keys[i] in order && |IndicesOf(keys, keys[i], |keys|)| > 1
  {
    if order != [] {
      var init := order[..|order| - 1];
      var k := order[|order| - 1];
      DupGroupsMember(keys, init, i);
      assert order == init + [k];
      var ix := IndicesOf(keys, k, |keys|);
      var g := DupGroups(keys, init) + (if |ix| > 1 then [(k, ix)] else []);
      assert DupGroups(keys, order) == g;
      assert i in ix <==> keys[i] == k;
      if |ix| > 1 {
        assert g[..|g| - 1] == DupGroups(keys, init);
        assert Flatten(g) == Flatten(DupGroups(keys, init)) + ix;
      } else {
        assert g == DupGroups(keys, init);
      }
    }
  }

  lemma SingletonSeq(s: seq<nat>, a: nat, b: nat)
    requires a in s && b in s && a != b
    ensures |s| > 1
  {
  }

  /**
    A row's index is reported as a duplicate exactly when another row has
    the same key.
   */
  lemma DuplicateIndicesExact(keys: seq<Key>, i: nat)
    requires i < |keys|
    ensures i in Flatten(DupGroups(keys, FirstSeen(keys, |keys|))) <==>
      exists j :: 0 <= j < |keys| && j != i && keys[j] == keys[i]
  {
    DupGroupsMember(keys, FirstSeen(keys, |keys|), i);
    FirstSeenKeys(keys, |keys|);
    assert keys[..|keys|] == keys;
    var ix := IndicesOf(keys, keys[i], |keys|);
    assert i in ix;
    if |ix| > 1 {
      var j := if ix[0] == i then ix[1] else ix[0];
      assert j in ix && j != i;
    }
    if exists j :: 0 <= j < |keys| && j != i && keys[j] == keys[i] {
      var j :| 0 <= j < |keys| && j != i && keys[j] == keys[i];
      assert j in ix;
      SingletonSeq(ix, i, j);
    }
  }
}

=== FILE: outcomes.dfy ===
/** Failure-carrying values shared by every module of the model. */
module Outcomes {

  datatype Option<+T> = None | Some(value: T)

  /** The explicit `throw`s of the modelled code, one constructor per kind. */
  datatype Error =
    | TooFewFrames            // outerJoins: fewer than two frames
    | NotImplemented          // shapeOf: a mat3x3 field
    | LengthMismatch          // initStructArrayBuffer: arrays of different lengths
    | InvalidWorkgroupSize(n: nat)  // Config.replaceWorkgroup: 0 or more than 3 components
    | InvalidArrayLength      // filterGroups: `new Array` of a negative or NaN row count (a RangeError)

  datatype Result<+T> = Ok(value: T) | Err(error: Error)
}

=== FILE: relational.dfy ===
/**
  Row filtering and the wide-to-long reshape of common/data/csv.js
  (`filter`, `wideToLong`).
 */
module Relational {
  import opened Outcomes
  import opened Text
  import opened Words
  import opened Frames

  // ---- filter -----------------------------------------------------------

  /** The rows below n whose `colname` cell satisfies `p(value, index)`, ascending. */
  function Matching(f: Frame, colname: string, p: (Cell, nat) -> bool, n: nat): (r: seq<nat>)
    requires Valid(f) && colname in Names(f.cols) && n <= f.size
    ensures forall k :: 0 <= k < |r| ==> r[k] < n
    ensures forall i: nat :: i in r <==> i < n && p(CellAt(f, colname, i), i)
    ensures forall a, b :: 0 <= a < b < |r| ==> r[a] < r[b]
  {
    if n == 0 then []
    else
      var prev := Matching(f, colname, p, n - 1);
      prev + (if p(CellAt(f, colname, n - 1), n - 1) then [n - 1] else [])
  }

  /**
    `filter(frame, colname, p)`: keeps the rows whose `colname` value
    satisfies p, in order, in every column; kinds and column order are kept.
   */
  method Filter(f: Frame, colname: string, p: (Cell, nat) -> bool) returns (r: Frame)
    requires Valid(f) && colname in Names(f.cols)
    ensures var keep := Matching(f, colname, p, f.size);
      && Valid(r)
      && r.size == |keep|
      && Names(r.cols) == Names(f.cols)
      && (forall k :: 0 <= k < |r.cols| ==> r.cols[k].kind == f.cols[k].kind)
      && (forall k, i :: 0 <= k < |r.cols| && 0 <= i < r.size ==> r.cols[k].cells[i] == f.cols[k].cells[keep[i]])
  {
    var numRows := |ColumnOf(f, colname).cells|;
    var keepIndices: seq<nat> := [];
    for i := 0 to numRows
      invariant keepIndices == Matching(f, colname, p, i)
    {
      if p(CellAt(f, colname, i), i) {
        keepIndices := keepIndices + [i];
      }
    }
    var cols := GatherColumns(f.cols, keepIndices, f.size);
    ReindexColsValid(f.cols, keepIndices, f.size);
    r := Frame(cols, |keepIndices|);
  }

  // ---- wideToLong -------------------------------------------------------

  /** `allColumns.filter(col => !retain.includes(col))`. */
  function Pivots(names: seq<string>, retain: seq<string>): (r: seq<string>)
    ensures forall x :: x in r <==> x in names && x !in retain
  {
    if names == [] then []
    else (if names[0] in retain then [] else [names[0]]) + Pivots(names[1..], retain)
  }

  /** `parseFloat(pivotCol)`, kept as the name when it is NaN. */
  function KeyCell(name: string): Cell {
    match ParseNumber(name)
    case Some(x) => Num(x)
    case None => Str(name)
  }

  /** A cell after a store into a `Float32Array`: converted to a number and narrowed. */
  function F32Cell(fmt: F32Format, c: Cell): (r: Cell)
    ensures r.Num? || r.Missing?
  {
    match c
    case Num(x) => Num(F32Round(fmt, x))
    case Str(s) =>
      (match StringToNumber(s)
       case Some(x) => Num(F32Round(fmt, x))
       case None => Missing)
    case Missing => Missing
  }

  /** The key column's cell for a pivot name, once the column has its final kind. */
  function KeyOut(fmt: F32Format, name: string, kind: Kind): Cell {
    if kind == Typed then F32Cell(fmt, KeyCell(name)) else KeyCell(name)
  }

  predicate AllParse(pivots: seq<string>) {
    forall j :: 0 <= j < |pivots| ==> ParseNumber(pivots[j]).Some?
  }

  predicate NoDuplicates(xs: seq<string>) {
    forall a, b :: 0 <= a < b < |xs| ==> xs[a] != xs[b]
  }

  /** The output's columns: the retained ones, then `key`, then `val`, each with one cell per output row. */
  ghost predicate LongShape(f: Frame, retain: seq<string>, key: string, val: string, out: Frame)
  {
    var P := Pivots(Names(f.cols), retain);
    && Valid(out)
    && out.size == f.size * |P|
    && |out.cols| == |retain| + 2
    && (forall c :: 0 <= c < |retain| ==> out.cols[c].name == retain[c] && out.cols[c].kind == Plain)
    && out.cols[|retain|].name == key
    && out.cols[|retain| + 1].name == val
    && out.cols[|retain| + 1].kind == Typed
  }

  /** Output row o carries the retained values of input row o / |P|. */
  ghost predicate LongRetained(f: Frame, retain: seq<string>, key: string, val: string, out: Frame)
    requires Valid(f) && forall c :: c in retain ==> c in Names(f.cols)
    requires LongShape(f, retain, key, val, out)
  {
    var P := Pivots(Names(f.cols), retain);
    forall c, o :: 0 <= c < |retain| && 0 <= o < out.size && |P| > 0 ==>
      out.cols[c].cells[o] == CellAt(f, retain[c], RowOf(o, |P|, f.size))
  }

  /**
    Output row o's key is the name of pivot o % |P|, a number when it
    parses; the key column is numeric exactly when every key is.
   */
  ghost predicate LongKeys(fmt: F32Format, f: Frame, retain: seq<string>, key: string, val: string, out: Frame)
    requires LongShape(f, retain, key, val, out)
  {
    var P := Pivots(Names(f.cols), retain);
    var keyCol := out.cols[|retain|];
    && (keyCol.kind == Typed <==> out.size == 0 || AllParse(P))
    && forall o :: 0 <= o < out.size && |P| > 0 ==> keyCol.cells[o] == KeyOut(fmt, P[o % |P|], keyCol.kind)
  }

  /** Output row o's value is pivot o % |P| of input row o / |P|, stored as single precision. */
  ghost predicate LongValues(fmt: F32Format, f: Frame, retain: seq<string>, key: string, val: string, out: Frame)
    requires Valid(f) && forall c :: c in retain ==> c in Names(f.cols)
    requires LongShape(f, retain, key, val, out)
  {
    var P := Pivots(Names(f.cols), retain);
    forall o :: 0 <= o < out.size && |P| > 0 ==>
      out.cols[|retain| + 1].cells[o] == F32Cell(fmt, CellAt(f, P[o % |P|], RowOf(o, |P|, f.size)))
  }

  /** What `wideToLong` promises of its output. */
  ghost predicate LongForm(fmt: F32Format, f: Frame, retain: seq<string>, key: string, val: string, out: Frame)
    requires Valid(f) && forall c :: c in retain ==> c in Names(f.cols)
  {
    && LongShape(f, retain, key, val, out)
    && LongRetained(f, retain, key, val, out)
    && LongKeys(fmt, f, retain, key, val, out)
    && LongValues(fmt, f, retain, key, val, out)
  }

  /**
    `wideToLong(frame, retain, {key, val})`: one output row per input row
    and pivot column (every column not retained), row-major.
   */
  method WideToLong(fmt: F32Format, f: Frame, retain: seq<string>, key: string, val: string) returns (r: Frame)
    requires Valid(f) && |f.cols| >= 1
    requires forall c :: c in retain ==> c in Names(f.cols)
    requires NoDuplicates(retain) && key != val && key !in retain && val !in retain
    ensures LongForm(fmt, f, retain, key, val, r)
  {
    var allColumns := Names(f.cols);
    var pivots := Pivots(allColumns, retain);
    var inputRows := |f.cols[0].cells|;
    var outputSize := inputRows * |pivots|;
    var ret, keys, vals := FillLong(fmt, f, retain, pivots);
    var kind, keyCells := KeyColumn(fmt, keys);
    var cols := seq(|retain|, c requires 0 <= c < |retain| => Column(retain[c], Plain, ret[c]))
      + [Column(key, kind, keyCells), Column(val, Typed, vals)];
    r := Frame(cols, outputSize);
    assert Names(cols) == retain + [key, val];
    assert LongShape(f, retain, key, val, r);
    assert LongRetained(f, retain, key, val, r);
    LongKeysHold(fmt, f, retain, key, val, keys, r);
    assert LongValues(fmt, f, retain, key, val, r);
  }

  /** Converts the key column to a `Float32Array` when every key is a number. */
  method KeyColumn(fmt: F32Format, keys: seq<Cell>) returns (kind: Kind, cells: seq<Cell>)
    ensures kind == Typed <==> forall o :: 0 <= o < |keys| ==> keys[o].Num?
    ensures |cells| == |keys|
    ensures forall o :: 0 <= o < |keys| ==> cells[o] == if kind == Typed then F32Cell(fmt, keys[o]) else keys[o]
  {
    var allNumbers := EveryNumber(keys);
    kind := Plain;
    cells := keys;
    if allNumbers {
      kind := Typed;
      cells := seq(|keys|, o requires 0 <= o < |keys| => F32Cell(fmt, keys[o]));
    }
  }

  lemma LongKeysHold(fmt: F32Format, f: Frame, retain: seq<string>, key: string, val: string, keys: seq<Cell>, out: Frame)
    requires Valid(f) && forall c :: c in retain ==> c in Names(f.cols)
    requires LongShape(f, retain, key, val, out)
    requires var P := Pivots(Names(f.cols), retain);
      && |keys| == out.size
      && (|P| > 0 ==> forall o :: 0 <= o < out.size ==> keys[o] == KeyCell(P[o % |P|]))
    requires var kc := out.cols[|retain|];
      && (kc.kind == Typed <==> forall o :: 0 <= o < |keys| ==> keys[o].Num?)
      && |kc.cells| == |keys|
      && forall o :: 0 <= o < |keys| ==> kc.cells[o] == if kc.kind == Typed then F32Cell(fmt, keys[o]) else keys[o]
    ensures LongKeys(fmt, f, retain, key, val, out)
  {
    var P := Pivots(Names(f.cols), retain);
    AllNumbersIff(f, retain, P, keys, out.size);
  }

  /** `result[key].every(v => typeof v === 'number')`. */
  method EveryNumber(keys: seq<Cell>) returns (allNumbers: bool)
    ensures allNumbers <==> forall o :: 0 <= o < |keys| ==> keys[o].Num?
  {
    allNumbers := true;
    for o := 0 to |keys|
      invariant allNumbers <==> forall o' :: 0 <= o' < o ==> keys[o'].Num?
    {
      allNumbers := allNumbers && keys[o].Num?;
    }
  }

  /** The row and pivot loops of `wideToLong`, advancing `outIdx` over the output rows. */
  method FillLong(fmt: F32Format, f: Frame, retain: seq<string>, pivots: seq<string>)
      returns (ret: seq<seq<Cell>>, keys: seq<Cell>, vals: seq<Cell>)
    requires Valid(f) && forall c :: c in retain ==> c in Names(f.cols)
    requires pivots == Pivots(Names(f.cols), retain)
    ensures |ret| == |retain| && (forall c :: 0 <= c < |retain| ==> |ret[c]| == f.size * |pivots|)
    ensures |keys| == f.size * |pivots| && |vals| == f.size * |pivots|
    ensures Filled(fmt, f, retain, pivots, ret, keys, vals, f.size * |pivots|)
  {
    var outputSize := f.size * |pivots|;
    ret := seq(|retain|, _ => seq(outputSize, _ => Missing));
    keys := seq(outputSize, _ => Missing);
    vals := seq(outputSize, _ => Num(0));
    var outIdx := 0;
    for row := 0 to f.size
      invariant outIdx == row * |pivots| <= outputSize
      invariant |ret| == |retain| && (forall c :: 0 <= c < |retain| ==> |ret[c]| == outputSize)
      invariant |keys| == outputSize && |vals| == outputSize
      invariant Filled(fmt, f, retain, pivots, ret, keys, vals, outIdx)
    {
      MulLeq(row + 1, f.size, |pivots|);
      assert (row + 1) * |pivots| == row * |pivots| + |pivots|;
      for j := 0 to |pivots|
        invariant outIdx == row * |pivots| + j
        invariant |ret| == |retain| && (forall c :: 0 <= c < |retain| ==> |ret[c]| == outputSize)
        invariant |keys| == outputSize && |vals| == outputSize
        invariant Filled(fmt, f, retain, pivots, ret, keys, vals, outIdx)
      {
        DivOfMultiple(row, j, |pivots|);
        ret, keys, vals := FillRow(fmt, f, retain, pivots, ret, keys, vals, outIdx, row, j);
        outIdx := outIdx + 1;
      }
    }
  }

  /** The output rows below `bound` hold their retained, key and value cells. */
  ghost predicate Filled(fmt: F32Format, f: Frame, retain: seq<string>, pivots: seq<string>,
                         ret: seq<seq<Cell>>, keys: seq<Cell>, vals: seq<Cell>, bound: nat)
    requires Valid(f) && forall c :: c in retain ==> c in Names(f.cols)
    requires pivots == Pivots(Names(f.cols), retain)
    requires |ret| == |retain| && (forall c :: 0 <= c < |retain| ==> bound <= |ret[c]|)
    requires bound <= |keys| && bound <= |vals| && bound <= f.size * |pivots|
  {
    |pivots| > 0 ==>
      && (forall c, o :: 0 <= c < |retain| && 0 <= o < bound ==> ret[c][o] == CellAt(f, retain[c], RowOf(o, |pivots|, f.size)))
      && (forall o :: 0 <= o < bound ==> keys[o] == KeyCell(pivots[o % |pivots|]))
      && (forall o :: 0 <= o < bound ==> vals[o] == F32Cell(fmt, CellAt(f, pivots[o % |pivots|], RowOf(o, |pivots|, f.size))))
  }

  /** The body of the pivot loop: writes output row `outIdx` = row * |P| + j. */
  method FillRow(fmt: F32Format, f: Frame, retain: seq<string>, pivots: seq<string>,
                 ret: seq<seq<Cell>>, keys: seq<Cell>, vals: seq<Cell>, outIdx: nat, row: nat, j: nat)
      returns (ret': seq<seq<Cell>>, keys': seq<Cell>, vals': seq<Cell>)
    requires Valid(f) && forall c :: c in retain ==> c in Names(f.cols)
    requires pivots == Pivots(Names(f.cols), retain)
    requires row < f.size && j < |pivots| && outIdx / |pivots| == row && outIdx % |pivots| == j
    requires outIdx < f.size * |pivots|
    requires |ret| == |retain| && (forall c :: 0 <= c < |retain| ==> |ret[c]| == f.size * |pivots|)
    requires |keys| == f.size * |pivots| && |vals| == f.size * |pivots|
    requires Filled(fmt, f, retain, pivots, ret, keys, vals, outIdx)
    ensures |ret'| == |retain| && (forall c :: 0 <= c < |retain| ==> |ret'[c]| == f.size * |pivots|)
    ensures |keys'| == f.size * |pivots| && |vals'| == f.size * |pivots|
    ensures Filled(fmt, f, retain, pivots, ret', keys', vals', outIdx + 1)
  {
    ret' := CopyRetained(f, retain, ret, outIdx, row);
    var pivotCol := pivots[j];
    keys' := keys[outIdx := KeyCell(pivotCol)];
    vals' := vals[outIdx := F32Cell(fmt, CellAt(f, pivotCol, row))];
    FilledStep(fmt, f, retain, pivots, ret, keys, vals, ret', keys', vals', outIdx, row, j);
  }

  /** Writing output row `outIdx` extends the filled prefix by one row. */
  lemma FilledStep(fmt: F32Format, f: Frame, retain: seq<string>, pivots: seq<string>,
                   ret: seq<seq<Cell>>, keys: seq<Cell>, vals: seq<Cell>,
                   ret': seq<seq<Cell>>, keys': seq<Cell>, vals': seq<Cell>, outIdx: nat, row: nat, j: nat)
    requires Valid(f) && forall c :: c in retain ==> c in Names(f.cols)
    requires pivots == Pivots(Names(f.cols), retain)
    requires row < f.size && j < |pivots| && outIdx / |pivots| == row && outIdx % |pivots| == j
    requires outIdx < f.size * |pivots|
    requires |ret| == |retain| && (forall c :: 0 <= c < |retain| ==> |ret[c]| == f.size * |pivots|)
    requires |keys| == f.size * |pivots| && |vals| == f.size * |pivots|
    requires Filled(fmt, f, retain, pivots, ret, keys, vals, outIdx)
    requires |ret'| == |retain| && forall c :: 0 <= c < |retain| ==> ret'[c] == ret[c][outIdx := CellAt(f, retain[c], row)]
    requires keys' == keys[outIdx := KeyCell(pivots[j])]
    requires vals' == vals[outIdx := F32Cell(fmt, CellAt(f, pivots[j], row))]
    ensures Filled(fmt, f, retain, pivots, ret', keys', vals', outIdx + 1)
  {
    var p := |pivots|;
    RetainedStep(f, retain, p, ret, ret', outIdx, row);
    KeysStep(pivots, keys, keys', outIdx, j);
    assert forall k :: 0 <= k < p ==> pivots[k] in Names(f.cols) by {
      forall k | 0 <= k < p
        ensures pivots[k] in Names(f.cols)
      {
        assert pivots[k] in pivots;
      }
    }
    ValsStep(fmt, f, pivots, vals, vals', outIdx, row, j);
  }

  /** The retained cells of output rows below outIdx + 1 are in place. */
  lemma RetainedStep(f: Frame, retain: seq<string>, p: nat, ret: seq<seq<Cell>>, ret': seq<seq<Cell>>, outIdx: nat, row: nat)
    requires Valid(f) && forall c :: c in retain ==> c in Names(f.cols)
    requires p > 0 && row < f.size && outIdx / p == row && outIdx < f.size * p
    requires |ret| == |retain| && forall c :: 0 <= c < |retain| ==> outIdx < |ret[c]|
    requires forall c, o :: 0 <= c < |retain| && 0 <= o < outIdx ==> ret[c][o] == CellAt(f, retain[c], RowOf(o, p, f.size))
    requires |ret'| == |retain| && forall c :: 0 <= c < |retain| ==> ret'[c] == ret[c][outIdx := CellAt(f, retain[c], row)]
    ensures forall c, o :: 0 <= c < |retain| && 0 <= o < outIdx + 1 ==> ret'[c][o] == CellAt(f, retain[c], RowOf(o, p, f.size))
  {
    assert RowOf(outIdx, p, f.size) == row;
    forall c, o | 0 <= c < |retain| && 0 <= o < outIdx + 1
      ensures ret'[c][o] == CellAt(f, retain[c], RowOf(o, p, f.size))
    {
      if o < outIdx {
        assert ret'[c][o] == ret[c][o];
      }
    }
  }

  /** The key cells of output rows below outIdx + 1 are in place. */
  lemma KeysStep(pivots: seq<string>, keys: seq<Cell>, keys': seq<Cell>, outIdx: nat, j: nat)
    requires j < |pivots| && outIdx % |pivots| == j && outIdx < |keys|
    requires forall o :: 0 <= o < outIdx ==> keys[o] == KeyCell(pivots[o % |pivots|])
    requires keys' == keys[outIdx := KeyCell(pivots[j])]
    ensures forall o :: 0 <= o < outIdx + 1 ==> keys'[o] == KeyCell(pivots[o % |pivots|])
  {
    forall o | 0 <= o < outIdx + 1
      ensures keys'[o] == KeyCell(pivots[o % |pivots|])
    {
      if o < outIdx {
        assert keys'[o] == keys[o];
      }
    }
  }

  /** The value cells of output rows below outIdx + 1 are in place. */
  lemma ValsStep(fmt: F32Format, f: Frame, pivots: seq<string>, vals: seq<Cell>, vals': seq<Cell>, outIdx: nat, row: nat, j: nat)
    requires Valid(f) && forall k :: 0 <= k < |pivots| ==> pivots[k] in Names(f.cols)
    requires row < f.size && j < |pivots| && outIdx / |pivots| == row && outIdx % |pivots| == j
    requires outIdx < f.size * |pivots| && outIdx < |vals|
    requires forall o :: 0 <= o < outIdx ==> vals[o] == F32Cell(fmt, CellAt(f, pivots[o % |pivots|], RowOf(o, |pivots|, f.size)))
    requires vals' == vals[outIdx := F32Cell(fmt, CellAt(f, pivots[j], row))]
    ensures forall o :: 0 <= o < outIdx + 1 ==> vals'[o] == F32Cell(fmt, CellAt(f, pivots[o % |pivots|], RowOf(o, |pivots|, f.size)))
  {
    assert RowOf(outIdx, |pivots|, f.size) == row;
    forall o | 0 <= o < outIdx + 1
      ensures vals'[o] == F32Cell(fmt, CellAt(f, pivots[o % |pivots|], RowOf(o, |pivots|, f.size)))
    {
      if o < outIdx {
        assert vals'[o] == vals[o];
      }
    }
  }

  /** The retained-column loop: output row `outIdx` of each retained column gets input row `row`'s cell. */
  method CopyRetained(f: Frame, retain: seq<string>, ret: seq<seq<Cell>>, outIdx: nat, row: nat)
      returns (ret': seq<seq<Cell>>)
    requires Valid(f) && forall c :: c in retain ==> c in Names(f.cols)
    requires row < f.size
    requires |ret| == |retain| && forall c :: 0 <= c < |retain| ==> outIdx < |ret[c]|
    ensures |ret'| == |retain|
    ensures forall c :: 0 <= c < |retain| ==> ret'[c] == ret[c][outIdx := CellAt(f, retain[c], row)]
  {
    ret' := ret;
    for c := 0 to |retain|
      invariant |ret'| == |retain|
      invariant forall c' :: 0 <= c' < c ==> ret'[c'] == ret[c'][outIdx := CellAt(f, retain[c'], row)]
      invariant forall c' :: c <= c' < |retain| ==> ret'[c'] == ret[c']
    {
      ret' := ret'[c := ret'[c][outIdx := CellAt(f, retain[c], row)]];
    }
  }

  /** `result[key].every(v => typeof v === 'number')` holds exactly when there are no rows or every pivot name parses. */
  lemma AllNumbersIff(f: Frame, retain: seq<string>, pivots: seq<string>, keys: seq<Cell>, n: nat)
    requires Valid(f) && forall c :: c in retain ==> c in Names(f.cols)
    requires pivots == Pivots(Names(f.cols), retain) && n == f.size * |pivots| && |keys| == n
    requires |pivots| > 0 ==> forall o :: 0 <= o < n ==> keys[o] == KeyCell(pivots[o % |pivots|])
    ensures (forall o :: 0 <= o < n ==> keys[o].Num?) <==> n == 0 || AllParse(pivots)
  {
    if n > 0 {
      MulPositive(f.size, |pivots|);
      MulAtLeast(f.size, |pivots|);
      if AllParse(pivots) {
        ParsedKeys(pivots, keys, n);
      }
      if forall o :: 0 <= o < n ==> keys[o].Num? {
        KeysParsed(pivots, keys, n);
      }
    }
  }

  lemma ParsedKeys(pivots: seq<string>, keys: seq<Cell>, n: nat)
    requires |pivots| > 0 && |keys| == n && AllParse(pivots)
    requires forall o :: 0 <= o < n ==> keys[o] == KeyCell(pivots[o % |pivots|])
    ensures forall o :: 0 <= o < n ==> keys[o].Num?
  {
    forall o | 0 <= o < n
      ensures keys[o].Num?
    {
      assert ParseNumber(pivots[o % |pivots|]).Some?;
    }
  }

  lemma KeysParsed(pivots: seq<string>, keys: seq<Cell>, n: nat)
    requires 0 < |pivots| <= n == |keys|
    requires forall o :: 0 <= o < n ==> keys[o] == KeyCell(pivots[o % |pivots|])
    requires forall o :: 0 <= o < n ==> keys[o].Num?
    ensures AllParse(pivots)
  {
    forall j | 0 <= j < |pivots|
      ensures ParseNumber(pivots[j]).Some?
    {
      DivOfMultiple(0, j, |pivots|);
      assert keys[j] == KeyCell(pivots[j]);
    }
  }

  /**
    Input row `row` and pivot `j` land in output row row * |P| + j, and
    every output row comes from exactly one such pair.
   */
  lemma LongFormAt(fmt: F32Format, f: Frame, retain: seq<string>, key: string, val: string, out: Frame, row: nat, j: nat)
    requires Valid(f) && forall c :: c in retain ==> c in Names(f.cols)
    requires LongForm(fmt, f, retain, key, val, out)
    requires row < f.size && j < |Pivots(Names(f.cols), retain)|
    ensures var P := Pivots(Names(f.cols), retain);
      var o := row * |P| + j;
      && o < out.size
      && (forall c :: 0 <= c < |retain| ==> out.cols[c].cells[o] == CellAt(f, retain[c], row))
      && out.cols[|retain|].cells[o] == KeyOut(fmt, P[j], out.cols[|retain|].kind)
      && out.cols[|retain| + 1].cells[o] == F32Cell(fmt, CellAt(f, P[j], row))
  {
    var P := Pivots(Names(f.cols), retain);
    var p := |P|;
    SlotBelow(row, j, p, f.size);
    DivOfMultiple(row, j, p);
    assert RowOf(row * p + j, p, f.size) == row;
  }

  /** Slot j of input row `row` lies inside the output. */
  lemma SlotBelow(row: nat, j: nat, p: nat, rows: nat)
    requires row < rows && j < p
    ensures row * p + j < rows * p
  {
    MulLeq(row + 1, rows, p);
    assert (row + 1) * p == row * p + p;
  }

  /** The input row of output row o: `o / |P|`. */
  function RowOf(o: nat, p: nat, rows: nat): (r: nat)
    requires p > 0 && o < rows * p
    ensures r < rows
  {
    LongIndexSplit(rows, p, o);
    o / p
  }

  /** Every output row o is row o / |P| and pivot o % |P| of the input. */
  lemma LongIndexSplit(rows: nat, p: nat, o: nat)
    requires p > 0 && o < rows * p
    ensures o / p < rows && o % p < p && o == (o / p) * p + o % p
  {
    if o / p >= rows {
      MulLeq(rows, o / p, p);
    }
  }
}

=== FILE: seeds.dfy ===
/**
  The `state` record both uniform adapters build in `create`: start from
  `{}` and assign `state[name] = init` for each declaration in order, so a
  name declared twice keeps its last initial value.
 */
module Seeds {

  /** The record after the first n assignments `state[names[k]] = inits[k]`. */
  function Seeded<V>(names: seq<string>, inits: seq<V>, n: nat): map<string, V>
    requires n <= |names| == |inits|
  {
    if n == 0 then map[] else Seeded(names, inits, n - 1)[names[n - 1] := inits[n - 1]]
  }

  /** The record has a key exactly for the names assigned so far. */
  lemma {:induction false} SeededKeys<V>(names: seq<string>, inits: seq<V>, n: nat, key: string)
    requires n <= |names| == |inits|
    ensures key in Seeded(names, inits, n) <==> exists k :: 0 <= k < n && names[k] == key
  {
    if n > 0 {
      SeededKeys(names, inits, n - 1, key);
      if names[n - 1] == key {
        assert key in Seeded(names, inits, n);
      }
    }
  }

  /** A name holds the initial value of its last declaration among the first n. */
  lemma {:induction false} SeededLast<V>(names: seq<string>, inits: seq<V>, n: nat, k: nat)
    requires n <= |names| == |inits| && k < n
    requires forall j :: k < j < n ==> names[j] != names[k]
    ensures names[k] in Seeded(names, inits, n) && Seeded(names, inits, n)[names[k]] == inits[k]
  {
    if k < n - 1 {
      SeededLast(names, inits, n - 1, k);
    }
  }
}

=== FILE: structarrays.dfy ===
/**
  Interleaved struct arrays: N equally long 4-byte typed arrays packed into
  one buffer of N-word records (element i of array j at word `i * N + j`),
  and the inverse that copies the words back out into N typed arrays.
 */
module StructArrays {
  import opened Outcomes
  import opened Words

  /** How an array is accessed: a `Uint32Array`, or (anything else) through the `Float32Array` view. */
  datatype Kind = U32Kind | F32Kind

  /** One input array: its kind and its elements. */
  datatype Source = Source(kind: Kind, values: seq<int>)

  /** One caller-owned output array, filled in place. */
  datatype Target = Target(kind: Kind, data: array<int>)

  /** Storing an element through the view its array's kind selects. */
  function Store(fmt: F32Format, kind: Kind, x: int): Word {
    match kind
    case U32Kind => EncodeU32(x)
    case F32Kind => fmt.encode(x)
  }

  /** Loading a word through the view an output array's kind selects. */
  function Load(fmt: F32Format, kind: Kind, w: Word): int {
    match kind
    case U32Kind => DecodeU32(w)
    case F32Kind => fmt.decode(w)
  }

  /** An element a typed array of that kind can hold. */
  predicate Holds(fmt: F32Format, kind: Kind, x: int) {
    match kind
    case U32Kind => InU32(x)
    case F32Kind => F32Exact(fmt, x)
  }

  /** An element of either kind survives a store and a load through the same view. */
  lemma LoadStore(fmt: F32Format, kind: Kind, x: int)
    requires Holds(fmt, kind, x)
    ensures Load(fmt, kind, Store(fmt, kind, x)) == x
  {
    if kind == U32Kind {
      U32RoundTrip(x);
    }
  }

  /** Every array is as long as the first one. */
  predicate SameLength(arrays: seq<Source>)
    requires |arrays| > 0
  {
    forall j :: 0 <= j < |arrays| ==> |arrays[j].values| == |arrays[0].values|
  }

  /** The word index of field j of record i, with `fields` words per record. */
  function Slot(i: nat, fields: nat, j: nat): nat {
    i * fields + j
  }

  /** Record i, field j sits inside a buffer of `length` records, and the slot determines both. */
  lemma SlotFacts(i: nat, fields: nat, j: nat, length: nat)
    requires i < length && j < fields
    ensures Slot(i, fields, j) < length * fields
    ensures Slot(i, fields, j) / fields == i && Slot(i, fields, j) % fields == j
  {
    MulLeq(i + 1, length, fields);
    DivOfMultiple(i, j, fields);
  }

  /** The packed words: word idx holds element `idx / N` of array `idx % N`. */
  function Interleaved(fmt: F32Format, arrays: seq<Source>, length: nat): (w: seq<Word>)
    requires forall j :: 0 <= j < |arrays| ==> |arrays[j].values| == length
  {
    var fields := |arrays|;
    seq(length * fields, idx requires 0 <= idx < length * fields =>
      MulPositive(length, fields);
      DivBelow(idx, length, fields);
      Store(fmt, arrays[idx % fields].kind, arrays[idx % fields].values[idx / fields]))
  }

  lemma DivBelow(idx: nat, length: nat, fields: nat)
    requires fields > 0 && idx < length * fields
    ensures idx / fields < length && idx % fields < fields
  {
    if idx / fields >= length {
      MulLeq(length, idx / fields, fields);
    }
  }

  /** Element i of array j is stored at word `i * N + j`, through its array's view. */
  lemma InterleavedAt(fmt: F32Format, arrays: seq<Source>, length: nat, i: nat, j: nat)
    requires forall j :: 0 <= j < |arrays| ==> |arrays[j].values| == length
    requires i < length && j < |arrays|
    ensures |Interleaved(fmt, arrays, length)| == length * |arrays|
    ensures Slot(i, |arrays|, j) < length * |arrays| &&
            Interleaved(fmt, arrays, length)[Slot(i, |arrays|, j)] == Store(fmt, arrays[j].kind, arrays[j].values[i])
  {
    SlotFacts(i, |arrays|, j, length);
  }

  /**
    The packing part of `initStructArrayBuffer`: check that all arrays are
    as long as the first, then write element i of array j at word
    `i * (size / 4) + j` of a buffer of `size * length` bytes.
   */
  method InitStructArrayBuffer(fmt: F32Format, arrays: seq<Source>) returns (r: Result<seq<Word>>)
    requires |arrays| > 0
    ensures r.Err? <==> !SameLength(arrays)
    ensures r.Err? ==> r.error == LengthMismatch
    ensures r.Ok? ==> r.value == Interleaved(fmt, arrays, |arrays[0].values|)
  {
    var length := |arrays[0].values|;
    var size := 4;
    for i := 1 to |arrays|
      invariant size == 4 * i
      invariant forall j :: 0 <= j < i ==> |arrays[j].values| == length
    {
      if length != |arrays[i].values| {
        return Err(LengthMismatch);
      }
      size := size + 4;
    }
    var words := Pack(fmt, arrays, length, size);
    r := Ok(words);
  }

  /** The buffer of `initStructArrayBuffer`, once the lengths agree and `size` is four bytes per array. */
  method Pack(fmt: F32Format, arrays: seq<Source>, length: nat, size: nat) returns (w: seq<Word>)
    requires forall j :: 0 <= j < |arrays| ==> |arrays[j].values| == length
    requires size == 4 * |arrays|
    ensures w == Interleaved(fmt, arrays, length)
  {
    var fields := size / 4;
    ghost var target := Interleaved(fmt, arrays, length);
    assert size * length == 4 * (fields * length);
    DivOfMultiple(fields * length, 0, 4);
    var buffer := new Word[size * length / 4](_ => 0);
    var base := 0;
    for i := 0 to length
      invariant base == Slot(i, fields, 0) && base <= buffer.Length
      invariant forall idx :: 0 <= idx < base ==> buffer[idx] == target[idx]
      invariant forall idx :: base <= idx < buffer.Length ==> buffer[idx] == 0
    {
      MulLeq(i + 1, length, fields);
      WriteRecord(fmt, arrays, buffer, length, i, base, target);
      base := base + fields;
    }
    return buffer[..];
  }

  /** The inner loop: the fields of record i, one array at a time, from word `base = i * N`. */
  method WriteRecord(fmt: F32Format, arrays: seq<Source>, buffer: array<Word>, length: nat, i: nat, base: nat,
                     ghost target: seq<Word>)
    requires forall j :: 0 <= j < |arrays| ==> |arrays[j].values| == length
    requires target == Interleaved(fmt, arrays, length) && buffer.Length == |target| && i < length
    requires base == Slot(i, |arrays|, 0) && base + |arrays| <= buffer.Length
    requires forall idx :: 0 <= idx < base ==> buffer[idx] == target[idx]
    requires forall idx :: base <= idx < buffer.Length ==> buffer[idx] == 0
    modifies buffer
    ensures forall idx :: 0 <= idx < base + |arrays| ==> buffer[idx] == target[idx]
    ensures forall idx :: base + |arrays| <= idx < buffer.Length ==> buffer[idx] == 0
  {
    var fields := |arrays|;
    for j := 0 to fields
      invariant forall idx :: 0 <= idx < base + j ==> buffer[idx] == target[idx]
      invariant forall idx :: base + j <= idx < buffer.Length ==> buffer[idx] == 0
    {
      InterleavedAt(fmt, arrays, length, i, j);
      var source := arrays[j];
      var idx := base + j;
      assert idx == Slot(i, fields, j);
      if source.kind == U32Kind {
        buffer[idx] := EncodeU32(source.values[i]);
      } else {
        buffer[idx] := fmt.encode(source.values[i]);
      }
    }
  }

  /** The output arrays are distinct objects. */
  predicate Distinct(outputs: seq<Target>) {
    forall j, k :: 0 <= j < k < |outputs| ==> outputs[j].data != outputs[k].data
  }

  /** The arrays of the outputs. */
  function Arrays(outputs: seq<Target>): set<array<int>> {
    set j | 0 <= j < |outputs| :: outputs[j].data
  }

  /** Every slot of `length` records of `fields` words lies inside the buffer. */
  predicate InBuffer(structBuffer: seq<Word>, length: nat, fields: nat) {
    forall i, j :: 0 <= i < length && 0 <= j < fields ==> Slot(i, fields, j) < |structBuffer|
  }

  lemma InBufferFromSize(structBuffer: seq<Word>, length: nat, fields: nat)
    requires length * fields <= |structBuffer|
    ensures InBuffer(structBuffer, length, fields)
  {
    forall i, j | 0 <= i < length && 0 <= j < fields
      ensures Slot(i, fields, j) < |structBuffer|
    {
      SlotFacts(i, fields, j, length);
    }
  }

  /**
    `extractStructArrays`: for every i below the first output's length,
    element i of output j becomes word `i * N + j` loaded through the
    output's view (a typed array ignores a write past its end).
   */
  method ExtractStructArrays(fmt: F32Format, structBuffer: seq<Word>, outputs: seq<Target>)
    requires |outputs| > 0 && Distinct(outputs)
    requires outputs[0].data.Length * |outputs| <= |structBuffer|
    modifies Arrays(outputs)
    ensures InBuffer(structBuffer, outputs[0].data.Length, |outputs|)
    ensures forall j, i :: 0 <= j < |outputs| && 0 <= i < outputs[j].data.Length ==>
      outputs[j].data[i] ==
        if i < outputs[0].data.Length then Load(fmt, outputs[j].kind, structBuffer[Slot(i, |outputs|, j)])
        else old(outputs[j].data[i])
  {
    var length := outputs[0].data.Length;
    var fields := |outputs|;
    InBufferFromSize(structBuffer, length, fields);
    for i := 0 to length
      invariant forall j, i' :: 0 <= j < fields && 0 <= i' < outputs[j].data.Length ==>
        outputs[j].data[i'] ==
          if i' < i then Load(fmt, outputs[j].kind, structBuffer[Slot(i', fields, j)])
          else old(outputs[j].data[i'])
    {
      ExtractRecord(fmt, structBuffer, outputs, length, i);
    }
  }

  /** The inner loop: element i of every output. */
  method ExtractRecord(fmt: F32Format, structBuffer: seq<Word>, outputs: seq<Target>, length: nat, i: nat)
    requires |outputs| > 0 && Distinct(outputs)
    requires i < length && InBuffer(structBuffer, length, |outputs|)
    modifies Arrays(outputs)
    ensures forall j, i' :: 0 <= j < |outputs| && 0 <= i' < outputs[j].data.Length ==>
      outputs[j].data[i'] ==
        if i' == i then Load(fmt, outputs[j].kind, structBuffer[Slot(i, |outputs|, j)])
        else old(outputs[j].data[i'])
  {
    var fields := |outputs|;
    for j := 0 to fields
      invariant forall j', i' :: 0 <= j' < fields && 0 <= i' < outputs[j'].data.Length ==>
        outputs[j'].data[i'] ==
          if i' == i && j' < j then Load(fmt, outputs[j'].kind, structBuffer[Slot(i, fields, j')])
          else old(outputs[j'].data[i'])
    {
      var idx := Slot(i, fields, j);
      var output := outputs[j];
      assert output.data in Arrays(outputs);
      if i < output.data.Length {
        if output.kind == U32Kind {
          output.data[i] := DecodeU32(structBuffer[idx]);
        } else {
          output.data[i] := fmt.decode(structBuffer[idx]);
        }
      }
    }
  }

  /**
    Packing and then extracting with arrays of the same kinds gives every
    element back: both sides use the index `i * N + j`.
   */
  lemma ExtractAfterInit(fmt: F32Format, arrays: seq<Source>, length: nat, i: nat, j: nat)
    requires forall j :: 0 <= j < |arrays| ==> |arrays[j].values| == length
    requires i < length && j < |arrays| && Holds(fmt, arrays[j].kind, arrays[j].values[i])
    ensures Slot(i, |arrays|, j) < |Interleaved(fmt, arrays, length)|
    ensures Load(fmt, arrays[j].kind, Interleaved(fmt, arrays, length)[Slot(i, |arrays|, j)]) == arrays[j].values[i]
  {
    InterleavedAt(fmt, arrays, length, i, j);
    LoadStore(fmt, arrays[j].kind, arrays[j].values[i]);
  }
}

=== FILE: text.dfy ===
/**
  The string built-ins the modelled code relies on: `trim`, `split` on one
  character, `Array.prototype.join`, and decimal conversion between numbers
  and their text. Numbers are integers throughout the model.
 */
module Text {
  import opened Outcomes

  /** The white-space characters `String.prototype.trim` removes (the ASCII ones). */
  predicate IsSpace(c: char) {
    c == ' ' || c == '\t' || c == '\n' || c == '\r' || c == '\U{B}' || c == '\U{C}'
  }

  function TrimStart(s: string): (r: string)
    ensures |r| <= |s| && r == s[|s| - |r|..]
    ensures forall k :: 0 <= k < |s| - |r| ==> IsSpace(s[k])
    ensures r == [] || !IsSpace(r[0])
  {
    if s != [] && IsSpace(s[0]) then TrimStart(s[1..]) else s
  }

  function TrimEnd(s: string): (r: string)
    ensures |r| <= |s| && r == s[..|r|]
    ensures forall k :: |r| <= k < |s| ==> IsSpace(s[k])
    ensures r == [] || !IsSpace(r[|r| - 1])
  {
    if s != [] && IsSpace(s[|s| - 1]) then TrimEnd(s[..|s| - 1]) else s
  }

  /** Every character of t is white space. */
  predicate AllSpace(t: string) {
    t == [] || (IsSpace(t[0]) && AllSpace(t[1..]))
  }

  lemma {:induction false} AllSpaceAt(t: string)
    ensures AllSpace(t) <==> forall k :: 0 <= k < |t| ==> IsSpace(t[k])
  {
    if t != [] {
      AllSpaceAt(t[1..]);
      assert forall k :: 1 <= k < |t| ==> t[k] == t[1..][k - 1];
    }
  }

  /** r is s with some leading and some trailing white space cut off. */
  predicate SpaceCut(s: string, r: string) {
    exists i, j :: 0 <= i <= j <= |s| && r == s[i..j] && AllSpace(s[..i]) && AllSpace(s[j..])
  }

  /** `s.trim()`: drops leading and trailing white space and nothing else. */
  function Trim(s: string): (r: string)
    ensures SpaceCut(s, r)
    ensures r == [] || (!IsSpace(r[0]) && !IsSpace(r[|r| - 1]))
  {
    TrimIsCut(s);
    TrimStart(TrimEnd(s))
  }

  /** Trimming the end and then the start cuts only white space off the ends. */
  lemma TrimIsCut(s: string)
    ensures SpaceCut(s, TrimStart(TrimEnd(s)))
  {
    var t := TrimEnd(s);
    var r := TrimStart(t);
    var i := |t| - |r|;
    assert r == s[i..|t|];
    assert AllSpace(s[..i]) by {
      AllSpaceAt(s[..i]);
      assert forall k :: 0 <= k < i ==> s[..i][k] == t[k];
    }
    assert AllSpace(s[|t|..]) by {
      AllSpaceAt(s[|t|..]);
    }
  }

  /** `s.split(sep)` for a one-character separator. */
  function Split(s: string, sep: char): (r: seq<string>)
    ensures |r| >= 1
    ensures forall k :: 0 <= k < |r| ==> sep !in r[k]
  {
    if s == [] then [[]]
    else
      var rest := Split(s[1..], sep);
      if s[0] == sep then [[]] + rest
      else [[s[0]] + rest[0]] + rest[1..]
  }

  /** `parts.join(sep)`; the empty list joins to the empty string. */
  function Join(parts: seq<string>, sep: string): string {
    if |parts| == 0 then []
    else if |parts| == 1 then parts[0]
    else parts[0] + sep + Join(parts[1..], sep)
  }

  /** Joining one more part appends the separator and the part. */
  lemma {:induction false} JoinSnoc(parts: seq<string>, x: string, sep: string)
    requires |parts| >= 1
    ensures Join(parts + [x], sep) == Join(parts, sep) + sep + x
  {
    if |parts| > 1 {
      JoinSnoc(parts[1..], x, sep);
      assert (parts + [x])[1..] == parts[1..] + [x];
    } else {
      assert (parts + [x])[1..] == [x];
    }
  }

  /** Splitting and joining back gives the original text. */
  lemma {:induction false} JoinSplit(s: string, sep: char)
    ensures Join(Split(s, sep), [sep]) == s
  {
    if s != [] {
      JoinSplit(s[1..], sep);
      var rest := Split(s[1..], sep);
      if s[0] != sep {
        if |rest| > 1 {
          assert Join(rest, [sep]) == rest[0] + [sep] + Join(rest[1..], [sep]);
          var r := [[s[0]] + rest[0]] + rest[1..];
          assert r[1..] == rest[1..];
        }
      } else {
        var r := [[]] + rest;
        assert r[1..] == rest;
      }
    }
  }

  /** Joining separator-free parts and splitting again gives the parts back. */
  lemma {:induction false} SplitJoin(parts: seq<string>, sep: char)
    requires |parts| >= 1
    requires forall k :: 0 <= k < |parts| ==> sep !in parts[k]
    ensures Split(Join(parts, [sep]), sep) == parts
  {
    if |parts| == 1 {
      SplitPlain(parts[0], sep);
    } else {
      SplitJoin(parts[1..], sep);
      SplitPrefix(parts[0], Join(parts[1..], [sep]), sep);
      assert [parts[0]] + parts[1..] == parts;
    }
  }

  lemma {:induction false} SplitPlain(s: string, sep: char)
    requires sep !in s
    ensures Split(s, sep) == [s]
  {
    if s != [] {
      SplitPlain(s[1..], sep);
      assert [s[0]] + s[1..] == s;
    }
  }

  lemma {:induction false} SplitPrefix(a: string, b: string, sep: char)
    requires sep !in a
    ensures Split(a + [sep] + b, sep) == [a] + Split(b, sep)
  {
    if a == [] {
      assert a + [sep] + b == [sep] + b;
      assert ([sep] + b)[1..] == b;
    } else {
      assert (a + [sep] + b)[1..] == a[1..] + [sep] + b;
      SplitPrefix(a[1..], b, sep);
      assert [a[0]] + a[1..] == a;
    }
  }

  /** The '|'-joined text of separator-free parts determines the parts. */
  lemma JoinInjective(a: seq<string>, b: seq<string>, sep: char)
    requires |a| >= 1 && |b| >= 1
    requires forall k :: 0 <= k < |a| ==> sep !in a[k]
    requires forall k :: 0 <= k < |b| ==> sep !in b[k]
    ensures Join(a, [sep]) == Join(b, [sep]) <==> a == b
  {
    SplitJoin(a, sep);
    SplitJoin(b, sep);
  }

  // ---- decimal numbers -------------------------------------------------

  predicate IsDigit(c: char) { '0' <= c <= '9' }

  predicate AllDigits(s: string) { forall k :: 0 <= k < |s| ==> IsDigit(s[k]) }

  function DigitValue(c: char): nat requires IsDigit(c) { (c as int) - ('0' as int) }

  function DigitChar(d: nat): (c: char)
    requires d < 10
    ensures IsDigit(c) && DigitValue(c) == d
  {
    (('0' as int) + d) as char
  }

  /** The value of a string of decimal digits, most significant first. */
  function DigitsValue(s: string): nat
    requires AllDigits(s)
  {
    if s == [] then 0 else DigitsValue(s[..|s| - 1]) * 10 + DigitValue(s[|s| - 1])
  }

  /** Decimal text of a natural number, as `String(n)` writes it. */
  function NatToString(n: nat): (r: string)
    ensures |r| >= 1 && AllDigits(r)
  {
    if n < 10 then [DigitChar(n)] else NatToString(n / 10) + [DigitChar(n % 10)]
  }

  /** Decimal text of an integer, as `String(x)` writes it. */
  function IntToString(x: int): (r: string)
    ensures |r| >= 1
    ensures ',' !in r && '|' !in r
  {
    var r := if x < 0 then "-" + NatToString(-x) else NatToString(x);
    assert forall k :: 0 <= k < |r| ==> r[k] == '-' || IsDigit(r[k]);
    r
  }

  /**
    Number parsing (`parseFloat` / the `Float32Array` store) restricted to
    integers: an optional '-' or '+' followed by at least one digit.
    Anything else is not a number (NaN), given as None.
   */
  function ParseNumber(s: string): (r: Option<int>)
    ensures r.Some? ==> |s| >= 1
  {
    if |s| >= 2 && s[0] == '-' && AllDigits(s[1..]) then Some(0 - DigitsValue(s[1..]) as int)
    else if |s| >= 2 && s[0] == '+' && AllDigits(s[1..]) then Some(DigitsValue(s[1..]))
    else if |s| >= 1 && AllDigits(s) then Some(DigitsValue(s))
    else None
  }

  /** Before digits, a '+' sign changes nothing and a '-' sign negates. */
  lemma ParseSigned(d: string)
    requires AllDigits(d) && |d| >= 1
    ensures ParseNumber("+" + d) == ParseNumber(d) == Some(DigitsValue(d))
    ensures ParseNumber("-" + d) == Some(0 - DigitsValue(d))
  {
    assert ParseNumber(d) == Some(DigitsValue(d)) by { assert IsDigit(d[0]); }
    assert ParseNumber("+" + d) == Some(DigitsValue(d)) by {
      var p := "+" + d;
      assert p[1..] == d;
      assert !AllDigits(p) by { assert p[0] == '+'; }
    }
    assert ParseNumber("-" + d) == Some(0 - DigitsValue(d)) by {
      var m := "-" + d;
      assert m[1..] == d;
    }
  }

  /** A sign alone, or two signs, is not a number. */
  lemma ParseBadSigns(d: string)
    ensures ParseNumber("+") == None && ParseNumber("-") == None
    ensures ParseNumber("+" + "-" + d) == None && ParseNumber("-" + "+" + d) == None
  {
    assert !AllDigits("+") by { assert "+"[0] == '+'; }
    assert !AllDigits("-") by { assert "-"[0] == '-'; }
    var pm, mp := "+" + "-" + d, "-" + "+" + d;
    assert pm[1..] == "-" + d && mp[1..] == "+" + d;
    assert !AllDigits(pm[1..]) by { assert pm[1..][0] == '-'; }
    assert !AllDigits(mp[1..]) by { assert mp[1..][0] == '+'; }
    assert !AllDigits(pm) by { assert pm[0] == '+'; }
    assert !AllDigits(mp) by { assert mp[0] == '-'; }
  }

  /**
    `Number(s)` (what a `Float32Array` store does with a string) restricted
    to integers: surrounding white space is ignored and blank text is 0.
   */
  function StringToNumber(s: string): (r: Option<int>)
    ensures Trim(s) == [] ==> r == Some(0)
    ensures Trim(s) != [] ==> r == ParseNumber(Trim(s))
  {
    var t := Trim(s);
    if t == [] then Some(0) else ParseNumber(t)
  }

  lemma {:induction false} DigitsOfNat(n: nat)
    ensures DigitsValue(NatToString(n)) == n
  {
    var r := NatToString(n);
    if n >= 10 {
      DigitsOfNat(n / 10);
      assert r[..|r| - 1] == NatToString(n / 10);
    }
  }

  /** Writing a number as text and parsing it gives the number back. */
  lemma ParseIntToString(x: int)
    ensures ParseNumber(IntToString(x)) == Some(x)
  {
    if x < 0 {
      var r := "-" + NatToString(-x);
      assert r[1..] == NatToString(-x);
      DigitsOfNat(-x);
    } else {
      DigitsOfNat(x);
    }
  }
}

=== FILE: typeduniforms.dfy ===
/**
  The typed uniform adapter: uniforms declared with a WGSL type, a mutable
  `state` record holding their current values, and a serializer that writes
  the state as one struct at the start of a buffer through the codec.
 */
module TypedUniforms {
  import opened Outcomes
  import opened Words
  import opened GpuTypes
  import opened Layout
  import opened Codec
  import opened Seeds

  /** A declaration `{ name, init, type }`. */
  datatype UniformDecl = UniformDecl(name: string, init: Value, ty: GpuType)

  /** The declared layout, `{ name, type }` in declaration order. */
  function DeclaredFields(decls: seq<UniformDecl>): (fields: seq<Field>)
    ensures |fields| == |decls|
    ensures forall k :: 0 <= k < |decls| ==> fields[k] == Field(decls[k].name, decls[k].ty)
  {
    seq(|decls|, k requires 0 <= k < |decls| => Field(decls[k].name, decls[k].ty))
  }

  function DeclNames(decls: seq<UniformDecl>): (names: seq<string>)
    ensures |names| == |decls| && forall k :: 0 <= k < |decls| ==> names[k] == decls[k].name
  {
    seq(|decls|, k requires 0 <= k < |decls| => decls[k].name)
  }

  function DeclInits(decls: seq<UniformDecl>): (inits: seq<Value>)
    ensures |inits| == |decls| && forall k :: 0 <= k < |decls| ==> inits[k] == decls[k].init
  {
    seq(|decls|, k requires 0 <= k < |decls| => decls[k].init)
  }

  /** `bufferSize`: the end of the struct rounded up to a whole number of 16-byte blocks. */
  function BlockBytes(layout: seq<Field>): nat {
    RoundUp(End(layout, 0, |layout|), 16)
  }

  /**
    A buffer of `bufferSize` bytes is a whole number of 16-byte blocks and
    holds the whole struct, in particular every field the writer reaches.
   */
  lemma BlockBytesFacts(layout: seq<Field>)
    ensures BlockBytes(layout) % 16 == 0
    ensures End(layout, 0, |layout|) <= BlockBytes(layout) < End(layout, 0, |layout|) + 16
    ensures End(layout, 0, UntilMat3(layout)) <= 4 * (BlockBytes(layout) / 4)
  {
    var bytes := BlockBytes(layout);
    RoundUpBounds(End(layout, 0, |layout|), 16);
    ModTransitive(bytes, 4, 16);
    assert 4 * (bytes / 4) == bytes;
    EndMonotone(layout, 0, UntilMat3(layout), |layout|);
  }

  class UniformAdapter {
    var uniforms: seq<Field>
    var state: map<string, Value>

    constructor(uniforms: seq<Field>, state: map<string, Value>)
      ensures this.uniforms == uniforms && this.state == state
    {
      this.uniforms := uniforms;
      this.state := state;
    }

    /**
      `UniformAdapter.create`: keeps the declarations in order and seeds
      the state with each initial value.
     */
    static method Create(decls: seq<UniformDecl>) returns (a: UniformAdapter)
      ensures fresh(a)
      ensures a.uniforms == DeclaredFields(decls)
      ensures a.state == Seeded(DeclNames(decls), DeclInits(decls), |decls|)
    {
      var state: map<string, Value> := map[];
      var uniforms: seq<Field> := [];
      for i := 0 to |decls|
        invariant state == Seeded(DeclNames(decls), DeclInits(decls), i)
        invariant uniforms == DeclaredFields(decls)[..i]
      {
        state := state[decls[i].name := decls[i].init];
        uniforms := uniforms + [Field(decls[i].name, decls[i].ty)];
      }
      a := new UniformAdapter(uniforms, state);
    }

    /** The `bufferSize` getter: walk the layout with the running offset. */
    method BufferSize() returns (size: nat)
      ensures size == BlockBytes(uniforms)
    {
      var offset := 0;
      for i := 0 to |uniforms|
        invariant offset == End(uniforms, 0, i)
      {
        var alignment := AlignmentOf(uniforms[i].ty);
        offset := RoundUp(offset, alignment);
        offset := offset + SizeOf(uniforms[i].ty);
      }
      size := RoundUp(offset, 16);
    }

    /** `update`: assigns one state entry. */
    method Update(key: string, value: Value)
      modifies this
      ensures uniforms == old(uniforms) && state == old(state)[key := value]
    {
      state := state[key := value];
    }

    /**
      `writeToArrayBuffer`: the state, as the only row of a row table, is
      written as one struct at byte 0.
     */
    method WriteToArrayBuffer(fmt: F32Format, buffer: array<Word>) returns (r: Result<nat>)
      requires Conforms(uniforms, Rows([state]), 0, UntilMat3(uniforms))
      requires End(uniforms, 0, UntilMat3(uniforms)) <= 4 * buffer.Length
      modifies buffer
      ensures buffer[..] == Image(fmt, old(buffer[..]), uniforms, Rows([state]), 0, 0, UntilMat3(uniforms))
      ensures UntilMat3(uniforms) == |uniforms| ==> r == Ok(End(uniforms, 0, |uniforms|))
      ensures UntilMat3(uniforms) < |uniforms| ==> r == Err(NotImplemented)
    {
      r := WriteStructuredData(fmt, buffer, uniforms, Rows([state]), 0, 0);
    }
  }

  /**
    After `update(key, value)` and a write, field k named `key` reads back
    as `value` when its type stores the value exactly.
   */
  lemma UpdatedReadsBack(fmt: F32Format, w: seq<Word>, uniforms: seq<Field>, state: map<string, Value>,
                         target: TableData, k: nat)
    requires RoundTrips(fmt, uniforms, Rows([state]), 0) && DistinctNames(uniforms)
    requires End(uniforms, 0, |uniforms|) <= 4 * |w|
    requires Targets(target, 0, uniforms, |uniforms|)
    requires k < |uniforms| && uniforms[k].name in state
    ensures MatricesInside(uniforms, 0, |w|)
    ensures ReadCell(Fill(target, 0, uniforms, FieldReads(fmt, Image(fmt, w, uniforms, Rows([state]), 0, 0, |uniforms|), uniforms, 0), |uniforms|),
                     0, uniforms[k].name) == state[uniforms[k].name]
  {
    WriteThenRead(fmt, w, uniforms, Rows([state]), 0, 0, target, 0, k);
  }
}

=== FILE: uniforms.dfy ===
/**
  The older uniform packer: uniforms declared by name and byte size only.
  Each uniform is aligned to `min(size, 16)`, the whole block is rounded up
  to 16 bytes, and only 4-byte uniforms are ever written, as single floats.
 */
module Uniforms {
  import opened Words
  import opened Seeds

  /** A declaration `{ name, size, init }`. */
  datatype UniformDef = UniformDef(name: string, size: nat, init: int)

  /** A declared uniform as the adapter keeps it: `{ name, size }`. */
  datatype Uniform = Uniform(name: string, size: nat)

  /** `Math.min(size, 16)`. */
  function Alignment(size: nat): nat {
    if size < 16 then size else 16
  }

  /** Every uniform has a positive size (a zero size would make the offset NaN). */
  predicate Sized(us: seq<Uniform>) {
    forall k :: 0 <= k < |us| ==> us[k].size > 0
  }

  /** The running offset after the first n uniforms. */
  function Offset(us: seq<Uniform>, n: nat): nat
    requires n <= |us| && Sized(us)
    decreases n, 0
  {
    if n == 0 then 0 else Start(us, n - 1) + us[n - 1].size
  }

  /** The byte offset of uniform k: the running offset rounded up to its alignment. */
  function Start(us: seq<Uniform>, k: nat): nat
    requires k < |us| && Sized(us)
    decreases k, 1
  {
    RoundUp(Offset(us, k), Alignment(us[k].size))
  }

  /** `bufferSize`: the end of the last uniform rounded up to 16 bytes. */
  function BufferBytes(us: seq<Uniform>): nat
    requires Sized(us)
  {
    RoundUp(Offset(us, |us|), 16)
  }

  /** The sizes of the first n uniforms added up, with no padding. */
  function SumSizes(us: seq<Uniform>, n: nat): nat
    requires n <= |us|
  {
    if n == 0 then 0 else SumSizes(us, n - 1) + us[n - 1].size
  }

  lemma StartFacts(us: seq<Uniform>, k: nat)
    requires k < |us| && Sized(us)
    ensures Offset(us, k) <= Start(us, k) && Start(us, k) % Alignment(us[k].size) == 0
    ensures Offset(us, k + 1) == Start(us, k) + us[k].size
  {
    RoundUpBounds(Offset(us, k), Alignment(us[k].size));
  }

  /** Padding only ever adds: the running offset is at least the plain sum of sizes. */
  lemma {:induction false} OffsetAtLeastSum(us: seq<Uniform>, n: nat)
    requires n <= |us| && Sized(us)
    ensures SumSizes(us, n) <= Offset(us, n)
  {
    if n > 0 {
      OffsetAtLeastSum(us, n - 1);
      StartFacts(us, n - 1);
    }
  }

  /** The running offset never moves backwards. */
  lemma {:induction false} OffsetMonotone(us: seq<Uniform>, j: nat, n: nat)
    requires j <= n <= |us| && Sized(us)
    ensures Offset(us, j) <= Offset(us, n)
    decreases n
  {
    if j < n {
      OffsetMonotone(us, j, n - 1);
      StartFacts(us, n - 1);
    }
  }

  /**
    The buffer size is a whole number of 16-byte blocks, holds every uniform,
    and is at least the plain sum of the sizes.
   */
  lemma BufferBytesFacts(us: seq<Uniform>)
    requires Sized(us)
    ensures BufferBytes(us) % 16 == 0
    ensures Offset(us, |us|) <= BufferBytes(us) < Offset(us, |us|) + 16
    ensures SumSizes(us, |us|) <= BufferBytes(us)
  {
    RoundUpBounds(Offset(us, |us|), 16);
    OffsetAtLeastSum(us, |us|);
  }

  /** A 4-byte uniform starts on a word boundary and its word lies inside the buffer. */
  lemma SlotInside(us: seq<Uniform>, k: nat)
    requires k < |us| && Sized(us) && us[k].size == 4
    ensures Start(us, k) % 4 == 0 && Start(us, k) / 4 < BufferBytes(us) / 4
  {
    StartFacts(us, k);
    OffsetMonotone(us, k + 1, |us|);
    BufferBytesFacts(us);
  }

  /** An earlier 4-byte uniform has its word before any later uniform starts. */
  lemma SlotBefore(us: seq<Uniform>, j: nat, k: nat)
    requires j < k < |us| && Sized(us) && us[j].size == 4
    ensures Start(us, j) / 4 < Start(us, k) / 4
  {
    StartFacts(us, j);
    StartFacts(us, k);
    OffsetMonotone(us, j + 1, k);
  }

  /** Word idx is the word of a 4-byte uniform among the first n. */
  predicate IsSlot(us: seq<Uniform>, n: nat, idx: nat)
    requires n <= |us| && Sized(us)
  {
    n > 0 && (IsSlot(us, n - 1, idx) || (us[n - 1].size == 4 && Start(us, n - 1) / 4 == idx))
  }

  /** Every 4-byte uniform among the first n holds its state value, stored as a float. */
  predicate Stored(fmt: F32Format, w: seq<Word>, us: seq<Uniform>, state: map<string, int>, n: nat)
    requires n <= |us| && Sized(us)
  {
    forall k :: 0 <= k < n && us[k].size == 4 && us[k].name in state && Start(us, k) / 4 < |w| ==>
      w[Start(us, k) / 4] == fmt.encode(state[us[k].name])
  }

  /** Every other word is still zero. */
  predicate ZeroElsewhere(w: seq<Word>, us: seq<Uniform>, n: nat)
    requires n <= |us| && Sized(us)
  {
    forall idx :: 0 <= idx < |w| && !IsSlot(us, n, idx) ==> w[idx] == 0
  }

  /** A 4-byte uniform among the first n has a state value: it was stored at its word. */
  lemma StoredSlot(fmt: F32Format, w: seq<Word>, us: seq<Uniform>, state: map<string, int>, k: nat)
    requires Sized(us) && Stored(fmt, w, us, state, |us|) && |w| == BufferBytes(us) / 4
    requires k < |us| && us[k].size == 4 && us[k].name in state
    ensures Start(us, k) / 4 < |w| && w[Start(us, k) / 4] == fmt.encode(state[us[k].name])
  {
    SlotInside(us, k);
  }

  /** Writing uniform i keeps the words of the earlier ones and stores its own. */
  lemma StoreStep(fmt: F32Format, prev: seq<Word>, cur: seq<Word>, us: seq<Uniform>, state: map<string, int>, i: nat)
    requires i < |us| && Sized(us) && Stored(fmt, prev, us, state, i) && ZeroElsewhere(prev, us, i)
    requires us[i].size == 4 && us[i].name in state && Start(us, i) / 4 < |prev|
    requires cur == prev[Start(us, i) / 4 := fmt.encode(state[us[i].name])]
    ensures Stored(fmt, cur, us, state, i + 1) && ZeroElsewhere(cur, us, i + 1)
  {
    forall k | 0 <= k < i && us[k].size == 4 && us[k].name in state && Start(us, k) / 4 < |cur|
      ensures cur[Start(us, k) / 4] == fmt.encode(state[us[k].name])
    {
      SlotBefore(us, k, i);
    }
  }

  /** Skipping a uniform of another size changes nothing. */
  lemma SkipStep(fmt: F32Format, w: seq<Word>, us: seq<Uniform>, state: map<string, int>, i: nat)
    requires i < |us| && Sized(us) && Stored(fmt, w, us, state, i) && ZeroElsewhere(w, us, i)
    requires us[i].size != 4
    ensures Stored(fmt, w, us, state, i + 1) && ZeroElsewhere(w, us, i + 1)
  {
  }

  /** The declared uniforms, `{ name, size }` in declaration order. */
  function Declared(defs: seq<UniformDef>): (us: seq<Uniform>)
    ensures |us| == |defs|
    ensures forall k :: 0 <= k < |defs| ==> us[k] == Uniform(defs[k].name, defs[k].size)
  {
    seq(|defs|, k requires 0 <= k < |defs| => Uniform(defs[k].name, defs[k].size))
  }

  function Names(defs: seq<UniformDef>): (names: seq<string>)
    ensures |names| == |defs| && forall k :: 0 <= k < |defs| ==> names[k] == defs[k].name
  {
    seq(|defs|, k requires 0 <= k < |defs| => defs[k].name)
  }

  function Inits(defs: seq<UniformDef>): (inits: seq<int>)
    ensures |inits| == |defs| && forall k :: 0 <= k < |defs| ==> inits[k] == defs[k].init
  {
    seq(|defs|, k requires 0 <= k < |defs| => defs[k].init)
  }

  class UniformAdapter {
    var uniforms: seq<Uniform>
    var state: map<string, int>

    /** Sizes are positive and every declared uniform has a state value. */
    predicate Valid()
      reads this
    {
      Sized(uniforms) && forall k :: 0 <= k < |uniforms| ==> uniforms[k].name in state
    }

    constructor(uniforms: seq<Uniform>, state: map<string, int>)
      ensures this.uniforms == uniforms && this.state == state
    {
      this.uniforms := uniforms;
      this.state := state;
    }

    /**
      `UniformAdapter.create`: keeps the declarations in order and seeds
      the state with each initial value.
     */
    static method Create(defs: seq<UniformDef>) returns (a: UniformAdapter)
      requires forall k :: 0 <= k < |defs| ==> defs[k].size > 0
      ensures fresh(a) && a.Valid()
      ensures a.uniforms == Declared(defs)
      ensures a.state == Seeded(Names(defs), Inits(defs), |defs|)
    {
      var state: map<string, int> := map[];
      var uniforms: seq<Uniform> := [];
      for i := 0 to |defs|
        invariant state == Seeded(Names(defs), Inits(defs), i)
        invariant uniforms == Declared(defs)[..i]
      {
        state := state[defs[i].name := defs[i].init];
        uniforms := uniforms + [Uniform(defs[i].name, defs[i].size)];
      }
      a := new UniformAdapter(uniforms, state);
      forall k | 0 <= k < |uniforms|
        ensures uniforms[k].name in state
      {
        SeededKeys(Names(defs), Inits(defs), |defs|, uniforms[k].name);
      }
    }

    /** The `bufferSize` getter: walk the uniforms with the running offset. */
    method BufferSize() returns (size: nat)
      requires Sized(uniforms)
      ensures size == BufferBytes(uniforms)
    {
      var offset := 0;
      for i := 0 to |uniforms|
        invariant offset == Offset(uniforms, i)
      {
        var alignment := if uniforms[i].size < 16 then uniforms[i].size else 16;
        offset := RoundUp(offset, alignment);
        offset := offset + uniforms[i].size;
      }
      size := RoundUp(offset, 16);
    }

    /** `update`: assigns one state entry. */
    method Update(key: string, value: int)
      modifies this
      ensures uniforms == old(uniforms) && state == old(state)[key := value]
      ensures old(Valid()) ==> Valid()
    {
      state := state[key := value];
    }

    /**
      The packing loop of `updateBuffer`: a zeroed `Float32Array` of
      `bufferSize / 4` elements with each 4-byte uniform's state value at
      word `offset / 4`.
     */
    method UpdateBuffer(fmt: F32Format) returns (data: array<Word>)
      requires Valid()
      ensures fresh(data) && data.Length == BufferBytes(uniforms) / 4
      ensures Stored(fmt, data[..], uniforms, state, |uniforms|)
      ensures ZeroElsewhere(data[..], uniforms, |uniforms|)
    {
      var bytes := BufferSize();
      data := new Word[bytes / 4](_ => 0);
      var offset := 0;
      for i := 0 to |uniforms|
        invariant offset == Offset(uniforms, i)
        invariant Stored(fmt, data[..], uniforms, state, i) && ZeroElsewhere(data[..], uniforms, i)
      {
        var alignment := if uniforms[i].size < 16 then uniforms[i].size else 16;
        offset := RoundUp(offset, alignment);
        if uniforms[i].size == 4 {
          SlotInside(uniforms, i);
          ghost var prev := data[..];
          data[offset / 4] := fmt.encode(state[uniforms[i].name]);
          StoreStep(fmt, prev, data[..], uniforms, state, i);
        } else {
          SkipStep(fmt, data[..], uniforms, state, i);
        }
        offset := offset + uniforms[i].size;
      }
    }
  }
}

=== FILE: words.dfy ===
/**
  32-bit words and the typed views the code reads and writes them through
  (`Int32Array`, `Uint32Array`, `Float32Array` over one `ArrayBuffer`), plus
  the `Math.ceil(offset / alignment) * alignment` rounding every layout uses.
 */
module Words {

  const TWO_32: int := 0x1_0000_0000
  const TWO_31: int := 0x8000_0000

  /** The contents of one 4-byte slot of an `ArrayBuffer`. */
  type Word = w: int | 0 <= w < 0x1_0000_0000

  /** Storing through an `Int32Array`: ToInt32, kept as its two's-complement bits. */
  function EncodeI32(x: int): (w: Word)
    ensures (w - x) % TWO_32 == 0
  {
    x % TWO_32
  }

  /** Loading through an `Int32Array`. */
  function DecodeI32(w: Word): (x: int)
    ensures -TWO_31 <= x < TWO_31
    ensures (w - x) % TWO_32 == 0
  {
    if w < TWO_31 then w else w - TWO_32
  }

  /** Storing through a `Uint32Array`: ToUint32. */
  function EncodeU32(x: int): (w: Word)
    ensures (w - x) % TWO_32 == 0
  {
    x % TWO_32
  }

  /** Loading through a `Uint32Array`. */
  function DecodeU32(w: Word): (x: int)
    ensures 0 <= x < TWO_32
  {
    w
  }

  predicate InI32(x: int) { -TWO_31 <= x < TWO_31 }
  predicate InU32(x: int) { 0 <= x < TWO_32 }

  /** Every signed 32-bit value survives a store and a load through the `Int32Array` view. */
  lemma I32RoundTrip(x: int)
    requires InI32(x)
    ensures DecodeI32(EncodeI32(x)) == x
  {
    if x < 0 {
      assert EncodeI32(x) == x + TWO_32;
    }
  }

  /** Every unsigned 32-bit value survives a store and a load through the `Uint32Array` view. */
  lemma U32RoundTrip(x: int)
    requires InU32(x)
    ensures DecodeU32(EncodeU32(x)) == x
  {
  }

  /**
    The `Float32Array` view. Conversion between numbers and single-precision
    bit patterns is a platform built-in; the model takes it as a parameter.
   */
  datatype F32Format = F32Format(encode: int -> Word, decode: Word -> int)

  /** A number after a store and a load through the `Float32Array` view. */
  function F32Round(fmt: F32Format, x: int): int { fmt.decode(fmt.encode(x)) }

  /** The numbers the given single-precision format stores exactly. */
  predicate F32Exact(fmt: F32Format, x: int) { F32Round(fmt, x) == x }

  /** `Math.ceil(x / a) * a` for a natural x and a positive a. */
  function RoundUp(x: nat, a: nat): nat
    requires a > 0
  {
    ((x + a - 1) / a) * a
  }

  lemma RoundUpBounds(x: nat, a: nat)
    requires a > 0
    ensures RoundUp(x, a) % a == 0
    ensures x <= RoundUp(x, a) < x + a
  {
    var q := (x + a - 1) / a;
    var m := (x + a - 1) % a;
    assert x + a - 1 == q * a + m;
    MulMod(q, a);
  }

  lemma MulMod(q: int, a: nat)
    requires a > 0
    ensures (q * a) % a == 0
  {
    DivOfMultiple(q, 0, a);
  }

  /** (q*a + r) / a == q and (q*a + r) % a == r when 0 <= r < a. */
  lemma DivOfMultiple(q: int, r: int, a: nat)
    requires a > 0 && 0 <= r < a
    ensures (q * a + r) / a == q
    ensures (q * a + r) % a == r
  {
    var n := q * a + r;
    var q', r' := n / a, n % a;
    assert q' * a + r' == n;
    var d := q - q';
    assert d * a == r' - r by {
      assert q * a - q' * a == (q - q') * a;
    }
    if d >= 1 {
      MulAtLeast(d, a);
    } else if d <= -1 {
      MulAtLeast(-d, a);
    }
  }

  lemma {:induction false} MulAtLeast(d: int, a: nat)
    requires d >= 1
    ensures d * a >= a
  {
    if d > 1 {
      MulAtLeast(d - 1, a);
      assert d * a == (d - 1) * a + a;
    }
  }

  /** A value already aligned is left alone. */
  lemma RoundUpAligned(x: nat, a: nat)
    requires a > 0 && x % a == 0
    ensures RoundUp(x, a) == x
  {
    var q := x / a;
    assert x == q * a;
    DivOfMultiple(q, a - 1, a);
  }

  /** Rounding commutes with a shift by a multiple of the alignment. */
  lemma RoundUpShift(s: nat, x: nat, a: nat)
    requires a > 0 && s % a == 0
    ensures RoundUp(s + x, a) == s + RoundUp(x, a)
  {
    var k := s / a;
    assert s == k * a;
    var q := (x + a - 1) / a;
    var m := (x + a - 1) % a;
    assert x + a - 1 == q * a + m;
    assert s + x + a - 1 == (k + q) * a + m;
    DivOfMultiple(k + q, m, a);
  }

  /** A multiple of a multiple of `a` is a multiple of `a`. */
  lemma ModTransitive(x: nat, a: nat, b: nat)
    requires a > 0 && b > 0 && b % a == 0 && x % b == 0
    ensures x % a == 0
  {
    var k := x / b;
    var l := b / a;
    assert x == k * b;
    assert b == l * a;
    assert x == (k * l) * a;
    MulMod(k * l, a);
  }

  lemma MulLeq(a: nat, b: nat, c: nat)
    requires a <= b
    ensures a * c <= b * c
  {
    if a < b {
      MulAtLeast(b - a, c);
      assert b * c - a * c == (b - a) * c;
    }
  }

  lemma MulPositive(a: nat, b: nat)
    requires a * b > 0
    ensures a > 0 && b > 0
  {
  }

  /** A multiple of a multiple of `a` is a multiple of `a`, counted the other way. */
  lemma MultipleScaled(i: nat, s: nat, a: nat)
    requires a > 0 && s % a == 0
    ensures (i * s) % a == 0
  {
    var q := s / a;
    assert s == q * a;
    assert i * s == (i * q) * a;
    MulMod(i * q, a);
  }
}

=== FILE: workgroups.dfy ===
/**
  The workgroup experiment's configuration: a workgroup triple and a
  subgroup triple given as short lists whose missing or null components
  default to 1, the `@workgroup_size(...)` attribute text made from the
  workgroup list, and the reader that decodes the output buffer one
  strided record at a time.
 */
module Workgroups {
  import opened Outcomes
  import opened Words
  import opened Layout
  import opened Codec
  import opened Contiguous

  // ---- the configuration -------------------------------------------------

  /** `new Config(workgroups, subgroups)`; `None` is a null or undefined entry. */
  datatype Config = Config(workgroups: seq<Option<int>>, subgroups: seq<Option<int>>)

  /** An `{ x, y, z }` record. */
  datatype Triple = Triple(x: int, y: int, z: int)

  /** `list[k] ?? 1`: an entry past the end, or a null one, is 1. */
  function Component(xs: seq<Option<int>>, k: nat): (c: int)
    ensures k < |xs| && xs[k].Some? ==> c == xs[k].value
    ensures k >= |xs| || xs[k].None? ==> c == 1
  {
    if k < |xs| then
      match xs[k]
      case Some(n) => n
      case None => 1
    else 1
  }

  /** The first three entries of a list, each defaulted. */
  function Defaulted(xs: seq<Option<int>>): Triple {
    Triple(Component(xs, 0), Component(xs, 1), Component(xs, 2))
  }

  /** Component k of a triple: x, y, z for k = 0, 1, 2. */
  function Axis(t: Triple, k: nat): int {
    if k == 0 then t.x else if k == 1 then t.y else t.z
  }

  /** Each axis of t is the list's entry for it, or 1 when that entry is null or missing. */
  predicate DefaultsTo(xs: seq<Option<int>>, t: Triple) {
    forall k :: 0 <= k < 3 ==>
      && (k < |xs| && xs[k].Some? ==> Axis(t, k) == xs[k].value)
      && (k >= |xs| || xs[k].None? ==> Axis(t, k) == 1)
  }

  /** The `workgroups` getter. */
  function Workgroups(c: Config): (r: Triple)
    ensures DefaultsTo(c.workgroups, r)
  {
    Defaulted(c.workgroups)
  }

  /** The `subgroups` getter. */
  function Subgroups(c: Config): (r: Triple)
    ensures DefaultsTo(c.subgroups, r)
  {
    Defaulted(c.subgroups)
  }

  /**
    The `grid` getter: the two triples multiplied component by component,
    so the grid holds the work-group cells times the sub-group cells, and
    each side is positive when every given entry is.
   */
  function Grid(c: Config): (r: Triple)
    ensures Volume(r) == Volume(Workgroups(c)) * Volume(Subgroups(c))
    ensures Positive(c.workgroups) && Positive(c.subgroups) ==> r.x > 0 && r.y > 0 && r.z > 0
  {
    var wg := Workgroups(c);
    var sg := Subgroups(c);
    MulSwap(wg.x, sg.x, wg.y, sg.y);
    MulSwap(wg.x * wg.y, sg.x * sg.y, wg.z, sg.z);
    PositiveProduct(wg.x, sg.x);
    PositiveProduct(wg.y, sg.y);
    PositiveProduct(wg.z, sg.z);
    Triple(wg.x * sg.x, wg.y * sg.y, wg.z * sg.z)
  }

  /**
    `rows()`: the number of cells of the grid, which is the number of
    workgroup cells times the number of subgroup cells.
   */
  function RowCount(c: Config): (r: int)
    ensures r == Volume(Workgroups(c)) * Volume(Subgroups(c))
    ensures Positive(c.workgroups) && Positive(c.subgroups) ==> r > 0
  {
    var g := Grid(c);
    PositiveProduct(g.x, g.y);
    PositiveProduct(g.x * g.y, g.z);
    g.x * g.y * g.z
  }

  function Volume(t: Triple): int {
    t.x * t.y * t.z
  }

  /**
    The getters see only the first three entries, and a missing entry is
    the same as a null one: padding a list with nulls, or cutting it after
    its third entry, changes nothing.
   */
  lemma DefaultedPadding(xs: seq<Option<int>>)
    ensures Defaulted(xs + [None]) == Defaulted(xs)
    ensures |xs| > 3 ==> Defaulted(xs[..3]) == Defaulted(xs)
  {
  }

  lemma MulSwap(a: int, b: int, c: int, d: int)
    ensures (a * b) * (c * d) == (a * c) * (b * d)
  {
    calc {
      (a * b) * (c * d);
      a * (b * (c * d));
      a * ((b * c) * d);
      a * ((c * b) * d);
      a * (c * (b * d));
      (a * c) * (b * d);
    }
  }

  /** Every given entry is positive. */
  predicate Positive(xs: seq<Option<int>>) {
    forall k :: 0 <= k < |xs| && xs[k].Some? ==> xs[k].value > 0
  }

  lemma PositiveProduct(a: int, b: int)
    ensures a > 0 && b > 0 ==> a * b > 0
  {
  }

  // ---- the workgroup attribute --------------------------------------------

  predicate IsDigit(ch: char) {
    '0' <= ch <= '9'
  }

  function Digit(d: nat): (ch: char)
    requires d < 10
    ensures IsDigit(ch)
  {
    ('0' as int + d) as char
  }

  function DigitValue(ch: char): nat
    requires IsDigit(ch)
  {
    ch as int - '0' as int
  }

  predicate AllDigits(s: string) {
    forall i :: 0 <= i < |s| ==> IsDigit(s[i])
  }

  /** The decimal digits of a natural number, most significant first. */
  function NatDigits(n: nat): (s: string)
    ensures |s| > 0 && AllDigits(s)
  {
    if n < 10 then [Digit(n)] else NatDigits(n / 10) + [Digit(n % 10)]
  }

  /** `String(n)` for an integer: a minus sign for a negative one, then its digits. */
  function Decimal(n: int): string {
    if n < 0 then "-" + NatDigits(-n) else NatDigits(n)
  }

  /** How `join` renders an entry: null and undefined as the empty string. */
  function Render(o: Option<int>): string {
    match o
    case None => ""
    case Some(n) => Decimal(n)
  }

  function Rendered(xs: seq<Option<int>>): (parts: seq<string>)
    ensures |parts| == |xs| && forall k :: 0 <= k < |xs| ==> parts[k] == Render(xs[k])
  {
    seq(|xs|, k requires 0 <= k < |xs| => Render(xs[k]))
  }

  /** `parts.join(', ')`. */
  function Join(parts: seq<string>): string {
    if |parts| == 0 then ""
    else if |parts| == 1 then parts[0]
    else parts[0] + ", " + Join(parts[1..])
  }

  const Prefix: string := "@workgroup_size("

  /**
    `replaceWorkgroup`'s guard and replacement text: fewer than one or more
    than three workgroup entries throw, naming the length; otherwise the
    attribute is the entries joined with ", " inside `@workgroup_size(...)`.
   */
  function ReplaceWorkgroup(c: Config): (r: Result<string>)
    ensures r.Err? <==> |c.workgroups| < 1 || |c.workgroups| > 3
    ensures r.Err? ==> r.error == InvalidWorkgroupSize(|c.workgroups|)
  {
    if |c.workgroups| > 3 || |c.workgroups| < 1 then Err(InvalidWorkgroupSize(|c.workgroups|))
    else Ok(Prefix + Join(Rendered(c.workgroups)) + ")")
  }

  // ---- reading the attribute back -----------------------------------------

  /** The number a string of digits denotes. */
  function ParseDigits(s: string): nat
    requires AllDigits(s)
  {
    if |s| == 0 then 0 else ParseDigits(s[..|s| - 1]) * 10 + DigitValue(s[|s| - 1])
  }

  /** An entry of the attribute: empty for null, else an optionally negative decimal. */
  function ReadComponent(s: string): Option<int> {
    if |s| > 0 && s[0] == '-' && AllDigits(s[1..]) then Some(0 - ParseDigits(s[1..]))
    else if |s| > 0 && AllDigits(s) then Some(ParseDigits(s))
    else None
  }

  /** The pieces of a string between the separators ", ". */
  function Split(s: string): (parts: seq<string>)
    ensures |parts| > 0
  {
    if |s| < 2 then [s]
    else if s[0] == ',' && s[1] == ' ' then [""] + Split(s[2..])
    else
      var rest := Split(s[1..]);
      [[s[0]] + rest[0]] + rest[1..]
  }

  /** The entries of an attribute `@workgroup_size(...)`, or `None` for any other text. */
  function ParseReplacement(s: string): Option<seq<Option<int>>> {
    if |s| > |Prefix| && s[..|Prefix|] == Prefix && s[|s| - 1] == ')' then
      var parts := Split(s[|Prefix| .. |s| - 1]);
      Some(seq(|parts|, k requires 0 <= k < |parts| => ReadComponent(parts[k])))
    else None
  }

  lemma {:induction false} ParseNatDigits(n: nat)
    ensures ParseDigits(NatDigits(n)) == n
    decreases n
  {
    var s := NatDigits(n);
    if n < 10 {
    } else {
      ParseNatDigits(n / 10);
      assert s[..|s| - 1] == NatDigits(n / 10);
    }
  }

  /** Reading a rendered entry gives it back, null included. */
  lemma ReadRender(o: Option<int>)
    ensures ReadComponent(Render(o)) == o
  {
    match o
    case None =>
    case Some(n) =>
      if n < 0 {
        ParseNatDigits(-n);
        assert Decimal(n)[1..] == NatDigits(-n);
      } else {
        ParseNatDigits(n);
      }
  }

  predicate NoComma(s: string) {
    forall i :: 0 <= i < |s| ==> s[i] != ','
  }

  lemma RenderNoComma(o: Option<int>)
    ensures NoComma(Render(o))
  {
    if o.Some? && o.value < 0 {
      var s := Render(o);
      forall i | 0 <= i < |s|
        ensures s[i] != ','
      {
        if i > 0 {
          assert s[i] == NatDigits(-o.value)[i - 1];
        }
      }
    }
  }

  lemma {:induction false} SplitWhole(a: string)
    requires NoComma(a)
    ensures Split(a) == [a]
    decreases |a|
  {
    if |a| >= 2 {
      SplitWhole(a[1..]);
      assert [a[0]] + a[1..] == a;
    }
  }

  lemma {:induction false} SplitAfter(a: string, b: string)
    requires NoComma(a)
    ensures Split(a + ", " + b) == [a] + Split(b)
    decreases |a|
  {
    var s := a + ", " + b;
    if |a| == 0 {
      assert s[2..] == b;
    } else {
      assert s[1..] == a[1..] + ", " + b;
      SplitAfter(a[1..], b);
      assert [a[0]] + a[1..] == a;
    }
  }

  /** Splitting the joined entries at the separators gives the entries back. */
  lemma {:induction false} SplitJoin(parts: seq<string>)
    requires |parts| > 0 && forall k :: 0 <= k < |parts| ==> NoComma(parts[k])
    ensures Split(Join(parts)) == parts
    decreases |parts|
  {
    if |parts| == 1 {
      SplitWhole(parts[0]);
    } else {
      SplitJoin(parts[1..]);
      SplitAfter(parts[0], Join(parts[1..]));
      assert [parts[0]] + parts[1..] == parts;
    }
  }

  /**
    The attribute text reads back as the workgroup entries it was made
    from: the separators, the empty text of a null entry and the decimal
    numbers lose nothing.
   */
  lemma ReplacementReadsBack(c: Config)
    requires ReplaceWorkgroup(c).Ok?
    ensures ParseReplacement(ReplaceWorkgroup(c).value) == Some(c.workgroups)
  {
    var xs := c.workgroups;
    var parts := Rendered(xs);
    var s := ReplaceWorkgroup(c).value;
    assert s == Prefix + Join(parts) + ")";
    assert s[..|Prefix|] == Prefix;
    assert s[|Prefix| .. |s| - 1] == Join(parts);
    forall k | 0 <= k < |parts|
      ensures NoComma(parts[k]) && ReadComponent(parts[k]) == xs[k]
    {
      RenderNoComma(xs[k]);
      ReadRender(xs[k]);
    }
    SplitJoin(parts);
    var read := seq(|parts|, k requires 0 <= k < |parts| => ReadComponent(parts[k]));
    assert read == xs;
  }

  // ---- reading the output rows ---------------------------------------------

  /** `readFrom = i * stride`. */
  function ReadFrom(i: nat, stride: nat): nat {
    i * stride
  }

  /** The matrices of every record the reader visits lie inside the buffer. */
  predicate RecordsInside(layout: seq<Field>, stride: nat, rows: nat, len: nat) {
    forall i :: 0 <= i < rows ==> MatricesInside(layout, ReadFrom(i, stride), len)
  }

  /** The row a fresh `{}` becomes once the record at byte `base` has been read into it. */
  function RecordAt(fmt: F32Format, w: seq<Word>, layout: seq<Field>, base: nat): map<string, Value>
    requires MatricesInside(layout, base, |w|)
  {
    var vs := FieldReads(fmt, w, layout, base);
    var filled := Fill(Rows([map[]]), 0, layout, vs, UntilMat3(layout));
    filled.rows[0]
  }

  /**
    `bufferRows`: for i below `rows`, a fresh row `{}` filled from the
    record at byte `i * stride`. A layout with a mat3x3 field throws on the
    first record, before anything is yielded.
   */
  method BufferRows(fmt: F32Format, buffer: array<Word>, stride: nat, layout: seq<Field>, rows: nat)
    returns (r: Result<seq<map<string, Value>>>)
    requires RecordsInside(layout, stride, rows, buffer.Length)
    ensures r.Err? <==> rows > 0 && UntilMat3(layout) < |layout|
    ensures r.Err? ==> r.error == NotImplemented
    ensures r.Ok? ==> |r.value| == rows
    ensures r.Ok? ==> forall i :: 0 <= i < rows ==> r.value[i] == RecordAt(fmt, buffer[..], layout, ReadFrom(i, stride))
  {
    var out: seq<map<string, Value>> := [];
    for i := 0 to rows
      invariant |out| == i && (i > 0 ==> UntilMat3(layout) == |layout|)
      invariant forall j :: 0 <= j < i ==> out[j] == RecordAt(fmt, buffer[..], layout, ReadFrom(j, stride))
    {
      var readFrom := i * stride;
      assert MatricesInside(layout, ReadFrom(i, stride), buffer.Length);
      var res := ReadRecord(fmt, buffer, layout, readFrom);
      if res.Err? {
        return Err(res.error);
      }
      out := out + [res.value];
    }
    return Ok(out);
  }

  /** One pass of the loop: a fresh `{}` as the only row of a row table, filled from the record at `readFrom`. */
  method ReadRecord(fmt: F32Format, buffer: array<Word>, layout: seq<Field>, readFrom: nat)
    returns (r: Result<map<string, Value>>)
    requires MatricesInside(layout, readFrom, buffer.Length)
    ensures r.Err? <==> UntilMat3(layout) < |layout|
    ensures r.Err? ==> r.error == NotImplemented
    ensures r.Ok? ==> r.value == RecordAt(fmt, buffer[..], layout, readFrom)
  {
    var row := new Table(Rows([map[]]));
    var res := ReadStructuredData(fmt, buffer, layout, row, readFrom, 0);
    if res.Err? {
      return Err(res.error);
    }
    return Ok(row.data.rows[0]);
  }

  /**
    Reading back a buffer made by `createContiguousArray` with the layout's
    own stride: record i holds every field of row i with its original
    value, when the names are distinct and every value is one its type
    stores exactly.
   */
  lemma ContiguousRowsReadBack(fmt: F32Format, w: seq<Word>, layout: seq<Field>, d: TableData,
                               rows: nat, i: nat, k: nat)
    requires Packable(layout, rows) && RowsConform(layout, d, rows) && Packs(fmt, w, layout, d, rows, rows)
    requires DistinctNames(layout) && i < rows && k < |layout| && RoundTrips(fmt, layout, d, i)
    ensures MatricesInside(layout, ReadFrom(i, Stride(layout)), |w|)
    ensures layout[k].name in RecordAt(fmt, w, layout, ReadFrom(i, Stride(layout)))
    ensures RecordAt(fmt, w, layout, ReadFrom(i, Stride(layout)))[layout[k].name] == FieldValue(layout, d, i, k)
  {
    var base := RowBase(layout, i);
    RowBaseIs(layout, i);
    RowFits(layout, rows, i);
    MatricesInsideRecord(layout, base, |w|);
    PackedField(fmt, w, layout, d, rows, i, k);
    FieldReadInside(fmt, w, layout, base, k);
    var v := FieldValue(layout, d, i, k);
    assert FieldImage(fmt, layout, d, i, k) == Encoded(fmt, layout[k].ty, v);
    DecodeEncoded(fmt, layout[k].ty, v);
    var vs := FieldReads(fmt, w, layout, base);
    FillField(Rows([map[]]), 0, layout, vs, |layout|, k);
  }

  /** The configuration the page starts with: 4x3x2 workgroups of 4x3x2, 576 rows. */
  lemma InitialConfig()
    ensures var c := Config([Some(4), Some(3), Some(2)], [Some(4), Some(3), Some(2)]);
      RowCount(c) == 576 && ReplaceWorkgroup(c) == Ok("@workgroup_size(4, 3, 2)")
  {
    var c := Config([Some(4), Some(3), Some(2)], [Some(4), Some(3), Some(2)]);
    assert Grid(c) == Triple(16, 9, 4);
    assert Render(Some(4)) == [Digit(4)] == "4";
    assert Render(Some(3)) == [Digit(3)] == "3";
    assert Render(Some(2)) == [Digit(2)] == "2";
    assert Rendered(c.workgroups) == ["4", "3", "2"];
    assert Join(["2"]) == "2";
    assert Join(["3", "2"]) == "3" + ", " + "2";
    assert Join(["4", "3", "2"]) == "4" + ", " + "3, 2";
    assert Join(Rendered(c.workgroups)) == "4, 3, 2";
    assert Prefix + "4, 3, 2" + ")" == "@workgroup_size(4, 3, 2)";
  }
}
